=== FILE: README.md ===
# BirtuLogistics in Dafny

A model of the core of BirtuLogistics. This is a freight marketplace:
- customers book a shipment in a mobile app (locations, receiver, vehicle, schedule, photos) and publish it;
- drivers whose vehicle matches the shipment bid on it;
- the customer accepts one bid, which rejects the others;
- the driver then walks the delivery through its stages;
- payment goes through simulated Telebirr and CBE Birr gateways, which may confirm later by callback.

The model covers two sides.
- **The React Native client:**
  - the socket service;
  - the authentication and shipment-draft contexts;
  - the booking screens: location, receiver, vehicle, schedule and photos;
  - the driver screens: available shipments, bid submission, my bids and delivery tracking;
  - bid review;
  - registration and login.
- **The FastAPI backend:**
  - the user and shipment documents;
  - the shipment, payment and notification services;
  - the auth, shipments, bids and payments routes.

The database is a value: a map per collection. The request handlers are functions from a database to a reply and a new database. The JSON that crosses the wire is a datatype, with two printers, JavaScript's `JSON.stringify` and Python's `json.dumps`, and one parser, proved to undo each printer. Client screens are modelled as state plus the functions their event handlers compute.

Ids are the 24-digit hexadecimal text of an ObjectId. A stored bid keeps apart whether it records its shipment as an ObjectId or as that text, because MongoDB never finds one by querying for the other.

Clocks, random numbers, password hashing, token signing and the device's geocoder are parameters. Socket and storage effects are returned as data.

Modules follow the program's files:

| module | file |
|---|---|
| `Channel` | websocket.js |
| `Session` | AuthContext.js |
| `Draft` | ShipmentContext.js |
| `DeliveryLeg` | DeliveryTrackingScreen.js |
| `RegisterScreen`, `LoginScreen`, `ReceiverScreen`, `BidSubmission`, `ScheduleScreen`, `PhotoCapture`, `VehicleSelection`, `LocationScreen`, `MyBids`, `AvailableShipments`, `BidReview` | the screens of the same names |
| `Labels` | the badge, icon and "time ago" helpers that several screens repeat |
| `UserModel`, `ShipmentModel` | models/user.py, models/shipment.py |
| `ShipmentService`, `PaymentService`, `Notifications` | the services |
| `AuthApi`, `ShipmentsApi`, `BidsApi`, `PaymentsApi` | the route files |
| `Wire` | connects the notification envelopes to the client's router |
| `Text`, `NumberText`, `Forms`, `JsonValue`, `JsonText`, `Calendar`, `Http`, `Wrappers` | support: JavaScript's string and number parsing, the form regexes, JSON values and text, dates, HTTP replies |

## Model

| member | source | states |
|---|---|---|
| Channel.New | BirtuLogistics/src/services/websocket.js:4-11 | the exported service starts with no socket, no callbacks, no user id and a zero attempt counter |
| Channel.ReconnectDelayBounds | BirtuLogistics/src/services/websocket.js:56-60 | every reconnect delay is between 1 s and 30 s and never shrinks as attempts grow; it is 1 s at first, 16 s after four attempts and capped from the fifth |
| Channel.WsUrlShape | BirtuLogistics/src/services/websocket.js:19 | the socket address is the API base with its scheme changed to ws, then /ws/ and the user id |
| Text.ReplaceFirstSplits | BirtuLogistics/src/services/websocket.js:19 | text made of a prefix without the pattern, the pattern and a rest becomes the prefix, the replacement and the rest |
| Text.Utf16LengthAppend | BirtuLogistics/src/screens/auth/RegisterScreen.js:59 | `length` of a concatenation is the sum of the parts' lengths |
| Text.Utf16LengthPlain | BirtuLogistics/src/screens/auth/LoginScreen.js:37 | text without characters beyond U+FFFF has `length` equal to its number of characters |
| Text.ThreeEmoji | BirtuLogistics/src/screens/auth/RegisterScreen.js:59 | three emoji are three characters but six for `length` |
| Channel.Connect | BirtuLogistics/src/services/websocket.js:13-20 | an open socket is kept as it is; otherwise a new connecting socket for the user's address replaces the current one |
| Channel.SetState | BirtuLogistics/src/services/websocket.js:22-52 | a socket event changes only the ready state of the socket it came from; callbacks and the counter are untouched |
| Channel.HandleOpen | BirtuLogistics/src/services/websocket.js:22-28 | opening resets the attempt counter and runs the open callback if one is registered |
| Channel.HandleMessage | BirtuLogistics/src/services/websocket.js:30-36 | a frame that is not JSON throws; otherwise the parsed value goes to the message callback, if any; the service is unchanged (an escaped surrogate pair reads as the one character it encodes) |
| Channel.HandleReconnect | BirtuLogistics/src/services/websocket.js:55-71 | below ten attempts the counter grows by one and one timer is scheduled with the delay for the old count; at the cap nothing happens |
| Channel.FireTimer | BirtuLogistics/src/services/websocket.js:63-67 | the timer reconnects only when a user id is recorded |
| Channel.HandleError | BirtuLogistics/src/services/websocket.js:46-52 | an error runs the error callback, then closes the current socket; with no current socket the close throws |
| Channel.Send | BirtuLogistics/src/services/websocket.js:73-79 | a frame with the message's JSON text goes out only on an open socket; otherwise nothing is sent |
| Channel.Close | BirtuLogistics/src/services/websocket.js:81-88 | a manual close closes and forgets the socket and clears the counter; with no socket it does nothing |
| Channel.Register | BirtuLogistics/src/services/websocket.js:90-104 | registering a callback overwrites its own slot and leaves the other slots and the socket alone |
| Channel.ApplyKeepsInv | BirtuLogistics/src/services/websocket.js:55-71 | every event keeps the counter at or below ten and leaves the user id unrecorded |
| Channel.RunKeepsInv | BirtuLogistics/src/services/websocket.js:55-71 | the same holds along any sequence of events |
| Channel.ReachableServices | BirtuLogistics/src/services/websocket.js:63-67 | from the exported instance the counter never passes ten, and every reconnect timer does nothing, since `connect` never records the user id |
| Channel.CloseThenLateCloseEvent | BirtuLogistics/src/services/websocket.js:38-44 | after a manual close, the closed socket's own close event still schedules a one-second reconnect and sets the counter to one |
| Channel.CloseSchedules | BirtuLogistics/src/services/websocket.js:38-44 | below the cap, each close event runs the close callback and schedules exactly one timer |
| Channel.CloseAtCap | BirtuLogistics/src/services/websocket.js:68-70 | at the cap, a close event runs the close callback and schedules nothing |
| Session.Reduce | BirtuLogistics/src/context/AuthContext.js:16-40 | LOGIN signs in with the given user and token, LOGOUT clears both, SET_LOADING sets only the flag, and any other action changes nothing |
| Session.Restore | BirtuLogistics/src/context/AuthContext.js:128-147 | start-up dispatches LOGIN exactly when both stored keys are non-empty and the user text parses; it always ends with SET_LOADING false |
| Session.SaveLogin | BirtuLogistics/src/context/AuthContext.js:149-161 | login stores the token, then the user's JSON text, then dispatches LOGIN; a missing token, a missing user (whose JSON text is undefined) or a failed write dispatches nothing, and a missing user leaves only the token stored |
| Session.SaveLogout | BirtuLogistics/src/context/AuthContext.js:163-172 | logout removes both keys and dispatches LOGOUT, leaving every other entry as it was; a failed first removal leaves storage untouched, and a failed second one leaves the user stored without its token, and neither dispatches anything |
| Session.LoginThenRestore | BirtuLogistics/src/context/AuthContext.js:128-161 | a session saved by login is restored on the next start with the same token and an equal user, and loading ends false |
| Session.RestoreEndsLoading | BirtuLogistics/src/context/AuthContext.js:144-146 | whatever storage holds and whatever fails, restoring leaves loading false |
| Session.RouteContract | BirtuLogistics/src/context/AuthContext.js:85-126 | exactly the three known types schedule a notification; the title and body fall back per type when data.title or data.message is falsy; a known type with missing data throws |
| Session.RouteIgnoresOtherTags | BirtuLogistics/src/context/AuthContext.js:123-124 | any other type is only logged |
| Session.SocketEffect | BirtuLogistics/src/context/AuthContext.js:74-83 | signed in with a truthy user id, it connects to that id's address and registers the router; signed out with a socket, it closes it; otherwise nothing happens |
| Draft.Apply | BirtuLogistics/src/context/ShipmentContext.js:30-106 | each setter writes only its own members (setAcceptedBid also sets the status to accepted, resetShipment the whole draft) and every other member keeps its value |
| Draft.Publish | BirtuLogistics/src/context/ShipmentContext.js:108-122 | publishing makes no request, always reports success, marks the draft published and changes nothing else |
| Draft.ResetIsInitial | BirtuLogistics/src/context/ShipmentContext.js:92-106 | reset gives back exactly the provider's starting draft (status draft, urgency medium, empty lists), and the shipments list is kept |
| Draft.NoStatusGuard | BirtuLogistics/src/context/ShipmentContext.js:30-106 | no setter looks at the status: the same call on the same draft in another status gives the same result |
| Draft.SecondAcceptReplaces | BirtuLogistics/src/context/ShipmentContext.js:84-90 | accepting a second bid succeeds like the first, and only the latest bid is kept |
| Draft.EditAfterPublish | BirtuLogistics/src/context/ShipmentContext.js:30-122 | a published draft can still be edited as if it were fresh, and it stays published |
| Draft.Invoke | BirtuLogistics/src/context/ShipmentContext.js:124-138 | a screen that calls a setter the context value does not provide throws, and nothing is stored; a provided setter makes its call, which changes only the members that call writes |
| DeliveryLeg.IdInjective | BirtuLogistics/src/screens/driver/DeliveryTrackingScreen.js:25-67 | the six status texts are distinct, so the screen's string comparisons tell the legs apart |
| DeliveryLeg.Steps | BirtuLogistics/src/screens/driver/DeliveryTrackingScreen.js:25-67 | the progress list has one step per leg, in delivery order |
| DeliveryLeg.CompletedIffReached | BirtuLogistics/src/screens/driver/DeliveryTrackingScreen.js:31-66 | step i shows as completed exactly when the current leg is at position i or later; the first step always is |
| DeliveryLeg.OneActiveStep | BirtuLogistics/src/screens/driver/DeliveryTrackingScreen.js:206-207 | exactly one step is highlighted as active: the current leg's |
| DeliveryLeg.NextAction | BirtuLogistics/src/screens/driver/DeliveryTrackingScreen.js:108-143 | every leg but delivered offers a move to the very next leg; only the move to delivered asks for confirmation |
| DeliveryLeg.NoButtonWhenDelivered | BirtuLogistics/src/screens/driver/DeliveryTrackingScreen.js:339-350 | the action button is shown exactly when the leg is not delivered |
| DeliveryLeg.Press | BirtuLogistics/src/screens/driver/DeliveryTrackingScreen.js:70-106 | a press moves one leg forward and shows a message; a cancelled delivery dialog and the delivered leg change nothing |
| DeliveryLeg.EveryTargetHasMessage | BirtuLogistics/src/screens/driver/DeliveryTrackingScreen.js:83-93 | every leg the button can move to has a confirmation message |
| DeliveryLeg.Advance | BirtuLogistics/src/screens/driver/DeliveryTrackingScreen.js:108-143 | once confirmed, each leg moves to the next and delivered stays where it is |
| DeliveryLeg.PressConfirmedAdvances | BirtuLogistics/src/screens/driver/DeliveryTrackingScreen.js:145-160 | a press with the dialog confirmed is exactly an advance |
| DeliveryLeg.WalkAdvances | BirtuLogistics/src/screens/driver/DeliveryTrackingScreen.js:108-143 | n presses from any leg visit the following n legs of the delivery order, in order |
| DeliveryLeg.FiveStepsToDelivered | BirtuLogistics/src/screens/driver/DeliveryTrackingScreen.js:108-143 | from accepted, five presses reach delivered, passing through every leg once |
| DeliveryLeg.DestinationRule | BirtuLogistics/src/screens/driver/DeliveryTrackingScreen.js:182-185 | the driver is sent to the pickup exactly in the first two legs, and to the dropoff after that |
| UserModel.ParseRole | backend/app/models/user.py:39-42 | exactly the three role texts are accepted, each giving back its own text |
| UserModel.ParseVerification | backend/app/models/user.py:44-47 | exactly the three verification texts are accepted, each giving back its own text |
| UserModel.ParseVehicle | backend/app/models/user.py:49-52 | exactly the three vehicle texts are accepted, each giving back its own text |
| UserModel.VehicleKindsAgree | backend/app/models/user.py:49-52 | a driver's vehicle text always names a shipment vehicle kind, and every shipment vehicle kind can be a driver's |
| UserModel.MakeUserCreate | backend/app/models/user.py:54-65 | a body is accepted only with phone, name, email and a password of at least six characters, and valid enumerations; omitted members take their defaults (customer, pending, no vehicle, rating 0, no payment methods) |
| UserModel.InsertedDict | backend/app/api/auth.py:42-46 | the stored registration keeps every body member except the password and adds the hash and timestamps |
| UserModel.StoredMatchesInserted | backend/app/services/user_service.py:12-15 | the user created from an insertion is the inserted dictionary plus its new id |
| UserModel.Public | backend/app/api/auth.py:85-86 | the user dictionary that is sent out never holds the password hash; every other member is unchanged |
| UserModel.FindByPhone | backend/app/services/user_service.py:23-27 | the lookup finds a stored user with that phone, and comes back empty exactly when no stored user has it |
| UserModel.FindByPhoneFirst | backend/app/services/user_service.py:23-27 | the user found is the first with that phone: no earlier stored user has it |
| UserModel.FindByEmail | backend/app/services/user_service.py:29-33 | a stored user with that email, or empty exactly when nobody has it |
| UserModel.FindByEmailFirst | backend/app/services/user_service.py:29-33 | the user found is the first with that email: no earlier stored user has it |
| UserModel.FindById | backend/app/services/user_service.py:17-21 | a stored user with that id, or empty exactly when nobody has it |
| UserModel.FindByIdFirst | backend/app/services/user_service.py:17-21 | the user found is the first with that id: no earlier stored user has it |
| AuthApi.Register | backend/app/api/auth.py:15-53 | a registration succeeds exactly when the body is valid and neither the phone nor the email is taken (the phone is checked first); the new user is appended with the hash, the given name and contacts, and the client's own role and verification (default customer and pending); a refusal changes nothing |
| AuthApi.RegisterKeepsPhonesUnique | backend/app/api/auth.py:22-28 | registration keeps phone numbers unique across users |
| AuthApi.FindByPhoneAppend | backend/app/services/user_service.py:23-27 | adding a user at the end changes no earlier phone lookup, and finds the new user for a phone nobody had |
| AuthApi.Login | backend/app/api/auth.py:55-92 | a login succeeds exactly when a user has the phone and the password matches its hash; an unknown phone and a wrong password both give the same 401; the token names the phone and id, and the user comes back without the hash |
| AuthApi.RegisterThenLogin | backend/app/api/auth.py:15-92 | a user who has just registered can log in with their password, and gets back their own record |
| AuthApi.CurrentUser | backend/app/api/auth.py:131-160 | a token that fails its check, has no subject or names a phone with no user is refused with 401; otherwise it resolves to the first user with that phone |
| AuthApi.Me | backend/app/api/auth.py:162-168 | /me refuses exactly as the token check does; otherwise it answers the signed-in user without the hash, passed through the `User` model, which drops `id` and puts a newly minted `_id` in its place |
| AuthApi.LoginThenMe | backend/app/api/auth.py:131-168 | the token a login issues resolves to the user who logged in, and /me answers the login's user with `id` replaced by the minted `_id`, which differs from the login's `id` whenever the minted id does |
| AuthApi.AsUserModel | backend/app/models/user.py:84-92 | validating a user dictionary as `User` drops `id` (the model reads only the alias `_id`), sets `_id` to the minted id and keeps every other key and value |
| AuthApi.MeCorrected | backend/app/api/auth.py:162-168 | answering with the signed-in user's own id as `_id`, /me answers and refuses exactly when the as-written /me does, with the user's id in `_id` |
| AuthApi.LoginThenMeCorrected | backend/app/api/auth.py:131-168 | with the user's own id kept, /me after a login answers an `_id` equal to the login's `id` and every other key as the login returned it |
| AuthApi.OtpFormat | backend/app/api/auth.py:110-115 | a code passes exactly when it is text of six digits; other text is refused with 400, and a value with no length or no isdigit crashes |
| AuthApi.MarkVerified | backend/app/services/user_service.py:35-44 | marking a user verified keeps the length, every phone and id, and every user with another id |
| AuthApi.MarkVerifiedFinds | backend/app/services/user_service.py:35-44 | without a user with that id nothing changes; otherwise the id then finds the same user, verified and stamped with the time |
| AuthApi.VerifyOtp | backend/app/api/auth.py:94-129 | a code is accepted exactly when phone and code are present, the code is six digits and the phone belongs to a user, and that user is then marked verified; any other outcome changes nothing |
| AuthApi.MarkedUserFoundVerified | backend/app/api/auth.py:117-127 | when ids are unique, the user a code was accepted for is found verified afterwards |
| ShipmentModel.ParseStatus | backend/app/models/shipment.py:40-46 | exactly the six status texts are accepted, each giving back its own text |
| ShipmentModel.StatusEnumeration | backend/app/models/shipment.py:40-46 | the six status texts are distinct and each parses back to its status; neither "published" nor "paid" is a status |
| ShipmentModel.ParseBidStatus | backend/app/models/shipment.py:48-51 | exactly the three bid status texts are accepted, each giving back its own text |
| ShipmentModel.BidStatusRoundTrip | backend/app/models/shipment.py:48-51 | every bid status survives being written as text and read back |
| ShipmentModel.ParseUrgency | backend/app/models/shipment.py:53-56 | exactly the three urgency texts are accepted, each giving back its own text |
| ShipmentModel.ParseVehicle | backend/app/models/shipment.py:58-61 | exactly the three vehicle texts are accepted, each giving back its own text |
| ShipmentModel.VehicleRoundTrip | backend/app/models/shipment.py:58-61 | every vehicle kind survives being written as text and read back |
| ShipmentModel.NewShipment | backend/app/services/shipment_service.py:22-29 | a created shipment carries the request's fields and its owner, with no status, no bids and no accepted bid |
| ShipmentModel.ReadDoc | backend/app/models/shipment.py:106-114 | a stored document reads back exactly when every enumerated member holds one of its texts; a missing status reads as draft |
| ShipmentModel.NewShipmentReadable | backend/app/models/shipment.py:106-114 | every freshly created shipment reads back, as a draft |
| ShipmentModel.PaidIsUnreadable | backend/app/models/shipment.py:40-46 | a document whose status is "paid" can no longer be read back |
| ShipmentModel.CreateDefaults | backend/app/models/shipment.py:81-93 | a create request that gives nothing has medium urgency, no requirements, no photos, an empty description, zero weight and no places or receiver |
| ShipmentModel.NewEmbeddedBid | backend/app/models/shipment.py:71-75 | a bid built without a status is pending, with the given driver, amount and time |
| ShipmentModel.CanonicalId | backend/app/models/shipment.py:28-32 | a valid id stays valid in its printed form, which has no upper-case digit and prints as itself |
| ShipmentModel.ValidateId | backend/app/models/shipment.py:28-32 | an id is accepted exactly when it is 24 hexadecimal digits, and is then kept in lower case; anything else gives "Invalid objectid" |
| ShipmentService.GetShipment | backend/app/services/shipment_service.py:31-35 | a missing shipment gives None; a stored one comes back when readable, and otherwise the read raises a validation error |
| ShipmentService.ApplyPatch | backend/app/services/shipment_service.py:37-42 | an update writes the members it names, including the owner, the embedded bids and the creation time, keeps those it does not name, and stamps the update time |
| ShipmentService.ApplyPatchLaws | backend/app/services/shipment_service.py:37-42 | an empty update only stamps the time, and applying the same update twice at the same time is applying it once |
| ShipmentService.UpdateShipment | backend/app/services/shipment_service.py:37-46 | an update changes only its own shipment; a missing shipment answers None; an update naming `_id` fails in the database and writes nothing; otherwise it answers None when nothing was modified and reads the shipment back when something was |
| ShipmentService.Publish | backend/app/services/shipment_service.py:66-67 | publishing sets the status to bidding, whatever it was |
| ShipmentService.AcceptShipment | backend/app/services/shipment_service.py:69-74 | accepting sets the status to accepted and records the bid |
| ShipmentService.StartTransit | backend/app/services/shipment_service.py:76-77 | starting transit sets the status to in_transit |
| ShipmentService.CompleteDelivery | backend/app/services/shipment_service.py:79-84 | completing sets the status to delivered and stores the confirmation |
| ShipmentService.Cancel | backend/app/services/shipment_service.py:86-87 | cancelling sets the status to cancelled |
| ShipmentService.StatusSettersUnconditional | backend/app/services/shipment_service.py:66-87 | the status setters never look at the status they overwrite: two shipments that differ only in status end up identical |
| ShipmentService.CreateBid | backend/app/services/shipment_service.py:90-109 | a new bid is stored as pending with its shipment reference as given; a pending entry is pushed onto the shipment only when that reference is an ObjectId of a stored shipment, so a bid whose shipment is text leaves every shipment unchanged; users and transactions never change |
| ShipmentService.CreateBidAppendsOne | backend/app/services/shipment_service.py:98-107 | for an ObjectId reference the shipment's embedded list grows by exactly one pending entry for the driver and earlier entries are kept; for a text reference the list is unchanged |
| ShipmentService.BidsOfShipment | backend/app/services/shipment_service.py:117-122 | exactly the bids that record the shipment as an ObjectId are listed, so when every bid records its shipment as text the list is empty |
| ShipmentService.BidsOfDriver | backend/app/services/shipment_service.py:124-129 | exactly the driver's bids are listed |
| ShipmentService.Available | backend/app/services/shipment_service.py:55-64 | the listing is exactly the bidding shipments, restricted to a requirement among the given types when types are given; it raises when any match is unreadable |
| ShipmentService.OfCustomer | backend/app/services/shipment_service.py:48-53 | exactly the customer's shipments are listed |
| ShipmentService.RejectSiblings | backend/app/services/shipment_service.py:145-151 | every other bid that records the shipment as an ObjectId becomes rejected; the kept bid, bids on other shipments and every bid that records its shipment as text are untouched |
| ShipmentService.AcceptBid | backend/app/services/shipment_service.py:131-154 | a missing or already accepted bid gives None and changes nothing; otherwise the bid is accepted, the shipment it names records it, and only the siblings that record that shipment as an ObjectId are rejected |
| ShipmentService.AcceptBidOutcome | backend/app/services/shipment_service.py:131-154 | after an accept the bid is accepted, every other bid recording the shipment as an ObjectId is rejected, every other bid (including text-recorded ones on the same shipment) is untouched, and the shipment is accepted with this bid |
| ShipmentService.RejectBid | backend/app/services/shipment_service.py:156-164 | rejecting changes only that bid's status; a missing or already rejected bid gives None |
| BidsApi.SubmitChecks | backend/app/api/bids.py:13-63 | a bid passes exactly when the shipment id is valid, the user is a verified driver, the shipment exists, is readable and in bidding, the driver's vehicle fits and no earlier bid of the driver records the shipment as an ObjectId; the first failing check decides the refusal; when every stored bid records its shipment as text, the duplicate check never refuses |
| BidsApi.SubmitBid | backend/app/api/bids.py:65-82 | as written, a bid that passes the checks is stored with its shipment as text, no shipment changes, and the request then fails with 500 on `full_name`, broadcasting nothing; a refused bid changes nothing |
| BidsApi.SubmitBidNotifying | backend/app/api/bids.py:65-82 | reading the driver's `name`, a bid that passes the checks is stored as pending with its shipment as text, no shipment changes, the customer is sent a new-bid notification and the bid is the answer; a refused bid changes nothing |
| BidsApi.SecondBidAccepted | backend/app/api/bids.py:56-69 | as written, a driver's bid stores its shipment as text, so the duplicate check sees nothing, the same request passes the checks again, and a second bid by the same driver on the same shipment is stored |
| BidsApi.SubmitBidCorrected | backend/app/api/bids.py:65-82 | storing the shipment as an ObjectId, a bid that passes the checks is stored, its shipment's embedded list gains the pending entry, the bid is the answer and the customer is notified; a refused bid changes nothing |
| BidsApi.NotifyingKeepsWrites | backend/app/api/bids.py:65-80 | the corrected submit writes the same database as the one as written |
| BidsApi.SubmitKeepsOneBidPerDriver | backend/app/api/bids.py:56-69 | once bids record their shipment as an ObjectId, no driver ever holds two bids on one shipment, and the store keeps recording ObjectIds |
| BidsApi.ShipmentBids | backend/app/api/bids.py:84-116 | another customer is refused; the owner sees exactly the bids that record the shipment as an ObjectId, which is none when every bid records it as text; a driver sees only their own bids, matched against the path text as given |
| BidsApi.DriverSeesOwnBids | backend/app/api/bids.py:108-112 | a driver never sees another driver's bid |
| BidsApi.MyBids | backend/app/api/bids.py:118-131 | only drivers may list their bids, and they get exactly their own |
| BidsApi.OwnedBid | backend/app/api/bids.py:139-161 | accept and reject go on exactly when the user is a customer, the bid exists, and its shipment exists, is readable and is theirs |
| BidsApi.AcceptBidRequest | backend/app/api/bids.py:133-191 | as written, an accept that passes its checks makes the service's writes (rejecting only the ObjectId-recorded siblings) and, when the driver exists, then fails with 500 on `full_name`, broadcasting nothing |
| BidsApi.AcceptBidNotifying | backend/app/api/bids.py:175-191 | reading the customer's `name`, the same writes are made, the accepted bid is the answer, and an existing driver is sent the accepted notification naming the bid's shipment |
| BidsApi.SecondAcceptRefused | backend/app/api/bids.py:163-176 | once an accept reaches the service, every later accept of a bid on that shipment is refused, because the shipment is no longer bidding |
| BidsApi.AcceptedShipmentReadable | backend/app/services/shipment_service.py:131-154 | the shipment of an accepted bid still reads back, now accepted and with the same owner |
| BidsApi.RejectChecked | backend/app/api/bids.py:193-230 | a reject goes through exactly when its shared checks pass and the bid is pending |
| BidsApi.RejectBidRequest | backend/app/api/bids.py:193-243 | a rejection changes only that bid, answers with it, and tells the driver when the driver exists; a refused rejection changes nothing |
| BidsApi.RejectIgnoresShipmentStatus | backend/app/api/bids.py:215-227 | a pending bid is rejected whatever its shipment's status, even after another bid was accepted |
| BidsApi.SiblingsStayPending | backend/app/services/shipment_service.py:145-151 | as written, with every bid recording its shipment as text, an accept changes no bid but the accepted one, so the other bids on the shipment stay as they were |
| BidsApi.CorrectedSiblingsRejected | backend/app/services/shipment_service.py:145-151 | with bids recording their shipment as an ObjectId, an accept accepts the bid, rejects every other bid on its shipment and leaves bids on other shipments untouched |
| ShipmentsApi.EligibleDrivers | backend/app/api/shipments.py:37-38 | the drivers told about a new shipment are exactly the stored users with role driver and status verified |
| ShipmentsApi.CreateShipment | backend/app/api/shipments.py:16-52 | as written, only customers may create; the shipment is stored as a draft, and whenever an eligible driver exists the request fails with 500 and no one is told |
| ShipmentsApi.CreateShipmentNotifying | backend/app/api/shipments.py:34-52 | with a notification built from what the shipment has, the database is the same, the new draft is the answer, and one notification goes out per eligible driver |
| ShipmentsApi.NotifiedAreEligible | backend/app/api/shipments.py:37-50 | one envelope per eligible driver, each carrying the same new-shipment payload naming the shipment and the clock reading of its own send; nothing is sent when no driver is eligible |
| ShipmentsApi.OwnTypes | backend/app/api/shipments.py:65-82 | a driver's listing filters by their own vehicle type when they have one, and by nothing otherwise |
| ShipmentsApi.UserShipments | backend/app/api/shipments.py:54-68 | a customer gets exactly their own shipments; anyone else gets the bidding shipments that suit their vehicle |
| ShipmentsApi.AvailableFor | backend/app/api/shipments.py:70-84 | only drivers may list; every shipment listed is bidding and, for a driver with a vehicle, requires that vehicle |
| ShipmentsApi.ShipmentFor | backend/app/api/shipments.py:86-109 | a readable shipment is shown exactly to non-customers and to its owner |
| ShipmentsApi.Owned | backend/app/api/shipments.py:119-125 | the owner's lookup succeeds exactly for a readable shipment the caller owns; a missing shipment and someone else's give the same refusal |
| ShipmentsApi.UpdateFields | backend/app/api/shipments.py:111-204 | the owner's body is written to the shipment as given, whatever members it names, and no other document changes; a body naming `_id` answers 500 and changes nothing; any other caller changes nothing |
| ShipmentsApi.NonOwnerSeesNotFound | backend/app/api/shipments.py:121-125 | a non-owner's update is refused with the same 404 as a missing shipment |
| ShipmentsApi.UpdateCanRewriteStatus | backend/app/api/shipments.py:111-128 | nothing guards the status: the owner can rewrite it through an update body, whatever it was |
| ShipmentsApi.UpdateCanReassignOwner | backend/app/api/shipments.py:111-128 | the owner can hand the shipment to someone else with a body naming `customer_id`, and is then refused with 404 on their next update |
| ShipmentsApi.UpdateCanEraseBids | backend/app/api/shipments.py:111-128 | a body naming `bids` replaces the embedded bids, so `{"bids": []}` erases them |
| ShipmentsApi.UpdateOfIdFails | backend/app/api/shipments.py:111-128 | a body naming `_id` is refused by the database: the client sees 500 and nothing changes |
| ShipmentsApi.PublishRequest | backend/app/api/shipments.py:206-228 | only the owner's draft can be published, and it becomes bidding; any other status is refused with 400 |
| ShipmentsApi.PublishedReadable | backend/app/services/shipment_service.py:66-67 | publishing a readable draft modifies it and reads it back as bidding |
| ShipmentsApi.PublishOnce | backend/app/api/shipments.py:221-225 | a published shipment cannot be published again |
| ShipmentsApi.UploadPhoto | backend/app/api/shipments.py:230-269 | only customers may upload; the hosted URL is appended to the owner's photos and no other shipment changes |
| Http.ObjectIdOf | backend/app/services/shipment_service.py:32 | a path id is accepted exactly when it is a valid object id, in its lower-case form; anything else escapes as InvalidId |
| Http.FetchShipment | backend/app/api/shipments.py:93-99 | an endpoint's lookup crashes on a bad id, gives None exactly when the shipment is missing, and gives the shipment exactly when it is stored and readable |
| Notifications.Envelope | backend/app/services/notification_service.py:12-16 | every notification is wrapped with type "notification", the timestamp, and the payload as data |
| Notifications.Send | backend/app/services/notification_service.py:10-24 | sending appends exactly one envelope carrying the payload to the broadcast log |
| Notifications.SendIgnoresUser | backend/app/services/notification_service.py:10-24 | the addressee makes no difference: every notification is broadcast to everyone |
| Notifications.NewBidPayload | backend/app/services/notification_service.py:26-36 | the new-bid payload has its title, the amount message, type new_bid, the shipment and bid ids and the driver's name |
| Notifications.BidAcceptedPayload | backend/app/services/notification_service.py:38-48 | the accepted payload has its title, the amount message, type bid_accepted, the ids and the customer's name |
| Notifications.BidRejectedPayload | backend/app/services/notification_service.py:50-59 | the rejected payload has its title and message, type bid_rejected, and the ids |
| Notifications.StatusMessageFallback | backend/app/services/notification_service.py:63-73 | exactly the statuses outside the five-entry table get "Shipment status updated" |
| Notifications.StatusMessagesDistinct | backend/app/services/notification_service.py:63-69 | the five table statuses have five different messages |
| Notifications.StatusUpdatePayload | backend/app/services/notification_service.py:61-79 | the status payload has its title, the status's message, type status_update, the shipment id, the status and the driver's name or None |
| Notifications.DeliveryRequestPayload | backend/app/services/notification_service.py:81-90 | the new-shipment payload names both addresses in its message and carries the shipment id, distance and urgency |
| Notifications.NotifyDriversSendsOneEach | backend/app/services/notification_service.py:92-94 | each listed driver gets exactly one envelope, in order, appended after what was already sent; the i-th carries the payload and the clock reading of the i-th send |
| Wire.EnvelopeReachesRouter | backend/app/services/notification_service.py:12-24 | a broadcast envelope, printed as `json.dumps` prints it and parsed by the socket, reaches the registered router unchanged, and is shown with the payload's title and message or the generic fallbacks |
| Wire.NewBidShownAsGeneric | BirtuLogistics/src/context/AuthContext.js:88-110 | a new-bid notification always takes the generic branch: it shows the server's title and amount message, never the client's own new-bid texts |
| Wire.BidAcceptedShownAsGeneric | BirtuLogistics/src/context/AuthContext.js:88-121 | likewise an accepted-bid notification shows the server's texts, not the client's "Your Bid Accepted!" |
| Wire.StatusUpdateShown | BirtuLogistics/src/context/AuthContext.js:88-99 | a status update, which the client has no case for, is still shown as a generic notification with the status's message |
| PaymentService.InitiateChecks | backend/app/services/payment_service.py:24-48 | a payment goes ahead exactly when the shipment exists, is readable and accepted, and the method is telebirr or cbe_birr; the checks fail in that order with their own messages |
| PaymentService.InitiatePayment | backend/app/services/payment_service.py:50-74 | as written, a payment that passes the checks records a successful transaction and marks the shipment paid; reading the shipment back then raises, so the receipt is never returned; a refused payment changes nothing |
| PaymentService.InitiatePaymentReceipt | backend/app/services/payment_service.py:50-74 | as intended, a payment that passes the checks returns the success receipt, and the shipment is paid with that transaction |
| PaymentService.ReceiptKeepsWrites | backend/app/services/payment_service.py:50-68 | the corrected initiation makes exactly the writes of the one as written, and differs only in what it returns |
| PaymentService.GetPaymentStatus | backend/app/services/payment_service.py:107-120 | a bad id escapes, an unknown transaction gives None, and a stored one is reported member by member |
| PaymentService.InitiatedThenLookedUp | backend/app/services/payment_service.py:107-120 | after a payment is initiated, looking it up reports its shipment, amount and method, with status success |
| PaymentService.HandleCallback | backend/app/services/payment_service.py:76-105 | a callback with a falsy id or status is refused; otherwise only the named transaction's status and time may change; a status other than success leaves every shipment as it was, and a success also marks its shipment paid |
| PaymentService.CallbackPaysAnyStatus | backend/app/services/payment_service.py:96-103 | a success callback marks the transaction's shipment paid whatever its status was, and the caller gets the validation error whenever the shipment changed |
| PaymentService.CallbackReplayRefused | backend/app/services/payment_service.py:88-94 | the same callback delivered twice at the same time is refused the second time and changes nothing |
| PaymentService.CallbackThenLookedUp | backend/app/services/payment_service.py:107-120 | after an accepted callback, the status lookup reports the status the gateway sent |
| PaymentsApi.AsReply | backend/app/api/payments.py:44-48 | a service `ValueError` becomes a 400 whose detail is its message, a result is the answer, and any other exception escapes; the store is as the service left it |
| PaymentsApi.BodyChecks | backend/app/api/payments.py:18-32 | a body passes exactly when shipment id and amount are truthy and the method is one of the two supported texts; a falsy field gives the missing-fields detail first |
| PaymentsApi.InitiateRequest | backend/app/api/payments.py:11-48 | as written, the endpoint never answers with a receipt: the store changes exactly when the shipment was payable, and then the client sees the validation error; the router's own checks refuse before the service runs |
| PaymentsApi.InitiateRequestReceipt | backend/app/api/payments.py:11-48 | over the corrected service, the endpoint answers exactly for a payable shipment, with the receipt for the new transaction stored for the signed-in user |
| PaymentsApi.CallbackRequest | backend/app/api/payments.py:50-67 | the callback answers the processed message or a 400; a body with a falsy transaction id or status is refused without changes |
| PaymentsApi.StatusRequest | backend/app/api/payments.py:69-85 | any signed-in user gets any stored transaction's record; an unknown transaction is 404 and a malformed id escapes |
| PaymentsApi.PaymentMethods | backend/app/api/payments.py:87-107 | the advertised methods are exactly the ones the initiation accepts, each listed once and marked supported |
| RegisterScreen.With | BirtuLogistics/src/screens/auth/RegisterScreen.js:31-32 | setting one input changes that input to the new text and leaves every other input as it was |
| RegisterScreen.Update | BirtuLogistics/src/screens/auth/RegisterScreen.js:31-36 | editing a field stores the text and clears that field's shown error; other fields' errors stay, and with no error shown the errors are untouched |
| RegisterScreen.Validate | BirtuLogistics/src/screens/auth/RegisterScreen.js:38-73 | each field's error appears exactly when its check fails, with the first failing message: name blank; phone blank or not Ethiopian; email blank or malformed; password blank or under six UTF-16 code units before trimming, as JavaScript's `length` counts; confirmation different; a driver without a vehicle |
| RegisterScreen.ValidIff | BirtuLogistics/src/screens/auth/RegisterScreen.js:38-73 | the form is accepted exactly when every field's check passes, the password length measured untrimmed in UTF-16 code units |
| RegisterScreen.Payload | BirtuLogistics/src/screens/auth/RegisterScreen.js:80-87 | the posted body carries the trimmed password, and the vehicle under `vehicleType` for a driver only, never under `vehicle_type` |
| RegisterScreen.HandleRegister | BirtuLogistics/src/screens/auth/RegisterScreen.js:75-89 | the shown errors become the new validation's, and the body is posted exactly when there are none |
| RegisterScreen.ReadRegistration | backend/app/models/user.py:54-65 | the server reads the vehicle only from `vehicle_type` and the password from `password`; members under other names are ignored |
| RegisterScreen.DriverVehicleDropped | BirtuLogistics/src/screens/auth/RegisterScreen.js:86 | whatever vehicle a driver picks, the server reads none, and a driver it accepts is stored without a vehicle |
| RegisterScreen.ShortTrimmedRefused | backend/app/models/user.py:64-65 | a form whose trimmed password is under six characters is refused by the server's model, and registration answers 422 |
| RegisterScreen.PaddedPasswordPasses | BirtuLogistics/src/screens/auth/RegisterScreen.js:57-61 | a password of one space and five visible characters passes the screen's checks, while the body the screen sends is refused with 422 |
| RegisterScreen.EmojiPasswordPasses | BirtuLogistics/src/screens/auth/RegisterScreen.js:59 | a password of three emoji passes the screen's checks, since `length` counts six code units, while the server, counting three characters, refuses the body with 422; the corrected check refuses it |
| RegisterScreen.ValidateCorrected | BirtuLogistics/src/screens/auth/RegisterScreen.js:57-61 | with the length rule on the trimmed password, the password error appears exactly when the trimmed password is under six characters, counted as the server counts them; every other field is judged as before |
| RegisterScreen.PayloadCorrected | BirtuLogistics/src/screens/auth/RegisterScreen.js:80-87 | the corrected body carries the vehicle under `vehicle_type` exactly for a driver, and otherwise the same members as before |
| RegisterScreen.CorrectedFormAccepted | backend/app/models/user.py:54-65 | with both corrections, a form the screen accepts from a customer, or from a driver with one of the three vehicles, is accepted by the server's model with the trimmed texts and the vehicle picked |
| LoginScreen.Validate | BirtuLogistics/src/screens/auth/LoginScreen.js:26-43 | the phone error appears exactly when the trimmed phone is not an Ethiopian number, the password error exactly when it is blank or under six UTF-16 code units untrimmed, each with its first failing message |
| LoginScreen.Request | BirtuLogistics/src/screens/auth/LoginScreen.js:45-53 | credentials are posted exactly when the form is valid, and then carry only the trimmed phone, a valid number, and the trimmed password, which is not empty |
| LoginScreen.SignIn | BirtuLogistics/src/screens/auth/LoginScreen.js:55 | LOGIN is dispatched exactly when the answer holds a text `token` and a `user` and no storage write fails, and then carries that token and user |
| LoginScreen.ServerReplyNeverSignsIn | BirtuLogistics/src/screens/auth/LoginScreen.js:55 | the server's login answer has no `token` member, so signing in with it stores nothing and dispatches nothing, whatever the answer holds |
| LoginScreen.CorrectedSignsIn | backend/app/api/auth.py:88-92 | reading `access_token` instead, the server's answer dispatches LOGIN with its token and user, and the next start restores that session |
| ReceiverScreen.Validate | BirtuLogistics/src/screens/customer/ReceiverInfoScreen.js:24-39 | the name error appears exactly when the trimmed name is empty; the phone error exactly when the trimmed phone is not an Ethiopian number, with the message for a blank or a malformed one |
| ReceiverScreen.Continue | BirtuLogistics/src/screens/customer/ReceiverInfoScreen.js:41-50 | the draft gets the trimmed receiver exactly when there are no errors, and nothing else in it changes |
| ReceiverScreen.StoredReceiverIsStable | BirtuLogistics/src/screens/customer/ReceiverInfoScreen.js:41-50 | a stored receiver passes the same checks again, and storing it a second time changes nothing |
| Labels.BadgeIdentifiesUrgency | BirtuLogistics/src/screens/driver/AvailableShipmentsScreen.js:121-145 | label and colour together name exactly one of the server's urgencies; an unknown urgency is exactly the grey badge, labelled like the standard one |
| Labels.VehicleNamesRoundTrip | BirtuLogistics/src/screens/driver/AvailableShipmentsScreen.js:174-185 | each of the server's vehicle types is read back from either spelling of its name, and any other type shows the generic name, which names no type |
| Labels.Elapsed | BirtuLogistics/src/screens/driver/AvailableShipmentsScreen.js:147-159 | the caption is "just now" exactly under a minute, and otherwise the whole minutes, hours below a day, or days that have passed, rounded down |
| Labels.ElapsedMonotone | BirtuLogistics/src/screens/driver/AvailableShipmentsScreen.js:147-159 | an older date never gets a caption standing for less time |
| Labels.Plural | BirtuLogistics/src/screens/customer/BidReviewScreen.js:272 | the noun stays singular exactly for a count of one |
| BidReview.FiveStars | BirtuLogistics/src/screens/customer/BidReviewScreen.js:170-195 | a rating from 0 to 5 draws five stars: the whole part full, one half star exactly when the rating is not whole, and the rest empty |
| BidReview.OverFiveStars | BirtuLogistics/src/screens/customer/BidReviewScreen.js:170-195 | nothing bounds the rating, and a rating above 5 draws more than five stars |
| BidReview.AcceptButton | BirtuLogistics/src/screens/customer/BidReviewScreen.js:197-239 | a card's button shows the spinner exactly for the bid being accepted, and is disabled exactly while another bid is being accepted |
| BidReview.ScreenLocked | BirtuLogistics/src/screens/customer/BidReviewScreen.js:240-243 | chat, back and cancel are disabled exactly when every bid card's Accept button is either spinning or disabled |
| BidReview.AcceptingLocksOthers | BirtuLogistics/src/screens/customer/BidReviewScreen.js:197-243 | while a bid is being accepted the other cards and the screen's buttons are locked and its own button spins; once settled everything is enabled; an empty bid id locks nothing |
| BidReview.Interested | BirtuLogistics/src/screens/customer/BidReviewScreen.js:270-273 | the header reads "driver" exactly when one driver has bid |
| AvailableShipments.NoServerUserCanBid | BirtuLogistics/src/screens/driver/AvailableShipmentsScreen.js:187-189 | the user the server returns has no `vehicleTypes`, so no driver can bid on any shipment |
| AvailableShipments.CorrectedCanBid | BirtuLogistics/src/screens/driver/AvailableShipmentsScreen.js:187-189 | checking the driver's registered `vehicle_type` instead, a driver can bid exactly when their vehicle is among the shipment's requirements |
| AvailableShipments.CardOf | BirtuLogistics/src/screens/driver/AvailableShipmentsScreen.js:187-302 | the bid button is disabled and the warning shown exactly when the driver cannot bid; each requirement's tag name reads back as that requirement; a photo caption appears exactly when there are photos; both captions read back with `parseInt` as their count and end in `s` exactly when the count is not one |
| AvailableShipments.PhotoCaption | BirtuLogistics/src/screens/driver/AvailableShipmentsScreen.js:240-245 | the caption appears exactly for a positive count, reads back as the count, and is plural exactly when the count is not one |
| AvailableShipments.BidCaption | BirtuLogistics/src/screens/driver/AvailableShipmentsScreen.js:270 | the caption reads back as the count and is plural exactly when the count is not one |
| AvailableShipments.CaptionsForZeroAndOne | BirtuLogistics/src/screens/driver/AvailableShipmentsScreen.js:236-270 | no bids reads "0 bids" and one bid "1 bid", while no photos shows no caption and one photo reads "1 photo" |
| MyBids.WithStatus | BirtuLogistics/src/screens/driver/MyBidsScreen.js:116-119 | the filtered list holds exactly the bids with the given status, and is no longer than the list |
| MyBids.WithStatusOrder | BirtuLogistics/src/screens/driver/MyBidsScreen.js:118 | the filter keeps order and every copy: filtering a concatenation filters each part in turn, and a single bid is kept exactly when its status matches |
| MyBids.Filtered | BirtuLogistics/src/screens/driver/MyBidsScreen.js:116-119 | the `all` tab shows every bid; any other tab shows exactly the bids whose status is the tab's id |
| MyBids.FilteredOrder | BirtuLogistics/src/screens/driver/MyBidsScreen.js:116-119 | each tab shows its bids in list order with every copy: a concatenation's tab list is each part's in turn, and a single bid shows on `all` and on its own status's tab only |
| MyBids.CountIsShown | BirtuLogistics/src/screens/driver/MyBidsScreen.js:299-304 | each tab's count is the length of the list that tab shows, and its badge appears exactly when that list is not empty |
| MyBids.CountsPartition | BirtuLogistics/src/screens/driver/MyBidsScreen.js:299-304 | when every bid is pending, accepted or rejected, the three status counts add up to the count of all bids |
| MyBids.StatusBadgeIdentifies | BirtuLogistics/src/screens/driver/MyBidsScreen.js:121-145 | the icon tells the server's three bid statuses apart, and any other status shows the question mark in grey |
| MyBids.FooterOf | BirtuLogistics/src/screens/driver/MyBidsScreen.js:261-295 | an accepted bid shows its acceptance footer, a rejected one its rejection time only when it has a response time, and a pending one waits |
| MyBids.StartDelivery | BirtuLogistics/src/screens/driver/MyBidsScreen.js:161-174 | exactly an accepted bid opens tracking, for the bid's shipment with its pickup and dropoff, the distance and the bid itself |
| BidSubmission.Validate | BirtuLogistics/src/screens/driver/BidSubmissionScreen.js:28-47 | the amount error appears exactly when the amount is blank, unreadable or under 50, showing the minimum-bid message for a positive amount under 50; the time error exactly when the time is blank, unreadable or not positive |
| BidSubmission.ValidIff | BirtuLogistics/src/screens/driver/BidSubmissionScreen.js:28-47 | the form passes exactly when the amount reads as at least 50 and the time as a positive whole number |
| BidSubmission.RoundIsNearest | BirtuLogistics/src/screens/driver/BidSubmissionScreen.js:55-57 | the rounded suggestion lies within half a birr of the exact price, and no whole amount lies nearer |
| BidSubmission.RoundMonotone | BirtuLogistics/src/screens/driver/BidSubmissionScreen.js:55-57 | rounding never reverses the order of two prices |
| BidSubmission.WeightMultiplier | BirtuLogistics/src/screens/driver/BidSubmissionScreen.js:52 | the weight factor is at least one and at least a tenth of the weight |
| BidSubmission.UrgencyMultiplier | BirtuLogistics/src/screens/driver/BidSubmissionScreen.js:53 | the urgency factor lies between one and two |
| BidSubmission.SuggestedBid | BirtuLogistics/src/screens/driver/BidSubmissionScreen.js:49-60 | for a route of non-negative length the suggested price is not negative |
| BidSubmission.SuggestionMonotone | BirtuLogistics/src/screens/driver/BidSubmissionScreen.js:49-60 | a more urgent delivery or a longer route is never suggested a lower price |
| BidSubmission.UseSuggested | BirtuLogistics/src/screens/driver/BidSubmissionScreen.js:102-104 | taking the suggestion changes only the amount field |
| BidSubmission.SuggestionRoundTrip | BirtuLogistics/src/screens/driver/BidSubmissionScreen.js:102-104 | the amount field filled with a suggestion, any natural number, reads back as the suggested amount, and is refused exactly when the suggestion is under 50 |
| BidSubmission.Submit | BirtuLogistics/src/screens/driver/BidSubmissionScreen.js:64-77 | a bid is assembled exactly when the form passes, with the amount and time read from the fields, at least 50 and positive, the notes trimmed, and the shipment and driver given |
| PhotoCapture.AddPhoto | BirtuLogistics/src/screens/customer/PhotoCaptureScreen.js:105-119 | adding is refused exactly once four photos are held, and then changes nothing; otherwise the new photo, named by the clock, goes last and the others stay |
| PhotoCapture.RemovePhoto | BirtuLogistics/src/screens/customer/PhotoCaptureScreen.js:121-138 | removal keeps exactly the photos with another name, never adding any |
| PhotoCapture.RemoveKeepsOrder | BirtuLogistics/src/screens/customer/PhotoCaptureScreen.js:134 | removal keeps the other photos in order, each once: removing from a concatenation removes from each part in turn, and a single photo goes exactly when it carries the name |
| PhotoCapture.RemoveAbsent | BirtuLogistics/src/screens/customer/PhotoCaptureScreen.js:134 | removing a name no photo carries changes nothing |
| PhotoCapture.AddThenRemove | BirtuLogistics/src/screens/customer/PhotoCaptureScreen.js:105-138 | adding a photo and then removing it gives back the photos held before, as long as no earlier photo was added in the same millisecond |
| PhotoCapture.RunBounded | BirtuLogistics/src/screens/customer/PhotoCaptureScreen.js:105-119 | whatever the user adds and removes, the screen never holds more than four photos |
| PhotoCapture.Grid | BirtuLogistics/src/screens/customer/PhotoCaptureScreen.js:193-236 | the grid has four cells; cell i shows photo i exactly when there is one, and an add cell is never disabled |
| PhotoCapture.Uris | BirtuLogistics/src/screens/customer/PhotoCaptureScreen.js:152 | the addresses handed on are the photos' addresses, one each, in order |
| PhotoCapture.Finish | BirtuLogistics/src/screens/customer/PhotoCaptureScreen.js:140-187 | continuing sets the draft's photos to the addresses of the photos shown, in order, and nothing else in the draft changes |
| PhotoCapture.FinishAfterRun | BirtuLogistics/src/screens/customer/PhotoCaptureScreen.js:140-162 | after any run of actions the draft receives at most four addresses, one per photo still shown |
| VehicleSelection.Without | BirtuLogistics/src/screens/customer/VehicleSelectionScreen.js:52-54 | unticking keeps exactly the other ids, and keeps a repeat-free selection repeat-free |
| VehicleSelection.WithoutKeepsOrder | BirtuLogistics/src/screens/customer/VehicleSelectionScreen.js:53 | unticking keeps the other ids in their order, each copy once: a concatenation loses the id from each part in turn, and a single id goes exactly when it is the one unticked |
| VehicleSelection.Toggle | BirtuLogistics/src/screens/customer/VehicleSelectionScreen.js:50-58 | tapping a card ticks it exactly when it was not ticked, and leaves every other card as it was |
| VehicleSelection.ToggleTwice | BirtuLogistics/src/screens/customer/VehicleSelectionScreen.js:50-58 | toggling keeps the selection free of repeats, and toggling the same card twice restores the selection |
| VehicleSelection.WithoutAbsent | BirtuLogistics/src/screens/customer/VehicleSelectionScreen.js:52-54 | unticking an id that is not ticked changes nothing |
| VehicleSelection.TapsSelectCards | BirtuLogistics/src/screens/customer/VehicleSelectionScreen.js:20-58 | any run of taps on the cards selects only card ids, each at most once, so at most three |
| VehicleSelection.Continue | BirtuLogistics/src/screens/customer/VehicleSelectionScreen.js:60-68 | Continue alerts exactly when nothing is selected |
| VehicleSelection.ContinueNeverSchedules | BirtuLogistics/src/screens/customer/VehicleSelectionScreen.js:60-68 | the setter Continue calls is not provided by the draft context, so Continue never reaches the schedule step and leaves the draft unchanged |
| VehicleSelection.ContinueCorrected | BirtuLogistics/src/screens/customer/VehicleSelectionScreen.js:60-68 | through the setter the context provides, Continue alerts exactly when nothing is selected |
| VehicleSelection.CorrectedSchedules | BirtuLogistics/src/screens/customer/VehicleSelectionScreen.js:60-68 | with the intended setter, any non-empty run of taps reaches the schedule step, with the draft requiring exactly the ticked cards and nothing else changed |
| LocationScreen.Tap | BirtuLogistics/src/screens/customer/LocationScreen.js:64-80 | a tap moves the point being selected, with its address, and leaves the other point and the mode alone |
| LocationScreen.UseCurrent | BirtuLogistics/src/screens/customer/LocationScreen.js:95-100 | the device position becomes the pickup point, with its address, in either mode; the dropoff, its address, the position and the mode stay; without a position nothing changes |
| LocationScreen.SwitchToDropoff | BirtuLogistics/src/screens/customer/LocationScreen.js:102-108 | switching to the dropoff alerts and changes nothing exactly when no pickup point is chosen; otherwise the dropoff is now being selected, and both points, their addresses and the position stay |
| LocationScreen.RunOrdered | BirtuLogistics/src/screens/customer/LocationScreen.js:64-112 | whatever the user does, a dropoff point is only ever set once a pickup point is |
| LocationScreen.Pack | BirtuLogistics/src/screens/customer/LocationScreen.js:120-128 | a point is stored as two numbers with its address |
| LocationScreen.Unpack | BirtuLogistics/src/screens/customer/LocationScreen.js:120-128 | a stored place reads back as a point exactly when it has two numbers |
| LocationScreen.PackRoundTrip | BirtuLogistics/src/screens/customer/LocationScreen.js:120-128 | packing stores longitude then latitude, and reading back gives the point chosen |
| LocationScreen.Continue | BirtuLogistics/src/screens/customer/LocationScreen.js:114-131 | Continue alerts exactly when either point is missing |
| LocationScreen.ContinueNeverStores | BirtuLogistics/src/screens/customer/LocationScreen.js:114-131 | the setters Continue calls are not provided by the draft context, so with both points chosen Continue throws before storing either |
| LocationScreen.ContinueCorrected | BirtuLogistics/src/screens/customer/LocationScreen.js:114-131 | through the context's setter, Continue alerts exactly when either point is missing |
| LocationScreen.CorrectedStoresBoth | BirtuLogistics/src/screens/customer/LocationScreen.js:114-131 | with the intended setter, after any run that chose a dropoff the draft receives both points and addresses as chosen, and nothing else in it changes |
| ScheduleScreen.LevelsAgree | BirtuLogistics/src/screens/customer/ScheduleScreen.js:30-55 | the three cards are the server's urgencies with the badges the driver screens show, and their price factors rise in order and match the suggested-bid factors |
| ScheduleScreen.Validate | BirtuLogistics/src/screens/customer/ScheduleScreen.js:57-81 | the description error appears exactly when it is blank; the weight error exactly when it is blank, unreadable or not positive; the date error exactly when the chosen moment is not after the clock reading |
| ScheduleScreen.PickDate | BirtuLogistics/src/screens/customer/ScheduleScreen.js:83-88 | a picked date replaces the day and a dismissed picker keeps it; the time, urgency, description and weight stay |
| ScheduleScreen.PickTime | BirtuLogistics/src/screens/customer/ScheduleScreen.js:90-95 | a picked time replaces the time and a dismissed picker keeps it; the day, urgency, description and weight stay |
| ScheduleScreen.ChooseLevel | BirtuLogistics/src/screens/customer/ScheduleScreen.js:137 | tapping a card sets the urgency to that card's level, one the server accepts, and keeps the day, time, description and weight |
| ScheduleScreen.Continue | BirtuLogistics/src/screens/customer/ScheduleScreen.js:113-124 | Continue shows the validation errors and moves on exactly when there are none; otherwise the draft is unchanged |
| ScheduleScreen.ContinueStoresFuture | BirtuLogistics/src/screens/customer/ScheduleScreen.js:113-124 | a Continue that goes through leaves the draft with a moment after the clock reading on the chosen day and time, a positive weight, the trimmed non-empty description and the urgency, and nothing else changed |
| JsonText.RoundTrip | BirtuLogistics/src/services/websocket.js:75 | a value written out as JSON text by either printer, JavaScript's or Python's, reads back as the same value |
| JsonText.StringifyRoundTrip | BirtuLogistics/src/services/websocket.js:75 | text from `JSON.stringify` reads back as the same value, so a message sent over the socket or a user kept in storage survives the trip |
| JsonText.DumpsRoundTrip | backend/app/services/notification_service.py:24 | text from `json.dumps` with its default separators and ASCII escapes, including surrogate pairs for characters outside the Basic Multilingual Plane, reads back as the same value |
| JsonText.EmojiFrame | BirtuLogistics/src/services/websocket.js:31 | `json.dumps` writes an emoji as the escaped surrogate pair `\ud83d\ude00`, and parsing that text gives back the emoji |
| JsonText.LoneHalfRefused | BirtuLogistics/src/services/websocket.js:31 | a high surrogate escape with no low half does not parse |
| JsonValue.LookupFindsLast | BirtuLogistics/src/context/AuthContext.js:138 | a member is missing exactly when no field has that key, and otherwise the last field with that key gives its value, as when JSON text repeats a key |
| JsonValue.Get | BirtuLogistics/src/context/AuthContext.js:93-94 | reading a member of `null` is a type error; a value is found only in an object that holds the member |
| JsonValue.GetProp | BirtuLogistics/src/context/AuthContext.js:93-94 | reading a member of a missing value is a type error; otherwise it reads the member of the value |
| JsonValue.OrElse | BirtuLogistics/src/context/AuthContext.js:93-94 | JavaScript's `or` with a fallback text: a truthy value is kept, anything else gives the fallback text |
| NumberText.ParseInt | BirtuLogistics/src/screens/driver/BidSubmissionScreen.js:41 | `parseInt` reads a number exactly when, after blanks and a sign, a digit follows, or a hexadecimal digit follows a `0x` prefix; a positive result never comes from a minus sign |
| NumberText.HexPrefixRead | BirtuLogistics/src/screens/driver/BidSubmissionScreen.js:41 | the estimated time "0x10" reads as 16 and "-0X1f" as -31, while "0x" and "0xg" read as no number |
| NumberText.ParseFloat | BirtuLogistics/src/screens/driver/BidSubmissionScreen.js:33 | `parseFloat` reads a number exactly when, after blanks and a sign, digits or a dot and digits follow; a positive result never comes from a minus sign |
| NumberText.BlankIsNaN | BirtuLogistics/src/screens/driver/BidSubmissionScreen.js:31-43 | a blank field reads as no number for both parsers |
| NumberText.ParseRendered | BirtuLogistics/src/screens/driver/BidSubmissionScreen.js:102-104 | a whole number's decimal text reads back as that number with both parsers |
| NumberText.ParseRenderedThen | BirtuLogistics/src/screens/driver/AvailableShipmentsScreen.js:270 | an integer's decimal text followed by a blank and anything else reads back with `parseInt` as that integer |
| Forms.LocalIffInternational | BirtuLogistics/src/screens/auth/RegisterScreen.js:47 | a number is valid in its local `0` form exactly when it is valid in its `+251` form |
| Forms.PhoneIsTrimmed | BirtuLogistics/src/screens/auth/RegisterScreen.js:47 | a valid phone number holds no blank, so trimming leaves it unchanged |
| Forms.MatchesEmail | BirtuLogistics/src/screens/auth/RegisterScreen.js:53 | the search returns true exactly when some non-blank run, an `@`, a non-blank run, a dot and a non-blank character occur in the text |
| Calendar.BeforeIsStrictTotal | BirtuLogistics/src/screens/customer/ScheduleScreen.js:75 | moments are strictly and totally ordered, so a chosen moment that is not at or before the clock reading lies after it |

## Left out

- Network, storage and timers: socket I/O, `AsyncStorage`, `setTimeout` and the platform alerts are effects returned as data or left out. The order in which asynchronous callbacks interleave is not modelled, so two `addPhoto` calls racing on a stale closure are out of scope.
- Password hashing, JWT signing and decoding, OTP generation, fresh object ids and the clock are parameters. Each notification send gets its own clock reading; elsewhere one reading stands for the several `utcnow()` calls a handler makes, which differ only by the microseconds between them.
- The backend's websocket connection manager (backend/app/api/websocket.py) is not part of this model. Notifications are the list of envelopes sent to each user.
- Photo upload to Cloudinary and its temporary file are not modelled. `UploadPhoto` takes the URL the upload returned.
- The image picker, camera permissions, the device position request and reverse geocoding are left out. Their results are inputs to the screen functions.
- Sample data is not modelled: the hard-coded bids and shipments the driver screens and bid review load, the simulated submit and accept delays, and the navigation calls.
- Text formatting of dates, times and money (`toLocaleDateString`, `toFixed`) is not modelled. Python's float-to-text conversion in notification messages is a text parameter.
- Styling, layout, icons' visual form and console logging are left out.
- Floating-point numbers are exact reals. JSON numbers are integers only: the codec rejects fractions and exponents.
- NumberText.ParseFloat: ignores exponents, so `"1e3"` reads as 1, and does not read `Infinity`.
- UserModel.MakeUserCreate: accepts any email text and does not apply `EmailStr`, because the email validator's rules are a library outside this model.
- RegisterScreen.ReadRegistration: does not read `rating` or `payment_methods`, which the sign-up form never sends.
- AvailableShipments.CanBid: a `vehicleTypes` member that is neither a list nor a text never matches. JavaScript's `includes` on other values is not modelled.
- BidSubmission.SuggestedBid: a shipment without a weight gives `NaN` in the source. The model takes the weight as a number.
- BidSubmission.Submit: the vehicle type is copied from the session's user, which has no `vehicleType` member; the model takes it as an input.
- The `ShipmentUpdate` model class is not modelled: no route uses it, and the update endpoints take a raw dictionary, modelled as a `Patch`.
- ShipmentService.ApplyPatch: every value in a `Patch` has its member's type. A raw body can also carry a value of the wrong type (`{"pickup_location": {"coordinates": "x"}}`), which the source stores and every later read of the shipment then rejects; such values, and members the shipment model does not know (which the source stores and later reads ignore), cannot be expressed.
- ShipmentsApi.UpdateFields: takes its body as a `Patch`, so the ill-typed values and unknown members above cannot be sent; the owner, bids, creation time and `_id` members can.
- PaymentService.InitiatePayment: `initiated_at`, `updated_at` and the shipment's update time are one clock reading, where the source reads the clock three times.
- AuthApi.OtpFormat: only ASCII digits count as digits. Python's `str.isdigit` also accepts other Unicode digits (`"١٢٣٤٥٦"`, `"²²²²²²"`), so the source accepts such codes where the model answers 400.
- AuthApi.VerifyOtp: a phone that is not text answers 404. In the source it goes into `find_one` as a query, so an operator such as `{"$ne": ""}` matches a stored user, who is then marked verified; MongoDB's query operators are not modelled.
- JsonText.Parse: a lone surrogate-half escape such as `\ud83d` with no low half, which `JSON.parse` accepts as an unpaired UTF-16 unit, is refused, because a character here is a Unicode scalar value.
- Calendar: dates and times are compared as calendar fields, with no time zone or daylight-saving shift, as the device's local clock shows them.

## Findings

| source | as written | input that shows it | evidently intended | confidence | as-written member | corrected member |
|---|---|---|---|---|---|---|
| backend/app/api/bids.py:78 | the new-bid notification reads `current_user.full_name`, which `UserInDB` lacks | any valid bid from a driver | the driver's `name` | high, not executed | BidsApi.SubmitBid | BidsApi.SubmitBidNotifying |
| backend/app/api/bids.py:187 | the bid-accepted notification reads `current_user.full_name` after the writes | any acceptance of a pending bid by the owner | the customer's `name` | high, not executed | BidsApi.AcceptBidRequest | BidsApi.AcceptBidNotifying |
| backend/app/api/shipments.py:40-49 | the delivery request reads `shipment.estimated_distance`, which `ShipmentInDB` lacks, so creation answers 500 and no driver is told | a shipment created while one verified driver has a required vehicle | leave the distance out, or compute it | high, not executed | ShipmentsApi.CreateShipment | ShipmentsApi.CreateShipmentNotifying |
| backend/app/services/payment_service.py:63-68 | after writing status `paid`, re-reading the shipment fails validation, so a successful payment answers 400 | any payment on an accepted shipment | return the receipt | high, not executed | PaymentsApi.InitiateRequest | PaymentsApi.InitiateRequestReceipt |
| BirtuLogistics/src/screens/auth/LoginScreen.js:55 | the screen passes `response.token`, but the server sends `access_token` | any successful login | pass `response.access_token` | high, not executed | LoginScreen.ServerReplyNeverSignsIn | LoginScreen.CorrectedSignsIn |
| BirtuLogistics/src/screens/auth/RegisterScreen.js:57-61 | the length check measures the untrimmed password, but the trimmed one is sent | password and confirmation ` abcde` | check the trimmed password | medium, not executed | RegisterScreen.PaddedPasswordPasses | RegisterScreen.ValidateCorrected |
| BirtuLogistics/src/screens/auth/RegisterScreen.js:59 | the length check counts UTF-16 code units, while the server's `min_length` (backend/app/models/user.py:65) counts characters | password and confirmation of three emoji | count characters of the trimmed password, as the server does | medium, not executed | RegisterScreen.EmojiPasswordPasses | RegisterScreen.ValidateCorrected |
| BirtuLogistics/src/screens/auth/RegisterScreen.js:86 | the vehicle is sent as `vehicleType`, but the server reads `vehicle_type` | a driver registering with `truck` | send `vehicle_type` | high, not executed | RegisterScreen.DriverVehicleDropped | RegisterScreen.CorrectedFormAccepted |
| BirtuLogistics/src/screens/customer/LocationScreen.js:32 | Continue calls `setPickupLocation` and `setDropoffLocation`, which the draft context does not provide | any pickup and dropoff, then Continue | call `setLocations` | high, not executed | LocationScreen.ContinueNeverStores | LocationScreen.CorrectedStoresBoth |
| BirtuLogistics/src/screens/customer/VehicleSelectionScreen.js:66 | Continue calls `setVehicleRequirements`, which the draft context does not provide | tick `truck`, then Continue | call `setVehicleTypes` | high, not executed | VehicleSelection.ContinueNeverSchedules | VehicleSelection.CorrectedSchedules |
| BirtuLogistics/src/screens/driver/AvailableShipmentsScreen.js:187-189 | bidding requires `user.vehicleTypes`, which the server's user never has | a driver with `vehicle_type` `pickup` and a shipment requiring `pickup` | compare `user.vehicle_type` | high, not executed | AvailableShipments.NoServerUserCanBid | AvailableShipments.CorrectedCanBid |
| backend/app/api/bids.py:67 | the bid is stored from `bid_data.dict()`, which writes `shipment_id` as text, while the duplicate check queries by ObjectId, so it never finds an earlier bid | one driver submitting the same valid bid twice | store `shipment_id` as an ObjectId | high, not executed | BidsApi.SecondBidAccepted | BidsApi.SubmitKeepsOneBidPerDriver |
| backend/app/services/shipment_service.py:145-151 | accepting a bid rejects the siblings whose `shipment_id` is the ObjectId, but the stored ones are text, so every other bid stays pending | two drivers bid on one shipment and the owner accepts one | the other bid is rejected | high, not executed | BidsApi.SiblingsStayPending | BidsApi.CorrectedSiblingsRejected |
| backend/app/api/auth.py:162 | `response_model=User` re-validates the user dictionary; `User` reads its id only from `_id`, so `id` is dropped and a new id is minted | any signed-in user calling /me | answer the user's own id | high, not executed | AuthApi.LoginThenMe | AuthApi.LoginThenMeCorrected |

=== FILE: auth_api.dfy ===
/** The server's authentication endpoints (backend/app/api/auth.py): registration, login,
    the one-time-code check and the resolution of the bearer token to a user. Password
    hashing and its check, and the signing, expiry and checking of tokens, belong to a
    security module outside this model: the hash is a parameter, the check a parameter
    predicate, and a token is represented by the claims it carries once its signature
    and expiry were accepted (`None` when they were not). */
module AuthApi {
  import opened Wrappers
  import opened JsonValue
  import opened Text
  import opened UserModel
  import opened Http
  import PaymentService
  import ShipmentService

  type Db = ShipmentService.Db

  const PhoneTaken := "Phone number already registered"
  const EmailTaken := "Email already registered"
  const InvalidCredentials := "Invalid credentials"
  const OtpRequired := "Phone and OTP are required"
  const BadOtpFormat := "Invalid OTP format"
  const UserNotFound := "User not found"
  const InvalidToken := "Invalid token"

  /** The errors `len(otp)` and `otp.isdigit()` raise on an OTP of the wrong kind. */
  const NoLen := "TypeError: object has no len()"
  const NoIsDigit := "AttributeError: isdigit"

  /** The answer to a registration. */
  datatype Registered = Registered(message: string, userId: Id)

  /** No two stored users share a phone number; no two share an id. */
  predicate PhonesUnique(users: seq<UserDoc>) {
    forall i, j :: 0 <= i < j < |users| ==> users[i].phone != users[j].phone
  }

  predicate IdsUnique(users: seq<UserDoc>) {
    forall i, j :: 0 <= i < j < |users| ==> users[i].id != users[j].id
  }

  /** `register`. The body is validated into `UserCreate` (422 otherwise); the phone is
      checked before the email; the stored user is the body without the password, with
      its hash and two timestamps. Role and verification state are the client's own
      choice, defaulting to `customer` and `pending`. */
  function Register(db: Db, body: Registration, id: Id, hashed: string, now: string): (r: Handled<Registered>)
    ensures r.sent == [] && r.db.shipments == db.shipments && r.db.bids == db.bids && r.db.transactions == db.transactions
    ensures MakeUserCreate(body).Err? ==> r == Handled(db, [], Refused(422, MakeUserCreate(body).error))
    ensures MakeUserCreate(body).Ok? && FindByPhone(db.users, MakeUserCreate(body).value.phone).Some? ==>
      r == Handled(db, [], Refused(400, PhoneTaken))
    ensures (MakeUserCreate(body).Ok? && FindByPhone(db.users, MakeUserCreate(body).value.phone).None?
             && FindByEmail(db.users, MakeUserCreate(body).value.email).Some?) ==>
      r == Handled(db, [], Refused(400, EmailTaken))
    ensures r.reply.Answer? <==>
      && MakeUserCreate(body).Ok?
      && FindByPhone(db.users, MakeUserCreate(body).value.phone).None?
      && FindByEmail(db.users, MakeUserCreate(body).value.email).None?
    ensures !r.reply.Answer? ==> r.db == db
    ensures r.reply.Answer? ==>
      && r.reply.body == Registered("User registered successfully", id)
      && |r.db.users| == |db.users| + 1 && r.db.users[..|db.users|] == db.users
      && var u := r.db.users[|db.users|];
         && Some(u.phone) == body.phone && Some(u.name) == body.name && Some(u.email) == body.email
         && u.id == id && u.hashedPassword == hashed
         && u.role == body.role.GetOr("customer")
         && u.verification == body.verification.GetOr("pending")
  {
    match MakeUserCreate(body)
    case Err(e) => Handled(db, [], Refused(422, e))
    case Ok(u) =>
      if FindByPhone(db.users, u.phone).Some? then Handled(db, [], Refused(400, PhoneTaken))
      else if FindByEmail(db.users, u.email).Some? then Handled(db, [], Refused(400, EmailTaken))
      else
        var users := db.users + [FromCreate(u, id, hashed, now)];
        assert users[..|db.users|] == db.users;
        Handled(db.(users := users), [], Answer(Registered("User registered successfully", id)))
  }

  /** Registration keeps phone numbers unique: it refuses a phone already stored. */
  lemma RegisterKeepsPhonesUnique(db: Db, body: Registration, id: Id, hashed: string, now: string)
    requires PhonesUnique(db.users)
    ensures PhonesUnique(Register(db, body, id, hashed, now).db.users)
  {
    var r := Register(db, body, id, hashed, now);
    if r.reply.Answer? {
      var n := |db.users|;
      forall i, j | 0 <= i < j < |r.db.users| ensures r.db.users[i].phone != r.db.users[j].phone {
        assert r.db.users[i] == db.users[i];
        if j < n { assert r.db.users[j] == db.users[j]; }
      }
    }
  }

  /** The first stored user with a phone is unchanged by adding a user at the end, and a
      phone nobody had finds the added user. */
  lemma {:induction false} FindByPhoneAppend(users: seq<UserDoc>, u: UserDoc, phone: string)
    ensures FindByPhone(users, phone).Some? ==> FindByPhone(users + [u], phone) == FindByPhone(users, phone)
    ensures FindByPhone(users, phone).None? && u.phone == phone ==> FindByPhone(users + [u], phone) == Some(u)
  {
    if users != [] {
      assert (users + [u])[1..] == users[1..] + [u];
      FindByPhoneAppend(users[1..], u, phone);
    }
  }

  /** The claims of an access token: `sub` is the phone, `user_id` the id. */
  datatype Claims = Claims(sub: Option<string>, userId: Option<string>)

  /** The answer to a login. */
  datatype LoginBody = LoginBody(accessToken: Claims, tokenType: string, user: map<string, Attr>)

  /** `login`: the first user with the phone, and the password checked against its hash.
      An unknown phone and a wrong password get the same refusal. */
  function Login(db: Db, phone: string, password: string, matches: (string, string) -> bool): (r: Reply<LoginBody>)
    ensures r.Refused? ==> r == Refused(401, InvalidCredentials)
    ensures !r.Crashed?
    ensures r.Answer? <==> FindByPhone(db.users, phone).Some? && matches(password, FindByPhone(db.users, phone).value.hashedPassword)
    ensures r.Answer? ==> var u := FindByPhone(db.users, phone).value;
      && r.body.accessToken == Claims(Some(phone), Some(u.id))
      && r.body.tokenType == "bearer"
      && r.body.user == Public(u)
      && "hashed_password" !in r.body.user
  {
    match FindByPhone(db.users, phone)
    case None => Refused(401, InvalidCredentials)
    case Some(u) =>
      if !matches(password, u.hashedPassword) then Refused(401, InvalidCredentials)
      else Answer(LoginBody(Claims(Some(u.phone), Some(u.id)), "bearer", Public(u)))
  }

  /** A user who has just registered can log in with the password the hash was made
      from, and the login returns that user's record without the hash. */
  lemma RegisterThenLogin(db: Db, body: Registration, id: Id, hashed: string, now: string, matches: (string, string) -> bool)
    requires Register(db, body, id, hashed, now).reply.Answer?
    requires matches(body.password.value, hashed)
    ensures var after := Register(db, body, id, hashed, now).db;
      var r := Login(after, body.phone.value, body.password.value, matches);
      r.Answer? && r.body.user == Public(after.users[|db.users|]) && r.body.accessToken.userId == Some(id)
  {
    var after := Register(db, body, id, hashed, now).db;
    var u := after.users[|db.users|];
    assert after.users == db.users + [u];
    FindByPhoneAppend(db.users, u, body.phone.value);
  }

  /** `get_current_user`: a token that failed its check, one without `sub`, and one whose
      phone no longer belongs to a user are all refused with 401. */
  function CurrentUser(db: Db, token: Option<Claims>): (r: Reply<UserDoc>)
    ensures !r.Crashed?
    ensures token.None? || token.value.sub.None? ==> r == Refused(401, InvalidToken)
    ensures token.Some? && token.value.sub.Some? && FindByPhone(db.users, token.value.sub.value).None? ==>
      r == Refused(401, UserNotFound)
    ensures r.Answer? ==> token.Some? && token.value.sub.Some? && FindByPhone(db.users, token.value.sub.value) == Some(r.body)
  {
    match token
    case None => Refused(401, InvalidToken)
    case Some(c) =>
      match c.sub
      case None => Refused(401, InvalidToken)
      case Some(phone) =>
        match FindByPhone(db.users, phone)
        case None => Refused(401, UserNotFound)
        case Some(u) => Answer(u)
  }

  /** What `response_model=User` makes of the dictionary `/me` returns. `User` reads its
      id only from the key `_id`: the class `Config` spells `allow_population_by_field_name`,
      a name pydantic 2 no longer reads, so the field name `id` is not accepted. The
      dictionary's `"id"` is dropped, `default_factory=PyObjectId` mints a fresh id, and
      the response writes it under its alias `_id`. */
  function AsUserModel(d: map<string, Attr>, minted: Id): (r: map<string, Attr>)
    ensures "id" !in r && "_id" in r && r["_id"] == AStr(minted)
    ensures forall k :: k != "id" && k != "_id" ==> (k in r <==> k in d) && (k in d ==> r[k] == d[k])
  {
    (d - {"id"})["_id" := AStr(minted)]
  }

  /** `/me`: the signed-in user without the hash, passed through `User`, which replaces
      the user's id with the fresh one. */
  function Me(db: Db, token: Option<Claims>, minted: Id): (r: Reply<map<string, Attr>>)
    ensures r.Answer? <==> CurrentUser(db, token).Answer?
    ensures r.Answer? ==> r.body == AsUserModel(Public(CurrentUser(db, token).body), minted)
    ensures r.Answer? ==> "hashed_password" !in r.body && "id" !in r.body && r.body["_id"] == AStr(minted)
    ensures r.Refused? <==> CurrentUser(db, token).Refused?
    ensures r.Refused? ==> r.code == 401 && r.detail == CurrentUser(db, token).detail
  {
    match CurrentUser(db, token)
    case Answer(u) => Answer(AsUserModel(Public(u), minted))
    case Refused(c, d) => Refused(c, d)
    case Crashed(e) => Crashed(e)
  }

  /** The token a login issues resolves to the user who logged in, and `/me` answers with
      the record the login returned, except that the login's `"id"` is gone and `"_id"`
      holds the freshly minted id, which is not the user's unless the fresh one happens to
      equal it. */
  lemma LoginThenMe(db: Db, phone: string, password: string, matches: (string, string) -> bool, minted: Id)
    requires Login(db, phone, password, matches).Answer?
    ensures var b := Login(db, phone, password, matches).body;
      var u := FindByPhone(db.users, phone).value;
      && CurrentUser(db, Some(b.accessToken)) == Answer(u)
      && Me(db, Some(b.accessToken), minted) == Answer(AsUserModel(b.user, minted))
      && b.user["id"] == AStr(u.id)
      && (minted != u.id ==> Me(db, Some(b.accessToken), minted).body["_id"] != b.user["id"])
  {
  }

  /** `/me` with the field name accepted (pydantic 2's `populate_by_name = True`): `User`
      keeps the user's own id, written under `_id`. */
  function MeCorrected(db: Db, token: Option<Claims>): (r: Reply<map<string, Attr>>)
    ensures r.Answer? <==> Me(db, token, "").Answer?
    ensures r.Answer? ==> r.body == AsUserModel(Public(CurrentUser(db, token).body), CurrentUser(db, token).body.id)
    ensures !r.Answer? ==> r == Me(db, token, "")
  {
    match CurrentUser(db, token)
    case Answer(u) => Answer(AsUserModel(Public(u), u.id))
    case Refused(c, d) => Refused(c, d)
    case Crashed(e) => Crashed(e)
  }

  /** With the correction, `/me` reports under `_id` the id the login returned under
      `"id"`, and every other member the login returned. */
  lemma LoginThenMeCorrected(db: Db, phone: string, password: string, matches: (string, string) -> bool)
    requires Login(db, phone, password, matches).Answer?
    ensures var b := Login(db, phone, password, matches).body;
      var r := MeCorrected(db, Some(b.accessToken));
      && r.Answer? && r.body["_id"] == b.user["id"]
      && forall k :: k != "id" && k != "_id" ==> (k in r.body <==> k in b.user) && (k in b.user ==> r.body[k] == b.user[k])
  {
  }

  /** The number of distinct keys of an object, which is `len` of the dictionary Python
      builds from it. */
  function KeyCount(fields: seq<Field>): nat {
    |set i | 0 <= i < |fields| :: fields[i].key|
  }

  /** `len(otp) != 6 or not otp.isdigit()` on the value sent: `None` when the format is
      accepted. A list or object of six members gets past `len` and fails at `isdigit`;
      a number or boolean fails at `len`. */
  function OtpFormat(otp: Json): (r: Option<Reply<string>>)
    ensures r.None? <==> otp.JStr? && |otp.s| == 6 && AllDigits(otp.s)
    ensures otp.JStr? && r.Some? ==> r.value == Refused(400, BadOtpFormat)
    ensures r.Some? && r.value.Refused? ==> r.value == Refused(400, BadOtpFormat)
  {
    match otp
    case JStr(s) => if |s| != 6 || !AllDigits(s) then Some(Refused(400, BadOtpFormat)) else None
    case JArr(items) => if |items| != 6 then Some(Refused(400, BadOtpFormat)) else Some(Crashed(NoIsDigit))
    case JObj(fields) => if KeyCount(fields) != 6 then Some(Refused(400, BadOtpFormat)) else Some(Crashed(NoIsDigit))
    case _ => Some(Crashed(NoLen))
  }

  /** `update_user(id, {"verification_status": "verified"})`: the first user with the id
      is marked verified at `now`; everyone else is kept. */
  function MarkVerified(users: seq<UserDoc>, id: Id, now: string): (r: seq<UserDoc>)
    ensures |r| == |users|
    ensures forall i :: 0 <= i < |users| ==> r[i].phone == users[i].phone && r[i].id == users[i].id
    ensures forall i :: 0 <= i < |users| && users[i].id != id ==> r[i] == users[i]
  {
    if users == [] then []
    else if users[0].id == id then
      var r := [users[0].(verification := "verified", updatedAt := Some(now))] + users[1..];
      assert r[1..] == users[1..];
      r
    else
      var tail := MarkVerified(users[1..], id, now);
      var r := [users[0]] + tail;
      assert r[1..] == tail;
      r
  }

  /** Without a user with the id nothing changes; otherwise looking the id up afterwards
      finds the user it found before, now verified at `now`. */
  lemma {:induction false} MarkVerifiedFinds(users: seq<UserDoc>, id: Id, now: string)
    ensures FindById(users, id).None? ==> MarkVerified(users, id, now) == users
    ensures FindById(users, id).Some? ==>
      FindById(MarkVerified(users, id, now), id) == Some(FindById(users, id).value.(verification := "verified", updatedAt := Some(now)))
  {
    if users != [] && users[0].id != id {
      MarkVerifiedFinds(users[1..], id, now);
    }
  }

  /** `verify_otp`: both fields truthy, the code six digits, then the user by phone. Any
      six digits are accepted for any registered phone. */
  function VerifyOtp(db: Db, body: seq<Field>, now: string): (r: Handled<string>)
    ensures r.sent == [] && r.db.shipments == db.shipments && r.db.bids == db.bids && r.db.transactions == db.transactions
    ensures !PaymentService.PyTruthy(Lookup(body, "phone")) || !PaymentService.PyTruthy(Lookup(body, "otp")) ==>
      r == Handled(db, [], Refused(400, OtpRequired))
    ensures r.reply.Answer? <==>
      && PaymentService.PyTruthy(Lookup(body, "phone")) && PaymentService.PyTruthy(Lookup(body, "otp"))
      && OtpFormat(Lookup(body, "otp").value).None?
      && Lookup(body, "phone").value.JStr?
      && FindByPhone(db.users, Lookup(body, "phone").value.s).Some?
    ensures r.reply.Answer? ==>
      && r.reply.body == "OTP verified successfully"
      && r.db.users == MarkVerified(db.users, FindByPhone(db.users, Lookup(body, "phone").value.s).value.id, now)
    ensures !r.reply.Answer? ==> r.db == db
  {
    var phone := Lookup(body, "phone");
    var otp := Lookup(body, "otp");
    if !PaymentService.PyTruthy(phone) || !PaymentService.PyTruthy(otp) then Handled(db, [], Refused(400, OtpRequired))
    else if OtpFormat(otp.value).Some? then Handled(db, [], OtpFormat(otp.value).value)
    else
      var found := if phone.value.JStr? then FindByPhone(db.users, phone.value.s) else None;
      match found
      case None => Handled(db, [], Refused(404, UserNotFound))
      case Some(u) => Handled(db.(users := MarkVerified(db.users, u.id, now)), [], Answer("OTP verified successfully"))
  }

  /** With ids unique, the user an accepted code names is found verified afterwards. */
  lemma {:induction false} MarkedUserFoundVerified(users: seq<UserDoc>, phone: string, now: string)
    requires IdsUnique(users) && FindByPhone(users, phone).Some?
    ensures var u := FindByPhone(users, phone).value;
      FindByPhone(MarkVerified(users, u.id, now), phone) == Some(u.(verification := "verified", updatedAt := Some(now)))
  {
    var u := FindByPhone(users, phone).value;
    if users[0].phone != phone {
      var rest := users[1..];
      assert IdsUnique(rest) by {
        forall i, j | 0 <= i < j < |rest| ensures rest[i].id != rest[j].id {
          assert rest[i] == users[i + 1] && rest[j] == users[j + 1];
        }
      }
      var k :| 0 <= k < |rest| && rest[k] == u;
      assert users[0].id != users[k + 1].id;
      MarkedUserFoundVerified(rest, phone, now);
    }
  }
}

=== FILE: auth_context.dfy ===
/** The client's authentication context (BirtuLogistics/src/context/AuthContext.js): the
    session reducer, saving and restoring the session in device storage under the keys
    `token` and `user`, routing of inbound socket messages to local notifications, and the
    effect that opens or closes the socket when the session changes. Device storage is a
    map from key to text; which storage call rejects is a parameter. */
module Session {
  import opened Wrappers
  import opened Text
  import opened JsonValue
  import JsonText
  import Channel

  /** `{isAuthenticated, user, token, loading}`; `user` is JSON (`JNull` for null) and
      `token` is absent for null. */
  datatype AuthState = AuthState(isAuthenticated: bool, user: Json, token: Option<string>, loading: bool)

  datatype Action =
    | Login(user: Json, token: string)
    | Logout
    | SetLoading(loading: bool)
    | Other(name: string)

  const Initial: AuthState := AuthState(false, JNull, None, true)

  /** `authReducer`. */
  function Reduce(s: AuthState, a: Action): (r: AuthState)
    ensures a.Login? ==> r == AuthState(true, a.user, Some(a.token), s.loading)
    ensures a.Logout? ==> r == AuthState(false, JNull, None, s.loading)
    ensures a.SetLoading? ==> r == s.(loading := a.loading)
    ensures a.Other? ==> r == s
  {
    match a
    case Login(u, t) => s.(isAuthenticated := true, user := u, token := Some(t))
    case Logout => s.(isAuthenticated := false, user := JNull, token := None)
    case SetLoading(b) => s.(loading := b)
    case Other(_) => s
  }

  function ReduceAll(s: AuthState, actions: seq<Action>): AuthState
    decreases |actions|
  {
    if actions == [] then s else ReduceAll(Reduce(s, actions[0]), actions[1..])
  }

  type Storage = map<string, string>

  /** `AsyncStorage.getItem` answers null for a missing key; a stored string is truthy
      only when it is not empty. */
  predicate StoredTruthy(st: Storage, key: string) {
    key in st && st[key] != ""
  }

  /** `checkAuthState`: LOGIN when both keys hold non-empty text and the user text is
      JSON, and in every case a final SET_LOADING false. `readFails` says a storage read
      rejects. */
  function Restore(st: Storage, readFails: bool): (actions: seq<Action>)
    ensures |actions| >= 1 && actions[|actions| - 1] == SetLoading(false)
    ensures (|actions| == 2 && actions[0].Login?) || |actions| == 1
    ensures |actions| == 2 <==>
      !readFails && StoredTruthy(st, "token") && StoredTruthy(st, "user") && JsonText.Parse(st["user"]).Some?
    ensures |actions| == 2 ==> actions[0] == Login(JsonText.Parse(st["user"]).value, st["token"])
  {
    if readFails then [SetLoading(false)]
    else if StoredTruthy(st, "token") && StoredTruthy(st, "user") then
      match JsonText.Parse(st["user"])
      case None => [SetLoading(false)]
      case Some(u) => [Login(u, st["token"]), SetLoading(false)]
    else [SetLoading(false)]
  }

  /** What `login`/`logout` do: the storage afterwards and the actions dispatched. */
  datatype Saved = Saved(storage: Storage, actions: seq<Action>)

  /** `login(token, user)`: store the token, then the user as JSON text, then dispatch
      LOGIN. An absent (undefined) token makes the first write reject; an absent user
      makes `JSON.stringify` answer undefined, so the second write rejects. A rejected
      write stops the sequence and nothing is dispatched. */
  function SaveLogin(st: Storage, token: Option<string>, user: Option<Json>, fault: Option<nat>): (r: Saved)
    ensures r.actions != [] <==> token.Some? && user.Some? && fault != Some(0) && fault != Some(1)
    ensures r.actions != [] ==>
      r.actions == [Login(user.value, token.value)]
      && r.storage == st["token" := token.value]["user" := JsonText.Stringify(user.value)]
    ensures r.actions == [] && (token.None? || fault == Some(0)) ==> r.storage == st
    ensures token.Some? && fault != Some(0) && (user.None? || fault == Some(1)) ==>
      r == Saved(st["token" := token.value], [])
  {
    if token.None? || fault == Some(0) then Saved(st, [])
    else
      var st1 := st["token" := token.value];
      if user.None? || fault == Some(1) then Saved(st1, [])
      else Saved(st1["user" := JsonText.Stringify(user.value)], [Login(user.value, token.value)])
  }

  /** `logout()`: remove both keys, then dispatch LOGOUT; a rejected removal stops the
      sequence and nothing is dispatched. */
  function SaveLogout(st: Storage, fault: Option<nat>): (r: Saved)
    ensures r.actions != [] <==> fault != Some(0) && fault != Some(1)
    ensures r.actions != [] ==>
      r.actions == [Logout] && "token" !in r.storage && "user" !in r.storage
      && forall k :: k != "token" && k != "user" ==> (k in r.storage <==> k in st)
    ensures r.actions != [] ==> r.storage == st - {"token", "user"}
    ensures fault == Some(0) ==> r.storage == st
    ensures fault == Some(1) ==> r.storage == st - {"token"}
  {
    if fault == Some(0) then Saved(st, [])
    else
      var st1 := st - {"token"};
      if fault == Some(1) then Saved(st1, [])
      else Saved(st1 - {"user"}, [Logout])
  }

  /** A session saved by `login` comes back on the next start: restoring dispatches LOGIN
      with the same token and an equal user, and loading ends false. */
  lemma LoginThenRestore(s: AuthState, st: Storage, token: string, user: Json, any: AuthState)
    requires token != ""
    ensures var saved := SaveLogin(st, Some(token), Some(user), None);
      var restored := Restore(saved.storage, false);
      restored == [Login(user, token), SetLoading(false)]
      && ReduceAll(any, restored) == AuthState(true, user, Some(token), false)
  {
    var saved := SaveLogin(st, Some(token), Some(user), None);
    var text := JsonText.Stringify(user);
    assert saved.storage["token"] == token;
    assert saved.storage["user"] == text;
    JsonText.StringifyRoundTrip(user);
    var restored := Restore(saved.storage, false);
    assert restored == [Login(user, token), SetLoading(false)];
    ReduceTwo(any, restored);
  }

  /** Restoring always leaves `loading` false, whatever storage holds and whatever fails. */
  lemma RestoreEndsLoading(s: AuthState, st: Storage, readFails: bool)
    ensures !ReduceAll(s, Restore(st, readFails)).loading
  {
    var acts := Restore(st, readFails);
    if |acts| == 2 {
      ReduceTwo(s, acts);
    } else {
      assert acts[1..] == [];
    }
  }

  lemma ReduceTwo(s: AuthState, acts: seq<Action>)
    requires |acts| == 2
    ensures ReduceAll(s, acts) == Reduce(Reduce(s, acts[0]), acts[1])
  {
    var s1 := Reduce(s, acts[0]);
    assert ReduceAll(s, acts) == ReduceAll(s1, acts[1..]);
    assert acts[1..][0] == acts[1] && acts[1..][1..] == [];
    assert ReduceAll(s1, acts[1..]) == ReduceAll(Reduce(s1, acts[1]), []);
  }

  /** A local notification as `scheduleNotificationAsync` receives it. */
  datatype Routed =
    | Scheduled(title: Json, body: Json, data: Json)
    | Ignored
    | Threw

  const NotificationTitle := "New Notification"
  const NotificationBody := "You have a new update."
  const NewBidTitle := "New Bid Received!"
  const NewBidBody := "A new bid has been placed on your shipment."
  const BidAcceptedTitle := "Your Bid Accepted!"
  const BidAcceptedBody := "Your bid for a shipment has been accepted."

  /** The fallback title and body for each routed message type. */
  function Fallbacks(kind: string): Option<(string, string)>
  {
    if kind == "notification" then Some((NotificationTitle, NotificationBody))
    else if kind == "new_bid" then Some((NewBidTitle, NewBidBody))
    else if kind == "bid_accepted" then Some((BidAcceptedTitle, BidAcceptedBody))
    else None
  }

  /** `handleWebSocketMessage`: switch on `message.type` by strict equality. */
  function Route(message: Json): (r: Routed)
  {
    match Get(message, "type")
    case TypeError => Threw
    case Undefined => Ignored
    case Value(t) =>
      if !t.JStr? || Fallbacks(t.s).None? then Ignored
      else
        var (title, body) := Fallbacks(t.s).value;
        var data := Get(message, "data");
        var titleP := GetProp(data, "title");
        var bodyP := GetProp(data, "message");
        if titleP.TypeError? || bodyP.TypeError? then Threw
        else Scheduled(OrElse(titleP, title), OrElse(bodyP, body), data.v)
  }

  /** Exactly the three tags schedule a notification; the title is `data.title` when
      truthy and the type's fallback otherwise, likewise the body with `data.message`,
      and the data is the payload itself. Other tags schedule nothing. */
  lemma RouteContract(message: Json)
    requires message.JObj?
    ensures var t := Get(message, "type");
      var data := Get(message, "data");
      var known := t.Value? && t.v.JStr? && Fallbacks(t.v.s).Some?;
      (!known ==> Route(message) == Ignored)
      && (known && (data.Value? && data.v.JObj?) ==>
            var fb := Fallbacks(t.v.s).value;
            Route(message) == Scheduled(
              OrElse(Get(data.v, "title"), fb.0), OrElse(Get(data.v, "message"), fb.1), data.v))
      && (known && !(data.Value? && !data.v.JNull?) ==> Route(message) == Threw)
  {
  }

  /** The tag that a message with no routed type carries is only logged. */
  lemma RouteIgnoresOtherTags(message: Json, tag: string)
    requires Get(message, "type") == Value(JStr(tag))
    requires tag != "notification" && tag != "new_bid" && tag != "bid_accepted"
    ensures Route(message) == Ignored
  {
  }

  /** `${value}` for the id the socket address is built from. */
  function TemplateText(v: Json): string
  {
    match v
    case JNull => "null"
    case JBool(b) => if b then "true" else "false"
    case JNum(n) => IntToString(n)
    case JStr(s) => s
    case JArr(xs) => JoinItems(xs)
    case JObj(_) => "[object Object]"
  }

  /** `String(array)`: the elements joined with commas, null shown as empty. */
  function JoinItems(xs: seq<Json>): string
  {
    if xs == [] then ""
    else
      var head := if xs[0].JNull? then "" else TemplateText(xs[0]);
      if |xs| == 1 then head else head + "," + JoinItems(xs[1..])
  }

  /** `state.user?.id`. */
  function UserId(s: AuthState): Prop
  {
    if s.user.JNull? then Undefined else Get(s.user, "id")
  }

  /** The handler number under which the context registers its message router. */
  const RouterHandler: Channel.HandlerId := 0

  /** The effect that follows the session: signed in with a truthy user id, connect
      and register the router; signed out with a socket, close it; otherwise nothing. */
  function SocketEffect(s: AuthState, svc: Channel.Service): (r: Channel.Step)
    ensures s.isAuthenticated && !UserId(s).TypeError? && Truthy(UserId(s)) ==>
      r.state.callbacks == svc.callbacks[Channel.OnMessage := RouterHandler]
      && r.state.ws.Some?
      && (svc.ws.Some? && svc.ws.value.state == Channel.Open ==> r.state.ws == svc.ws)
      && (!(svc.ws.Some? && svc.ws.value.state == Channel.Open) ==>
            r.state.ws.value.url == Channel.WsUrl(TemplateText(UserId(s).v))
            && r.state.ws.value.state == Channel.Connecting)
    ensures !s.isAuthenticated && svc.ws.Some? ==> r == Channel.Close(svc)
    ensures !s.isAuthenticated && svc.ws.None? ==> r == Channel.Step(svc, [])
    ensures s.isAuthenticated && !(!UserId(s).TypeError? && Truthy(UserId(s))) ==> r == Channel.Step(svc, [])
  {
    var id := UserId(s);
    if s.isAuthenticated && !id.TypeError? && Truthy(id) then
      var c := Channel.Connect(svc, TemplateText(id.v));
      Channel.Step(Channel.Register(c.state, Channel.OnMessage, RouterHandler), c.effects)
    else if !s.isAuthenticated && svc.ws.Some? then Channel.Close(svc)
    else Channel.Step(svc, [])
  }
}

=== FILE: available_shipments.dfy ===
/** The driver's list of open shipments (BirtuLogistics/src/screens/driver/AvailableShipmentsScreen.js):
    each card shows the shipment with its badges, and offers "Submit Bid" only when the
    signed-in driver's vehicles meet one of the shipment's vehicle requirements. The user
    is the dictionary the server's login hands back, as the session keeps it. */
module AvailableShipments {
  import opened Wrappers
  import opened Text
  import opened UserModel
  import Labels
  import ShipmentModel
  import NumberText

  /** A shipment as the list shows it; `createdAt` is milliseconds on the device clock. */
  datatype Listing = Listing(
    id: string, customerName: string, urgency: string, createdAt: int,
    pickupAddress: string, dropoffAddress: string, itemDescription: string,
    weightKg: real, estimatedDistance: real, photos: seq<string>,
    vehicleRequirements: seq<string>, bidCount: int)

  /** `user?.vehicleTypes?.includes(vehicle)`: false when signed out or when the member is
      missing or `null`; a list is searched for the entry, a text for the piece. */
  predicate Offers(user: Option<map<string, Attr>>, key: string, vehicle: string) {
    && user.Some? && key in user.value
    && match user.value[key]
       case AStrs(items) => vehicle in items
       case AStr(s) => Contains(s, vehicle)
       case _ => false
  }

  /** `canBid`: some requirement is offered by the user's `vehicleTypes`. */
  predicate CanBid(listing: Listing, user: Option<map<string, Attr>>) {
    exists i :: 0 <= i < |listing.vehicleRequirements| && Offers(user, "vehicleTypes", listing.vehicleRequirements[i])
  }

  /** The user the server returns has no `vehicleTypes` member, only `vehicle_type`, so
      no driver can bid on any shipment, whatever vehicle they registered. */
  lemma NoServerUserCanBid(listing: Listing, u: UserDoc)
    ensures !CanBid(listing, Some(Public(u)))
  {
    assert "vehicleTypes" !in Public(u);
  }

  /** The evidently intended check: the driver's one registered vehicle type is among
      the requirements. */
  predicate CanBidCorrected(listing: Listing, user: Option<map<string, Attr>>) {
    exists i :: 0 <= i < |listing.vehicleRequirements| && user.Some? && "vehicle_type" in user.value
      && user.value["vehicle_type"] == AStr(listing.vehicleRequirements[i])
  }

  /** With the intended check, a driver can bid exactly when their vehicle is required,
      and a user without a vehicle never can. */
  lemma CorrectedCanBid(listing: Listing, u: UserDoc)
    ensures CanBidCorrected(listing, Some(Public(u))) <==> u.vehicleType.Some? && u.vehicleType.value in listing.vehicleRequirements
  {
    var d := Public(u);
    assert "vehicle_type" in d && d["vehicle_type"] == OptStr(u.vehicleType);
    if u.vehicleType.Some? && u.vehicleType.value in listing.vehicleRequirements {
      var i :| 0 <= i < |listing.vehicleRequirements| && listing.vehicleRequirements[i] == u.vehicleType.value;
      assert d["vehicle_type"] == AStr(listing.vehicleRequirements[i]);
    }
  }

  /** What one card shows. */
  datatype Card = Card(
    urgencyLabel: string, urgencyColour: Labels.Colour, posted: Labels.Ago,
    vehicleTags: seq<(string, string)>, photoCaption: Option<string>, bidCaption: string,
    bidDisabled: bool, warning: bool)

  /** `renderShipmentCard` at clock reading `now`. The button is disabled and the warning
      shown exactly when the driver cannot bid; each requirement gets a tag whose name
      reads back as that requirement; the photo caption appears only when there are
      photos, and both captions read back, with `parseInt`, as the count they show, with
      the plural noun exactly when the count calls for it. */
  function CardOf(listing: Listing, user: Option<map<string, Attr>>, now: int): (r: Card)
    ensures r.bidDisabled <==> !CanBid(listing, user)
    ensures r.warning <==> r.bidDisabled
    ensures |r.vehicleTags| == |listing.vehicleRequirements|
    ensures forall i :: 0 <= i < |listing.vehicleRequirements| && listing.vehicleRequirements[i] in ShipmentModel.VehicleTexts ==>
      Labels.VehicleOfName(r.vehicleTags[i].1) == Some(listing.vehicleRequirements[i])
    ensures r.photoCaption.Some? <==> |listing.photos| > 0
    ensures r.photoCaption.Some? ==> NumberText.ParseInt(r.photoCaption.value) == Some(|listing.photos|)
    ensures r.photoCaption.Some? ==> (Last(r.photoCaption.value) == 's' <==> |listing.photos| != 1)
    ensures NumberText.ParseInt(r.bidCaption) == Some(listing.bidCount)
    ensures Last(r.bidCaption) == 's' <==> listing.bidCount != 1
  {
    var reqs := listing.vehicleRequirements;
    var can := CanBid(listing, user);
    TagsReadBack(reqs);
    Card(
      Labels.UrgencyLabel(listing.urgency), Labels.UrgencyColour(listing.urgency),
      Labels.Elapsed(now - listing.createdAt),
      Tags(reqs), PhotoCaption(|listing.photos|), BidCaption(listing.bidCount),
      !can, !can)
  }

  /** `{n} photo{n > 1 ? 's' : ''}`, shown only when there are photos. */
  function PhotoCaption(n: nat): (c: Option<string>)
    ensures c.Some? <==> n > 0
    ensures c.Some? ==> NumberText.ParseInt(c.value) == Some(n) && (Last(c.value) == 's' <==> n != 1)
  {
    var noun := if n > 1 then " photos" else " photo";
    NumberText.ParseRenderedThen(n, noun);
    assert IntToString(n) == NatToString(n);
    if n > 0 then Some(NatToString(n) + noun) else None
  }

  /** `{count} bid{count !== 1 ? 's' : ''}`. */
  function BidCaption(count: int): (c: string)
    ensures NumberText.ParseInt(c) == Some(count)
    ensures Last(c) == 's' <==> count != 1
  {
    var noun := " " + Labels.Plural("bid", count);
    NumberText.ParseRenderedThen(count, noun);
    IntToString(count) + noun
  }

  /** The last character of a non-empty caption. */
  function Last(s: string): char
  {
    if s == [] then ' ' else s[|s| - 1]
  }

  /** One tag per requirement: its icon and its name. */
  function Tags(reqs: seq<string>): seq<(string, string)>
  {
    seq(|reqs|, i requires 0 <= i < |reqs| => (Labels.VehicleIcon(reqs[i]), Labels.VehicleName(reqs[i])))
  }

  lemma TagsReadBack(reqs: seq<string>)
    ensures |Tags(reqs)| == |reqs|
    ensures forall i :: 0 <= i < |reqs| && reqs[i] in ShipmentModel.VehicleTexts ==> Labels.VehicleOfName(Tags(reqs)[i].1) == Some(reqs[i])
  {
    forall i | 0 <= i < |reqs| && reqs[i] in ShipmentModel.VehicleTexts
      ensures Labels.VehicleOfName(Tags(reqs)[i].1) == Some(reqs[i])
    {
      Labels.VehicleNamesRoundTrip(reqs[i]);
    }
  }

  /** The two captions count differently: no bids reads "0 bids", while no photos shows
      no caption at all and one photo reads "1 photo". */
  lemma CaptionsForZeroAndOne(listing: Listing, user: Option<map<string, Attr>>, now: int)
    ensures listing.bidCount == 0 ==> CardOf(listing, user, now).bidCaption == "0 bids"
    ensures listing.bidCount == 1 ==> CardOf(listing, user, now).bidCaption == "1 bid"
    ensures |listing.photos| == 0 ==> CardOf(listing, user, now).photoCaption.None?
    ensures |listing.photos| == 1 ==> CardOf(listing, user, now).photoCaption == Some("1 photo")
  {
    var c := CardOf(listing, user, now);
    assert c.bidCaption == BidCaption(listing.bidCount) && c.photoCaption == PhotoCaption(|listing.photos|);
    BidCaptionZero();
    BidCaptionOne();
    PhotoCaptionOne();
  }

  // The three captions above, one concrete count each; stated apart because together
  // they exceed the solver's budget.

  lemma BidCaptionZero()
    ensures BidCaption(0) == "0 bids"
  {
    assert IntToString(0) == "0";
    assert Labels.Plural("bid", 0) == "bids";
  }

  lemma BidCaptionOne()
    ensures BidCaption(1) == "1 bid"
  {
    assert IntToString(1) == "1";
    assert Labels.Plural("bid", 1) == "bid";
  }

  lemma PhotoCaptionOne()
    ensures PhotoCaption(1) == Some("1 photo")
  {
    assert NatToString(1) == "1";
    assert "1" + " photo" == "1 photo";
  }
}

=== FILE: bid_review.dfy ===
/** The customer's review of the bids on their shipment
    (BirtuLogistics/src/screens/customer/BidReviewScreen.js): a card per bid with the
    driver's rating drawn as stars, and the acceptance flow, during which the other
    cards and the screen's own buttons are locked. The acceptance itself is simulated by
    the screen, so only its effect on what is enabled is modelled. */
module BidReview {
  import opened Wrappers
  import Labels

  datatype Bid = Bid(
    id: string, driverName: string, driverRating: real, vehicleType: string,
    amount: real, estimatedTime: string, bidTime: int)

  datatype Star = Full | Half | Empty

  /** `Math.ceil`. */
  function Ceil(x: real): int
  {
    -((-x).Floor)
  }

  /** `Math.floor(r)` full stars, a half star when `r % 1 !== 0`, that is when `r` is not
      whole, and `5 - Math.ceil(r)` empty ones; a loop to a negative bound draws none. */
  function Stars(rating: real): (s: seq<Star>)
  {
    var full := rating.Floor;
    var empty := 5 - Ceil(rating);
    seq(if full > 0 then full else 0, _ => Full)
      + (if rating != rating.Floor as real then [Half] else [])
      + seq(if empty > 0 then empty else 0, _ => Empty)
  }

  /** The number of stars of one kind. */
  function CountOf(s: seq<Star>, k: Star): nat
  {
    if s == [] then 0 else CountOf(s[..|s| - 1], k) + (if s[|s| - 1] == k then 1 else 0)
  }

  lemma {:induction false} CountOfAppend(a: seq<Star>, b: seq<Star>, k: Star)
    ensures CountOf(a + b, k) == CountOf(a, k) + CountOf(b, k)
  {
    if b != [] {
      assert (a + b)[..|a + b| - 1] == a + b[..|b| - 1];
      CountOfAppend(a, b[..|b| - 1], k);
    } else {
      assert a + b == a;
    }
  }

  lemma {:induction false} CountOfConstant(n: nat, k: Star, j: Star)
    ensures CountOf(seq(n, _ => k), j) == (if k == j then n else 0)
  {
    if n > 0 {
      assert seq(n, _ => k)[..n - 1] == seq(n - 1, _ => k);
      CountOfConstant(n - 1, k, j);
    }
  }

  /** For a rating from 0 to 5 the row always has five stars: the whole part full, one
      half star exactly when the rating is not whole, and the rest empty. */
  lemma FiveStars(rating: real)
    requires 0.0 <= rating <= 5.0
    ensures |Stars(rating)| == 5
    ensures CountOf(Stars(rating), Full) == rating.Floor
    ensures CountOf(Stars(rating), Half) == (if rating != rating.Floor as real then 1 else 0)
    ensures CountOf(Stars(rating), Empty) == 5 - Ceil(rating)
  {
    var full := rating.Floor;
    var empty := 5 - Ceil(rating);
    var half: seq<Star> := if rating != rating.Floor as real then [Half] else [];
    if rating == rating.Floor as real {
      assert Ceil(rating) == full;
    } else {
      assert Ceil(rating) == full + 1;
    }
    assert 0 <= full && 0 <= empty;
    var a := seq(full, _ => Full);
    var c := seq(empty, _ => Empty);
    assert Stars(rating) == a + half + c;
    forall k: Star ensures CountOf(Stars(rating), k) == CountOf(a, k) + CountOf(half, k) + CountOf(c, k) {
      CountOfAppend(a + half, c, k);
      CountOfAppend(a, half, k);
    }
    CountOfConstant(full, Full, Full);
    CountOfConstant(full, Full, Half);
    CountOfConstant(full, Full, Empty);
    CountOfConstant(empty, Empty, Full);
    CountOfConstant(empty, Empty, Half);
    CountOfConstant(empty, Empty, Empty);
    if half != [] {
      assert half[..0] == [];
    }
  }

  /** Nothing bounds a rating at 5, and a rating above 5 draws more than five stars. */
  lemma OverFiveStars(rating: real)
    requires rating > 5.0
    ensures |Stars(rating)| > 5
  {
    assert rating.Floor >= 5;
  }

  /** `acceptingBid`: the id of the bid being accepted, `null` (`None`) otherwise. */
  type Accepting = Option<string>

  /** The value as a condition: `null` and the empty id are falsy. */
  predicate Busy(accepting: Accepting) {
    accepting.Some? && accepting.value != ""
  }

  /** What a card's Accept button shows. */
  datatype Button = Button(title: string, loading: bool, disabled: bool)

  /** `isAccepting ? 'Accepting...' : 'Accept Bid'`, with `disabled={acceptingBid &&
      acceptingBid !== bid.id}`. */
  function AcceptButton(accepting: Accepting, b: Bid): (r: Button)
    ensures r.loading <==> accepting == Some(b.id)
    ensures r.disabled <==> Busy(accepting) && !r.loading
  {
    var isAccepting := accepting == Some(b.id);
    Button(if isAccepting then "Accepting..." else "Accept Bid", isAccepting, Busy(accepting) && accepting.value != b.id)
  }

  /** The chat button of every card, "Back to Edit" and "Cancel Shipment" take
      `disabled={acceptingBid}`. */
  function ScreenLocked(accepting: Accepting): (r: bool)
    ensures r <==> forall b: Bid :: AcceptButton(accepting, b).loading || AcceptButton(accepting, b).disabled
  {
    var idle := Bid("a", "", 0.0, "", 0.0, "", 0);
    assert !Busy(accepting) ==> !AcceptButton(accepting, idle).loading && !AcceptButton(accepting, idle).disabled;
    Busy(accepting)
  }

  /** Confirming the acceptance of `b` marks it; the simulated request settling clears
      the mark, whether it succeeded or not. */
  function Confirm(b: Bid): Accepting { Some(b.id) }

  const Settled: Accepting := None

  /** While a bid with a non-empty id is being accepted, every other card's Accept button
      and the screen's buttons are locked, and its own button shows the spinner and stays
      enabled; once settled, everything is enabled again. With an empty id, which is
      falsy, nothing is locked. */
  lemma AcceptingLocksOthers(b: Bid, other: Bid)
    requires other.id != b.id
    ensures b.id != "" ==> AcceptButton(Confirm(b), other).disabled && ScreenLocked(Confirm(b))
    ensures AcceptButton(Confirm(b), b) == Button("Accepting...", true, false)
    ensures b.id == "" ==> !AcceptButton(Confirm(b), other).disabled && !ScreenLocked(Confirm(b))
    ensures AcceptButton(Settled, other) == Button("Accept Bid", false, false) && !ScreenLocked(Settled)
  {
  }

  /** The header line: "N drivers interested", singular for exactly one. */
  function Interested(bids: seq<Bid>): (r: string)
    ensures |bids| == 1 <==> r == "driver"
  {
    Labels.Plural("driver", |bids|)
  }
}

=== FILE: bid_submission.dfy ===
/** A driver's bid form (BirtuLogistics/src/screens/driver/BidSubmissionScreen.js): the
    amount and pickup-time checks, the suggested price and its "Use This" button, and the
    bid the form assembles. The form only simulates the request, so the assembled bid
    goes nowhere. */
module BidSubmission {
  import opened Wrappers
  import opened Text
  import opened NumberText

  datatype Input = BidAmount | EstimatedTime

  /** The three text fields of the form. */
  datatype Form = Form(amount: string, time: string, notes: string)

  const AmountRequired := "Bid amount is required"
  const AmountInvalid := "Please enter a valid amount"
  const AmountTooLow := "Minimum bid amount is 50 ETB"
  const TimeRequired := "Estimated time is required"
  const TimeInvalid := "Please enter a valid time in minutes"

  /** The least amount a bid may offer, in birr. */
  const MinimumBid: real := 50.0

  function Check(f: Form, i: Input): Option<string>
  {
    match i
    case BidAmount =>
      if Trim(f.amount) == "" then Some(AmountRequired)
      else if ParseFloat(f.amount).None? || ParseFloat(f.amount).value <= 0.0 then Some(AmountInvalid)
      else if ParseFloat(f.amount).value < MinimumBid then Some(AmountTooLow) else None
    case EstimatedTime =>
      if Trim(f.time) == "" then Some(TimeRequired)
      else if ParseInt(f.time).None? || ParseInt(f.time).value <= 0 then Some(TimeInvalid) else None
  }

  /** `validateForm`'s `newErrors`: which message each refused field shows. */
  function Validate(f: Form): (e: map<Input, string>)
    ensures BidAmount in e <==> Trim(f.amount) == "" || ParseFloat(f.amount).None? || ParseFloat(f.amount).value < MinimumBid
    ensures EstimatedTime in e <==> Trim(f.time) == "" || ParseInt(f.time).None? || ParseInt(f.time).value <= 0
    ensures BidAmount in e && ParseFloat(f.amount).Some? && ParseFloat(f.amount).value > 0.0 && Trim(f.amount) != "" ==> e[BidAmount] == AmountTooLow
  {
    map i | i in {BidAmount, EstimatedTime} && Check(f, i).Some? :: Check(f, i).value
  }

  /** The form passes exactly when the amount reads as at least 50 and the time as a
      positive whole number; blank text never reads as a number, so the "required" checks
      add nothing to that. */
  lemma ValidIff(f: Form)
    ensures Validate(f) == map[] <==>
      && ParseFloat(f.amount).Some? && ParseFloat(f.amount).value >= MinimumBid
      && ParseInt(f.time).Some? && ParseInt(f.time).value > 0
  {
    if Trim(f.amount) == "" { BlankIsNaN(f.amount); }
    if Trim(f.time) == "" { BlankIsNaN(f.time); }
    var e := Validate(f);
    if e == map[] {
      assert BidAmount !in e && EstimatedTime !in e;
    }
  }

  /** `Math.round`: the nearest integer, a half rounded up. */
  function Round(x: real): int
  {
    (x + 0.5).Floor
  }

  /** No integer lies nearer to `x` than its rounding. */
  lemma RoundIsNearest(x: real, k: int)
    ensures x - 0.5 < Round(x) as real <= x + 0.5
    ensures (Round(x) as real - x) * (Round(x) as real - x) <= (k as real - x) * (k as real - x)
  {
    var r := Round(x) as real;
    var d := k as real - x;
    var e := r - x;
    assert -0.5 < e <= 0.5;
    if e >= 0.0 {
      assert e * e <= e * 0.5;
    } else {
      assert e * e <= -e * 0.5;
    }
    assert e * e <= 0.25;
    if k < Round(x) {
      assert k as real <= r - 1.0;
      assert d <= -0.5;
      assert d * d >= -d * 0.5 >= 0.25;
    } else if k > Round(x) {
      assert k as real >= r + 1.0;
      assert d > 0.5;
      assert d * d >= d * 0.5 >= 0.25;
    }
  }

  /** Rounding never reverses an order. */
  lemma RoundMonotone(x: real, y: real)
    requires x <= y
    ensures Round(x) <= Round(y)
  {
  }

  const BaseRate: real := 15.0

  /** `Math.max(1, weightKg / 10)`. */
  function WeightMultiplier(weight: real): (m: real)
    ensures m >= 1.0 && m >= weight / 10.0
  {
    if weight / 10.0 > 1.0 then weight / 10.0 else 1.0
  }

  /** The urgency factor: twice for `high`, one and a half for `medium`, once otherwise. */
  function UrgencyMultiplier(urgency: string): (m: real)
    ensures 1.0 <= m <= 2.0
  {
    if urgency == "high" then 2.0 else if urgency == "medium" then 1.5 else 1.0
  }

  /** `calculateSuggestedBid`: fifteen birr a kilometre, scaled by weight and urgency,
      rounded to whole birr. */
  function SuggestedBid(distance: real, weight: real, urgency: string): (r: int)
    ensures distance >= 0.0 ==> r >= 0
  {
    var x := distance * BaseRate * WeightMultiplier(weight) * UrgencyMultiplier(urgency);
    assert distance >= 0.0 ==> x >= 0.0;
    Round(x)
  }

  /** For a route of non-negative length, a more urgent delivery is never suggested a
      lower price, and neither is a longer route. */
  lemma SuggestionMonotone(distance: real, longer: real, weight: real, urgency: string)
    requires 0.0 <= distance <= longer
    ensures SuggestedBid(distance, weight, "low") <= SuggestedBid(distance, weight, "medium") <= SuggestedBid(distance, weight, "high")
    ensures SuggestedBid(distance, weight, urgency) <= SuggestedBid(longer, weight, urgency)
  {
    var p := distance * BaseRate * WeightMultiplier(weight);
    ScaleMonotone(1.0, 1.5, p);
    ScaleMonotone(1.5, 2.0, p);
    RoundMonotone(p * 1.0, p * 1.5);
    RoundMonotone(p * 1.5, p * 2.0);
    var q := BaseRate * WeightMultiplier(weight);
    ScaleMonotone(distance, longer, q);
    ScaleMonotone(distance * q, longer * q, UrgencyMultiplier(urgency));
    RoundMonotone(distance * q * UrgencyMultiplier(urgency), longer * q * UrgencyMultiplier(urgency));
  }

  /** Scaling by a non-negative factor keeps an order. */
  lemma ScaleMonotone(a: real, b: real, c: real)
    requires a <= b && 0.0 <= c
    ensures a * c <= b * c && c * a <= c * b
  {
  }

  /** "Use This": the amount field takes the suggestion's decimal text. */
  function UseSuggested(f: Form, suggested: int): (r: Form)
    ensures r.time == f.time && r.notes == f.notes
  {
    f.(amount := IntToString(suggested))
  }

  /** Taking a suggestion, which for a route of non-negative length is a natural number,
      and reading it back gives the suggested amount, and the form then refuses the
      amount exactly when the suggestion is under the minimum. */
  lemma SuggestionRoundTrip(f: Form, s: nat)
    ensures ParseFloat(UseSuggested(f, s).amount) == Some(s as real)
    ensures BidAmount in Validate(UseSuggested(f, s)) <==> s < 50
  {
    SuggestionReads(s);
    assert UseSuggested(f, s).amount == IntToString(s);
  }

  /** A suggestion's text is not blank, has nothing to trim, and reads back as the
      suggestion. */
  lemma SuggestionReads(s: nat)
    ensures Trim(IntToString(s)) == IntToString(s) != ""
    ensures ParseFloat(IntToString(s)) == Some(s as real)
  {
    var t := NatToString(s);
    assert IntToString(s) == t;
    ParseRendered(s);
    assert !IsSpace(t[0]) && !IsSpace(t[|t| - 1]) by {
      assert IsDigit(t[0]) && IsDigit(t[|t| - 1]);
    }
    TrimKeeps(t);
  }

  /** `bidData`: what the form would send. */
  datatype BidData = BidData(
    shipmentId: string, driverId: string, amount: real, estimatedTimeMinutes: int,
    notes: string, vehicleType: Option<string>)

  /** `submitBid`: no bid while the form is refused; otherwise one for at least the
      minimum, a positive time, and the notes trimmed. */
  function Submit(f: Form, shipmentId: string, driverId: string, vehicleType: Option<string>): (r: Option<BidData>)
    ensures r.Some? <==> Validate(f) == map[]
    ensures r.Some? ==> r.value.amount >= MinimumBid && r.value.estimatedTimeMinutes > 0
    ensures r.Some? ==> ParseFloat(f.amount) == Some(r.value.amount) && ParseInt(f.time) == Some(r.value.estimatedTimeMinutes)
    ensures r.Some? ==> r.value.notes == Trim(f.notes) && r.value.shipmentId == shipmentId && r.value.driverId == driverId
  {
    ValidIff(f);
    if Validate(f) != map[] then None
    else Some(BidData(shipmentId, driverId, ParseFloat(f.amount).value, ParseInt(f.time).value, Trim(f.notes), vehicleType))
  }
}

=== FILE: bids_api.dfy ===
/** The bid endpoints of the server (backend/app/api/bids.py): submitting a bid, listing a
    shipment's bids and a driver's own, and accepting or rejecting a bid. The signed-in
    user is the one `get_current_user` resolved. Fresh ids, the clock, the notification
    timestamp and the text Python prints for an amount are parameters.

    As written, both `submit_bid` and `accept_bid` build their notification from
    `current_user.full_name`, an attribute `UserInDB` does not have (its member is
    `name`). The resulting `AttributeError` escapes after the database writes, so the
    request answers 500 and nothing is broadcast. `SubmitBid` and `AcceptBidRequest`
    model that; `SubmitBidNotifying` and `AcceptBidNotifying` read `name` instead.

    Also as written, `submit_bid` hands `create_bid` the dictionary `bid_data.dict()`, in
    which the shipment id has become text, while every bid query by shipment holds an
    ObjectId. So the duplicate-bid check finds no earlier bid, the owner's listing is
    empty, and accepting a bid rejects none of the others. `SubmitBid` and
    `SubmitBidNotifying` store text; `SubmitBidCorrected` stores the ObjectId and reads
    `name`. */
module BidsApi {
  import opened Wrappers
  import opened JsonValue
  import opened ShipmentModel
  import opened ShipmentService
  import UserModel
  import Notifications
  import opened Http

  type User = UserModel.UserDoc

  /** The request body `BidCreate`. */
  datatype BidRequest = BidRequest(shipmentId: string, amount: real)

  /** The error escaping at `current_user.full_name`. */
  const NoFullName := "AttributeError: full_name"

  /** The vehicle check applies only when the driver has a vehicle type and the shipment
      lists requirements; then the type must be one of them. */
  predicate VehicleFits(user: User, s: Shipment) {
    user.vehicleType.None? || user.vehicleType.value == "" || s.doc.vehicleRequirements == []
    || user.vehicleType.value in s.doc.vehicleRequirements
  }

  /** The duplicate check finds an earlier bid: `get_bids_by_shipment` lists a bid of the
      driver, which it does only for a bid that records the shipment as an ObjectId. */
  predicate HasBidOn(db: Db, driver: Id, shipmentId: Id) {
    exists b :: b in db.bids && db.bids[b].shipmentId == Oid(shipmentId) && db.bids[b].driverId == driver
  }

  /** No driver holds two bids on one shipment, however the bids record it. */
  predicate OneBidPerDriver(db: Db) {
    forall a, b :: a in db.bids && b in db.bids && a != b && ShipmentOf(db.bids[a]) == ShipmentOf(db.bids[b])
      ==> db.bids[a].driverId != db.bids[b].driverId
  }

  /** The checks of `submit_bid` in order: a valid body, a driver, verified, the shipment
      exists, it is open for bidding, the vehicle fits, no earlier bid found. The first
      failing check decides the reply; when all pass, the shipment is handed on. When
      every stored bid records its shipment as text, the duplicate check never refuses. */
  function SubmitChecks(db: Db, user: User, request: BidRequest): (r: Reply<Shipment>)
    ensures !ValidId(request.shipmentId) ==> r == Refused(422, "Invalid objectid")
    ensures ValidId(request.shipmentId) && user.role != "driver" ==> r == Refused(403, "Only drivers can submit bids")
    ensures ValidId(request.shipmentId) && user.role == "driver" && user.verification != "verified" ==>
      r == Refused(403, "Driver must be verified to submit bids")
    ensures ValidId(request.shipmentId) && user.role == "driver" && user.verification == "verified" ==>
      var sid := Canonical(request.shipmentId);
      && (sid !in db.shipments ==> r == Refused(404, "Shipment not found"))
      && (sid in db.shipments && !Readable(db.shipments[sid]) ==> r.Crashed?)
      && (sid in db.shipments && Readable(db.shipments[sid]) ==>
            (r.Answer? <==>
               StatusOf(db.shipments[sid]) == Some(Bidding)
               && VehicleFits(user, Shipment(sid, db.shipments[sid], Bidding))
               && !HasBidOn(db, user.id, sid))
            && (StatusOf(db.shipments[sid]) != Some(Bidding) ==> r == Refused(400, "Shipment is not accepting bids")))
    ensures r.Answer? ==>
      r.body.id == Canonical(request.shipmentId) && r.body.status == Bidding
      && r.body.id in db.shipments && r.body.doc == db.shipments[r.body.id] && !HasBidOn(db, user.id, r.body.id)
    ensures StoredAsText(db) && ValidId(request.shipmentId) && user.role == "driver" && user.verification == "verified" ==>
      var sid := Canonical(request.shipmentId);
      sid in db.shipments && Readable(db.shipments[sid]) ==>
        (r.Answer? <==> StatusOf(db.shipments[sid]) == Some(Bidding) && VehicleFits(user, Shipment(sid, db.shipments[sid], Bidding)))
  {
    if !ValidId(request.shipmentId) then Refused(422, "Invalid objectid")
    else if user.role != "driver" then Refused(403, "Only drivers can submit bids")
    else if user.verification != "verified" then Refused(403, "Driver must be verified to submit bids")
    else
      var sid := Canonical(request.shipmentId);
      match GetShipment(db, sid)
      case Nothing => Refused(404, "Shipment not found")
      case Raised(m) => Crashed(m)
      case Done(s) =>
        if s.status != Bidding then Refused(400, "Shipment is not accepting bids")
        else if !VehicleFits(user, s) then Refused(400, "Your vehicle type doesn't match shipment requirements")
        else if HasBidOn(db, user.id, sid) then Refused(400, "You have already submitted a bid for this shipment")
        else Answer(s)
  }

  /** `submit_bid` as written: when every check passes the bid is stored, recording its
      shipment as text, so no shipment's embedded list changes; then the missing
      `full_name` escapes, so the request never succeeds. A refused request changes
      nothing. */
  function SubmitBid(db: Db, user: User, request: BidRequest, bidId: Id, now: nat): (r: Handled<BidDoc>)
    requires bidId !in db.bids
    ensures !r.reply.Answer? && r.sent == []
    ensures !SubmitChecks(db, user, request).Answer? ==> r.db == db
    ensures SubmitChecks(db, user, request).Answer? ==>
      r.reply == Crashed(NoFullName)
      && r.db.bids == db.bids[bidId := BidDoc(Str(Canonical(request.shipmentId)), user.id, request.amount, Pending, now)]
      && r.db.shipments == db.shipments && r.db.users == db.users
  {
    match SubmitChecks(db, user, request)
    case Answer(s) =>
      Handled(CreateBid(db, Str(s.id), request.amount, user.id, bidId, now).db, [], Crashed(NoFullName))
    case Refused(c, d) => Handled(db, [], Refused(c, d))
    case Crashed(e) => Handled(db, [], Crashed(e))
  }

  /** `submit_bid` reading the driver's `name`: the bid is stored (its shipment as text,
      as written), the customer's new-bid notification is broadcast, and the new bid is
      the answer. */
  function SubmitBidNotifying(db: Db, user: User, request: BidRequest, bidId: Id, now: nat, amountText: string, timestamp: string): (r: Handled<BidDoc>)
    requires bidId !in db.bids
    ensures r.reply.Answer? <==> SubmitChecks(db, user, request).Answer?
    ensures !SubmitChecks(db, user, request).Answer? ==> r.db == db && r.sent == []
    ensures SubmitChecks(db, user, request).Answer? ==>
      var sid := Canonical(request.shipmentId);
      r.reply == Answer(BidDoc(Str(sid), user.id, request.amount, Pending, now))
      && r.db.bids == db.bids[bidId := BidDoc(Str(sid), user.id, request.amount, Pending, now)]
      && r.db.shipments == db.shipments
      && r.sent == [Notifications.Envelope(Notifications.NewBidPayload(amountText, sid, bidId, JStr(user.name)), timestamp)]
  {
    match SubmitChecks(db, user, request)
    case Answer(s) =>
      var created := CreateBid(db, Str(s.id), request.amount, user.id, bidId, now);
      var payload := Notifications.NewBidPayload(amountText, s.id, bidId, JStr(user.name));
      Handled(created.db, [Notifications.Envelope(payload, timestamp)], Answer(created.out.value))
    case Refused(c, d) => Handled(db, [], Refused(c, d))
    case Crashed(e) => Handled(db, [], Crashed(e))
  }

  /** Both versions agree on the database: the fix changes only the reply and the
      broadcast. */
  lemma NotifyingKeepsWrites(db: Db, user: User, request: BidRequest, bidId: Id, now: nat, amountText: string, timestamp: string)
    requires bidId !in db.bids
    ensures SubmitBidNotifying(db, user, request, bidId, now, amountText, timestamp).db == SubmitBid(db, user, request, bidId, now).db
  {
  }

  /** As written, a stored bid is invisible to every later check: the database after a
      bid passes the same checks the same way, so a driver can bid on one shipment
      again, and the second bid leaves the driver with two. */
  lemma SecondBidAccepted(db: Db, user: User, request: BidRequest, bidId: Id, now: nat, secondId: Id, later: nat)
    requires StoredAsText(db)
    requires bidId !in db.bids && secondId !in db.bids && secondId != bidId
    requires SubmitChecks(db, user, request).Answer?
    ensures var after := SubmitBid(db, user, request, bidId, now).db;
      && StoredAsText(after)
      && SubmitChecks(after, user, request) == SubmitChecks(db, user, request)
      && !OneBidPerDriver(SubmitBid(after, user, request, secondId, later).db)
  {
    var sid := Canonical(request.shipmentId);
    var after := SubmitBid(db, user, request, bidId, now).db;
    assert !HasBidOn(after, user.id, sid);
    assert GetShipment(after, sid) == GetShipment(db, sid);
    var twice := SubmitBid(after, user, request, secondId, later).db;
    assert twice.bids[bidId] == after.bids[bidId];
    assert ShipmentOf(twice.bids[bidId]) == sid == ShipmentOf(twice.bids[secondId]);
  }

  /** `submit_bid` with both corrections: the bid records its shipment as
      `ObjectId(shipment_id)`, so its entry is pushed onto the shipment, and the
      notification reads the driver's `name`. */
  function SubmitBidCorrected(db: Db, user: User, request: BidRequest, bidId: Id, now: nat, amountText: string, timestamp: string): (r: Handled<BidDoc>)
    requires bidId !in db.bids
    ensures r.reply.Answer? <==> SubmitChecks(db, user, request).Answer?
    ensures !SubmitChecks(db, user, request).Answer? ==> r.db == db && r.sent == []
    ensures SubmitChecks(db, user, request).Answer? ==>
      var sid := Canonical(request.shipmentId);
      var bid := BidDoc(Oid(sid), user.id, request.amount, Pending, now);
      && r.reply == Answer(bid)
      && r.db.bids == db.bids[bidId := bid]
      && sid in r.db.shipments
      && r.db.shipments[sid].bids == db.shipments[sid].bids + [NewEmbeddedBid(user.id, request.amount, now)]
      && r.sent == [Notifications.Envelope(Notifications.NewBidPayload(amountText, sid, bidId, JStr(user.name)), timestamp)]
  {
    match SubmitChecks(db, user, request)
    case Answer(s) =>
      var created := CreateBid(db, Oid(s.id), request.amount, user.id, bidId, now);
      var payload := Notifications.NewBidPayload(amountText, s.id, bidId, JStr(user.name));
      Handled(created.db, [Notifications.Envelope(payload, timestamp)], Answer(created.out.value))
    case Refused(c, d) => Handled(db, [], Refused(c, d))
    case Crashed(e) => Handled(db, [], Crashed(e))
  }

  /** With the correction, submitting keeps every driver to at most one bid per shipment,
      and every bid keeps recording its shipment as an ObjectId. */
  lemma SubmitKeepsOneBidPerDriver(db: Db, user: User, request: BidRequest, bidId: Id, now: nat, amountText: string, timestamp: string)
    requires bidId !in db.bids && OneBidPerDriver(db) && StoredAsOid(db)
    ensures var after := SubmitBidCorrected(db, user, request, bidId, now, amountText, timestamp).db;
      OneBidPerDriver(after) && StoredAsOid(after)
  {
    var checks := SubmitChecks(db, user, request);
    if checks.Answer? {
      var after := SubmitBidCorrected(db, user, request, bidId, now, amountText, timestamp).db;
      var nb := BidDoc(Oid(checks.body.id), user.id, request.amount, Pending, now);
      assert after.bids == db.bids[bidId := nb];
      forall a, b | a in after.bids && b in after.bids && a != b && ShipmentOf(after.bids[a]) == ShipmentOf(after.bids[b])
        ensures after.bids[a].driverId != after.bids[b].driverId
      {
        if a == bidId {
          assert !(db.bids[b].shipmentId == Oid(checks.body.id) && db.bids[b].driverId == user.id);
        } else if b == bidId {
          assert !(db.bids[a].shipmentId == Oid(checks.body.id) && db.bids[a].driverId == user.id);
        }
      }
    }
  }

  /** `get_shipment_bids`: the owner (or an admin) gets what `get_bids_by_shipment`
      finds, the bids that record the shipment as an ObjectId, so nothing while bids are
      stored as text. A driver sees only their own, filtered by comparing with the path
      text itself, so a path id written with capital letters shows a driver nothing.
      Another customer is refused. */
  function ShipmentBids(db: Db, user: User, shipmentText: string): (r: Reply<set<Id>>)
    ensures !ValidId(shipmentText) ==> r == Crashed(InvalidId)
    ensures ValidId(shipmentText) && Canonical(shipmentText) !in db.shipments ==> r == Refused(404, "Shipment not found")
    ensures r.Answer? && user.role == "driver" ==>
      forall b :: b in r.body <==> b in db.bids && db.bids[b].driverId == user.id && ShipmentOf(db.bids[b]) == shipmentText
    ensures r.Answer? && user.role != "driver" ==>
      forall b :: b in r.body <==> b in db.bids && db.bids[b].shipmentId == Oid(Canonical(shipmentText))
    ensures r.Answer? && user.role != "driver" && StoredAsText(db) ==> r.body == {}
    ensures r.Answer? && user.role == "customer" ==> db.shipments[Canonical(shipmentText)].customerId == user.id
    ensures (ValidId(shipmentText) && Canonical(shipmentText) in db.shipments && Readable(db.shipments[Canonical(shipmentText)])
             && user.role == "customer" && db.shipments[Canonical(shipmentText)].customerId != user.id)
            ==> r == Refused(403, "Access denied")
  {
    match FetchShipment(db, shipmentText)
    case Crashed(e) => Crashed(e)
    case Refused(c, d) => Refused(c, d)
    case Answer(found) =>
      if found.None? then Refused(404, "Shipment not found")
      else if user.role == "customer" && found.value.doc.customerId != user.id then Refused(403, "Access denied")
      else if user.role == "driver" then
        Answer(set b | b in BidsOfDriver(db, user.id) && ShipmentOf(db.bids[b]) == shipmentText)
      else Answer(BidsOfShipment(db, found.value.id))
  }

  /** A driver never sees another driver's bid. */
  lemma DriverSeesOwnBids(db: Db, user: User, shipmentText: string, b: Id)
    requires user.role == "driver"
    requires ShipmentBids(db, user, shipmentText).Answer? && b in ShipmentBids(db, user, shipmentText).body
    ensures db.bids[b].driverId == user.id
  {
  }

  /** `get_my_bids`: drivers only; every bid the driver placed. */
  function MyBids(db: Db, user: User): (r: Reply<set<Id>>)
    ensures user.role != "driver" <==> r == Refused(403, "Only drivers can view their bids")
    ensures r.Answer? ==> forall b :: b in r.body <==> b in db.bids && db.bids[b].driverId == user.id
  {
    if user.role != "driver" then Refused(403, "Only drivers can view their bids")
    else Answer(BidsOfDriver(db, user.id))
  }

  /** The checks `accept_bid` and `reject_bid` share, in order: a customer, a bid that
      exists, a shipment that exists and is theirs. The bid's id and the shipment are
      handed on. */
  function OwnedBid(db: Db, user: User, bidText: string, role: string): (r: Reply<(Id, Shipment)>)
    ensures user.role != "customer" ==> r == Refused(403, "Only customers can " + role + " bids")
    ensures user.role == "customer" && !ValidId(bidText) ==> r == Crashed(InvalidId)
    ensures user.role == "customer" && ValidId(bidText) && Canonical(bidText) !in db.bids ==> r == Refused(404, "Bid not found")
    ensures r.Answer? <==>
      user.role == "customer" && ValidId(bidText) && Canonical(bidText) in db.bids
      && var sid := ShipmentOf(db.bids[Canonical(bidText)]);
         sid in db.shipments && Readable(db.shipments[sid]) && db.shipments[sid].customerId == user.id
    ensures r.Answer? ==>
      r.body.0 == Canonical(bidText) && r.body.1.id == ShipmentOf(db.bids[r.body.0])
      && r.body.1.doc == db.shipments[r.body.1.id] && StatusOf(r.body.1.doc) == Some(r.body.1.status)
  {
    if user.role != "customer" then Refused(403, "Only customers can " + role + " bids")
    else if !ValidId(bidText) then Crashed(InvalidId)
    else
      var id := Canonical(bidText);
      if id !in db.bids then Refused(404, "Bid not found")
      else
        match GetShipment(db, ShipmentOf(db.bids[id]))
        case Raised(m) => Crashed(m)
        case Nothing => Refused(403, "Access denied")
        case Done(s) => if s.doc.customerId != user.id then Refused(403, "Access denied") else Answer((id, s))
  }

  /** What `accept_bid` does once its checks pass, up to reading the driver back. */
  function AcceptChecked(db: Db, user: User, bidText: string, now: nat): (r: Reply<Svc<BidDoc>>)
  {
    match OwnedBid(db, user, bidText, "accept")
    case Crashed(e) => Crashed(e)
    case Refused(c, d) => Refused(c, d)
    case Answer(found) =>
      var (id, s) := found;
      if s.status != Bidding then Refused(400, "Shipment is not in bidding status")
      else if db.bids[id].status != Pending then Refused(400, "Bid is not in pending status")
      else Answer(ShipmentService.AcceptBid(db, id, now))
  }

  /** `accept_bid` as written: the service accepts the bid, and then, when the driver
      exists, the missing `full_name` escapes and the request answers 500 with the
      writes already made. */
  function AcceptBidRequest(db: Db, user: User, bidText: string, now: nat): (r: Handled<BidDoc>)
    ensures !AcceptChecked(db, user, bidText, now).Answer? ==> r.db == db && r.sent == []
    ensures AcceptChecked(db, user, bidText, now).Answer? ==>
      var svc := AcceptChecked(db, user, bidText, now).body;
      r.db == svc.db && r.sent == []
      && (svc.out.Done? && UserModel.FindById(svc.db.users, svc.out.value.driverId).Some? ==> r.reply == Crashed(NoFullName))
      && (svc.out.Done? && UserModel.FindById(svc.db.users, svc.out.value.driverId).None? ==> r.reply == Answer(svc.out.value))
  {
    match AcceptChecked(db, user, bidText, now)
    case Crashed(e) => Handled(db, [], Crashed(e))
    case Refused(c, d) => Handled(db, [], Refused(c, d))
    case Answer(svc) =>
      match svc.out
      case Raised(m) => Handled(svc.db, [], Crashed(m))
      case Nothing => Handled(svc.db, [], Crashed("AttributeError: driver_id"))
      case Done(a) =>
        if UserModel.FindById(svc.db.users, a.driverId).Some? then Handled(svc.db, [], Crashed(NoFullName))
        else Handled(svc.db, [], Answer(a))
  }

  /** `accept_bid` reading the customer's `name`: when the driver exists, the driver's
      accepted-bid notification is broadcast and the accepted bid is the answer. */
  function AcceptBidNotifying(db: Db, user: User, bidText: string, now: nat, amountText: string, timestamp: string): (r: Handled<BidDoc>)
    ensures r.db == AcceptBidRequest(db, user, bidText, now).db
    ensures AcceptChecked(db, user, bidText, now).Answer? && AcceptChecked(db, user, bidText, now).body.out.Done? ==>
      r.reply == Answer(AcceptChecked(db, user, bidText, now).body.out.value)
    ensures AcceptChecked(db, user, bidText, now).Answer? && AcceptChecked(db, user, bidText, now).body.out.Done? ==>
      var a := AcceptChecked(db, user, bidText, now).body.out.value;
      UserModel.FindById(r.db.users, a.driverId).Some? ==>
        r.sent == [Notifications.Envelope(Notifications.BidAcceptedPayload(amountText, ShipmentOf(a), Canonical(bidText), JStr(user.name)), timestamp)]
  {
    match AcceptChecked(db, user, bidText, now)
    case Crashed(e) => Handled(db, [], Crashed(e))
    case Refused(c, d) => Handled(db, [], Refused(c, d))
    case Answer(svc) =>
      match svc.out
      case Raised(m) => Handled(svc.db, [], Crashed(m))
      case Nothing => Handled(svc.db, [], Crashed("AttributeError: driver_id"))
      case Done(a) =>
        if UserModel.FindById(svc.db.users, a.driverId).Some? then
          var payload := Notifications.BidAcceptedPayload(amountText, ShipmentOf(a), Canonical(bidText), JStr(user.name));
          Handled(svc.db, [Notifications.Envelope(payload, timestamp)], Answer(a))
        else Handled(svc.db, [], Answer(a))
  }

  /** A customer can accept at most one bid per shipment: after an accept that reached
      the service, every later accept of a bid on that shipment is refused because the
      shipment is no longer in bidding. */
  lemma SecondAcceptRefused(db: Db, user: User, bidText: string, now: nat, otherText: string, now2: nat)
    requires AcceptChecked(db, user, bidText, now).Answer?
    requires ValidId(otherText)
    requires Canonical(otherText) in db.bids && ShipmentOf(db.bids[Canonical(otherText)]) == ShipmentOf(db.bids[Canonical(bidText)])
    ensures AcceptBidRequest(AcceptBidRequest(db, user, bidText, now).db, user, otherText, now2).reply
      == Refused(400, "Shipment is not in bidding status")
  {
    var id := Canonical(bidText);
    var sid := ShipmentOf(db.bids[id]);
    var after := AcceptBidRequest(db, user, bidText, now).db;
    AcceptedShipmentReadable(db, id, now);
    assert after.shipments[sid].status == Some("accepted");
    var other := Canonical(otherText);
    assert other in after.bids && ShipmentOf(after.bids[other]) == sid;
    assert OwnedBid(after, user, otherText, "accept").Answer?;
  }

  /** The shipment of a bid the service accepts is still readable, now as accepted, and
      still belongs to the same customer. */
  lemma AcceptedShipmentReadable(db: Db, id: Id, now: nat)
    requires id in db.bids && db.bids[id].status != BidAccepted
    requires ShipmentOf(db.bids[id]) in db.shipments && Readable(db.shipments[ShipmentOf(db.bids[id])])
    ensures var sid := ShipmentOf(db.bids[id]);
      var after := ShipmentService.AcceptBid(db, id, now).db;
      sid in after.shipments && Readable(after.shipments[sid]) && after.shipments[sid].status == Some("accepted")
      && after.shipments[sid].customerId == db.shipments[sid].customerId
  {
    var sid := ShipmentOf(db.bids[id]);
    var d := db.shipments[sid];
    var patched := ApplyPatch(d, StatusPatch("accepted").(acceptedBidId := Some(id)), now);
    assert patched.urgency == d.urgency && patched.vehicleRequirements == d.vehicleRequirements && patched.bids == d.bids;
    assert StatusOf(patched) == Some(Accepted);
  }

  /** As written, accepting a bid rejects no other bid: while every bid records its
      shipment as text, the sibling rejection matches nothing, and every other bid,
      pending ones included, keeps its status. */
  lemma SiblingsStayPending(db: Db, user: User, bidText: string, now: nat)
    requires StoredAsText(db)
    requires AcceptChecked(db, user, bidText, now).Answer?
    requires !AcceptChecked(db, user, bidText, now).body.out.Raised?
    ensures var after := AcceptBidRequest(db, user, bidText, now).db;
      forall b :: b in db.bids && b != Canonical(bidText) ==> b in after.bids && after.bids[b] == db.bids[b]
  {
    var id := Canonical(bidText);
    AcceptBidOutcome(db, id, now);
  }

  /** With bids that record their shipment as an ObjectId, as `SubmitBidCorrected` stores
      them, accepting a bid rejects every other bid on the same shipment and leaves the
      bids on other shipments alone. */
  lemma CorrectedSiblingsRejected(db: Db, user: User, bidText: string, now: nat)
    requires StoredAsOid(db)
    requires AcceptChecked(db, user, bidText, now).Answer?
    requires !AcceptChecked(db, user, bidText, now).body.out.Raised?
    ensures var id := Canonical(bidText);
      var sid := ShipmentOf(db.bids[id]);
      var after := AcceptBidRequest(db, user, bidText, now).db;
      && after.bids[id].status == BidAccepted
      && (forall b :: b in db.bids && b != id && ShipmentOf(db.bids[b]) == sid ==> after.bids[b].status == Rejected)
      && (forall b :: b in db.bids && ShipmentOf(db.bids[b]) != sid ==> after.bids[b] == db.bids[b])
  {
    var id := Canonical(bidText);
    AcceptBidOutcome(db, id, now);
  }

  /** What `reject_bid` does once its checks pass. Unlike `accept_bid` it never looks at
      the shipment's status. */
  function RejectChecked(db: Db, user: User, bidText: string): (r: Reply<Svc<BidDoc>>)
    ensures r.Answer? <==> OwnedBid(db, user, bidText, "reject").Answer? && db.bids[Canonical(bidText)].status == Pending
  {
    match OwnedBid(db, user, bidText, "reject")
    case Crashed(e) => Crashed(e)
    case Refused(c, d) => Refused(c, d)
    case Answer(found) =>
      if db.bids[found.0].status != Pending then Refused(400, "Bid is not in pending status")
      else Answer(ShipmentService.RejectBid(db, found.0))
  }

  /** `reject_bid`: the bid becomes rejected, and the driver, when found, is told. */
  function RejectBidRequest(db: Db, user: User, bidText: string, timestamp: string): (r: Handled<BidDoc>)
    ensures !RejectChecked(db, user, bidText).Answer? ==> r.db == db && r.sent == [] && !r.reply.Answer?
    ensures RejectChecked(db, user, bidText).Answer? ==>
      var id := Canonical(bidText);
      var b := db.bids[id];
      && r.db == db.(bids := db.bids[id := b.(status := Rejected)])
      && r.reply == Answer(b.(status := Rejected))
      && (UserModel.FindById(db.users, b.driverId).Some? ==>
            r.sent == [Notifications.Envelope(Notifications.BidRejectedPayload(ShipmentOf(b), id), timestamp)])
      && (UserModel.FindById(db.users, b.driverId).None? ==> r.sent == [])
  {
    match RejectChecked(db, user, bidText)
    case Crashed(e) => Handled(db, [], Crashed(e))
    case Refused(c, d) => Handled(db, [], Refused(c, d))
    case Answer(svc) =>
      match svc.out
      case Done(b) =>
        if UserModel.FindById(svc.db.users, b.driverId).Some? then
          var id := Canonical(bidText);
          Handled(svc.db, [Notifications.Envelope(Notifications.BidRejectedPayload(ShipmentOf(b), id), timestamp)], Answer(b))
        else Handled(svc.db, [], Answer(b))
      case _ => Handled(svc.db, [], Crashed("AttributeError: driver_id"))
  }

  /** A pending bid on an owned shipment is rejected whatever the shipment's status, even
      after another bid was accepted. */
  lemma RejectIgnoresShipmentStatus(db: Db, user: User, bidText: string, status: string, timestamp: string)
    requires RejectChecked(db, user, bidText).Answer?
    requires status in StatusTexts
    ensures var sid := ShipmentOf(db.bids[Canonical(bidText)]);
      var other := db.(shipments := db.shipments[sid := db.shipments[sid].(status := Some(status))]);
      RejectBidRequest(other, user, bidText, timestamp).reply.Answer?
  {
    var id := Canonical(bidText);
    var sid := ShipmentOf(db.bids[id]);
    var d := db.shipments[sid];
    var other := db.(shipments := db.shipments[sid := d.(status := Some(status))]);
    assert Readable(other.shipments[sid]);
    assert OwnedBid(other, user, bidText, "reject").Answer?;
  }
}

=== FILE: calendar.dfy ===
/** Local calendar instants as the client's date pickers hand them over: a day, a
    time of day, and the seconds and milliseconds a `Date` also carries. Instants are
    compared field by field, most significant first. */
module Calendar {

  datatype Instant = Instant(year: int, month: nat, day: nat, hour: nat, minute: nat, second: nat, millis: nat)

  /** Lexicographic order on the fields, which is time order for valid local instants. */
  predicate Before(a: Instant, b: Instant) {
    if a.year != b.year then a.year < b.year
    else if a.month != b.month then a.month < b.month
    else if a.day != b.day then a.day < b.day
    else if a.hour != b.hour then a.hour < b.hour
    else if a.minute != b.minute then a.minute < b.minute
    else if a.second != b.second then a.second < b.second
    else a.millis < b.millis
  }

  /** `a <= b` on dates. */
  predicate NotAfter(a: Instant, b: Instant) {
    a == b || Before(a, b)
  }

  lemma BeforeIsStrictTotal(a: Instant, b: Instant)
    ensures !(Before(a, b) && Before(b, a))
    ensures a != b ==> Before(a, b) || Before(b, a)
    ensures !Before(a, a)
  {
  }

  /** `new Date(date)` followed by `setHours(time.getHours())` and
      `setMinutes(time.getMinutes())`: the date's day, seconds and milliseconds with the
      time's hour and minute. */
  function Combine(date: Instant, time: Instant): (r: Instant)
    ensures r.year == date.year && r.month == date.month && r.day == date.day
    ensures r.hour == time.hour && r.minute == time.minute
    ensures r.second == date.second && r.millis == date.millis
  {
    date.(hour := time.hour, minute := time.minute)
  }
}

=== FILE: delivery_tracking.dfy ===
/** The driver's delivery-leg screen (BirtuLogistics/src/screens/driver/DeliveryTrackingScreen.js):
    a strictly linear walk from the accepted bid to the delivered item, the progress list
    derived from the current leg, the next-action button, the confirmation messages, and
    which address the driver is sent to. The simulated request delay is left out; each
    status update is one atomic step. */
module DeliveryLeg {
  import opened Wrappers

  datatype Leg = Accepted | HeadingToPickup | ArrivedAtPickup | ItemCollected | InTransit | Delivered

  /** The status text the screen keeps for each leg. */
  function Id(l: Leg): (r: string)
  {
    match l
    case Accepted => "accepted"
    case HeadingToPickup => "heading_to_pickup"
    case ArrivedAtPickup => "arrived_at_pickup"
    case ItemCollected => "item_collected"
    case InTransit => "in_transit"
    case Delivered => "delivered"
  }

  /** The legs in delivery order, as the progress list shows them. */
  const Order: seq<Leg> := [Accepted, HeadingToPickup, ArrivedAtPickup, ItemCollected, InTransit, Delivered]

  /** Position of a leg in `Order`. */
  function Index(l: Leg): (i: nat)
    ensures i < |Order| && Order[i] == l
  {
    match l
    case Accepted => 0
    case HeadingToPickup => 1
    case ArrivedAtPickup => 2
    case ItemCollected => 3
    case InTransit => 4
    case Delivered => 5
  }

  /** Distinct legs have distinct texts, so the screen's string comparisons decide legs. */
  lemma IdInjective(a: Leg, b: Leg)
    ensures Id(a) == Id(b) <==> a == b
  {
  }

  /** One entry of `deliverySteps`. */
  datatype Step = Step(id: Leg, title: string, completed: bool)

  /** `deliverySteps` for the current status, with each `completed` flag written as the
      screen writes it: a constant, a negated comparison, or membership in a list of the
      later legs. */
  function Steps(current: Leg): (r: seq<Step>)
    ensures |r| == |Order|
    ensures forall i :: 0 <= i < |r| ==> r[i].id == Order[i]
  {
    var c := Id(current);
    [ Step(Accepted, "Bid Accepted", true),
      Step(HeadingToPickup, "Heading to Pickup", c != "accepted"),
      Step(ArrivedAtPickup, "Arrived at Pickup",
           c in ["arrived_at_pickup", "item_collected", "in_transit", "delivered"]),
      Step(ItemCollected, "Item Collected", c in ["item_collected", "in_transit", "delivered"]),
      Step(InTransit, "In Transit", c in ["in_transit", "delivered"]),
      Step(Delivered, "Delivered", c == "delivered") ]
  }

  /** Step `i` shows as completed exactly when the current leg is at position `i` or later;
      the first step is always completed. */
  lemma CompletedIffReached(current: Leg, i: nat)
    requires i < |Order|
    ensures Steps(current)[i].completed <==> Index(current) >= i
    ensures Steps(current)[0].completed
  {
  }

  /** Exactly one step is highlighted as active: the one for the current leg. */
  lemma OneActiveStep(current: Leg)
    ensures Steps(current)[Index(current)].id == current
    ensures forall i :: 0 <= i < |Order| && Steps(current)[i].id == current ==> i == Index(current)
  {
  }

  /** The button `getNextAction` offers: its title, the leg it moves to, and whether the
      move goes through the delivery confirmation dialog first. */
  datatype Action = Action(title: string, target: Leg, confirm: bool)

  /** `getNextAction`: each leg but the last offers a move to the leg right after it. */
  function NextAction(current: Leg): (r: Option<Action>)
    ensures r.None? <==> current == Delivered
    ensures r.Some? ==> Index(r.value.target) == Index(current) + 1
    ensures r.Some? ==> (r.value.confirm <==> current == InTransit)
  {
    match current
    case Accepted => Some(Action("Start Journey", HeadingToPickup, false))
    case HeadingToPickup => Some(Action("Arrived at Pickup", ArrivedAtPickup, false))
    case ArrivedAtPickup => Some(Action("Collect Item", ItemCollected, false))
    case ItemCollected => Some(Action("Start Delivery", InTransit, false))
    case InTransit => Some(Action("Mark as Delivered", Delivered, true))
    case Delivered => None
  }

  /** The action button is rendered when there is a next action and the leg is not
      `delivered`. */
  predicate ButtonShown(current: Leg) {
    NextAction(current).Some? && current != Delivered
  }

  lemma NoButtonWhenDelivered(current: Leg)
    ensures ButtonShown(current) <==> current != Delivered
  {
  }

  /** The confirmation shown after `updateStatus`, keyed by the status text. */
  function Message(status: string): (r: Option<string>)
  {
    if status == "heading_to_pickup" then Some("Status updated! Customer has been notified.")
    else if status == "arrived_at_pickup" then Some("Great! Let the customer know you've arrived.")
    else if status == "item_collected" then Some("Item collected! Now heading to delivery location.")
    else if status == "in_transit" then Some("In transit! Customer can track your progress.")
    else if status == "delivered" then Some("Delivery completed! Great job!")
    else None
  }

  /** What pressing the button does. `confirmed` is the driver's answer to the delivery
      dialog and matters only where the action asks for confirmation. The result is the
      new leg and the message shown, or the leg unchanged when nothing happens. */
  datatype Update = Update(leg: Leg, message: Option<string>)

  function Press(current: Leg, confirmed: bool): (r: Update)
    ensures current == Delivered ==> r == Update(current, None)
    ensures current != Delivered && (current != InTransit || confirmed) ==>
      Index(r.leg) == Index(current) + 1 && r.message.Some?
    ensures current == InTransit && !confirmed ==> r == Update(current, None)
  {
    match NextAction(current)
    case None => Update(current, None)
    case Some(a) =>
      if a.confirm && !confirmed then Update(current, None)
      else Update(a.target, Message(Id(a.target)))
  }

  /** Every leg the button can move to has a confirmation message. */
  lemma EveryTargetHasMessage(current: Leg)
    requires NextAction(current).Some?
    ensures Message(Id(NextAction(current).value.target)).Some?
  {
  }

  /** The leg the button moves to once any dialog is confirmed; the last leg stays. */
  function Advance(current: Leg): (r: Leg)
    ensures current != Delivered ==> Index(r) == Index(current) + 1
    ensures current == Delivered ==> r == Delivered
  {
    match NextAction(current)
    case None => current
    case Some(a) => a.target
  }

  lemma PressConfirmedAdvances(current: Leg)
    ensures Press(current, true).leg == Advance(current)
  {
  }

  /** The legs visited by pressing the button `n` times, confirming every dialog. */
  function Walk(start: Leg, n: nat): (r: seq<Leg>)
    ensures |r| == n + 1 && r[0] == start
    decreases n
  {
    if n == 0 then [start] else [start] + Walk(Advance(start), n - 1)
  }

  /** A walk of `n` presses starting before the last leg moves forward one leg per press. */
  lemma {:induction false} WalkAdvances(start: Leg, n: nat)
    requires Index(start) + n < |Order|
    ensures forall i :: 0 <= i <= n ==> Walk(start, n)[i] == Order[Index(start) + i]
    decreases n
  {
    if n > 0 {
      var next := Advance(start);
      WalkAdvances(next, n - 1);
      forall i | 0 <= i <= n
        ensures Walk(start, n)[i] == Order[Index(start) + i]
      {
        if i > 0 {
          assert Walk(start, n)[i] == Walk(next, n - 1)[i - 1];
        }
      }
    }
  }

  /** From `accepted`, five presses reach `delivered` through every leg once, in order. */
  lemma FiveStepsToDelivered()
    ensures Walk(Accepted, 5) == Order
    ensures Walk(Accepted, 5)[5] == Delivered
    ensures forall i, j :: 0 <= i < j < 6 ==> Walk(Accepted, 5)[i] != Walk(Accepted, 5)[j]
  {
    var w := Walk(Accepted, 5);
    WalkAdvances(Accepted, 5);
    assert |w| == |Order|;
    assert forall i :: 0 <= i < 6 ==> w[i] == Order[i];
    OrderDistinct();
  }

  /** No leg occurs twice in the delivery order. */
  lemma OrderDistinct()
    ensures forall i, j :: 0 <= i < j < |Order| ==> Order[i] != Order[j]
  {
    forall i, j | 0 <= i < j < |Order|
      ensures Order[i] != Order[j]
    {
      assert Index(Order[i]) == i;
      assert Index(Order[j]) == j;
    }
  }

  datatype Destination = Pickup | Dropoff

  /** `openMaps` and the destination card: pickup before collection, dropoff after. */
  function DestinationOf(current: Leg): (r: Destination)
  {
    var c := Id(current);
    if c == "accepted" || c == "heading_to_pickup" then Pickup else Dropoff
  }

  /** The driver is sent to the pickup exactly in the first two legs. */
  lemma DestinationRule(current: Leg)
    ensures DestinationOf(current) == Pickup <==> Index(current) < 2
    ensures DestinationOf(current) == Pickup <==> current == Accepted || current == HeadingToPickup
  {
  }
}

=== FILE: forms.dfy ===
/** The two text patterns the client's forms test: the Ethiopian phone number
    `^(\+251|0)[79]\d{8}$` and the email shape `\S+@\S+\.\S+`, the latter unanchored,
    so it only asks for such a piece somewhere inside the text. */
module Forms {
  import opened Text

  /** `^(\+251|0)[79]\d{8}$`: the international form `+2519xxxxxxxx`/`+2517xxxxxxxx`
      or the local form `09xxxxxxxx`/`07xxxxxxxx`, nothing before or after. */
  predicate EthiopianPhone(s: string) {
    || (|s| == 13 && s[..4] == "+251" && (s[4] == '7' || s[4] == '9') && AllDigits(s[5..]))
    || (|s| == 10 && s[0] == '0' && (s[1] == '7' || s[1] == '9') && AllDigits(s[2..]))
  }

  /** The local and the international form of one subscriber number are both accepted
      or both refused. */
  lemma LocalIffInternational(rest: string)
    ensures EthiopianPhone("0" + rest) <==> EthiopianPhone("+251" + rest)
  {
    var a := "0" + rest;
    var b := "+251" + rest;
    assert b[..4] == "+251" && b[0] == '+' && a[0] == '0';
    assert |a| >= 4 ==> a[..4] != "+251" by { assert |a| < 4 || a[..4][0] == '0'; }
    if |rest| > 0 {
      assert a[1] == rest[0] && b[4] == rest[0];
      assert a[2..] == rest[1..] == b[5..];
    }
  }

  /** A valid phone number holds no whitespace, so trimming leaves it as it is: the
      forms check the trimmed text and store or send that same text. */
  lemma PhoneIsTrimmed(s: string)
    requires EthiopianPhone(s)
    ensures Trim(s) == s
    ensures forall k :: 0 <= k < |s| ==> !IsSpace(s[k])
  {
    forall k | 0 <= k < |s| ensures !IsSpace(s[k]) {
      PhoneChar(s, k);
    }
    TrimKeeps(s);
  }

  /** Every character of a valid number is a digit or the leading `+`. */
  lemma PhoneChar(s: string, k: nat)
    requires EthiopianPhone(s) && k < |s|
    ensures s[k] == '+' || IsDigit(s[k])
  {
    if |s| == 13 {
      if k < 4 { assert s[k] == "+251"[k]; } else if k > 4 { assert s[k] == s[5..][k - 5]; }
    } else {
      if k > 1 { assert s[k] == s[2..][k - 2]; }
    }
  }

  /** One match of `\S+@\S+\.\S+`, shrunk to its least form: a non-space character before
      the `@` at `at`, a non-empty run of non-space characters up to the `.` at `dot`,
      and a non-space character after it. */
  predicate EmailAt(s: string, at: int, dot: int) {
    && 0 < at && at + 1 < dot && dot + 1 < |s|
    && s[at] == '@' && !IsSpace(s[at - 1])
    && s[dot] == '.' && !IsSpace(s[dot + 1])
    && (forall k :: at < k < dot ==> !IsSpace(s[k]))
  }

  /** `/\S+@\S+\.\S+/.test(s)`. */
  predicate EmailShape(s: string) {
    exists at, dot | 0 < at < dot < |s| :: EmailAt(s, at, dot)
  }

  /** A single left-to-right scan deciding `EmailShape`: for each `@` with a non-space
      character before it, walk the non-space run after it looking for a `.` that is
      neither first in the run nor last in the text. */
  method MatchesEmail(s: string) returns (b: bool)
    ensures b <==> EmailShape(s)
  {
    var at := 1;
    while at < |s|
      invariant 1 <= at
      invariant forall a, d :: 0 < a < at && a < d < |s| ==> !EmailAt(s, a, d)
    {
      if s[at] == '@' && !IsSpace(s[at - 1]) {
        var dot := at + 1;
        while dot < |s| && !IsSpace(s[dot])
          invariant at + 1 <= dot <= |s|
          invariant forall k :: at < k < dot ==> !IsSpace(s[k])
          invariant forall d :: at < d < dot ==> !EmailAt(s, at, d)
        {
          if dot > at + 1 && s[dot] == '.' && dot + 1 < |s| && !IsSpace(s[dot + 1]) {
            assert EmailAt(s, at, dot);
            return true;
          }
          dot := dot + 1;
        }
        forall d | dot <= d < |s| ensures !EmailAt(s, at, d) {
          if d > dot { assert at < dot < d && IsSpace(s[dot]); }
        }
      }
      at := at + 1;
    }
    return false;
  }
}

=== FILE: http.dfy ===
/** What a FastAPI endpoint of the server hands back, and the effect of handling one
    request: the database afterwards, the notification envelopes broadcast meanwhile,
    and the reply. An `HTTPException` is a refusal with its status code and detail; any
    other exception escapes the handler and the client sees status 500. */
module Http {
  import opened Wrappers
  import opened JsonValue
  import opened ShipmentModel
  import ShipmentService

  datatype Reply<+T> = Answer(body: T) | Refused(code: nat, detail: string) | Crashed(error: string)
  {
    /** The status line the client receives. */
    function Status(): nat
    {
      match this
      case Answer(_) => 200
      case Refused(c, _) => c
      case Crashed(_) => 500
    }
  }

  datatype Handled<+T> = Handled(db: ShipmentService.Db, sent: seq<Json>, reply: Reply<T>)

  /** The error `bson` raises for text that is not an object id; it is not a
      `ValueError`, so no handler catches it. */
  const InvalidId := "InvalidId"

  /** `ObjectId(text)` on a path parameter. */
  function ObjectIdOf(text: string): (r: Reply<Id>)
    ensures r.Answer? <==> ValidId(text)
    ensures r.Answer? ==> r.body == Canonical(text)
    ensures !r.Answer? ==> r == Crashed(InvalidId)
  {
    if ValidId(text) then Answer(Canonical(text)) else Crashed(InvalidId)
  }

  /** `get_shipment_by_id(text)` inside an endpoint: the shipment or `None`; a bad id or
      a document `ShipmentInDB` rejects escapes as an exception. */
  function FetchShipment(db: ShipmentService.Db, text: string): (r: Reply<Option<Shipment>>)
    ensures !ValidId(text) ==> r == Crashed(InvalidId)
    ensures ValidId(text) ==> var id := Canonical(text);
      && (r == Answer(None) <==> id !in db.shipments)
      && (r.Answer? && r.body.Some? <==> id in db.shipments && Readable(db.shipments[id]))
      && (r.Answer? && r.body.Some? ==> r.body.value.id == id && r.body.value.doc == db.shipments[id])
  {
    if !ValidId(text) then Crashed(InvalidId)
    else
      match ShipmentService.GetShipment(db, Canonical(text))
      case Nothing => Answer(None)
      case Raised(m) => Crashed(m)
      case Done(s) => Answer(Some(s))
  }
}

=== FILE: json.dfy ===
/** JSON values as the client and the server exchange them, with JavaScript's
    property access (`v.key`) and truthiness. Numbers are integers. */
module JsonValue {
  import opened Wrappers

  datatype Json =
    | JNull
    | JBool(b: bool)
    | JNum(n: int)
    | JStr(s: string)
    | JArr(items: seq<Json>)
    | JObj(fields: seq<Field>)

  /** One `key: value` member of an object, in source order. */
  datatype Field = Field(key: string, value: Json)

  /** What `v.key` evaluates to in JavaScript: a value, `undefined`, or a thrown TypeError
      (reading a property of `null` or of `undefined`). */
  datatype Prop = Value(v: Json) | Undefined | TypeError

  /** The member a JavaScript object built by `JSON.parse` keeps for `key`:
      the last one, since a later duplicate overwrites an earlier one. */
  function Lookup(fs: seq<Field>, key: string): Option<Json>
  {
    if fs == [] then None
    else if fs[|fs| - 1].key == key then Some(fs[|fs| - 1].value)
    else Lookup(fs[..|fs| - 1], key)
  }

  /** A key is found exactly when some member carries it, and what is found is the value
      of a member with that key after which no other member has it. */
  lemma {:induction false} LookupFindsLast(fs: seq<Field>, key: string)
    ensures Lookup(fs, key).None? <==> forall k :: 0 <= k < |fs| ==> fs[k].key != key
    ensures Lookup(fs, key).Some? ==>
      exists k :: 0 <= k < |fs| && fs[k] == Field(key, Lookup(fs, key).value)
                  && forall j :: k < j < |fs| ==> fs[j].key != key
  {
    LookupNone(fs, key);
    if Lookup(fs, key).Some? {
      var k := LookupIndex(fs, key);
    }
  }

  lemma {:induction false} LookupNone(fs: seq<Field>, key: string)
    ensures Lookup(fs, key).None? <==> forall k :: 0 <= k < |fs| ==> fs[k].key != key
  {
    if fs != [] && fs[|fs| - 1].key != key {
      var init := fs[..|fs| - 1];
      LookupNone(init, key);
      assert forall k :: 0 <= k < |init| ==> init[k] == fs[k];
    }
  }

  lemma {:induction false} LookupIndex(fs: seq<Field>, key: string) returns (k: nat)
    requires Lookup(fs, key).Some?
    ensures k < |fs| && fs[k] == Field(key, Lookup(fs, key).value)
    ensures forall j :: k < j < |fs| ==> fs[j].key != key
  {
    if fs[|fs| - 1].key == key {
      k := |fs| - 1;
    } else {
      var init := fs[..|fs| - 1];
      k := LookupIndex(init, key);
      assert fs[k] == init[k];
    }
  }

  /** The members of an object with one more member added at the end, as a Python or
      JavaScript object literal adds them in order. */
  function Extend(fs: seq<Field>, key: string, value: Json): (r: seq<Field>)
    ensures r == fs + [Field(key, value)]
    ensures Lookup(r, key) == Some(value)
    ensures forall k :: k != key ==> Lookup(r, k) == Lookup(fs, k)
  {
    var r := fs + [Field(key, value)];
    assert r[..|fs|] == fs;
    r
  }

  /** `v.key` on a value. Only objects have own members; every other non-null
      value answers `undefined` for the names this model reads. */
  function Get(v: Json, key: string): (r: Prop)
    ensures r.TypeError? <==> v.JNull?
    ensures r.Value? ==> v.JObj? && Lookup(v.fields, key) == Some(r.v)
  {
    match v
    case JNull => TypeError
    case JObj(fs) =>
      (match Lookup(fs, key)
       case Some(x) => Value(x)
       case None => Undefined)
    case _ => Undefined
  }

  /** `p.key` on the result of an earlier access: `undefined.key` throws too. */
  function GetProp(p: Prop, key: string): (r: Prop)
    ensures !p.Value? ==> r.TypeError?
    ensures p.Value? ==> r == Get(p.v, key)
  {
    match p
    case Value(v) => Get(v, key)
    case _ => TypeError
  }

  /** JavaScript truthiness: `null`, `false`, `0`, `""` and `undefined` are falsy. */
  predicate Truthy(p: Prop)
    requires !p.TypeError?
  {
    match p
    case Undefined => false
    case Value(v) =>
      (match v
       case JNull => false
       case JBool(b) => b
       case JNum(n) => n != 0
       case JStr(s) => s != ""
       case _ => true)
  }

  /** `p || fallback` with a string fallback. */
  function OrElse(p: Prop, fallback: string): (r: Json)
    requires !p.TypeError?
    ensures Truthy(p) ==> p == Value(r)
    ensures !Truthy(p) ==> r == JStr(fallback)
  {
    if Truthy(p) then p.v else JStr(fallback)
  }
}

=== FILE: json_text.dfy ===
/** JSON text: two printers and one reader for the values of JsonValue. The printers
    are JavaScript's `JSON.stringify` (no indentation) and Python's `json.dumps` with its
    defaults; the reader is `JSON.parse`. Both round trips `Parse(Stringify(v)) == Some(v)`
    and `Parse(Dumps(v)) == Some(v)` hold. The session store keeps the signed-in user as
    `JSON.stringify` text; the server broadcasts `json.dumps` text. Numbers are written and
    read as integers; a fraction or exponent is not accepted by this reader. */
module JsonText {
  import opened Wrappers
  import opened Text
  import opened JsonValue

  /** The whitespace JSON allows between tokens. */
  predicate IsJsonSpace(c: char) {
    c == ' ' || c == '\t' || c == '\n' || c == '\r'
  }

  /** The characters a serialised value can start with. */
  predicate StartChar(c: char) {
    c == 'n' || c == 't' || c == 'f' || c == '"' || c == '[' || c == '{' || c == '-' || IsDigit(c)
  }

  function HexChar(d: nat): (c: char)
    requires d < 16
  {
    "0123456789abcdef"[d]
  }

  predicate IsHex(c: char) {
    IsDigit(c) || ('a' <= c <= 'f') || ('A' <= c <= 'F')
  }

  function HexValue(c: char): (d: nat)
    requires IsHex(c)
    ensures d < 16
  {
    if IsDigit(c) then DigitValue(c)
    else if 'a' <= c <= 'f' then (c as int - 'a' as int + 10) as nat
    else (c as int - 'A' as int + 10) as nat
  }

  lemma HexRoundTrip(d: nat)
    requires d < 16
    ensures IsHex(HexChar(d)) && HexValue(HexChar(d)) == d
  {
  }

  // ---------------------------------------------------------------- writing

  /** The printer: `JSON.stringify` writes `,` and `:` and leaves every character it
      need not escape as it is; `json.dumps` writes `, ` and `: ` and, with its default
      `ensure_ascii`, writes every character outside printable ASCII as a `\u` escape
      (one outside the Basic Multilingual Plane as a UTF-16 surrogate pair). */
  datatype Style = Js | Py

  function Sep(st: Style): string
  {
    if st == Js then "," else ", "
  }

  function Colon(st: Style): string
  {
    if st == Js then ":" else ": "
  }

  /** The four lower-case hexadecimal digits of a UTF-16 code unit. */
  function HexDigits(code: nat): (r: string)
    requires code < 0x10000
    ensures |r| == 4
  {
    [HexChar(code / 16 / 16 / 16), HexChar(code / 16 / 16 % 16), HexChar(code / 16 % 16), HexChar(code % 16)]
  }

  /** `\u` and four hexadecimal digits. */
  function UnicodeEscape(code: nat): (r: string)
    requires code < 0x10000
    ensures |r| == 6 && r[0] == '\\' && r[1] == 'u'
  {
    "\\u" + HexDigits(code)
  }

  /** The high half of the surrogate pair of a character outside the Basic Multilingual
      Plane. */
  function HighHalf(c: char): (h: nat)
    requires c >= '\U{10000}'
    ensures 0xD800 <= h < 0xDC00
  {
    0xD800 + (c as int - 0x10000) / 0x400
  }

  /** The low half of that pair. */
  function LowHalf(c: char): (l: nat)
    requires c >= '\U{10000}'
    ensures 0xDC00 <= l < 0xE000
  {
    0xDC00 + (c as int - 0x10000) % 0x400
  }

  /** How a printer writes one character inside a string literal. */
  function EscapeChar(st: Style, c: char): (r: string)
    ensures |r| > 0 && r[0] != '"'
  {
    if c == '"' then "\\\""
    else if c == '\\' then "\\\\"
    else if c == '\U{0008}' then "\\b"
    else if c == '\U{000C}' then "\\f"
    else if c == '\n' then "\\n"
    else if c == '\r' then "\\r"
    else if c == '\t' then "\\t"
    else if c < ' ' then UnicodeEscape(c as int)
    else if st == Js || c <= '~' then [c]
    else if c < '\U{10000}' then UnicodeEscape(c as int)
    else UnicodeEscape(HighHalf(c)) + UnicodeEscape(LowHalf(c))
  }

  function Escape(st: Style, s: string): (r: string)
  {
    if s == [] then [] else EscapeChar(st, s[0]) + Escape(st, s[1..])
  }

  function Quote(st: Style, s: string): (r: string)
  {
    "\"" + Escape(st, s) + "\""
  }

  /** A value written out by the given printer. */
  function Print(st: Style, v: Json): (r: string)
    ensures |r| > 0 && StartChar(r[0])
  {
    match v
    case JNull => "null"
    case JBool(b) => if b then "true" else "false"
    case JNum(n) => IntToString(n)
    case JStr(s) => Quote(st, s)
    case JArr(xs) => "[" + PrintItems(st, xs) + "]"
    case JObj(fs) => "{" + PrintFields(st, fs) + "}"
  }

  /** Array elements separated by the printer's comma. */
  function PrintItems(st: Style, xs: seq<Json>): (r: string)
    ensures xs != [] ==> |r| > 0 && StartChar(r[0])
  {
    if xs == [] then ""
    else if |xs| == 1 then Print(st, xs[0])
    else Print(st, xs[0]) + Sep(st) + PrintItems(st, xs[1..])
  }

  /** One object member: the quoted key, the printer's colon, the value. */
  function PrintField(st: Style, f: Field): (r: string)
    ensures |r| > 0 && r[0] == '"'
  {
    Quote(st, f.key) + Colon(st) + Print(st, f.value)
  }

  /** Object members separated by the printer's comma. */
  function PrintFields(st: Style, fs: seq<Field>): (r: string)
    ensures fs != [] ==> |r| > 0 && r[0] == '"'
  {
    if fs == [] then ""
    else if |fs| == 1 then PrintField(st, fs[0])
    else PrintField(st, fs[0]) + Sep(st) + PrintFields(st, fs[1..])
  }

  /** `JSON.stringify(v)`. */
  function Stringify(v: Json): string
  {
    Print(Js, v)
  }

  /** `json.dumps(v)`. */
  function Dumps(v: Json): string
  {
    Print(Py, v)
  }

  // ---------------------------------------------------------------- reading

  function SkipWs(s: string): (r: string)
    ensures |r| <= |s|
    ensures r == [] || !IsJsonSpace(r[0])
  {
    if |s| > 0 && IsJsonSpace(s[0]) then SkipWs(s[1..]) else s
  }

  /** Four hexadecimal digits at the start of `e`, as a number. */
  function Hex4(e: string): (r: Option<nat>)
    ensures r.Some? ==> |e| >= 4 && r.value < 0x10000
  {
    if |e| >= 4 && IsHex(e[0]) && IsHex(e[1]) && IsHex(e[2]) && IsHex(e[3]) then
      Some(HexValue(e[0]) * 4096 + HexValue(e[1]) * 256 + HexValue(e[2]) * 16 + HexValue(e[3]))
    else None
  }

  /** The character a surrogate pair stands for. */
  function FromPair(high: nat, low: nat): (c: char)
    requires 0xD800 <= high < 0xDC00 && 0xDC00 <= low < 0xE000
    ensures c >= '\U{10000}'
  {
    (0x10000 + (high - 0xD800) * 0x400 + (low - 0xDC00)) as char
  }

  /** The character an escape sequence (the text after a backslash) stands for, and how
      many characters of `e` it used. A `\u` escape of a high surrogate half followed by
      a `\u` escape of a low half stands for one character; a half on its own is
      refused, since a character here is a Unicode scalar value. */
  function Unescape(e: string): (r: Option<(char, nat)>)
    ensures r.Some? ==> 1 <= r.value.1 <= |e|
  {
    if e == [] then None
    else if e[0] == '"' then Some(('"', 1))
    else if e[0] == '\\' then Some(('\\', 1))
    else if e[0] == '/' then Some(('/', 1))
    else if e[0] == 'b' then Some(('\U{0008}', 1))
    else if e[0] == 'f' then Some(('\U{000C}', 1))
    else if e[0] == 'n' then Some(('\n', 1))
    else if e[0] == 'r' then Some(('\r', 1))
    else if e[0] == 't' then Some(('\t', 1))
    else if e[0] != 'u' then None
    else
      match Hex4(e[1..])
      case None => None
      case Some(code) =>
        if code < 0xD800 || 0xE000 <= code then Some((code as char, 5))
        else if 0xDC00 <= code || |e| < 7 || e[5] != '\\' || e[6] != 'u' then None
        else
          match Hex4(e[7..])
          case None => None
          case Some(low) => if 0xDC00 <= low < 0xE000 then Some((FromPair(code, low), 11)) else None
  }

  /** The body of a string literal up to its closing quote, and the text after it.
      Raw control characters are refused, as JSON requires. */
  function ParseChars(s: string): (r: Option<(string, string)>)
    ensures r.Some? ==> |r.value.1| < |s|
  {
    if s == [] then None
    else if s[0] == '"' then Some(([], s[1..]))
    else if s[0] == '\\' then
      match Unescape(s[1..])
      case None => None
      case Some((c, n)) =>
        (match ParseChars(s[1 + n..])
         case None => None
         case Some((cs, rest)) => Some(([c] + cs, rest)))
    else if s[0] < ' ' then None
    else
      match ParseChars(s[1..])
      case None => None
      case Some((cs, rest)) => Some(([s[0]] + cs, rest))
  }

  /** An optionally negative integer without leading zeros. */
  function ParseNumber(t: string): (r: Option<(Json, string)>)
    ensures r.Some? ==> |r.value.1| < |t|
  {
    var neg := |t| > 0 && t[0] == '-';
    var body := if neg then t[1..] else t;
    var n := DigitRun(body);
    if n == 0 || (body[0] == '0' && n > 1) then None
    else
      var v: int := DigitsValue(body[..n]);
      Some((JNum(if neg then -v else v), body[n..]))
  }

  /** One value after optional whitespace, and the text after it. */
  function ParseValue(s: string): (r: Option<(Json, string)>)
    ensures r.Some? ==> |r.value.1| < |s|
    decreases |s|, 0
  {
    var t := SkipWs(s);
    if t == [] then None
    else if t[0] == 'n' then (if StartsWith(t, "null") then Some((JNull, t[4..])) else None)
    else if t[0] == 't' then (if StartsWith(t, "true") then Some((JBool(true), t[4..])) else None)
    else if t[0] == 'f' then (if StartsWith(t, "false") then Some((JBool(false), t[5..])) else None)
    else if t[0] == '"' then
      match ParseChars(t[1..])
      case None => None
      case Some((str, rest)) => Some((JStr(str), rest))
    else if t[0] == '[' then ParseArray(t[1..])
    else if t[0] == '{' then ParseObject(t[1..])
    else ParseNumber(t)
  }

  /** An array after its opening bracket. */
  function ParseArray(s: string): (r: Option<(Json, string)>)
    ensures r.Some? ==> |r.value.1| < |s|
    decreases |s|, 2
  {
    var t := SkipWs(s);
    if |t| > 0 && t[0] == ']' then Some((JArr([]), t[1..]))
    else
      match ParseItems(t)
      case None => None
      case Some((xs, rest)) => Some((JArr(xs), rest))
  }

  /** One or more elements and the closing bracket. */
  function ParseItems(s: string): (r: Option<(seq<Json>, string)>)
    ensures r.Some? ==> |r.value.1| < |s|
    decreases |s|, 1
  {
    match ParseValue(s)
    case None => None
    case Some((x, r1)) =>
      var u := SkipWs(r1);
      if u == [] then None
      else if u[0] == ']' then Some(([x], u[1..]))
      else if u[0] == ',' then
        (match ParseItems(u[1..])
         case None => None
         case Some((xs, rest)) => Some(([x] + xs, rest)))
      else None
  }

  /** An object after its opening brace. */
  function ParseObject(s: string): (r: Option<(Json, string)>)
    ensures r.Some? ==> |r.value.1| < |s|
    decreases |s|, 3
  {
    var t := SkipWs(s);
    if |t| > 0 && t[0] == '}' then Some((JObj([]), t[1..]))
    else
      match ParseFields(t)
      case None => None
      case Some((fs, rest)) => Some((JObj(fs), rest))
  }

  /** One `"key": value` member. */
  function ParseField(s: string): (r: Option<(Field, string)>)
    ensures r.Some? ==> |r.value.1| < |s|
    decreases |s|, 1
  {
    var t := SkipWs(s);
    if t == [] || t[0] != '"' then None
    else
      match ParseChars(t[1..])
      case None => None
      case Some((k, r1)) =>
        var u := SkipWs(r1);
        if u == [] || u[0] != ':' then None
        else
          match ParseValue(u[1..])
          case None => None
          case Some((v, r2)) => Some((Field(k, v), r2))
  }

  /** One or more members and the closing brace. */
  function ParseFields(s: string): (r: Option<(seq<Field>, string)>)
    ensures r.Some? ==> |r.value.1| < |s|
    decreases |s|, 2
  {
    match ParseField(s)
    case None => None
    case Some((f, r1)) =>
      var w := SkipWs(r1);
      if w == [] then None
      else if w[0] == '}' then Some(([f], w[1..]))
      else if w[0] == ',' then
        (match ParseFields(w[1..])
         case None => None
         case Some((fs, rest)) => Some(([f] + fs, rest)))
      else None
  }

  /** `JSON.parse(s)`: one value surrounded by optional whitespace, or a failure
      (where JavaScript throws a SyntaxError). */
  function Parse(s: string): (r: Option<Json>)
  {
    match ParseValue(s)
    case None => None
    case Some((v, rest)) => if SkipWs(rest) == [] then Some(v) else None
  }

  // ---------------------------------------------------------------- round trip

  /** What may follow a value inside serialised text. */
  predicate Delimited(rest: string) {
    rest == [] || rest[0] == ',' || rest[0] == ']' || rest[0] == '}'
  }

  lemma {:induction false} DigitRunOfDigits(d: string, rest: string)
    requires AllDigits(d)
    requires rest == [] || !IsDigit(rest[0])
    ensures DigitRun(d + rest) == |d|
  {
    if d != [] {
      assert (d + rest)[1..] == d[1..] + rest;
      DigitRunOfDigits(d[1..], rest);
    } else {
      assert d + rest == rest;
    }
  }

  /** The unsigned part of a rendered integer reads back as that number. */
  lemma UnsignedRoundTrip(m: nat, rest: string)
    requires rest == [] || !IsDigit(rest[0])
    ensures var body := NatToString(m) + rest;
      var n := DigitRun(body);
      n == |NatToString(m)| && n > 0 && !(body[0] == '0' && n > 1)
      && body[..n] == NatToString(m) && body[n..] == rest
      && DigitsValue(body[..n]) == m
  {
    var d := NatToString(m);
    var body := d + rest;
    DigitRunOfDigits(d, rest);
    assert body[..|d|] == d;
    assert body[|d|..] == rest;
    NatToStringValue(m);
  }

  lemma NumberRoundTrip(i: int, rest: string)
    requires rest == [] || !IsDigit(rest[0])
    ensures ParseNumber(IntToString(i) + rest) == Some((JNum(i), rest))
  {
    if i < 0 {
      NegativeNumber(i, rest);
    } else {
      NonNegativeNumber(i, rest);
    }
  }

  lemma NonNegativeNumber(i: int, rest: string)
    requires i >= 0 && (rest == [] || !IsDigit(rest[0]))
    ensures ParseNumber(IntToString(i) + rest) == Some((JNum(i), rest))
  {
    assert IntToString(i) == NatToString(i);
    UnsignedRoundTrip(i, rest);
  }

  lemma NegativeNumber(i: int, rest: string)
    requires i < 0 && (rest == [] || !IsDigit(rest[0]))
    ensures ParseNumber(IntToString(i) + rest) == Some((JNum(i), rest))
  {
    var t := IntToString(i) + rest;
    assert t == "-" + (NatToString(-i) + rest) by {
      AppendAssoc("-", NatToString(-i), rest);
    }
    NegativeRoundTrip(-i, rest);
  }

  lemma NegativeRoundTrip(m: nat, rest: string)
    requires m > 0 && (rest == [] || !IsDigit(rest[0]))
    ensures ParseNumber("-" + (NatToString(m) + rest)) == Some((JNum(0 - m), rest))
  {
    var body := NatToString(m) + rest;
    assert ParseNumber(body) == Some((JNum(m), rest)) by {
      UnsignedRoundTrip(m, rest);
    }
    assert body[0] != '-' by {
      assert body[0] == NatToString(m)[0];
      assert IsDigit(NatToString(m)[0]);
    }
    ParseMinus(body);
  }

  /** A minus sign in front of an unsigned number negates it and reads nothing else. */
  lemma ParseMinus(body: string)
    requires body == [] || body[0] != '-'
    ensures var r := ParseNumber(body);
      r.Some? && r.value.0.JNum? ==> ParseNumber("-" + body) == Some((JNum(-r.value.0.n), r.value.1))
  {
    var t := "-" + body;
    assert t[1..] == body;
  }

  /** Reading back one escaped character. */
  lemma EscapeCharRoundTrip(st: Style, c: char, tail: string)
    ensures ParseChars(EscapeChar(st, c) + tail) ==
      match ParseChars(tail)
      case None => None
      case Some((cs, rest)) => Some(([c] + cs, rest))
  {
    if c == '"' || c == '\\' || c == '\U{0008}' || c == '\U{000C}' || c == '\n' || c == '\r' || c == '\t' {
      ShortEscapeRoundTrip(st, c, tail);
    } else if c < ' ' || (st == Py && '~' < c < '\U{10000}') {
      assert EscapeChar(st, c) == UnicodeEscape(c as int);
      UnicodeEscapeRoundTrip(c as int, tail);
    } else if st == Js || c <= '~' {
      var s := EscapeChar(st, c) + tail;
      assert s[1..] == tail;
    } else {
      PairRoundTrip(c, tail);
    }
  }

  lemma ShortEscapeRoundTrip(st: Style, c: char, tail: string)
    requires c == '"' || c == '\\' || c == '\U{0008}' || c == '\U{000C}' || c == '\n' || c == '\r' || c == '\t'
    ensures ParseChars(EscapeChar(st, c) + tail) ==
      match ParseChars(tail)
      case None => None
      case Some((cs, rest)) => Some(([c] + cs, rest))
  {
    var e := EscapeChar(st, c);
    var s := e + tail;
    assert |e| == 2 && e[0] == '\\';
    assert Unescape(s[1..]) == Some((c, 1)) by {
      assert s[1..] == [e[1]] + tail;
    }
    assert s[2..] == tail;
  }

  /** Four hexadecimal digits read back as the code unit they were written for. */
  lemma Hex4RoundTrip(code: nat, tail: string)
    requires code < 0x10000
    ensures Hex4(HexDigits(code) + tail) == Some(code)
  {
    var q1 := code / 16;
    var q2 := q1 / 16;
    var d0, d1, d2, d3 := q2 / 16, q2 % 16, q1 % 16, code % 16;
    HexRoundTrip(d0);
    HexRoundTrip(d1);
    HexRoundTrip(d2);
    HexRoundTrip(d3);
    var e := HexDigits(code) + tail;
    assert e[0] == HexChar(d0) && e[1] == HexChar(d1) && e[2] == HexChar(d2) && e[3] == HexChar(d3);
    assert code == ((d0 * 16 + d1) * 16 + d2) * 16 + d3;
  }

  /** A `\u` escape of a code unit outside the surrogate range reads back as that
      character. */
  lemma UnicodeEscapeRoundTrip(code: nat, tail: string)
    requires code < 0xD800 || 0xE000 <= code < 0x10000
    ensures ParseChars(UnicodeEscape(code) + tail) ==
      match ParseChars(tail)
      case None => None
      case Some((cs, rest)) => Some(([code as char] + cs, rest))
  {
    var s := UnicodeEscape(code) + tail;
    assert s[2..] == HexDigits(code) + tail;
    Hex4RoundTrip(code, tail);
    assert Unescape(s[1..]) == Some((code as char, 5)) by {
      assert s[1..][1..] == s[2..];
    }
    assert s[6..] == tail;
  }

  /** A surrogate pair's halves give back the character they were taken from. */
  lemma FromHalves(c: char)
    requires c >= '\U{10000}'
    ensures FromPair(HighHalf(c), LowHalf(c)) == c
  {
    var n := c as int - 0x10000;
    assert n == (n / 0x400) * 0x400 + n % 0x400;
  }

  /** A character outside the Basic Multilingual Plane, written by `json.dumps` as two
      `\u` escapes, reads back as that one character. */
  lemma PairRoundTrip(c: char, tail: string)
    requires c >= '\U{10000}'
    ensures ParseChars(EscapeChar(Py, c) + tail) ==
      match ParseChars(tail)
      case None => None
      case Some((cs, rest)) => Some(([c] + cs, rest))
  {
    UnescapePair(c, tail);
  }

  /** The text after the backslash of a written pair is read as the one character, using
      all eleven characters of the two escapes. */
  lemma UnescapePair(c: char, tail: string)
    requires c >= '\U{10000}'
    ensures var s := EscapeChar(Py, c) + tail;
      |s| >= 12 && s[0] == '\\' && Unescape(s[1..]) == Some((c, 11)) && s[12..] == tail
  {
    var hi, lo := HighHalf(c), LowHalf(c);
    PairText(c, tail);
    var e := (EscapeChar(Py, c) + tail)[1..];
    Hex4RoundTrip(hi, UnicodeEscape(lo) + tail);
    Hex4RoundTrip(lo, tail);
    UnescapeOfPair(e, hi, lo);
    FromHalves(c);
  }

  /** Two `\u` escapes of a high and a low half, read as one character. */
  lemma UnescapeOfPair(e: string, hi: nat, lo: nat)
    requires 0xD800 <= hi < 0xDC00 && 0xDC00 <= lo < 0xE000
    requires |e| >= 11 && e[0] == 'u' && e[5] == '\\' && e[6] == 'u'
    requires Hex4(e[1..]) == Some(hi) && Hex4(e[7..]) == Some(lo)
    ensures Unescape(e) == Some((FromPair(hi, lo), 11))
  {
  }

  /** Where the two escapes of a written pair sit in the text. */
  lemma PairText(c: char, tail: string)
    requires c >= '\U{10000}'
    ensures var hi, lo := HighHalf(c), LowHalf(c);
      var s := EscapeChar(Py, c) + tail;
      && s == UnicodeEscape(hi) + UnicodeEscape(lo) + tail
      && |s| >= 12 && s[0] == '\\' && s[12..] == tail
      && s[1..][0] == 'u' && s[1..][1..] == HexDigits(hi) + (UnicodeEscape(lo) + tail)
      && s[1..][5] == '\\' && s[1..][6] == 'u' && s[1..][7..] == HexDigits(lo) + tail
  {
    var hi, lo := HighHalf(c), LowHalf(c);
    var s := UnicodeEscape(hi) + UnicodeEscape(lo) + tail;
    assert EscapeChar(Py, c) + tail == s;
    var e := s[1..];
    assert e[1..] == HexDigits(hi) + (UnicodeEscape(lo) + tail);
    assert e[7..] == HexDigits(lo) + tail;
    assert s[12..] == tail;
  }

  lemma {:induction false} CharsRoundTrip(st: Style, str: string, rest: string)
    ensures ParseChars(Escape(st, str) + "\"" + rest) == Some((str, rest))
  {
    if str == [] {
      assert Escape(st, str) + "\"" + rest == "\"" + rest;
      assert ("\"" + rest)[1..] == rest;
    } else {
      var tail := Escape(st, str[1..]) + "\"" + rest;
      EscapeFirst(st, str, rest);
      CharsRoundTrip(st, str[1..], rest);
      EscapeCharRoundTrip(st, str[0], tail);
      assert [str[0]] + str[1..] == str;
    }
  }

  /** The escaped text of a non-empty string, regrouped around its first character. */
  lemma EscapeFirst(st: Style, str: string, rest: string)
    requires str != []
    ensures Escape(st, str) + "\"" + rest == EscapeChar(st, str[0]) + (Escape(st, str[1..]) + "\"" + rest)
  {
    AppendAssoc(EscapeChar(st, str[0]), Escape(st, str[1..]), "\"");
    AppendAssoc(EscapeChar(st, str[0]), Escape(st, str[1..]) + "\"", rest);
  }

  /** `json.dumps` writes U+1F600 as its surrogate pair, and the reader turns the pair
      back into the one character. */
  lemma EmojiFrame()
    ensures Dumps(JStr("\U{1F600}")) == "\"\\ud83d\\ude00\""
    ensures Parse("\"\\ud83d\\ude00\"") == Some(JStr("\U{1F600}"))
  {
    EmojiDumped();
    RoundTrip(Py, JStr("\U{1F600}"));
  }

  /** The text `json.dumps` writes for the one-character string U+1F600. */
  lemma EmojiDumped()
    ensures Dumps(JStr("\U{1F600}")) == "\"\\ud83d\\ude00\""
  {
    var pair := "\\ud83d\\ude00";
    assert Escape(Py, "\U{1F600}") == pair by {
      EmojiEscape();
      assert Escape(Py, "\U{1F600}") == EscapeChar(Py, '\U{1F600}') + Escape(Py, []);
    }
  }

  lemma EmojiEscape()
    ensures EscapeChar(Py, '\U{1F600}') == "\\ud83d\\ude00"
  {
    assert HighHalf('\U{1F600}') == 0xD83D && LowHalf('\U{1F600}') == 0xDE00;
    assert HexDigits(0xD83D) == "d83d";
    assert HexDigits(0xDE00) == "de00";
  }

  /** A high half with no low half after it is refused. */
  lemma LoneHalfRefused()
    ensures Parse("\"\\ud83d\"") == None
  {
    var e := "ud83d\"";
    assert Hex4(e[1..]) == Some(0xD83D);
    assert Unescape(e) == None;
    var t := "\"\\ud83d\"";
    assert t[1..][1..] == e;
    assert ParseChars(t[1..]) == None;
  }

  // One unfolding step of the reader per lemma, each about text that starts the
  // way serialised output does (no leading whitespace).

  lemma ParseValueString(s: string, str: string, rest: string)
    requires s != [] && s[0] == '"' && ParseChars(s[1..]) == Some((str, rest))
    ensures ParseValue(s) == Some((JStr(str), rest))
  {
  }

  lemma ParseValueArray(s: string)
    requires s != [] && s[0] == '['
    ensures ParseValue(s) == ParseArray(s[1..])
  {
  }

  lemma ParseValueObject(s: string)
    requires s != [] && s[0] == '{'
    ensures ParseValue(s) == ParseObject(s[1..])
  {
  }

  lemma ParseValueNumber(s: string)
    requires s != [] && (s[0] == '-' || IsDigit(s[0]))
    ensures ParseValue(s) == ParseNumber(s)
  {
  }

  lemma ParseArrayEmpty(s: string)
    requires s != [] && s[0] == ']'
    ensures ParseArray(s) == Some((JArr([]), s[1..]))
  {
  }

  lemma ParseArrayItems(s: string, xs: seq<Json>, rest: string)
    requires s != [] && StartChar(s[0]) && ParseItems(s) == Some((xs, rest))
    ensures ParseArray(s) == Some((JArr(xs), rest))
  {
  }

  lemma ParseObjectEmpty(s: string)
    requires s != [] && s[0] == '}'
    ensures ParseObject(s) == Some((JObj([]), s[1..]))
  {
  }

  lemma ParseObjectFields(s: string, fs: seq<Field>, rest: string)
    requires s != [] && s[0] == '"' && ParseFields(s) == Some((fs, rest))
    ensures ParseObject(s) == Some((JObj(fs), rest))
  {
  }

  lemma ParseItemsClose(s: string, x: Json, r1: string)
    requires ParseValue(s) == Some((x, r1))
    requires r1 != [] && r1[0] == ']'
    ensures ParseItems(s) == Some(([x], r1[1..]))
  {
  }

  lemma ParseItemsMore(s: string, x: Json, r1: string, xs: seq<Json>, rest: string)
    requires ParseValue(s) == Some((x, r1))
    requires r1 != [] && r1[0] == ','
    requires ParseItems(r1[1..]) == Some((xs, rest))
    ensures ParseItems(s) == Some(([x] + xs, rest))
  {
  }

  lemma ParseFieldOne(s: string, k: string, r1: string, v: Json, r2: string)
    requires s != [] && s[0] == '"' && ParseChars(s[1..]) == Some((k, r1))
    requires r1 != [] && r1[0] == ':' && ParseValue(r1[1..]) == Some((v, r2))
    ensures ParseField(s) == Some((Field(k, v), r2))
  {
  }

  lemma ParseFieldsClose(s: string, f: Field, r1: string)
    requires ParseField(s) == Some((f, r1))
    requires r1 != [] && r1[0] == '}'
    ensures ParseFields(s) == Some(([f], r1[1..]))
  {
  }

  lemma ParseFieldsMore(s: string, f: Field, r1: string, fs: seq<Field>, rest: string)
    requires ParseField(s) == Some((f, r1))
    requires r1 != [] && r1[0] == ','
    requires ParseFields(r1[1..]) == Some((fs, rest))
    ensures ParseFields(s) == Some(([f] + fs, rest))
  {
  }

  /** The space `json.dumps` puts after a comma or colon: the reader skips it. */
  function Space(st: Style): string
  {
    if st == Js then "" else " "
  }

  lemma SpaceSkipped(st: Style, t: string)
    ensures Sep(st) == "," + Space(st) && Colon(st) == ":" + Space(st)
    ensures ParseValue(Space(st) + t) == ParseValue(t)
    ensures ParseItems(Space(st) + t) == ParseItems(t)
    ensures ParseFields(Space(st) + t) == ParseFields(t)
  {
    if st == Py {
      assert (" " + t)[1..] == t;
      assert SkipWs(" " + t) == SkipWs(t);
    } else {
      assert "" + t == t;
    }
  }

  // How serialised text splits into its first token and the rest.

  lemma ItemsTextOne(st: Style, xs: seq<Json>, rest: string)
    requires |xs| == 1
    ensures PrintItems(st, xs) + "]" + rest == Print(st, xs[0]) + ("]" + rest)
  {
  }

  lemma ItemsTextMore(st: Style, xs: seq<Json>, rest: string)
    requires |xs| > 1
    ensures PrintItems(st, xs) + "]" + rest == Print(st, xs[0]) + (Sep(st) + (PrintItems(st, xs[1..]) + "]" + rest))
  {
    var a, b := Print(st, xs[0]), PrintItems(st, xs[1..]);
    assert PrintItems(st, xs) == a + Sep(st) + b;
    Regroup(a, Sep(st), b, "]", rest);
  }

  lemma AppendAssoc(a: string, b: string, c: string)
    ensures (a + b) + c == a + (b + c)
  {
  }

  /** Re-bracketing a concatenation of five pieces. */
  lemma Regroup(a: string, b: string, c: string, d: string, e: string)
    ensures (a + b + c) + d + e == a + (b + (c + d + e))
  {
  }

  lemma FieldText(st: Style, f: Field, follow: string)
    ensures PrintField(st, f) + follow
            == "\"" + (Escape(st, f.key) + "\"" + (Colon(st) + (Print(st, f.value) + follow)))
  {
  }

  lemma FieldsTextOne(st: Style, fs: seq<Field>, rest: string)
    requires |fs| == 1
    ensures PrintFields(st, fs) + "}" + rest == PrintField(st, fs[0]) + ("}" + rest)
  {
  }

  lemma FieldsTextMore(st: Style, fs: seq<Field>, rest: string)
    requires |fs| > 1
    ensures PrintFields(st, fs) + "}" + rest
            == PrintField(st, fs[0]) + (Sep(st) + (PrintFields(st, fs[1..]) + "}" + rest))
  {
    var a, b := PrintField(st, fs[0]), PrintFields(st, fs[1..]);
    assert PrintFields(st, fs) == a + Sep(st) + b;
    Regroup(a, Sep(st), b, "}", rest);
  }

  /** After a comma, the printer's space, and the rest. */
  lemma AfterSep(st: Style, after: string)
    ensures var follow := Sep(st) + after;
      follow != [] && follow[0] == ',' && follow[1..] == Space(st) + after
  {
    SpaceSkipped(st, after);
    AppendAssoc(",", Space(st), after);
  }

  /** Reading back a serialised value leaves exactly the text that followed it. */
  lemma {:induction false} ValueRoundTrip(st: Style, v: Json, rest: string)
    requires Delimited(rest)
    ensures ParseValue(Print(st, v) + rest) == Some((v, rest))
    decreases v, 0
  {
    match v
    case JNull =>
      KeywordRoundTrip(st, "null", v, rest);
    case JBool(b) =>
      KeywordRoundTrip(st, if b then "true" else "false", v, rest);
    case JNum(n) =>
      NumberValueRoundTrip(st, n, rest);
    case JStr(str) =>
      StringValueRoundTrip(st, str, rest);
    case JArr(xs) =>
      ArrayRoundTrip(st, xs, rest);
    case JObj(fs) =>
      ObjectRoundTrip(st, fs, rest);
  }

  /** A written number reads back as that number. */
  lemma NumberValueRoundTrip(st: Style, n: int, rest: string)
    requires Delimited(rest)
    ensures ParseValue(Print(st, JNum(n)) + rest) == Some((JNum(n), rest))
  {
    NumberRoundTrip(n, rest);
    ParseValueNumber(Print(st, JNum(n)) + rest);
  }

  /** A written string reads back as that string. */
  lemma StringValueRoundTrip(st: Style, str: string, rest: string)
    ensures ParseValue(Print(st, JStr(str)) + rest) == Some((JStr(str), rest))
  {
    var inner := Escape(st, str) + "\"" + rest;
    assert Print(st, JStr(str)) + rest == "\"" + inner;
    CharsRoundTrip(st, str, rest);
    ParseValueString("\"" + inner, str, rest);
  }

  /** `null`, `true` and `false` read back as the value they were written for. */
  lemma KeywordRoundTrip(st: Style, word: string, v: Json, rest: string)
    requires v.JNull? || v.JBool?
    requires word == Print(st, v)
    ensures ParseValue(word + rest) == Some((v, rest))
  {
    var s := word + rest;
    assert s[..|word|] == word;
    assert s[|word|..] == rest;
  }

  lemma {:induction false} ArrayRoundTrip(st: Style, xs: seq<Json>, rest: string)
    ensures ParseValue(Print(st, JArr(xs)) + rest) == Some((JArr(xs), rest))
    decreases xs, 1
  {
    var inner := PrintItems(st, xs) + "]" + rest;
    var s := "[" + inner;
    assert Print(st, JArr(xs)) + rest == s;
    ParseValueArray(s);
    assert s[1..] == inner;
    if xs == [] {
      assert inner == "]" + rest;
      ParseArrayEmpty(inner);
      assert inner[1..] == rest;
    } else {
      ItemsRoundTrip(st, xs, rest);
      ParseArrayItems(inner, xs, rest);
    }
  }

  lemma {:induction false} ObjectRoundTrip(st: Style, fs: seq<Field>, rest: string)
    ensures ParseValue(Print(st, JObj(fs)) + rest) == Some((JObj(fs), rest))
    decreases fs, 1
  {
    var inner := PrintFields(st, fs) + "}" + rest;
    var s := "{" + inner;
    assert Print(st, JObj(fs)) + rest == s;
    ParseValueObject(s);
    assert s[1..] == inner;
    if fs == [] {
      assert inner == "}" + rest;
      ParseObjectEmpty(inner);
      assert inner[1..] == rest;
    } else {
      FieldsRoundTrip(st, fs, rest);
      ParseObjectFields(inner, fs, rest);
    }
  }

  lemma {:induction false} ItemsRoundTrip(st: Style, xs: seq<Json>, rest: string)
    requires xs != []
    ensures ParseItems(PrintItems(st, xs) + "]" + rest) == Some((xs, rest))
    decreases xs, 0
  {
    var s := PrintItems(st, xs) + "]" + rest;
    if |xs| == 1 {
      var follow := "]" + rest;
      ItemsTextOne(st, xs, rest);
      ValueRoundTrip(st, xs[0], follow);
      assert follow[1..] == rest;
      ParseItemsClose(s, xs[0], follow);
      assert [xs[0]] == xs;
    } else {
      var after := PrintItems(st, xs[1..]) + "]" + rest;
      var follow := Sep(st) + after;
      ItemsTextMore(st, xs, rest);
      AfterSep(st, after);
      ValueRoundTrip(st, xs[0], follow);
      ItemsRoundTrip(st, xs[1..], rest);
      SpaceSkipped(st, after);
      ParseItemsMore(s, xs[0], follow, xs[1..], rest);
      assert [xs[0]] + xs[1..] == xs;
    }
  }

  lemma {:induction false} FieldsRoundTrip(st: Style, fs: seq<Field>, rest: string)
    requires fs != []
    ensures ParseFields(PrintFields(st, fs) + "}" + rest) == Some((fs, rest))
    decreases fs, 0
  {
    var s := PrintFields(st, fs) + "}" + rest;
    var f := fs[0];
    if |fs| == 1 {
      var follow := "}" + rest;
      FieldsTextOne(st, fs, rest);
      FieldRoundTrip(st, f, follow);
      ParseFieldsClose(s, f, follow);
      assert follow[1..] == rest;
      assert [f] == fs;
    } else {
      var after := PrintFields(st, fs[1..]) + "}" + rest;
      AfterSep(st, after);
      FieldRoundTrip(st, f, Sep(st) + after);
      FieldsRoundTrip(st, fs[1..], rest);
      FieldsMoreStep(st, fs, rest);
    }
  }

  /** The step of `FieldsRoundTrip` for more than one member: reading the first member
      and then the others reads them all. */
  lemma FieldsMoreStep(st: Style, fs: seq<Field>, rest: string)
    requires |fs| > 1
    requires var after := PrintFields(st, fs[1..]) + "}" + rest;
      && ParseField(PrintField(st, fs[0]) + (Sep(st) + after)) == Some((fs[0], Sep(st) + after))
      && ParseFields(after) == Some((fs[1..], rest))
    ensures ParseFields(PrintFields(st, fs) + "}" + rest) == Some((fs, rest))
  {
    var after := PrintFields(st, fs[1..]) + "}" + rest;
    var follow := Sep(st) + after;
    var s := PrintFields(st, fs) + "}" + rest;
    FieldsMoreText(st, fs, rest);
    ParseFieldsMore(s, fs[0], follow, fs[1..], rest);
    assert [fs[0]] + fs[1..] == fs;
  }

  /** The text of more than one member: the first member, the printer's comma, and text
      that reads as the others do. */
  lemma FieldsMoreText(st: Style, fs: seq<Field>, rest: string)
    requires |fs| > 1
    ensures var after := PrintFields(st, fs[1..]) + "}" + rest;
      var follow := Sep(st) + after;
      && PrintFields(st, fs) + "}" + rest == PrintField(st, fs[0]) + follow
      && follow != [] && follow[0] == ','
      && ParseFields(follow[1..]) == ParseFields(after)
  {
    var after := PrintFields(st, fs[1..]) + "}" + rest;
    FieldsTextMore(st, fs, rest);
    AfterSep(st, after);
    SpaceSkipped(st, after);
  }

  /** Reading back one member leaves the text that followed it. */
  lemma {:induction false} FieldRoundTrip(st: Style, f: Field, follow: string)
    requires Delimited(follow)
    ensures ParseField(PrintField(st, f) + follow) == Some((f, follow))
    decreases f, 0
  {
    var s := PrintField(st, f) + follow;
    var after := Print(st, f.value) + follow;
    var r1 := Colon(st) + after;
    FieldText(st, f, follow);
    assert s == "\"" + (Escape(st, f.key) + "\"" + r1);
    assert s[1..] == Escape(st, f.key) + "\"" + r1;
    CharsRoundTrip(st, f.key, r1);
    SpaceSkipped(st, after);
    AppendAssoc(":", Space(st), after);
    assert r1[1..] == Space(st) + after;
    ValueRoundTrip(st, f.value, follow);
    ParseFieldOne(s, f.key, r1, f.value, follow);
  }

  /** Either printer's text reads back as the value it was written for. */
  lemma RoundTrip(st: Style, v: Json)
    ensures Parse(Print(st, v)) == Some(v)
  {
    ValueRoundTrip(st, v, []);
    assert Print(st, v) + [] == Print(st, v);
  }

  /** `JSON.parse(JSON.stringify(v))` gives back `v`. */
  lemma StringifyRoundTrip(v: Json)
    ensures Parse(Stringify(v)) == Some(v)
  {
    RoundTrip(Js, v);
  }

  /** `JSON.parse(json.dumps(v))` gives back `v`: the client reads back every value the
      server broadcasts. */
  lemma DumpsRoundTrip(v: Json)
    ensures Parse(Dumps(v)) == Some(v)
  {
    RoundTrip(Py, v);
  }
}

=== FILE: labels.dfy ===
/** The badges, vehicle names and elapsed-time captions the booking and bidding screens
    each define for themselves (AvailableShipmentsScreen.js, BidSubmissionScreen.js,
    MyBidsScreen.js, BidReviewScreen.js, ScheduleScreen.js, VehicleSelectionScreen.js).
    The copies agree except where noted: the bid review names the pickup "Pickup Truck"
    and spells its elapsed times out in words. */
module Labels {
  import opened Wrappers
  import opened Text
  import ShipmentModel

  /** The palette entries the badges draw from. */
  datatype Colour = Success | Error | Warning | Info | Gray500 | Gray300

  /** `getUrgencyColor`. */
  function UrgencyColour(u: string): Colour
  {
    if u == "high" then Error else if u == "medium" then Warning else if u == "low" then Info else Gray500
  }

  /** `getUrgencyLabel`: an unknown urgency reads as the standard one. */
  function UrgencyLabel(u: string): string
  {
    if u == "high" then "Urgent" else if u == "medium" then "Express" else "Standard"
  }

  /** The label alone cannot tell an unknown urgency from `low`, but label and colour
      together name exactly one urgency of the server's enumeration, and an unknown text
      is the grey badge. */
  lemma BadgeIdentifiesUrgency(t: string, u: ShipmentModel.Urgency)
    ensures UrgencyLabel(t) == UrgencyLabel(ShipmentModel.UrgencyText(u))
         && UrgencyColour(t) == UrgencyColour(ShipmentModel.UrgencyText(u))
        <==> t == ShipmentModel.UrgencyText(u)
    ensures ShipmentModel.ParseUrgency(t).None? <==> UrgencyColour(t) == Gray500
    ensures ShipmentModel.ParseUrgency(t).None? ==> UrgencyLabel(t) == UrgencyLabel("low")
  {
    match u
    case Low =>
    case Medium =>
    case High =>
  }

  /** `getVehicleIcon`: an unknown type shares the pickup's icon. */
  function VehicleIcon(v: string): string
  {
    if v == "motorbike" then "bicycle" else if v == "truck" then "bus" else "car"
  }

  /** `getVehicleName` of the list of available shipments. */
  function VehicleName(v: string): string
  {
    if v == "motorbike" then "Motorbike" else if v == "pickup" then "Pickup"
    else if v == "truck" then "Truck" else "Vehicle"
  }

  /** `getVehicleName` of the bid review and the names of the vehicle selection cards. */
  function VehicleTitle(v: string): string
  {
    if v == "pickup" then "Pickup Truck" else VehicleName(v)
  }

  /** Reading a vehicle type back from the name shown for it. */
  function VehicleOfName(name: string): (r: Option<string>)
  {
    if name == "Motorbike" then Some("motorbike") else if name == "Pickup" || name == "Pickup Truck" then Some("pickup")
    else if name == "Truck" then Some("truck") else None
  }

  /** Both spellings of a vehicle's name lead back to its type, and every type outside
      the server's three reads as the generic "Vehicle", which names none. */
  lemma VehicleNamesRoundTrip(v: string)
    ensures v in ShipmentModel.VehicleTexts ==> VehicleOfName(VehicleName(v)) == Some(v) && VehicleOfName(VehicleTitle(v)) == Some(v)
    ensures v !in ShipmentModel.VehicleTexts ==> VehicleName(v) == VehicleTitle(v) == "Vehicle" && VehicleOfName("Vehicle").None?
  {
  }

  /** The caption `formatTimeAgo` chooses. */
  datatype Ago = JustNow | MinutesAgo(n: nat) | HoursAgo(n: nat) | DaysAgo(n: nat)

  const MinuteMs := 60000
  const HourMs := 3600000
  const DayMs := 86400000

  /** `formatTimeAgo` for `now - date` milliseconds: whole minutes, rounded down, then
      whole hours below a day and whole days beyond. A date in the future reads as
      "Just now". */
  function Elapsed(ms: int): (a: Ago)
    ensures a.JustNow? <==> ms < MinuteMs
    ensures a.MinutesAgo? ==> 1 <= a.n < 60 && a.n * MinuteMs <= ms < (a.n + 1) * MinuteMs
    ensures a.HoursAgo? ==> 1 <= a.n < 24 && a.n * HourMs <= ms < (a.n + 1) * HourMs
    ensures a.DaysAgo? ==> 1 <= a.n && a.n * DayMs <= ms < (a.n + 1) * DayMs
  {
    var m := ms / MinuteMs;
    if m < 1 then JustNow
    else if m < 60 then MinutesAgo(m)
    else
      var h := m / 60;
      if h < 24 then HoursAgo(h) else DaysAgo(h / 24)
  }

  /** The time a caption stands for, in minutes. */
  function Minutes(a: Ago): nat
  {
    match a
    case JustNow => 0
    case MinutesAgo(n) => n
    case HoursAgo(n) => 60 * n
    case DaysAgo(n) => 1440 * n
  }

  /** An older date never gets a caption standing for less time. */
  lemma ElapsedMonotone(x: int, y: int)
    requires x <= y
    ensures Minutes(Elapsed(x)) <= Minutes(Elapsed(y))
  {
    var a := Elapsed(x);
    var b := Elapsed(y);
    if a.DaysAgo? && b.DaysAgo? {
      assert a.n * DayMs < (b.n + 1) * DayMs;
    } else if a.HoursAgo? && b.HoursAgo? {
      assert a.n * HourMs < (b.n + 1) * HourMs;
    } else if a.MinutesAgo? && b.MinutesAgo? {
      assert a.n * MinuteMs < (b.n + 1) * MinuteMs;
    }
  }

  /** The short caption of the driver screens. */
  function Short(a: Ago): string
  {
    match a
    case JustNow => "Just now"
    case MinutesAgo(n) => NatToString(n) + "m ago"
    case HoursAgo(n) => NatToString(n) + "h ago"
    case DaysAgo(n) => NatToString(n) + "d ago"
  }

  /** The caption of the bid review, in words. */
  function Long(a: Ago): string
  {
    match a
    case JustNow => "Just now"
    case MinutesAgo(n) => NatToString(n) + " minutes ago"
    case HoursAgo(n) => NatToString(n) + " hours ago"
    case DaysAgo(n) => NatToString(n) + " days ago"
  }

  /** The `s` of a count's noun when the count is not exactly one. */
  function Plural(noun: string, count: int): (r: string)
    ensures count == 1 <==> r == noun
  {
    if count != 1 then noun + "s" else noun
  }
}

=== FILE: location_screen.dfy ===
/** The map step of booking (BirtuLogistics/src/screens/customer/LocationScreen.js): the
    customer picks a pickup and then a dropoff point by tapping the map, and Continue
    packs both as `[longitude, latitude]` places for the draft. The address of a point
    comes from the device's reverse geocoder and is a parameter here. */
module LocationScreen {
  import opened Wrappers
  import Draft

  datatype Coordinate = Coordinate(latitude: real, longitude: real)

  /** The screen's state; `current` is the device position once it has been read. */
  datatype State = State(
    pickup: Option<Coordinate>, dropoff: Option<Coordinate>, current: Option<Coordinate>,
    pickupAddress: string, dropoffAddress: string, selectingPickup: bool)

  const Initial := State(None, None, None, "", "", true)

  /** The screen never selects a dropoff point before it has a pickup point. */
  predicate Ordered(st: State) {
    !st.selectingPickup ==> st.pickup.Some?
  }

  /** `handleMapPress` once the address of the tapped point is known: the point being
      selected moves there, and the other one stays. */
  function Tap(st: State, c: Coordinate, address: string): (r: State)
    ensures r.selectingPickup == st.selectingPickup && r.current == st.current
    ensures st.selectingPickup ==> r.pickup == Some(c) && r.pickupAddress == address && r.dropoff == st.dropoff && r.dropoffAddress == st.dropoffAddress
    ensures !st.selectingPickup ==> r.dropoff == Some(c) && r.dropoffAddress == address && r.pickup == st.pickup && r.pickupAddress == st.pickupAddress
  {
    if st.selectingPickup then st.(pickup := Some(c), pickupAddress := address)
    else st.(dropoff := Some(c), dropoffAddress := address)
  }

  /** `useCurrentLocationForPickup`: the device position becomes the pickup point, in
      either mode; without a position nothing happens. */
  function UseCurrent(st: State, address: string): (r: State)
    ensures st.current.None? ==> r == st
    ensures st.current.Some? ==> r.pickup == st.current && r.pickupAddress == address
    ensures r.dropoff == st.dropoff && r.dropoffAddress == st.dropoffAddress
    ensures r.current == st.current && r.selectingPickup == st.selectingPickup
  {
    if st.current.Some? then st.(pickup := st.current, pickupAddress := address) else st
  }

  /** `switchToDropoffSelection`, and whether the "Select Pickup Location" alert was
      shown instead. */
  datatype Switched = Switched(state: State, alerted: bool)

  function SwitchToDropoff(st: State): (r: Switched)
    ensures r.alerted <==> st.pickup.None?
    ensures r.alerted ==> r.state == st
    ensures !r.alerted ==> !r.state.selectingPickup
    ensures r.state.pickup == st.pickup && r.state.dropoff == st.dropoff && r.state.current == st.current
    ensures r.state.pickupAddress == st.pickupAddress && r.state.dropoffAddress == st.dropoffAddress
  {
    if st.pickup.None? then Switched(st, true) else Switched(st.(selectingPickup := false), false)
  }

  /** A user action on the screen, with the address the geocoder gave where one is
      looked up. */
  datatype Action =
    | Located(at: Coordinate)
    | Pressed(at: Coordinate, address: string)
    | UseCurrentForPickup(address: string)
    | ToDropoff
    | ToPickup

  function Step(st: State, a: Action): State
  {
    match a
    case Located(c) => st.(current := Some(c))
    case Pressed(c, address) => Tap(st, c, address)
    case UseCurrentForPickup(address) => UseCurrent(st, address)
    case ToDropoff => SwitchToDropoff(st).state
    case ToPickup => st.(selectingPickup := true)
  }

  function Run(actions: seq<Action>): State
  {
    if actions == [] then Initial else Step(Run(actions[..|actions| - 1]), actions[|actions| - 1])
  }

  /** Every action keeps the order of selection, so a dropoff point is only ever set once
      a pickup point is. */
  lemma {:induction false} RunOrdered(actions: seq<Action>)
    ensures Ordered(Run(actions))
    ensures Run(actions).dropoff.Some? ==> Run(actions).pickup.Some?
  {
    if actions != [] {
      RunOrdered(actions[..|actions| - 1]);
    }
  }

  /** A point as the draft stores it: `[longitude, latitude]` and the address. */
  function Pack(c: Coordinate, address: string): (p: Draft.Place)
    ensures |p.coordinates| == 2 && p.address == address
  {
    Draft.Place([c.longitude, c.latitude], address)
  }

  /** Reading a stored place back as a map point. */
  function Unpack(p: Draft.Place): (r: Option<Coordinate>)
    ensures r.Some? <==> |p.coordinates| == 2
  {
    if |p.coordinates| == 2 then Some(Coordinate(p.coordinates[1], p.coordinates[0])) else None
  }

  /** Packing loses nothing: longitude first, latitude second, read back in place. */
  lemma PackRoundTrip(c: Coordinate, address: string)
    ensures Unpack(Pack(c, address)) == Some(c)
    ensures Pack(c, address).coordinates[0] == c.longitude && Pack(c, address).coordinates[1] == c.latitude
  {
  }

  /** What Continue leads to. */
  datatype Outcome = Incomplete | Thrown(store: Draft.Store) | Receiver(store: Draft.Store)

  /** `handleContinue` as written: it calls `setPickupLocation`, which the context does
      not provide. */
  function Continue(s: Draft.Store, st: State): (r: Outcome)
    ensures r.Incomplete? <==> st.pickup.None? || st.dropoff.None?
  {
    if st.pickup.None? || st.dropoff.None? then Incomplete
    else
      var first := Draft.Invoke(s, "setPickupLocation", Draft.SetLocations(Some(Pack(st.pickup.value, st.pickupAddress)), s.current.dropoffLocation));
      if first.thrown then Thrown(first.store)
      else
        var second := Draft.Invoke(first.store, "setDropoffLocation", Draft.SetLocations(first.store.current.pickupLocation, Some(Pack(st.dropoff.value, st.dropoffAddress))));
        if second.thrown then Thrown(second.store) else Receiver(second.store)
  }

  /** With both points chosen, Continue throws before storing either, so the booking
      never reaches the receiver step. */
  lemma ContinueNeverStores(s: Draft.Store, st: State)
    requires st.pickup.Some? && st.dropoff.Some?
    ensures Continue(s, st) == Thrown(s)
  {
    assert !Draft.Provides("setPickupLocation");
  }

  /** The evidently intended Continue, through the context's `setLocations`. */
  function ContinueCorrected(s: Draft.Store, st: State): (r: Outcome)
    ensures r.Incomplete? <==> st.pickup.None? || st.dropoff.None?
  {
    if st.pickup.None? || st.dropoff.None? then Incomplete
    else
      var call := Draft.Invoke(s, "setLocations", Draft.SetLocations(Some(Pack(st.pickup.value, st.pickupAddress)), Some(Pack(st.dropoff.value, st.dropoffAddress))));
      if call.thrown then Thrown(call.store) else Receiver(call.store)
  }

  /** With the intended setter, the draft receives both points as chosen on the map, and
      nothing else in it moves. */
  lemma CorrectedStoresBoth(s: Draft.Store, actions: seq<Action>)
    requires Run(actions).dropoff.Some?
    ensures var st := Run(actions);
      var r := ContinueCorrected(s, st);
      && r.Receiver?
      && Unpack(r.store.current.pickupLocation.value) == st.pickup
      && Unpack(r.store.current.dropoffLocation.value) == st.dropoff
      && r.store.current.pickupLocation.value.address == st.pickupAddress
      && r.store.current.dropoffLocation.value.address == st.dropoffAddress
      && (forall m :: m != Draft.PickupLocation && m != Draft.DropoffLocation ==> Draft.Agree(r.store, s, m))
  {
    RunOrdered(actions);
    assert Draft.Provides("setLocations");
    var st := Run(actions);
    PackRoundTrip(st.pickup.value, st.pickupAddress);
    PackRoundTrip(st.dropoff.value, st.dropoffAddress);
  }
}

=== FILE: login_screen.dfy ===
/** The sign-in form (BirtuLogistics/src/screens/auth/LoginScreen.js): its two checks,
    the credentials it posts, and what it hands to the session's `login` from the
    server's answer. */
module LoginScreen {
  import opened Wrappers
  import opened JsonValue
  import opened Text
  import opened Forms
  import RegisterScreen
  import Session

  datatype Input = Phone | Password

  datatype Form = Form(phone: string, password: string)

  /** The first failing check of one field; the texts are the sign-up form's. */
  function Check(f: Form, i: Input): Option<string>
  {
    match i
    case Phone =>
      if Trim(f.phone) == "" then Some(RegisterScreen.PhoneRequired)
      else if !EthiopianPhone(Trim(f.phone)) then Some(RegisterScreen.PhoneInvalid) else None
    case Password =>
      if Trim(f.password) == "" then Some(RegisterScreen.PasswordRequired)
      else if Utf16Length(f.password) < 6 then Some(RegisterScreen.PasswordShort) else None
  }

  /** `validateForm`'s `newErrors`. */
  function Validate(f: Form): (e: map<Input, string>)
    ensures Phone in e <==> !EthiopianPhone(Trim(f.phone))
    ensures Password in e <==> Trim(f.password) == "" || Utf16Length(f.password) < 6
    ensures Phone in e ==> e[Phone] == (if Trim(f.phone) == "" then RegisterScreen.PhoneRequired else RegisterScreen.PhoneInvalid)
    ensures Password in e ==> e[Password] == (if Trim(f.password) == "" then RegisterScreen.PasswordRequired else RegisterScreen.PasswordShort)
  {
    map i | i in {Phone, Password} && Check(f, i).Some? :: Check(f, i).value
  }

  /** `handleLogin`'s request: none while the form is invalid; otherwise the trimmed
      phone, which is then a valid number, and the trimmed password, which is not empty. */
  function Request(f: Form): (r: Option<map<string, string>>)
    ensures r.Some? <==> Validate(f) == map[]
    ensures r.Some? ==> r.value.Keys == {"phone", "password"}
    ensures r.Some? ==> EthiopianPhone(r.value["phone"]) && r.value["password"] != ""
    ensures r.Some? ==> r.value["password"] == Trim(f.password)
  {
    var e := Validate(f);
    if e == map[] then Some(map["phone" := Trim(f.phone), "password" := Trim(f.password)])
    else None
  }

  /** The answer of the server's `login`: the token under `access_token`, the token
      type, and the user. */
  function ServerReply(token: string, user: Json): (r: Json)
  {
    JObj([Field("access_token", JStr(token)), Field("token_type", JStr("bearer")), Field("user", user)])
  }

  /** The token argument `login` receives: a string is stored; `undefined` or any other
      value makes the storage write reject. */
  function TokenArg(p: Prop): Option<string>
  {
    if p.Value? && p.v.JStr? then Some(p.v.s) else None
  }

  /** The user argument: the member's value, or `undefined` when it is missing. */
  function UserArg(p: Prop): Option<Json>
  {
    if p.Value? then Some(p.v) else None
  }

  /** `login(response.token, response.user)` as written. */
  function SignIn(st: Session.Storage, response: Json, fault: Option<nat>): (r: Session.Saved)
    ensures r.actions != [] <==>
      Get(response, "token").Value? && Get(response, "token").v.JStr? && Get(response, "user").Value?
      && fault != Some(0) && fault != Some(1)
    ensures r.actions != [] ==> r.actions == [Session.Login(Get(response, "user").v, Get(response, "token").v.s)]
  {
    Session.SaveLogin(st, TokenArg(Get(response, "token")), UserArg(Get(response, "user")), fault)
  }

  /** The server never sends `token`, so signing in with its answer stores nothing and
      dispatches nothing: the session stays signed out whatever the server says. */
  lemma ServerReplyNeverSignsIn(st: Session.Storage, token: string, user: Json, fault: Option<nat>)
    ensures SignIn(st, ServerReply(token, user), fault) == Session.Saved(st, [])
  {
    var fs := ServerReply(token, user).fields;
    assert fs[..|fs| - 1] == fs[..2] && fs[..2][..1] == [fs[0]] && [fs[0]][..0] == [];
    assert Lookup([fs[0]], "token") == None;
    assert Lookup(fs, "token") == None;
  }

  /** The evidently intended call, `login(response.access_token, response.user)`. */
  function SignInCorrected(st: Session.Storage, response: Json, fault: Option<nat>): (r: Session.Saved)
  {
    Session.SaveLogin(st, TokenArg(Get(response, "access_token")), UserArg(Get(response, "user")), fault)
  }

  /** With the intended call, the server's answer signs the user in: LOGIN is dispatched
      with its token and user, and the session comes back on the next start. */
  lemma CorrectedSignsIn(st: Session.Storage, token: string, user: Json, any: Session.AuthState)
    requires token != ""
    ensures var saved := SignInCorrected(st, ServerReply(token, user), None);
      && saved.actions == [Session.Login(user, token)]
      && Session.ReduceAll(any, Session.Restore(saved.storage, false)) == Session.AuthState(true, user, Some(token), false)
  {
    var fs := ServerReply(token, user).fields;
    assert fs[..|fs| - 1] == fs[..2] && fs[..2][..1] == [fs[0]];
    assert Lookup([fs[0]], "access_token") == Some(JStr(token));
    assert Lookup(fs, "access_token") == Some(JStr(token));
    assert Lookup(fs, "user") == Some(user);
    Session.LoginThenRestore(any, st, token, user, any);
  }
}

=== FILE: my_bids.dfy ===
/** A driver's list of their own bids (BirtuLogistics/src/screens/driver/MyBidsScreen.js):
    four tabs filtering by status with a count each, a badge per status, and the
    "Start Delivery" button that opens tracking for an accepted bid. Times are
    milliseconds on the device clock. */
module MyBids {
  import opened Wrappers
  import Labels
  import ShipmentModel

  datatype Bid = Bid(
    id: string, shipmentId: string, customerName: string, amount: real, status: string,
    submittedAt: int, respondedAt: Option<int>, pickupLocation: string, dropoffLocation: string,
    itemDescription: string, distance: real, notes: string)

  /** The tab ids other than `all`; each filters on the status of the same name. */
  const StatusTabs: seq<string> := ["pending", "accepted", "rejected"]

  /** The bids with a given status, in list order. */
  function WithStatus(bids: seq<Bid>, status: string): (r: seq<Bid>)
    ensures |r| <= |bids|
    ensures forall b :: b in r <==> b in bids && b.status == status
  {
    if bids == [] then []
    else if bids[|bids| - 1].status == status then WithStatus(bids[..|bids| - 1], status) + [bids[|bids| - 1]]
    else WithStatus(bids[..|bids| - 1], status)
  }

  /** Filtering a concatenation filters each part in turn. */
  lemma {:induction false} WithStatusAppend(a: seq<Bid>, b: seq<Bid>, status: string)
    ensures WithStatus(a + b, status) == WithStatus(a, status) + WithStatus(b, status)
    decreases |b|
  {
    if b == [] {
      assert a + b == a;
    } else {
      var init, last := b[..|b| - 1], b[|b| - 1];
      assert (a + b)[..|a + b| - 1] == a + init && (a + b)[|a + b| - 1] == last;
      WithStatusAppend(a, init, status);
      if last.status == status {
        assert WithStatus(a, status) + WithStatus(init, status) + [last] == WithStatus(a, status) + (WithStatus(init, status) + [last]);
      }
    }
  }

  /** The filter keeps the list's order and every copy: filtering a concatenation
      filters each part in turn, and a single bid is kept exactly when its status is the
      one asked for. */
  lemma WithStatusOrder(a: seq<Bid>, b: seq<Bid>, status: string)
    ensures WithStatus(a + b, status) == WithStatus(a, status) + WithStatus(b, status)
    ensures forall x :: WithStatus([x], status) == if x.status == status then [x] else []
  {
    WithStatusAppend(a, b, status);
    forall x: Bid
      ensures WithStatus([x], status) == if x.status == status then [x] else []
    {
      assert [x][..0] == [];
    }
  }

  /** `getFilteredBids`: everything on the `all` tab, otherwise the bids whose status
      is the tab's id. */
  function Filtered(bids: seq<Bid>, tab: string): (r: seq<Bid>)
    ensures tab == "all" ==> r == bids
    ensures tab != "all" ==> forall b :: b in r <==> b in bids && b.status == tab
  {
    if tab == "all" then bids else WithStatus(bids, tab)
  }

  /** Each tab shows its bids in the list's order, with every copy: the tab's list of a
      concatenation is the tab's list of each part in turn, and a single bid shows on
      `all` and on the tab of its own status only. */
  lemma FilteredOrder(a: seq<Bid>, b: seq<Bid>, tab: string)
    ensures Filtered(a + b, tab) == Filtered(a, tab) + Filtered(b, tab)
    ensures forall x :: Filtered([x], tab) == if tab == "all" || x.status == tab then [x] else []
  {
    WithStatusOrder(a, b, tab);
  }

  /** `bidCounts[tab]`. */
  function Count(bids: seq<Bid>, tab: string): nat
  {
    if tab == "all" then |bids| else |WithStatus(bids, tab)|
  }

  /** Each tab's count is the length of the list that tab shows, and its badge appears
      exactly when that list is not empty. */
  lemma CountIsShown(bids: seq<Bid>, tab: string)
    ensures Count(bids, tab) == |Filtered(bids, tab)|
    ensures Count(bids, tab) > 0 <==> exists b :: b in Filtered(bids, tab)
  {
    if Count(bids, tab) > 0 {
      assert Filtered(bids, tab)[0] in Filtered(bids, tab);
    }
  }

  /** When every bid has one of the three statuses, the three status counts add up to
      the count of the `all` tab. */
  lemma {:induction false} CountsPartition(bids: seq<Bid>)
    requires forall b :: b in bids ==> b.status in StatusTabs
    ensures Count(bids, "pending") + Count(bids, "accepted") + Count(bids, "rejected") == Count(bids, "all")
  {
    if bids != [] {
      var init := bids[..|bids| - 1];
      assert forall b :: b in init ==> b in bids;
      CountsPartition(init);
      assert bids[|bids| - 1] in bids;
    }
  }

  /** `getStatusColor`. */
  function StatusColour(status: string): Labels.Colour
  {
    if status == "accepted" then Labels.Success else if status == "rejected" then Labels.Error
    else if status == "pending" then Labels.Warning else Labels.Gray500
  }

  /** `getStatusIcon`. */
  function StatusIcon(status: string): string
  {
    if status == "accepted" then "checkmark-circle" else if status == "rejected" then "close-circle"
    else if status == "pending" then "time" else "help-circle"
  }

  /** The icon alone tells the server's three bid statuses apart, each has its own
      colour, and any other status shows the question mark in grey. */
  lemma StatusBadgeIdentifies(status: string, s: ShipmentModel.BidStatus)
    ensures StatusIcon(status) == StatusIcon(ShipmentModel.BidStatusText(s)) <==> status == ShipmentModel.BidStatusText(s)
    ensures ShipmentModel.ParseBidStatus(status).None? <==> StatusIcon(status) == "help-circle"
    ensures ShipmentModel.ParseBidStatus(status).None? <==> StatusColour(status) == Labels.Gray500
  {
    match s
    case Pending =>
    case BidAccepted =>
    case Rejected =>
  }

  /** The part of a card below the details. */
  datatype Footer = AcceptedFooter(acceptedSince: Option<Labels.Ago>) | RejectedFooter(since: Labels.Ago) | Waiting | NoFooter

  /** The footer at clock reading `now`: an accepted bid shows when it was accepted and
      the Start Delivery button; without a response time the difference is `NaN`, every
      comparison fails, and the caption is "NaNd ago" (`None`). A rejected bid shows when
      it was rejected only if it has a response time; a pending one waits. */
  function FooterOf(b: Bid, now: int): (r: Footer)
    ensures r.AcceptedFooter? <==> b.status == "accepted"
    ensures r.RejectedFooter? <==> b.status == "rejected" && b.respondedAt.Some?
    ensures r.Waiting? <==> b.status == "pending"
  {
    if b.status == "accepted" then AcceptedFooter(if b.respondedAt.Some? then Some(Labels.Elapsed(now - b.respondedAt.value)) else None)
    else if b.status == "rejected" && b.respondedAt.Some? then RejectedFooter(Labels.Elapsed(now - b.respondedAt.value))
    else if b.status == "pending" then Waiting
    else NoFooter
  }

  /** The shipment `startDelivery` hands to tracking. */
  datatype Tracked = Tracked(
    id: string, customerName: string, pickupAddress: string, dropoffAddress: string,
    itemDescription: string, weightKg: real, estimatedDistance: real, acceptedBid: Bid)

  /** Pressing "Start Delivery", which only accepted bids show. */
  function StartDelivery(b: Bid): (r: Option<Tracked>)
    ensures r.Some? <==> FooterOf(b, 0).AcceptedFooter?
    ensures r.Some? ==> r.value.id == b.shipmentId && r.value.acceptedBid == b
    ensures r.Some? ==> r.value.pickupAddress == b.pickupLocation && r.value.dropoffAddress == b.dropoffLocation
    ensures r.Some? ==> r.value.weightKg == 0.0 && r.value.estimatedDistance == b.distance
  {
    if b.status == "accepted" then
      Some(Tracked(b.shipmentId, b.customerName, b.pickupLocation, b.dropoffLocation, b.itemDescription, 0.0, b.distance, b))
    else None
  }
}

=== FILE: notification_service.dfy ===
/** The server's notification builders (backend/app/services/notification_service.py).
    Every notification goes out as one envelope `{type: "notification", timestamp, data}`
    broadcast to every connected socket; the kind of notification sits in `data.type`.
    The broadcast log is the sequence of envelopes sent, the clock's ISO text at each
    send is a parameter, and a Python number interpolated into a message is given as its text. */
module Notifications {
  import opened Wrappers
  import opened Text
  import opened JsonValue

  /** The envelope `send_notification` wraps a payload in. */
  function Envelope(payload: Json, timestamp: string): (r: Json)
    ensures Get(r, "type") == Value(JStr("notification"))
    ensures Get(r, "data") == Value(payload)
    ensures Get(r, "timestamp") == Value(JStr(timestamp))
  {
    JObj(Extend(Extend(Extend([], "type", JStr("notification")), "timestamp", JStr(timestamp)), "data", payload))
  }

  /** `send_notification(user_id, notification)`: broadcast, whoever the addressee. */
  function Send(log: seq<Json>, userId: string, payload: Json, timestamp: string): (r: seq<Json>)
    ensures |r| == |log| + 1 && r[..|log|] == log
    ensures Get(r[|log|], "type") == Value(JStr("notification")) && Get(r[|log|], "data") == Value(payload)
  {
    log + [Envelope(payload, timestamp)]
  }

  /** The addressee makes no difference to what is sent. */
  lemma SendIgnoresUser(log: seq<Json>, a: string, b: string, payload: Json, timestamp: string)
    ensures Send(log, a, payload, timestamp) == Send(log, b, payload, timestamp)
  {
  }

  /** `notify_new_bid`'s payload. */
  function NewBidPayload(amountText: string, shipmentId: string, bidId: string, driverName: Json): (r: Json)
    ensures Get(r, "title") == Value(JStr("New Bid Received"))
    ensures Get(r, "message") == Value(JStr("You received a new bid of " + amountText + " ETB"))
    ensures Get(r, "type") == Value(JStr("new_bid"))
    ensures Get(r, "shipment_id") == Value(JStr(shipmentId)) && Get(r, "bid_id") == Value(JStr(bidId))
    ensures Get(r, "driver_name") == Value(driverName)
  {
    var f1 := Extend([], "title", JStr("New Bid Received"));
    var f2 := Extend(f1, "message", JStr("You received a new bid of " + amountText + " ETB"));
    var f3 := Extend(f2, "type", JStr("new_bid"));
    var f4 := Extend(f3, "shipment_id", JStr(shipmentId));
    var f5 := Extend(f4, "bid_id", JStr(bidId));
    var f6 := Extend(f5, "driver_name", driverName);
    JObj(f6)
  }

  /** `notify_bid_accepted`'s payload. */
  function BidAcceptedPayload(amountText: string, shipmentId: string, bidId: string, customerName: Json): (r: Json)
    ensures Get(r, "title") == Value(JStr("Bid Accepted!"))
    ensures Get(r, "message") == Value(JStr("Your bid of " + amountText + " ETB was accepted"))
    ensures Get(r, "type") == Value(JStr("bid_accepted"))
    ensures Get(r, "shipment_id") == Value(JStr(shipmentId)) && Get(r, "bid_id") == Value(JStr(bidId))
    ensures Get(r, "customer_name") == Value(customerName)
  {
    var f1 := Extend([], "title", JStr("Bid Accepted!"));
    var f2 := Extend(f1, "message", JStr("Your bid of " + amountText + " ETB was accepted"));
    var f3 := Extend(f2, "type", JStr("bid_accepted"));
    var f4 := Extend(f3, "shipment_id", JStr(shipmentId));
    var f5 := Extend(f4, "bid_id", JStr(bidId));
    var f6 := Extend(f5, "customer_name", customerName);
    JObj(f6)
  }

  /** `notify_bid_rejected`'s payload. */
  function BidRejectedPayload(shipmentId: string, bidId: string): (r: Json)
    ensures Get(r, "title") == Value(JStr("Bid Not Selected"))
    ensures Get(r, "message") == Value(JStr("Your bid was not selected for this shipment"))
    ensures Get(r, "type") == Value(JStr("bid_rejected"))
    ensures Get(r, "shipment_id") == Value(JStr(shipmentId)) && Get(r, "bid_id") == Value(JStr(bidId))
  {
    var f1 := Extend([], "title", JStr("Bid Not Selected"));
    var f2 := Extend(f1, "message", JStr("Your bid was not selected for this shipment"));
    var f3 := Extend(f2, "type", JStr("bid_rejected"));
    var f4 := Extend(f3, "shipment_id", JStr(shipmentId));
    var f5 := Extend(f4, "bid_id", JStr(bidId));
    JObj(f5)
  }

  /** The five-entry status message table of `notify_status_update`. */
  function StatusMessage(status: string): (r: string)
  {
    if status == "heading_to_pickup" then "Driver is heading to pickup location"
    else if status == "arrived_at_pickup" then "Driver has arrived at pickup location"
    else if status == "item_collected" then "Item has been collected"
    else if status == "in_transit" then "Your item is on the way"
    else if status == "delivered" then "Your item has been delivered!"
    else "Shipment status updated"
  }

  const StatusTable: seq<string> := ["heading_to_pickup", "arrived_at_pickup", "item_collected", "in_transit", "delivered"]

  /** Exactly the statuses outside the table get the fallback message. */
  lemma StatusMessageFallback(status: string)
    ensures status !in StatusTable <==> StatusMessage(status) == "Shipment status updated"
  {
  }

  /** The table's five statuses have five different messages. */
  lemma StatusMessagesDistinct(i: nat, j: nat)
    requires i < j < |StatusTable|
    ensures StatusMessage(StatusTable[i]) != StatusMessage(StatusTable[j])
  {
  }

  /** `notify_status_update`'s payload; the driver's name is `None` when not given. */
  function StatusUpdatePayload(status: string, shipmentId: string, driverName: Json): (r: Json)
    ensures Get(r, "title") == Value(JStr("Shipment Update"))
    ensures Get(r, "message") == Value(JStr(StatusMessage(status)))
    ensures Get(r, "type") == Value(JStr("status_update"))
    ensures Get(r, "shipment_id") == Value(JStr(shipmentId)) && Get(r, "status") == Value(JStr(status))
    ensures Get(r, "driver_name") == Value(driverName)
  {
    var f1 := Extend([], "title", JStr("Shipment Update"));
    var f2 := Extend(f1, "message", JStr(StatusMessage(status)));
    var f3 := Extend(f2, "type", JStr("status_update"));
    var f4 := Extend(f3, "shipment_id", JStr(shipmentId));
    var f5 := Extend(f4, "status", JStr(status));
    var f6 := Extend(f5, "driver_name", driverName);
    JObj(f6)
  }

  /** `notify_delivery_request`'s payload; distance and urgency are `None` when not given. */
  function DeliveryRequestPayload(pickup: string, dropoff: string, shipmentId: string, distance: Json, urgency: Json): (r: Json)
    ensures Get(r, "title") == Value(JStr("New Shipment Available"))
    ensures Get(r, "message") == Value(JStr("New shipment from " + pickup + " to " + dropoff))
    ensures Get(r, "type") == Value(JStr("new_shipment"))
    ensures Get(r, "shipment_id") == Value(JStr(shipmentId))
    ensures Get(r, "distance") == Value(distance) && Get(r, "urgency") == Value(urgency)
  {
    var f1 := Extend([], "title", JStr("New Shipment Available"));
    var f2 := Extend(f1, "message", JStr("New shipment from " + pickup + " to " + dropoff));
    var f3 := Extend(f2, "type", JStr("new_shipment"));
    var f4 := Extend(f3, "shipment_id", JStr(shipmentId));
    var f5 := Extend(f4, "distance", distance);
    var f6 := Extend(f5, "urgency", urgency);
    JObj(f6)
  }

  /** `notify_delivery_request`: one send of the same payload per driver, in order; each
      send reads the clock afresh, so `timestamps[i]` is the reading of the i-th send. */
  function NotifyDrivers(log: seq<Json>, drivers: seq<string>, payload: Json, timestamps: seq<string>): (r: seq<Json>)
    requires |timestamps| == |drivers|
    decreases |drivers|
  {
    if drivers == [] then log
    else NotifyDrivers(Send(log, drivers[0], payload, timestamps[0]), drivers[1..], payload, timestamps[1..])
  }

  /** Each driver in the list gets exactly one envelope, appended after what was already
      sent, in order: the i-th carries the payload and the i-th clock reading, so all of
      them carry the same payload. */
  lemma NotifyDriversSendsOneEach(log: seq<Json>, drivers: seq<string>, payload: Json, timestamps: seq<string>)
    requires |timestamps| == |drivers|
    ensures var r := NotifyDrivers(log, drivers, payload, timestamps);
      && |r| == |log| + |drivers| && r[..|log|] == log
      && (forall i :: 0 <= i < |drivers| ==> r[|log| + i] == Envelope(payload, timestamps[i]))
      && (forall i :: |log| <= i < |r| ==> Get(r[i], "data") == Value(payload))
  {
    var r := NotifyDrivers(log, drivers, payload, timestamps);
    SendsInOrder(log, drivers, payload, timestamps);
    forall i | |log| <= i < |r|
      ensures Get(r[i], "data") == Value(payload)
    {
      assert r[|log| + (i - |log|)] == Envelope(payload, timestamps[i - |log|]);
    }
  }

  /** The sends keep what was already sent and add one envelope per driver. */
  lemma {:induction false} SendsKeepLog(log: seq<Json>, drivers: seq<string>, payload: Json, timestamps: seq<string>)
    requires |timestamps| == |drivers|
    ensures var r := NotifyDrivers(log, drivers, payload, timestamps);
      |r| == |log| + |drivers| && r[..|log|] == log
    decreases |drivers|
  {
    if drivers != [] {
      var log' := Send(log, drivers[0], payload, timestamps[0]);
      SendsKeepLog(log', drivers[1..], payload, timestamps[1..]);
      var r := NotifyDrivers(log', drivers[1..], payload, timestamps[1..]);
      assert r[..|log|] == r[..|log'|][..|log|];
    }
  }

  /** The sends append one envelope per driver, in the drivers' order. */
  lemma {:induction false} SendsInOrder(log: seq<Json>, drivers: seq<string>, payload: Json, timestamps: seq<string>)
    requires |timestamps| == |drivers|
    ensures var r := NotifyDrivers(log, drivers, payload, timestamps);
      && |r| == |log| + |drivers| && r[..|log|] == log
      && forall i :: 0 <= i < |drivers| ==> r[|log| + i] == Envelope(payload, timestamps[i])
    decreases |drivers|
  {
    SendsKeepLog(log, drivers, payload, timestamps);
    if drivers != [] {
      var log' := Send(log, drivers[0], payload, timestamps[0]);
      SendsInOrder(log', drivers[1..], payload, timestamps[1..]);
      var r := NotifyDrivers(log', drivers[1..], payload, timestamps[1..]);
      assert r[|log|] == r[..|log'|][|log|] == Envelope(payload, timestamps[0]);
      forall i | 0 < i < |drivers|
        ensures r[|log| + i] == Envelope(payload, timestamps[i])
      {
        assert r[|log'| + (i - 1)] == Envelope(payload, timestamps[1..][i - 1]);
      }
    }
  }
}

=== FILE: number_text.dfy ===
/** `parseInt(text)` and `parseFloat(text)` as the client's forms call them: leading
    whitespace is skipped, an optional sign is read, then the longest run of digits
    (for `parseInt`, hexadecimal after a `0x` prefix and decimal otherwise; for
    `parseFloat`, decimal with an optional fraction); whatever follows is ignored, and
    text that does not start that way is `NaN` (`None`). */
module NumberText {
  import opened Wrappers
  import opened Text

  /** The text after leading whitespace and an optional sign, and whether the sign was
      a minus. */
  datatype Signed = Signed(negative: bool, digits: string)

  function Unsigned(s: string): Signed
  {
    var t := TrimStart(s);
    if |t| > 0 && (t[0] == '+' || t[0] == '-') then Signed(t[0] == '-', t[1..]) else Signed(false, t)
  }

  function Negate(neg: bool, v: int): int
  {
    if neg then -v else v
  }

  function Pow10(n: nat): (r: nat)
    ensures r >= 1
  {
    if n == 0 then 1 else 10 * Pow10(n - 1)
  }

  /** Whether the text after the sign starts with `0x` or `0X`, which makes `parseInt`
      without a radix read base sixteen. */
  predicate HexPrefixed(u: string) {
    |u| >= 2 && u[0] == '0' && (u[1] == 'x' || u[1] == 'X')
  }

  /** `parseInt(s)` without a radix: base sixteen after a `0x` prefix, base ten
      otherwise. */
  function ParseInt(s: string): (r: Option<int>)
    ensures var d := Unsigned(s).digits;
      r.Some? <==> if HexPrefixed(d) then |d| > 2 && IsHexDigit(d[2]) else |d| > 0 && IsDigit(d[0])
    ensures r.Some? && r.value > 0 ==> !Unsigned(s).negative
  {
    var u := Unsigned(s);
    if HexPrefixed(u.digits) then
      var t := u.digits[2..];
      var n := HexRun(t);
      if n == 0 then None
      else Some(Negate(u.negative, HexValue(t[..n])))
    else
      var n := DigitRun(u.digits);
      if n == 0 then None
      else
        assert AllDigits(u.digits[..n]);
        Some(Negate(u.negative, DigitsValue(u.digits[..n])))
  }

  /** `parseInt("0x10")` is sixteen, not zero: the prefix switches the base. */
  lemma HexPrefixRead()
    ensures ParseInt("0x10") == Some(16) && ParseInt("-0X1f") == Some(-31)
    ensures ParseInt("0x") == None && ParseInt("0xg") == None
  {
    assert TrimStart("0x10") == "0x10" && Unsigned("0x10") == Signed(false, "0x10");
    assert "0x10"[2..] == "10" && HexRun("10") == 2 && "10"[..2] == "10";
    assert HexValue("10") == 16 by { assert "10"[..1] == "1" && "1"[..0] == ""; }
    assert TrimStart("-0X1f") == "-0X1f" && Unsigned("-0X1f") == Signed(true, "0X1f");
    assert "0X1f"[2..] == "1f" && HexRun("1f") == 2 && "1f"[..2] == "1f";
    assert HexValue("1f") == 31 by { assert "1f"[..1] == "1" && "1"[..0] == ""; }
    assert TrimStart("0x") == "0x" && TrimStart("0xg") == "0xg";
  }

  /** The fraction digits after the integer run of `u`, when a `.` follows that run. */
  function FractionRun(u: string): (m: nat)
  {
    var n := DigitRun(u);
    if n < |u| && u[n] == '.' then DigitRun(u[n + 1..]) else 0
  }

  /** `parseFloat(s)` for decimal text: digits, optionally a point and more digits, with
      at least one digit on either side of the point. */
  function ParseFloat(s: string): (r: Option<real>)
    ensures r.Some? <==> DigitRun(Unsigned(s).digits) > 0 || FractionRun(Unsigned(s).digits) > 0
    ensures r.Some? && r.value > 0.0 ==> !Unsigned(s).negative
  {
    var u := Unsigned(s).digits;
    if DigitRun(u) == 0 && FractionRun(u) == 0 then None
    else
      var v := DecimalValue(u);
      Some(if Unsigned(s).negative then -v else v)
  }

  /** The value of the digits, point and fraction digits that start `u`. */
  function DecimalValue(u: string): (v: real)
    ensures v >= 0.0
    ensures DigitRun(u) == |u| ==> (assert AllDigits(u); v == DigitsValue(u) as real)
  {
    var n := DigitRun(u);
    var m := FractionRun(u);
    assert AllDigits(u[..n]);
    var whole := DigitsValue(u[..n]) as real;
    if m == 0 then
      assert n == |u| ==> u[..n] == u;
      whole
    else
      assert AllDigits(u[n + 1..][..m]);
      whole + Fraction(DigitsValue(u[n + 1..][..m]), m)
  }

  function Fraction(digits: nat, m: nat): (r: real)
    ensures r >= 0.0
  {
    digits as real / Pow10(m) as real
  }

  /** Blank text is `NaN` to both parsers. */
  lemma BlankIsNaN(s: string)
    requires Trim(s) == ""
    ensures ParseInt(s).None? && ParseFloat(s).None?
  {
    TrimStartSpec(s);
    TrimEndSpec(TrimStart(s));
  }

  /** A non-empty run of digits parses, to both parsers, as the number it denotes. */
  lemma ParseDigits(s: string)
    requires |s| > 0 && AllDigits(s)
    ensures ParseInt(s) == Some(DigitsValue(s))
    ensures ParseFloat(s) == Some(DigitsValue(s) as real)
  {
    assert !IsSpace(s[0]);
    assert TrimStart(s) == s;
    assert Unsigned(s) == Signed(false, s);
    DigitRunAll(s);
    assert s[..|s|] == s;
  }

  /** Rendering a natural number and parsing it back gives the number, to both parsers:
      the round trip `String(n)` then `parseInt`/`parseFloat`. */
  lemma ParseRendered(n: nat)
    ensures ParseInt(NatToString(n)) == Some(n)
    ensures ParseFloat(NatToString(n)) == Some(n as real)
  {
    ParseDigits(NatToString(n));
    NatToStringValue(n);
  }

  /** A rendered integer followed by whitespace and anything else parses back to the
      integer: `parseInt("3 bids")` is 3. */
  lemma ParseRenderedThen(n: int, rest: string)
    requires rest == [] || IsSpace(rest[0])
    ensures ParseInt(IntToString(n) + rest) == Some(n)
  {
    if n < 0 {
      NegativeIntThen(n, rest);
    } else {
      assert IntToString(n) == NatToString(n);
      NaturalRenderedThen(n, rest);
    }
  }

  /** `parseInt` of a rendered natural number followed by whitespace. */
  lemma NaturalRenderedThen(m: nat, rest: string)
    requires rest == [] || IsSpace(rest[0])
    ensures ParseInt(NatToString(m) + rest) == Some(m)
  {
    var t := NatToString(m) + rest;
    assert t[0] == NatToString(m)[0] && IsDigit(t[0]);
    assert TrimStart(t) == t;
    assert Unsigned(t) == Signed(false, t);
    ParseSignedRendered(t, false, m, rest);
  }

  /** A rendered negative integer followed by whitespace parses back to it. */
  lemma NegativeIntThen(n: int, rest: string)
    requires n < 0 && (rest == [] || IsSpace(rest[0]))
    ensures ParseInt(IntToString(n) + rest) == Some(n)
  {
    var d := NatToString(-n);
    assert IntToString(n) == "-" + d;
    assert ("-" + d) + rest == "-" + (d + rest);
    NegativeRenderedThen(-n, rest);
  }

  /** `parseInt` of a minus sign, a rendered natural number and whitespace. */
  lemma NegativeRenderedThen(m: nat, rest: string)
    requires rest == [] || IsSpace(rest[0])
    ensures ParseInt("-" + (NatToString(m) + rest)) == Some(-(m as int))
  {
    var u := NatToString(m) + rest;
    MinusSign(u);
    ParseSignedRendered("-" + u, true, m, rest);
  }

  /** A leading minus sign is read as the sign. */
  lemma MinusSign(u: string)
    ensures Unsigned("-" + u) == Signed(true, u)
  {
    var t := "-" + u;
    assert t[0] == '-' && TrimStart(t) == t;
    assert t[1..] == u;
  }

  /** Text whose digits are a rendered natural number followed by whitespace parses to
      that number with its sign. */
  lemma ParseSignedRendered(s: string, negative: bool, m: nat, rest: string)
    requires rest == [] || IsSpace(rest[0])
    requires Unsigned(s) == Signed(negative, NatToString(m) + rest)
    ensures ParseInt(s) == Some(Negate(negative, m))
  {
    RenderedDigits(m, rest);
  }

  /** The digits of a rendered natural number, followed by whitespace, read as decimal and
      as that number. */
  lemma RenderedDigits(m: nat, rest: string)
    requires rest == [] || IsSpace(rest[0])
    ensures var u := NatToString(m) + rest;
      && !HexPrefixed(u)
      && DigitRun(u) == |NatToString(m)| && u[..DigitRun(u)] == NatToString(m)
      && DigitsValue(NatToString(m)) == m
  {
    var d := NatToString(m);
    DigitRunThen(d, rest);
    assert (d + rest)[..|d|] == d;
    NatToStringValue(m);
  }

  /** A run of digits followed by a character that is not one ends where that run ends. */
  lemma {:induction false} DigitRunThen(d: string, rest: string)
    requires AllDigits(d)
    requires rest == [] || !IsDigit(rest[0])
    ensures DigitRun(d + rest) == |d|
    decreases |d|
  {
    if d != [] {
      assert (d + rest)[1..] == d[1..] + rest;
      DigitRunThen(d[1..], rest);
    } else {
      assert d + rest == rest;
    }
  }
}

=== FILE: payment_service.dfy ===
/** The server's payment service (backend/app/services/payment_service.py): starting a
    payment for an accepted shipment, the gateways' callback, and the status lookup.
    The gateways are simulated by the service itself and succeed at once; the console
    output is left out. The clock and the fresh transaction id are parameters. */
module PaymentService {
  import opened Wrappers
  import opened JsonValue
  import opened ShipmentModel
  import opened ShipmentService
  import Http

  /** How a service coroutine ends: with a value, with a `ValueError` (which the router
      turns into status 400), or with any other exception (which escapes as 500). */
  datatype Ending<+T> = Returns(value: T) | RaisesValue(message: string) | RaisesOther(error: string)

  datatype Effect<+T> = Effect(db: Db, ending: Ending<T>)

  /** Python truthiness of `dict.get(key)`: a missing key (`None`), `null`, `false`, `0`,
      the empty string, the empty list and the empty object are falsy. */
  predicate PyTruthy(v: Option<Json>) {
    match v
    case None => false
    case Some(j) =>
      (match j
       case JNull => false
       case JBool(b) => b
       case JNum(n) => n != 0
       case JStr(s) => s != ""
       case JArr(items) => items != []
       case JObj(fields) => fields != [])
  }

  /** The error `ObjectId(x)` raises when `x` is not text at all. */
  const NotText := "TypeError"

  /** The methods the simulated gateways know. */
  predicate Supported(paymentMethod: string) {
    paymentMethod == "telebirr" || paymentMethod == "cbe_birr"
  }

  const ShipmentNotFound := "Shipment not found"
  const NotAccepted := "Shipment is not in accepted status for payment"
  const Unsupported := "Unsupported payment method"
  const InvalidCallback := "Invalid callback data"
  const NotUpdated := "Transaction not found or not updated"
  const CallbackDone := "Callback processed successfully"

  /** The dictionary `initiate_payment` returns. */
  datatype Receipt = Receipt(transactionId: Id, status: string, message: string)

  function SuccessReceipt(txId: Id, paymentMethod: string): Receipt {
    Receipt(txId, "success", "Payment initiated via " + paymentMethod + ". Status: success")
  }

  /** The `$set` that marks a shipment paid by a transaction. */
  function PaidPatch(txId: Id): Patch {
    NoChange.(status := Some("paid"), paymentTransactionId := Some(txId))
  }

  /** What the shipment lookup and the status check let through: an existing, readable
      shipment whose status is `accepted`. */
  predicate Payable(db: Db, shipmentText: string) {
    && ValidId(shipmentText)
    && Canonical(shipmentText) in db.shipments
    && Readable(db.shipments[Canonical(shipmentText)])
    && StatusOf(db.shipments[Canonical(shipmentText)]) == Some(Accepted)
  }

  /** The transaction a successful initiation records. */
  function NewTransaction(shipmentId: Id, user: Id, amount: Json, paymentMethod: string, now: nat): Transaction {
    Transaction(shipmentId, user, amount, paymentMethod, JStr("success"), now, now)
  }

  /** The guards of `initiate_payment`, in order: the shipment lookup (a bad id escapes,
      a missing shipment or one `ShipmentInDB` rejects is a `ValueError`), the status,
      then the method. On success, the shipment found. */
  function InitiateChecks(db: Db, shipmentText: string, paymentMethod: string): (r: Ending<Shipment>)
    ensures !ValidId(shipmentText) ==> r == RaisesOther(Http.InvalidId)
    ensures ValidId(shipmentText) && Canonical(shipmentText) !in db.shipments ==> r == RaisesValue(ShipmentNotFound)
    ensures ValidId(shipmentText) && Canonical(shipmentText) in db.shipments && !Readable(db.shipments[Canonical(shipmentText)]) ==>
      r == RaisesValue(ValidationMessage)
    ensures (ValidId(shipmentText) && Canonical(shipmentText) in db.shipments && Readable(db.shipments[Canonical(shipmentText)])
      && StatusOf(db.shipments[Canonical(shipmentText)]) != Some(Accepted)) ==> r == RaisesValue(NotAccepted)
    ensures Payable(db, shipmentText) && !Supported(paymentMethod) ==> r == RaisesValue(Unsupported)
    ensures r.Returns? <==> Payable(db, shipmentText) && Supported(paymentMethod)
    ensures r.Returns? ==> r.value.id == Canonical(shipmentText) && r.value.status == Accepted
  {
    if !ValidId(shipmentText) then RaisesOther(Http.InvalidId)
    else
      match GetShipment(db, Canonical(shipmentText))
      case Nothing => RaisesValue(ShipmentNotFound)
      case Raised(m) => RaisesValue(m)
      case Done(s) =>
        if s.status != Accepted then RaisesValue(NotAccepted)
        else if !Supported(paymentMethod) then RaisesValue(Unsupported)
        else Returns(s)
  }

  /** `initiate_payment` as written. Once the guards pass it records a successful
      transaction and sets the shipment's status to `paid`; `update_shipment` then reads
      the shipment back, `ShipmentInDB` rejects the status `paid`, and the resulting
      validation error is what the caller gets. The receipt is never returned. */
  function InitiatePayment(db: Db, shipmentText: string, amount: Json, paymentMethod: string, user: Id, txId: Id, now: nat): (r: Effect<Receipt>)
    requires txId !in db.transactions
    ensures !r.ending.Returns?
    ensures !Payable(db, shipmentText) || !Supported(paymentMethod) ==> var c := InitiateChecks(db, shipmentText, paymentMethod);
      && r.db == db
      && (r.ending.RaisesValue? <==> c.RaisesValue?)
      && (c.RaisesValue? ==> r.ending.message == c.message)
      && (c.RaisesOther? ==> r.ending == RaisesOther(c.error))
    ensures Payable(db, shipmentText) && Supported(paymentMethod) ==> var id := Canonical(shipmentText);
      && r.ending == RaisesValue(ValidationMessage)
      && r.db.transactions == db.transactions[txId := NewTransaction(id, user, amount, paymentMethod, now)]
      && r.db.shipments == db.shipments[id := ApplyPatch(db.shipments[id], PaidPatch(txId), now)]
      && r.db.bids == db.bids && r.db.users == db.users
  {
    match InitiateChecks(db, shipmentText, paymentMethod)
    case RaisesValue(m) => Effect(db, RaisesValue(m))
    case RaisesOther(e) => Effect(db, RaisesOther(e))
    case Returns(s) =>
      var db1 := db.(transactions := db.transactions[txId := NewTransaction(s.id, user, amount, paymentMethod, now)]);
      var u := UpdateShipment(db1, s.id, PaidPatch(txId), now);
      PaidIsUnreadable(s.id, u.db.shipments[s.id]);
      match u.out
      case Raised(m) => Effect(u.db, RaisesValue(m))
      case _ => assert false; Effect(u.db, Returns(SuccessReceipt(txId, paymentMethod)))
  }

  /** `initiate_payment` as evidently intended: the same checks and the same writes, and
      the receipt for the successful payment instead of the validation error. */
  function InitiatePaymentReceipt(db: Db, shipmentText: string, amount: Json, paymentMethod: string, user: Id, txId: Id, now: nat): (r: Effect<Receipt>)
    requires txId !in db.transactions
    ensures r.ending.Returns? <==> Payable(db, shipmentText) && Supported(paymentMethod)
    ensures r.ending.Returns? ==> r.ending.value == SuccessReceipt(txId, paymentMethod)
    ensures Payable(db, shipmentText) && Supported(paymentMethod) ==> var id := Canonical(shipmentText);
      && id in r.db.shipments
      && r.db.shipments[id].status == Some("paid")
      && r.db.shipments[id].paymentTransactionId == Some(txId)
      && r.db.transactions == db.transactions[txId := NewTransaction(id, user, amount, paymentMethod, now)]
  {
    var w := InitiatePayment(db, shipmentText, amount, paymentMethod, user, txId, now);
    if Payable(db, shipmentText) && Supported(paymentMethod) then Effect(w.db, Returns(SuccessReceipt(txId, paymentMethod)))
    else w
  }

  /** The corrected initiation performs exactly the writes of the one as written and
      differs only in what it hands back. */
  lemma ReceiptKeepsWrites(db: Db, shipmentText: string, amount: Json, paymentMethod: string, user: Id, txId: Id, now: nat)
    requires txId !in db.transactions
    ensures InitiatePaymentReceipt(db, shipmentText, amount, paymentMethod, user, txId, now).db
         == InitiatePayment(db, shipmentText, amount, paymentMethod, user, txId, now).db
    ensures !Payable(db, shipmentText) || !Supported(paymentMethod) ==>
      InitiatePaymentReceipt(db, shipmentText, amount, paymentMethod, user, txId, now)
        == InitiatePayment(db, shipmentText, amount, paymentMethod, user, txId, now)
  {
  }

  /** The dictionary `get_payment_status` returns for a stored transaction. */
  datatype StatusRecord = StatusRecord(
    transactionId: Id, shipmentId: Id, amount: Json, paymentMethod: string, status: Json,
    initiatedAt: nat, updatedAt: nat)

  /** `get_payment_status`: a bad id escapes; an unknown one gives `None`. */
  function GetPaymentStatus(db: Db, text: string): (r: Ending<Option<StatusRecord>>)
    ensures !ValidId(text) ==> r == RaisesOther(Http.InvalidId)
    ensures ValidId(text) ==> r.Returns? && (r.value.None? <==> Canonical(text) !in db.transactions)
    ensures r.Returns? && r.value.Some? ==> var t := db.transactions[Canonical(text)];
      r.value.value == StatusRecord(Canonical(text), t.shipmentId, t.amount, t.paymentMethod, t.status, t.initiatedAt, t.updatedAt)
  {
    if !ValidId(text) then RaisesOther(Http.InvalidId)
    else
      var id := Canonical(text);
      if id !in db.transactions then Returns(None)
      else
        var t := db.transactions[id];
        Returns(Some(StatusRecord(id, t.shipmentId, t.amount, t.paymentMethod, t.status, t.initiatedAt, t.updatedAt)))
  }

  /** After a payment is initiated, looking its transaction up reports it: the shipment,
      the amount and the method sent, and the status `success`. */
  lemma InitiatedThenLookedUp(db: Db, shipmentText: string, amount: Json, paymentMethod: string, user: Id, txId: Id, now: nat)
    requires txId !in db.transactions && ValidId(txId) && Canonical(txId) == txId
    requires Payable(db, shipmentText) && Supported(paymentMethod)
    ensures GetPaymentStatus(InitiatePayment(db, shipmentText, amount, paymentMethod, user, txId, now).db, txId)
      == Returns(Some(StatusRecord(txId, Canonical(shipmentText), amount, paymentMethod, JStr("success"), now, now)))
  {
  }

  /** The transaction a callback names, when its `transaction_id` is the text of an id. */
  function CallbackTarget(data: seq<Field>): Option<Id> {
    match Lookup(data, "transaction_id")
    case Some(JStr(t)) => if ValidId(t) then Some(Canonical(t)) else None
    case _ => None
  }

  /** `handle_payment_callback`. Either field falsy is a `ValueError`; a transaction id
      that is not an id escapes. The write sets the new status and the time; when it
      modifies nothing (no such transaction, or the same status at the same time) that is
      a `ValueError` too. A `success` then marks the transaction's shipment `paid`,
      whatever its status, which reading it back turns into the validation error. */
  function HandleCallback(db: Db, data: seq<Field>, now: nat): (r: Effect<string>)
    ensures !PyTruthy(Lookup(data, "transaction_id")) || !PyTruthy(Lookup(data, "status")) ==>
      r == Effect(db, RaisesValue(InvalidCallback))
    ensures r.ending.Returns? ==> r.ending.value == CallbackDone
    ensures r.ending.RaisesOther? ==> r.db == db
    ensures r.db.bids == db.bids && r.db.users == db.users && r.db.transactions.Keys == db.transactions.Keys
    ensures Lookup(data, "status") != Some(JStr("success")) ==> r.db.shipments == db.shipments
    ensures r.db != db ==>
      && CallbackTarget(data).Some? && Lookup(data, "status").Some?
      && CallbackTarget(data).value in db.transactions
      && var id := CallbackTarget(data).value;
         r.db.transactions == db.transactions[id := db.transactions[id].(status := Lookup(data, "status").value, updatedAt := now)]
  {
    var tx := Lookup(data, "transaction_id");
    var st := Lookup(data, "status");
    if !PyTruthy(tx) || !PyTruthy(st) then Effect(db, RaisesValue(InvalidCallback))
    else if !tx.value.JStr? then Effect(db, RaisesOther(NotText))
    else if !ValidId(tx.value.s) then Effect(db, RaisesOther(Http.InvalidId))
    else
      var id := Canonical(tx.value.s);
      if id !in db.transactions then Effect(db, RaisesValue(NotUpdated))
      else
        var t := db.transactions[id];
        var t' := t.(status := st.value, updatedAt := now);
        if t' == t then Effect(db, RaisesValue(NotUpdated))
        else
          var db1 := db.(transactions := db.transactions[id := t']);
          if st.value != JStr("success") then Effect(db1, Returns(CallbackDone))
          else
            var u := UpdateShipment(db1, t.shipmentId, PaidPatch(id), now);
            match u.out
            case Raised(m) => Effect(u.db, RaisesValue(m))
            case _ => Effect(u.db, Returns(CallbackDone))
  }

  /** A `success` callback for a stored transaction marks its shipment `paid` with that
      transaction whatever the shipment's status was (a draft, a cancelled shipment), and
      the caller is told of the validation error whenever the shipment changed. */
  lemma CallbackPaysAnyStatus(db: Db, data: seq<Field>, now: nat)
    requires Lookup(data, "transaction_id").Some? && Lookup(data, "transaction_id").value.JStr?
    requires ValidId(Lookup(data, "transaction_id").value.s)
    requires Lookup(data, "status") == Some(JStr("success"))
    requires Canonical(Lookup(data, "transaction_id").value.s) in db.transactions
    requires db.transactions[Canonical(Lookup(data, "transaction_id").value.s)].status != JStr("success")
    requires db.transactions[Canonical(Lookup(data, "transaction_id").value.s)].shipmentId in db.shipments
    ensures var id := Canonical(Lookup(data, "transaction_id").value.s);
      var sid := db.transactions[id].shipmentId;
      var r := HandleCallback(db, data, now);
      && sid in r.db.shipments
      && r.db.shipments[sid] == ApplyPatch(db.shipments[sid], PaidPatch(id), now)
      && r.db.shipments[sid].status == Some("paid")
      && (r.db.shipments[sid] != db.shipments[sid] ==> r.ending == RaisesValue(ValidationMessage))
  {
    var id := Canonical(Lookup(data, "transaction_id").value.s);
    var sid := db.transactions[id].shipmentId;
    PaidIsUnreadable(sid, ApplyPatch(db.shipments[sid], PaidPatch(id), now));
  }

  /** A callback delivered twice at the same time is refused the second time and changes
      nothing, because the second write modifies no document. */
  lemma CallbackReplayRefused(db: Db, data: seq<Field>, now: nat)
    requires HandleCallback(db, data, now).db != db
    ensures var db1 := HandleCallback(db, data, now).db;
      HandleCallback(db1, data, now) == Effect(db1, RaisesValue(NotUpdated))
  {
    var id := CallbackTarget(data).value;
    var db1 := HandleCallback(db, data, now).db;
    assert PyTruthy(Lookup(data, "transaction_id")) && PyTruthy(Lookup(data, "status"));
    CanonicalId(Lookup(data, "transaction_id").value.s);
    assert db1.transactions[id] == db1.transactions[id].(status := Lookup(data, "status").value, updatedAt := now);
  }

  /** After an accepted callback, the status lookup reports the status the gateway sent. */
  lemma CallbackThenLookedUp(db: Db, data: seq<Field>, now: nat)
    requires HandleCallback(db, data, now).db != db
    ensures var r := GetPaymentStatus(HandleCallback(db, data, now).db, CallbackTarget(data).value);
      r.Returns? && r.value.Some? && r.value.value.status == Lookup(data, "status").value && r.value.value.updatedAt == now
  {
    CanonicalId(Lookup(data, "transaction_id").value.s);
  }
}

=== FILE: payments_api.dfy ===
/** The payment endpoints of the server (backend/app/api/payments.py). The body of a
    request is a JSON object read with `dict.get`. Neither endpoint that takes a signed-in
    user looks at who it is beyond recording the id: any user may pay for any accepted
    shipment and read any transaction. The callback takes no user and no signature. */
module PaymentsApi {
  import opened Wrappers
  import opened JsonValue
  import opened ShipmentModel
  import opened ShipmentService
  import opened Http
  import opened PaymentService
  import UserModel

  const MissingFields := "Missing required fields: shipment_id, amount, payment_method"
  const UnsupportedDetail := "Unsupported payment method. Use 'telebirr' or 'cbe_birr'"
  const NoTransaction := "Transaction not found"

  /** The router's `except ValueError`: the message becomes a 400 detail; any other
      exception escapes. */
  function AsReply<T>(e: Effect<T>): (r: Handled<T>)
    ensures r.db == e.db && r.sent == []
    ensures e.ending.Returns? <==> r.reply.Answer?
    ensures e.ending.Returns? ==> r.reply.body == e.ending.value
    ensures e.ending.RaisesValue? <==> r.reply.Refused?
    ensures e.ending.RaisesValue? ==> r.reply == Refused(400, e.ending.message)
    ensures e.ending.RaisesOther? ==> r.reply == Crashed(e.ending.error)
  {
    match e.ending
    case Returns(v) => Handled(e.db, [], Answer(v))
    case RaisesValue(m) => Handled(e.db, [], Refused(400, m))
    case RaisesOther(x) => Handled(e.db, [], Crashed(x))
  }

  /** The router's own checks on the body: the three fields truthy in Python's sense,
      then the method one of the two texts. A falsy amount such as `0` counts as missing. */
  function BodyChecks(body: seq<Field>): (r: Option<string>)
    ensures !PyTruthy(Lookup(body, "shipment_id")) || !PyTruthy(Lookup(body, "amount")) || !PyTruthy(Lookup(body, "payment_method")) ==>
      r == Some(MissingFields)
    ensures r.None? <==> && PyTruthy(Lookup(body, "shipment_id")) && PyTruthy(Lookup(body, "amount"))
                         && (Lookup(body, "payment_method") == Some(JStr("telebirr")) || Lookup(body, "payment_method") == Some(JStr("cbe_birr")))
    ensures r.Some? ==> r.value == MissingFields || r.value == UnsupportedDetail
  {
    var m := Lookup(body, "payment_method");
    if !PyTruthy(Lookup(body, "shipment_id")) || !PyTruthy(Lookup(body, "amount")) || !PyTruthy(m) then Some(MissingFields)
    else if m.value != JStr("telebirr") && m.value != JStr("cbe_birr") then Some(UnsupportedDetail)
    else None
  }

  /** `POST /payments/initiate` as written: after the router's checks the service runs,
      and its validation error on the shipment it has just marked `paid` is what the
      client sees (400). A shipment id that is not text escapes with a `TypeError`. */
  function InitiateRequest(db: Db, user: UserModel.UserDoc, body: seq<Field>, txId: Id, now: nat): (r: Handled<Receipt>)
    requires txId !in db.transactions
    ensures BodyChecks(body).Some? ==> r == Handled(db, [], Refused(400, BodyChecks(body).value))
    ensures !r.reply.Answer?
    ensures r.sent == []
    ensures r.db != db <==> BodyChecks(body).None? && Lookup(body, "shipment_id").value.JStr? && Payable(db, Lookup(body, "shipment_id").value.s)
    ensures r.db != db ==> r.reply == Refused(400, ValidationMessage)
    ensures r.reply != Refused(400, Unsupported)
  {
    match BodyChecks(body)
    case Some(detail) => Handled(db, [], Refused(400, detail))
    case None =>
      var sid := Lookup(body, "shipment_id").value;
      var m := Lookup(body, "payment_method").value;
      if !sid.JStr? then Handled(db, [], Crashed(NotText))
      else
        var e := InitiatePayment(db, sid.s, Lookup(body, "amount").value, m.s, user.id, txId, now);
        assert e.db != db ==> Payable(db, sid.s);
        AsReply(e)
  }

  /** The same endpoint over the corrected service: a payment that passes every check is
      answered with its receipt. */
  function InitiateRequestReceipt(db: Db, user: UserModel.UserDoc, body: seq<Field>, txId: Id, now: nat): (r: Handled<Receipt>)
    requires txId !in db.transactions
    ensures r.reply.Answer? <==> BodyChecks(body).None? && Lookup(body, "shipment_id").value.JStr? && Payable(db, Lookup(body, "shipment_id").value.s)
    ensures r.reply.Answer? ==>
      && r.reply.body == SuccessReceipt(txId, Lookup(body, "payment_method").value.s)
      && r.db.transactions == db.transactions[txId := NewTransaction(Canonical(Lookup(body, "shipment_id").value.s), user.id, Lookup(body, "amount").value, Lookup(body, "payment_method").value.s, now)]
  {
    match BodyChecks(body)
    case Some(detail) => Handled(db, [], Refused(400, detail))
    case None =>
      var sid := Lookup(body, "shipment_id").value;
      var m := Lookup(body, "payment_method").value;
      if !sid.JStr? then Handled(db, [], Crashed(NotText))
      else AsReply(InitiatePaymentReceipt(db, sid.s, Lookup(body, "amount").value, m.s, user.id, txId, now))
  }

  /** `POST /payments/callback`: the service's outcome through `except ValueError`. */
  function CallbackRequest(db: Db, body: seq<Field>, now: nat): (r: Handled<string>)
    ensures r.reply.Answer? ==> r.reply.body == CallbackDone
    ensures !PyTruthy(Lookup(body, "transaction_id")) || !PyTruthy(Lookup(body, "status")) ==>
      r == Handled(db, [], Refused(400, InvalidCallback))
    ensures r.reply.Refused? ==> r.reply.code == 400
    ensures r.reply.Crashed? ==> r.db == db
  {
    AsReply(HandleCallback(db, body, now))
  }

  /** `GET /payments/status/{transaction_id}`: any signed-in user may read any
      transaction; an unknown one is 404 and a malformed id escapes. */
  function StatusRequest(db: Db, user: UserModel.UserDoc, text: string): (r: Handled<StatusRecord>)
    ensures r.db == db && r.sent == []
    ensures !ValidId(text) ==> r.reply == Crashed(InvalidId)
    ensures ValidId(text) && Canonical(text) !in db.transactions ==> r.reply == Refused(404, NoTransaction)
    ensures r.reply.Answer? <==> ValidId(text) && Canonical(text) in db.transactions
    ensures r.reply.Answer? ==> var t := db.transactions[Canonical(text)];
      && r.reply.body.transactionId == Canonical(text)
      && r.reply.body.shipmentId == t.shipmentId && r.reply.body.amount == t.amount
      && r.reply.body.paymentMethod == t.paymentMethod && r.reply.body.status == t.status
  {
    match GetPaymentStatus(db, text)
    case Returns(None) => Handled(db, [], Refused(404, NoTransaction))
    case Returns(Some(t)) => Handled(db, [], Answer(t))
    case RaisesValue(m) => Handled(db, [], Crashed(m))
    case RaisesOther(x) => Handled(db, [], Crashed(x))
  }

  /** One entry of `GET /payments/methods`. */
  datatype MethodInfo = MethodInfo(id: string, name: string, description: string, icon: string, supported: bool)

  /** The advertised methods: exactly the ones the router and the service accept, each
      once and each marked supported. */
  function PaymentMethods(): (r: seq<MethodInfo>)
    ensures forall i :: 0 <= i < |r| ==> r[i].supported && Supported(r[i].id)
    ensures forall x :: Supported(x) ==> exists i :: 0 <= i < |r| && r[i].id == x
    ensures forall i, j :: 0 <= i < j < |r| ==> r[i].id != r[j].id
  {
    var r := [ MethodInfo("telebirr", "Telebirr", "Pay using Telebirr mobile wallet", "telebirr_icon", true),
               MethodInfo("cbe_birr", "CBE Birr", "Pay using Commercial Bank of Ethiopia Birr", "cbe_icon", true) ];
    assert r[0].id == "telebirr" && r[1].id == "cbe_birr";
    r
  }
}

=== FILE: photo_capture.dfy ===
/** The photo step of booking (BirtuLogistics/src/screens/customer/PhotoCaptureScreen.js):
    up to four photos are kept in the order they were added, each named by the
    millisecond clock at which it was added; a photo is removed by that name, and
    continuing stores the photos' addresses in the draft. */
module PhotoCapture {
  import opened Text
  import Draft

  /** `maxPhotos`. */
  const MaxPhotos: nat := 4

  /** What the picker hands back. */
  datatype Asset = Asset(uri: string, width: int, height: int)

  datatype Photo = Photo(id: string, uri: string, width: int, height: int)

  /** The screen's photos after `addPhoto(asset)` at clock reading `now`, and whether the
      "Maximum Photos" alert was shown instead. */
  datatype Added = Added(photos: seq<Photo>, refused: bool)

  /** `addPhoto`: refused once four photos are held; otherwise the new photo goes last,
      named by the clock, and the others stay as they were. */
  function AddPhoto(photos: seq<Photo>, asset: Asset, now: nat): (r: Added)
    ensures r.refused <==> |photos| >= MaxPhotos
    ensures r.refused ==> r.photos == photos
    ensures !r.refused ==> |r.photos| == |photos| + 1 && r.photos[..|photos|] == photos
    ensures !r.refused ==> r.photos[|photos|] == Photo(NatToString(now), asset.uri, asset.width, asset.height)
  {
    if |photos| >= MaxPhotos then Added(photos, true)
    else Added(photos + [Photo(NatToString(now), asset.uri, asset.width, asset.height)], false)
  }

  /** `removePhoto(id)` once confirmed: every photo with that name goes. */
  function RemovePhoto(photos: seq<Photo>, id: string): (r: seq<Photo>)
    ensures |r| <= |photos|
    ensures forall p :: p in r <==> p in photos && p.id != id
  {
    if photos == [] then []
    else if photos[|photos| - 1].id == id then RemovePhoto(photos[..|photos| - 1], id)
    else RemovePhoto(photos[..|photos| - 1], id) + [photos[|photos| - 1]]
  }

  /** Removing from a concatenation removes from each part in turn. */
  lemma {:induction false} RemoveAppend(a: seq<Photo>, b: seq<Photo>, id: string)
    ensures RemovePhoto(a + b, id) == RemovePhoto(a, id) + RemovePhoto(b, id)
    decreases |b|
  {
    if b == [] {
      assert a + b == a;
    } else {
      var init, last := b[..|b| - 1], b[|b| - 1];
      assert (a + b)[..|a + b| - 1] == a + init && (a + b)[|a + b| - 1] == last;
      RemoveAppend(a, init, id);
      if last.id != id {
        assert RemovePhoto(a, id) + RemovePhoto(init, id) + [last] == RemovePhoto(a, id) + (RemovePhoto(init, id) + [last]);
      }
    }
  }

  /** Removal keeps the remaining photos in their order, each once: removing from a
      concatenation removes from each part in turn, and a single photo goes exactly when
      it carries the name. */
  lemma RemoveKeepsOrder(a: seq<Photo>, b: seq<Photo>, id: string)
    ensures RemovePhoto(a + b, id) == RemovePhoto(a, id) + RemovePhoto(b, id)
    ensures forall p :: RemovePhoto([p], id) == if p.id == id then [] else [p]
  {
    RemoveAppend(a, b, id);
    forall p: Photo
      ensures RemovePhoto([p], id) == if p.id == id then [] else [p]
    {
      assert [p][..0] == [];
    }
  }

  /** Removing a name no photo carries changes nothing. */
  lemma {:induction false} RemoveAbsent(photos: seq<Photo>, id: string)
    requires forall p :: p in photos ==> p.id != id
    ensures RemovePhoto(photos, id) == photos
  {
    if photos != [] {
      var init, last := photos[..|photos| - 1], photos[|photos| - 1];
      assert last in photos;
      forall p | p in init ensures p.id != id {
        var k :| 0 <= k < |init| && init[k] == p;
        assert photos[k] == p;
      }
      RemoveAbsent(init, id);
      assert init + [last] == photos;
    }
  }

  /** Adding a photo and then removing it gives back the photos held before, as long as
      no earlier photo was added in the same millisecond; one that was goes too. */
  lemma AddThenRemove(photos: seq<Photo>, asset: Asset, now: nat)
    requires |photos| < MaxPhotos
    requires forall p :: p in photos ==> p.id != NatToString(now)
    ensures RemovePhoto(AddPhoto(photos, asset, now).photos, NatToString(now)) == photos
  {
    var added := AddPhoto(photos, asset, now).photos;
    assert added[..|added| - 1] == photos;
    RemoveAbsent(photos, NatToString(now));
  }

  /** A user action on the screen. */
  datatype Action = Add(asset: Asset, now: nat) | Remove(id: string)

  function Step(photos: seq<Photo>, a: Action): seq<Photo>
  {
    match a
    case Add(asset, now) => AddPhoto(photos, asset, now).photos
    case Remove(id) => RemovePhoto(photos, id)
  }

  /** The photos after a run of actions from the empty screen. */
  function Run(actions: seq<Action>): seq<Photo>
  {
    if actions == [] then [] else Step(Run(actions[..|actions| - 1]), actions[|actions| - 1])
  }

  /** Whatever the user does, the screen never holds more than four photos. */
  lemma {:induction false} RunBounded(actions: seq<Action>)
    ensures |Run(actions)| <= MaxPhotos
  {
    if actions != [] {
      RunBounded(actions[..|actions| - 1]);
    }
  }

  /** One of the four grid cells: a photo, or an "Add Photo" cell, disabled when four
      photos are held. */
  datatype Slot = Shown(photo: Photo) | AddSlot(disabled: bool)

  /** `renderPhotoGrid`: cell `i` shows `photos[i]` when there is one. */
  function Grid(photos: seq<Photo>): (r: seq<Slot>)
    ensures |r| == MaxPhotos
    ensures forall i :: 0 <= i < MaxPhotos ==> (r[i].Shown? <==> i < |photos|)
    ensures forall i :: 0 <= i < MaxPhotos && i < |photos| ==> r[i].photo == photos[i]
    ensures forall i :: 0 <= i < MaxPhotos && r[i].AddSlot? ==> !r[i].disabled
  {
    seq(MaxPhotos, i requires 0 <= i < MaxPhotos => if i < |photos| then Shown(photos[i]) else AddSlot(|photos| >= MaxPhotos))
  }

  /** The addresses `uploadPhotos` hands to the draft, in order. */
  function Uris(photos: seq<Photo>): (r: seq<string>)
    ensures |r| == |photos|
    ensures forall i :: 0 <= i < |photos| ==> r[i] == photos[i].uri
  {
    seq(|photos|, i requires 0 <= i < |photos| => photos[i].uri)
  }

  /** Continuing, once the "no photos" question is answered with Continue when there
      are none: the draft's photos become the addresses, and nothing else changes. */
  function Finish(s: Draft.Store, photos: seq<Photo>): (r: Draft.Store)
    ensures |r.current.photos| == |photos|
    ensures forall i :: 0 <= i < |photos| ==> r.current.photos[i] == photos[i].uri
    ensures forall m :: m != Draft.Photos ==> Draft.Agree(r, s, m)
  {
    if |photos| == 0 then Draft.Apply(s, Draft.SetPhotos([]))
    else Draft.Apply(s, Draft.SetPhotos(Uris(photos)))
  }

  /** After any run of actions the draft receives at most four addresses, one per
      photo still shown. */
  lemma FinishAfterRun(s: Draft.Store, actions: seq<Action>)
    ensures |Finish(s, Run(actions)).current.photos| <= MaxPhotos
    ensures Finish(s, Run(actions)).current.photos == Uris(Run(actions))
  {
    RunBounded(actions);
  }
}

=== FILE: receiver_screen.dfy ===
/** The receiver step of booking (BirtuLogistics/src/screens/customer/ReceiverInfoScreen.js):
    the receiver's name and phone are checked, and only a form that passes reaches the
    draft, trimmed. */
module ReceiverScreen {
  import opened Wrappers
  import opened Text
  import opened Forms
  import Draft

  datatype Input = ReceiverName | ReceiverPhone

  const NameRequired := "Receiver name is required"
  const PhoneRequired := "Receiver phone number is required"
  const PhoneInvalid := "Please enter a valid Ethiopian phone number"

  /** The first failing check of one field. */
  function Check(name: string, phone: string, i: Input): Option<string>
  {
    match i
    case ReceiverName => if Trim(name) == "" then Some(NameRequired) else None
    case ReceiverPhone =>
      if Trim(phone) == "" then Some(PhoneRequired)
      else if !EthiopianPhone(Trim(phone)) then Some(PhoneInvalid) else None
  }

  /** `validateForm`'s `newErrors`: a name error exactly when the trimmed name is empty, a
      phone error exactly when the trimmed phone is not an Ethiopian number. */
  function Validate(name: string, phone: string): (e: map<Input, string>)
    ensures ReceiverName in e <==> Trim(name) == ""
    ensures ReceiverPhone in e <==> !EthiopianPhone(Trim(phone))
    ensures ReceiverName in e ==> e[ReceiverName] == NameRequired
    ensures ReceiverPhone in e ==> e[ReceiverPhone] == (if Trim(phone) == "" then PhoneRequired else PhoneInvalid)
  {
    map i | i in {ReceiverName, ReceiverPhone} && Check(name, phone, i).Some? :: Check(name, phone, i).value
  }

  /** What pressing Continue leaves behind: the errors shown, the draft, and whether the
      screen moved on to vehicle selection. */
  datatype Outcome = Outcome(errors: map<Input, string>, store: Draft.Store, next: bool)

  /** `handleContinue`. */
  function Continue(s: Draft.Store, name: string, phone: string): (r: Outcome)
    ensures r.errors == Validate(name, phone)
    ensures r.next <==> r.errors == map[]
    ensures !r.next ==> r.store == s
    ensures r.next ==> r.store.current.receiverInfo == Some(Draft.Receiver(Trim(name), Trim(phone)))
    ensures forall m :: m != Draft.ReceiverInfo ==> Draft.Agree(r.store, s, m)
  {
    var e := Validate(name, phone);
    if e != map[] then Outcome(e, s, false)
    else Outcome(e, Draft.Apply(s, Draft.SetReceiverInfo(Some(Draft.Receiver(Trim(name), Trim(phone))))), true)
  }

  /** A stored receiver passes the same checks again, and storing it a second time
      changes nothing: the phone kept in the draft is a valid number with no padding. */
  lemma StoredReceiverIsStable(s: Draft.Store, name: string, phone: string)
    requires Continue(s, name, phone).next
    ensures var r := Continue(s, name, phone).store.current.receiverInfo.value;
      && EthiopianPhone(r.phone) && r.name != ""
      && Continue(Continue(s, name, phone).store, r.name, r.phone) == Outcome(map[], Continue(s, name, phone).store, true)
  {
    var t := Continue(s, name, phone).store;
    var r := t.current.receiverInfo.value;
    TrimIdempotent(name);
    PhoneIsTrimmed(r.phone);
    assert Validate(r.name, r.phone) == map[];
    var u := Draft.Apply(t, Draft.SetReceiverInfo(Some(Draft.Receiver(Trim(r.name), Trim(r.phone)))));
    forall m: Draft.Member ensures Draft.Agree(u, t, m) {
    }
    Draft.AgreeAll(u, t);
  }
}

=== FILE: register_screen.dfy ===
/** The sign-up form (BirtuLogistics/src/screens/auth/RegisterScreen.js): its fields and
    per-field error messages, the validation run on submit, and the body it posts to the
    server's `register` endpoint, together with how the server reads that body into its
    `UserCreate` model. */
module RegisterScreen {
  import opened Wrappers
  import opened Text
  import opened Forms
  import UserModel
  import AuthApi
  import Http

  /** The form's inputs, as `updateFormData` names them. */
  datatype Input = Name | Phone | Email | Password | ConfirmPassword | Role | VehicleType

  const Inputs: set<Input> := {Name, Phone, Email, Password, ConfirmPassword, Role, VehicleType}

  datatype Form = Form(
    name: string, phone: string, email: string, password: string, confirmPassword: string,
    role: string, vehicleType: string)

  const Blank := Form("", "", "", "", "", "customer", "")

  function Value(f: Form, i: Input): string
  {
    match i
    case Name => f.name
    case Phone => f.phone
    case Email => f.email
    case Password => f.password
    case ConfirmPassword => f.confirmPassword
    case Role => f.role
    case VehicleType => f.vehicleType
  }

  /** `{ ...prev, [field]: value }`. */
  function With(f: Form, i: Input, v: string): (r: Form)
    ensures Value(r, i) == v
    ensures forall j :: j != i ==> Value(r, j) == Value(f, j)
  {
    match i
    case Name => f.(name := v)
    case Phone => f.(phone := v)
    case Email => f.(email := v)
    case Password => f.(password := v)
    case ConfirmPassword => f.(confirmPassword := v)
    case Role => f.(role := v)
    case VehicleType => f.(vehicleType := v)
  }

  /** The `errors` object: a message, or `null` once the user edited the field. */
  type Errors = map<Input, Option<string>>

  datatype State = State(form: Form, errors: Errors)

  const Initial := State(Blank, map[])

  /** `errors[field]` is truthy: a message is on screen under the field. */
  predicate Shown(e: Errors, i: Input) {
    i in e && e[i].Some? && e[i].value != ""
  }

  /** `updateFormData(field, value)`. */
  function Update(st: State, i: Input, v: string): (r: State)
    ensures Value(r.form, i) == v
    ensures forall j :: j != i ==> Value(r.form, j) == Value(st.form, j)
    ensures !Shown(r.errors, i)
    ensures forall j :: j != i ==> (j in r.errors <==> j in st.errors) && (j in st.errors ==> r.errors[j] == st.errors[j])
    ensures !Shown(st.errors, i) ==> r.errors == st.errors
  {
    State(With(st.form, i, v), if Shown(st.errors, i) then st.errors[i := None] else st.errors)
  }

  const NameRequired := "Full name is required"
  const PhoneRequired := "Phone number is required"
  const PhoneInvalid := "Please enter a valid Ethiopian phone number"
  const EmailRequired := "Email is required"
  const EmailInvalid := "Please enter a valid email address"
  const PasswordRequired := "Password is required"
  const PasswordShort := "Password must be at least 6 characters"
  const PasswordsDiffer := "Passwords do not match"
  const VehicleRequired := "Vehicle type is required for drivers"

  /** The first failing check of one field, as written: the password length is measured
      before trimming, in UTF-16 code units. */
  function Check(f: Form, i: Input): Option<string>
  {
    match i
    case Name => if Trim(f.name) == "" then Some(NameRequired) else None
    case Phone =>
      if Trim(f.phone) == "" then Some(PhoneRequired)
      else if !EthiopianPhone(Trim(f.phone)) then Some(PhoneInvalid) else None
    case Email =>
      if Trim(f.email) == "" then Some(EmailRequired)
      else if !EmailShape(Trim(f.email)) then Some(EmailInvalid) else None
    case Password =>
      if Trim(f.password) == "" then Some(PasswordRequired)
      else if Utf16Length(f.password) < 6 then Some(PasswordShort) else None
    case ConfirmPassword => if f.password != f.confirmPassword then Some(PasswordsDiffer) else None
    case Role => None
    case VehicleType => if f.role == "driver" && f.vehicleType == "" then Some(VehicleRequired) else None
  }

  /** `validateForm`'s `newErrors`: each field carries at most its first failing check. */
  function Validate(f: Form): (e: map<Input, string>)
    ensures Name in e <==> Trim(f.name) == ""
    ensures Phone in e <==> !EthiopianPhone(Trim(f.phone))
    ensures Email in e <==> !EmailShape(Trim(f.email))
    ensures Password in e <==> Trim(f.password) == "" || Utf16Length(f.password) < 6
    ensures ConfirmPassword in e <==> f.password != f.confirmPassword
    ensures VehicleType in e <==> f.role == "driver" && f.vehicleType == ""
    ensures Role !in e
    ensures Phone in e ==> e[Phone] == (if Trim(f.phone) == "" then PhoneRequired else PhoneInvalid)
    ensures Email in e ==> e[Email] == (if Trim(f.email) == "" then EmailRequired else EmailInvalid)
    ensures Password in e ==> e[Password] == (if Trim(f.password) == "" then PasswordRequired else PasswordShort)
  {
    map i | i in Inputs && Check(f, i).Some? :: Check(f, i).value
  }

  /** The form is accepted exactly when every field passes its checks. */
  lemma ValidIff(f: Form)
    ensures Validate(f) == map[] <==>
      && Trim(f.name) != "" && EthiopianPhone(Trim(f.phone)) && EmailShape(Trim(f.email))
      && Trim(f.password) != "" && Utf16Length(f.password) >= 6 && f.password == f.confirmPassword
      && !(f.role == "driver" && f.vehicleType == "")
  {
    var e := Validate(f);
    if Name !in e && Phone !in e && Email !in e && Password !in e && ConfirmPassword !in e && VehicleType !in e {
      assert e.Keys == {} by {
        forall i | i in e ensures false {
          match i
          case Name =>
          case Phone =>
          case Email =>
          case Password =>
          case ConfirmPassword =>
          case Role =>
          case VehicleType =>
        }
      }
    }
  }

  /** A JSON object whose members are all texts, as the form builds it and the server's
      parser receives it. */
  type Body = map<string, string>

  /** The members every registration body carries. */
  function Common(f: Form): Body
  {
    map["name" := Trim(f.name), "phone" := Trim(f.phone), "email" := Trim(f.email),
        "password" := Trim(f.password), "role" := f.role]
  }

  /** The registration body: trimmed texts, the password trimmed too, and `vehicleType`
      only for a driver. */
  function Payload(f: Form): (r: Body)
    ensures "password" in r && r["password"] == Trim(f.password)
    ensures "vehicleType" in r <==> f.role == "driver"
    ensures "vehicle_type" !in r
  {
    if f.role == "driver" then Common(f)["vehicleType" := f.vehicleType] else Common(f)
  }

  /** What `handleRegister` leaves behind: the form's state and the body posted, if any. */
  datatype Submitted = Submitted(state: State, posted: Option<Body>)

  /** `handleRegister`: the errors are replaced by the new validation, and a body is
      posted exactly when there are none. */
  function HandleRegister(st: State): (r: Submitted)
    ensures r.state.form == st.form
    ensures forall i :: (i in r.state.errors <==> i in Validate(st.form))
    ensures forall i :: i in r.state.errors ==> r.state.errors[i] == Some(Validate(st.form)[i])
    ensures r.posted.Some? <==> Validate(st.form) == map[]
    ensures r.posted.Some? ==> r.posted.value == Payload(st.form)
  {
    var e := Validate(st.form);
    var shown := map i | i in e :: Some(e[i]);
    Submitted(State(st.form, shown), if e == map[] then Some(Payload(st.form)) else None)
  }

  /** A text member of a JSON body; a missing member is `None`. */
  function TextMember(body: Body, key: string): Option<string>
  {
    if key in body then Some(body[key]) else None
  }

  /** How the server reads a registration body into `UserCreate`'s input: by the model's
      own field names, so a member under any other name is ignored. */
  function ReadRegistration(body: Body): (r: UserModel.Registration)
    ensures r.vehicleType == TextMember(body, "vehicle_type")
    ensures r.password == TextMember(body, "password")
  {
    UserModel.Registration(
      TextMember(body, "phone"), TextMember(body, "name"), TextMember(body, "email"),
      TextMember(body, "role"), TextMember(body, "vehicle_type"), None,
      TextMember(body, "verification_status"), None, TextMember(body, "password"))
  }

  /** A driver's vehicle is posted as `vehicleType` while the server reads `vehicle_type`:
      whatever a driver picks, the server sees no vehicle, and if it accepts the sign-up
      the stored driver has none. */
  lemma DriverVehicleDropped(f: Form)
    requires f.role == "driver"
    ensures ReadRegistration(Payload(f)).vehicleType.None?
    ensures var c := UserModel.MakeUserCreate(ReadRegistration(Payload(f)));
      c.Ok? ==> c.value.vehicleType.None?
  {
  }

  /** The server refuses every body whose trimmed password is under six characters,
      before looking at anything else. */
  lemma ShortTrimmedRefused(f: Form, db: AuthApi.Db, id: string, hashed: string, now: string)
    requires |Trim(f.password)| < 6
    ensures UserModel.MakeUserCreate(ReadRegistration(Payload(f))).Err?
    ensures AuthApi.Register(db, ReadRegistration(Payload(f)), id, hashed, now).reply.Status() == 422
  {
    assert ReadRegistration(Payload(f)).password == Some(Trim(f.password));
  }

  /** A form with valid name, phone and email whose password and confirmation are a
      space followed by five visible characters, such as ` abcde`, passes every check of
      the screen, since the untrimmed password has six characters; the body then carries
      the five characters, and the server refuses it with 422. */
  lemma PaddedPasswordPasses(f: Form, p: string, db: AuthApi.Db, id: string, hashed: string, now: string)
    requires Trim(f.name) != "" && EthiopianPhone(Trim(f.phone)) && EmailShape(Trim(f.email))
    requires f.role == "customer"
    requires |p| == 5 && !IsSpace(p[0]) && !IsSpace(p[4])
    requires f.password == " " + p && f.confirmPassword == f.password
    ensures Validate(f) == map[]
    ensures AuthApi.Register(db, ReadRegistration(Payload(f)), id, hashed, now).reply.Status() == 422
  {
    assert TrimStart(f.password) == TrimStart(p) == p;
    TrimKeeps(p);
    ValidIff(f);
    ShortTrimmedRefused(f, db, id, hashed, now);
  }

  /** A form with valid name, phone and email whose password and confirmation are three
      emoji passes every check of the screen, since `length` counts their six UTF-16 code
      units; the server counts three characters and refuses the body with 422. The
      corrected check, counting characters of the trimmed password, refuses it. */
  lemma EmojiPasswordPasses(f: Form, db: AuthApi.Db, id: string, hashed: string, now: string)
    requires Trim(f.name) != "" && EthiopianPhone(Trim(f.phone)) && EmailShape(Trim(f.email))
    requires f.role == "customer"
    requires f.password == "\U{1F600}\U{1F600}\U{1F600}" && f.confirmPassword == f.password
    ensures Validate(f) == map[]
    ensures AuthApi.Register(db, ReadRegistration(Payload(f)), id, hashed, now).reply.Status() == 422
    ensures Password in ValidateCorrected(f)
  {
    ThreeEmoji();
    TrimKeeps(f.password);
    ValidIff(f);
    ShortTrimmedRefused(f, db, id, hashed, now);
  }

  /** The evidently intended check: the length rule applied to the password as it is
      sent, that is trimmed, and counted in characters as the server counts it. */
  function CheckCorrected(f: Form, i: Input): Option<string>
  {
    if i == Password && Trim(f.password) != "" && |Trim(f.password)| < 6 then Some(PasswordShort)
    else Check(f, i)
  }

  function ValidateCorrected(f: Form): (e: map<Input, string>)
    ensures Password in e <==> |Trim(f.password)| < 6
    ensures forall i :: i != Password ==> (i in e <==> i in Validate(f)) && (i in e ==> e[i] == Validate(f)[i])
  {
    TrimIsCore(f.password);
    map i | i in Inputs && CheckCorrected(f, i).Some? :: CheckCorrected(f, i).value
  }

  /** The evidently intended body: the vehicle under the server's name for it. */
  function PayloadCorrected(f: Form): (r: Body)
    ensures "vehicle_type" in r <==> f.role == "driver"
    ensures f.role == "driver" ==> r["vehicle_type"] == f.vehicleType
    ensures forall k :: k != "vehicle_type" ==> (k in r <==> k in Common(f)) && (k in r ==> r[k] == Common(f)[k])
  {
    if f.role == "driver" then Common(f)["vehicle_type" := f.vehicleType] else Common(f)
  }

  /** With both corrections, a form the screen accepts is one the server's model accepts:
      a customer, or a driver who picked one of the three vehicles, gets a `UserCreate`
      carrying the trimmed texts and, for a driver, the vehicle picked. */
  lemma CorrectedFormAccepted(f: Form)
    requires ValidateCorrected(f) == map[]
    requires f.role == "customer" || (f.role == "driver" && UserModel.ParseVehicle(f.vehicleType).Some?)
    ensures var c := UserModel.MakeUserCreate(ReadRegistration(PayloadCorrected(f)));
      && c.Ok?
      && c.value.password == Trim(f.password) && c.value.phone == Trim(f.phone)
      && (f.role == "driver" ==> c.value.vehicleType == UserModel.ParseVehicle(f.vehicleType))
      && (f.role == "customer" ==> c.value.vehicleType.None?)
  {
    assert Password !in ValidateCorrected(f);
    var b := ReadRegistration(PayloadCorrected(f));
    assert b.phone == Some(Trim(f.phone)) && b.name == Some(Trim(f.name)) && b.email == Some(Trim(f.email));
    assert b.password == Some(Trim(f.password)) && b.role == Some(f.role);
    assert b.verification.None?;
    assert f.role == "driver" ==> b.vehicleType == Some(f.vehicleType);
    assert f.role == "customer" ==> b.vehicleType.None?;
  }
}

=== FILE: schedule_screen.dfy ===
/** The schedule step of booking (BirtuLogistics/src/screens/customer/ScheduleScreen.js):
    the item's description and weight, a pickup day and time that must lie in the future,
    and one of three urgency levels. The clock reading is a parameter. */
module ScheduleScreen {
  import opened Wrappers
  import opened Text
  import opened NumberText
  import Calendar
  import Draft
  import Labels
  import ShipmentModel
  import BidSubmission

  /** An urgency card: its id, title, badge colour and price factor (shown as "1x",
      "1.5x" and "2x"). */
  datatype Level = Level(id: string, name: string, colour: Labels.Colour, multiplier: real)

  /** `urgencyLevels`, in the order the cards are shown. */
  const Levels: seq<Level> := [
    Level("low", "Standard", Labels.Info, 1.0),
    Level("medium", "Express", Labels.Warning, 1.5),
    Level("high", "Urgent", Labels.Error, 2.0)]

  /** The cards agree with every other place that names an urgency: their ids are the
      server's three urgencies, in order, their titles and colours are the badges the
      driver screens show, and their factors are the ones the suggested bid uses. */
  lemma LevelsAgree(i: nat)
    requires i < |Levels|
    ensures ShipmentModel.ParseUrgency(Levels[i].id).Some?
    ensures Labels.UrgencyLabel(Levels[i].id) == Levels[i].name
    ensures Labels.UrgencyColour(Levels[i].id) == Levels[i].colour
    ensures BidSubmission.UrgencyMultiplier(Levels[i].id) == Levels[i].multiplier
    ensures forall j :: 0 <= j < i ==> Levels[j].multiplier < Levels[i].multiplier
  {
  }

  datatype Input = ItemDescription | Weight | DateTime

  /** The screen's state. `date` and `time` start at the moment the screen opened. */
  datatype State = State(
    date: Calendar.Instant, time: Calendar.Instant, urgency: string,
    description: string, weight: string)

  function Initial(start: Calendar.Instant): State
  {
    State(start, start, "medium", "", "")
  }

  const DescriptionRequired := "Item description is required"
  const WeightRequired := "Weight is required"
  const WeightInvalid := "Please enter a valid weight"
  const PastDateTime := "Please select a future date and time"

  /** The day of `date` at the hour and minute of `time`. */
  function Chosen(st: State): Calendar.Instant
  {
    Calendar.Combine(st.date, st.time)
  }

  function Check(st: State, now: Calendar.Instant, i: Input): Option<string>
  {
    match i
    case ItemDescription => if Trim(st.description) == "" then Some(DescriptionRequired) else None
    case Weight =>
      if Trim(st.weight) == "" then Some(WeightRequired)
      else if ParseFloat(st.weight).None? || ParseFloat(st.weight).value <= 0.0 then Some(WeightInvalid) else None
    case DateTime => if Calendar.NotAfter(Chosen(st), now) then Some(PastDateTime) else None
  }

  /** `validateForm`'s `newErrors`. */
  function Validate(st: State, now: Calendar.Instant): (e: map<Input, string>)
    ensures ItemDescription in e <==> Trim(st.description) == ""
    ensures Weight in e <==> ParseFloat(st.weight).None? || ParseFloat(st.weight).value <= 0.0 || Trim(st.weight) == ""
    ensures DateTime in e <==> !Calendar.Before(now, Chosen(st))
  {
    Calendar.BeforeIsStrictTotal(now, Chosen(st));
    map i | i in {ItemDescription, Weight, DateTime} && Check(st, now, i).Some? :: Check(st, now, i).value
  }

  /** `handleDateChange` and `handleTimeChange`: a dismissed picker keeps the old value. */
  function PickDate(st: State, picked: Option<Calendar.Instant>): (r: State)
    ensures r.date == (if picked.Some? then picked.value else st.date)
    ensures r.time == st.time && r.urgency == st.urgency
    ensures r.description == st.description && r.weight == st.weight
  {
    if picked.Some? then st.(date := picked.value) else st
  }

  function PickTime(st: State, picked: Option<Calendar.Instant>): (r: State)
    ensures r.time == (if picked.Some? then picked.value else st.time)
    ensures r.date == st.date && r.urgency == st.urgency
    ensures r.description == st.description && r.weight == st.weight
  {
    if picked.Some? then st.(time := picked.value) else st
  }

  /** Tapping the urgency card at `i`. */
  function ChooseLevel(st: State, i: nat): (r: State)
    requires i < |Levels|
    ensures ShipmentModel.ParseUrgency(r.urgency).Some?
    ensures r.urgency == Levels[i].id
    ensures r.date == st.date && r.time == st.time && r.description == st.description && r.weight == st.weight
  {
    LevelsAgree(i);
    st.(urgency := Levels[i].id)
  }

  /** What Continue leads to: the errors shown, the draft, and whether the photo step
      follows. */
  datatype Outcome = Outcome(errors: map<Input, string>, store: Draft.Store, next: bool)

  /** `handleContinue`: on a valid form the draft gets the chosen moment and urgency,
      then the trimmed description and the weight read as a number. */
  function Continue(s: Draft.Store, st: State, now: Calendar.Instant): (r: Outcome)
    ensures r.errors == Validate(st, now)
    ensures r.next <==> r.errors == map[]
    ensures !r.next ==> r.store == s
  {
    var e := Validate(st, now);
    if e != map[] then Outcome(e, s, false)
    else
      var scheduled := Draft.Apply(s, Draft.SetSchedule(Some(Chosen(st)), st.urgency));
      Outcome(e, Draft.Apply(scheduled, Draft.SetItemDetails(Trim(st.description), ParseFloat(st.weight).value)), true)
  }

  /** Whatever the draft held, a Continue that goes through leaves it with a moment
      strictly after the clock reading, a positive weight, a non-empty description and
      the chosen urgency, and with everything outside those members untouched. */
  lemma ContinueStoresFuture(s: Draft.Store, st: State, now: Calendar.Instant)
    requires Continue(s, st, now).next
    ensures var d := Continue(s, st, now).store.current;
      && d.schedule.Some? && Calendar.Before(now, d.schedule.value)
      && d.schedule.value.day == st.date.day && d.schedule.value.hour == st.time.hour && d.schedule.value.minute == st.time.minute
      && d.itemDetails.Some? && d.itemDetails.value.weight > 0.0
      && d.itemDetails.value.description == Trim(st.description) != ""
      && d.urgency == st.urgency
    ensures forall m :: m !in {Draft.Schedule, Draft.Urgency, Draft.Items} ==> Draft.Agree(Continue(s, st, now).store, s, m)
  {
    var scheduled := Draft.Apply(s, Draft.SetSchedule(Some(Chosen(st)), st.urgency));
    var r := Continue(s, st, now).store;
    assert r == Draft.Apply(scheduled, Draft.SetItemDetails(Trim(st.description), ParseFloat(st.weight).value));
    forall m | m !in {Draft.Schedule, Draft.Urgency, Draft.Items} ensures Draft.Agree(r, s, m) {
      assert Draft.Agree(r, scheduled, m) && Draft.Agree(scheduled, s, m);
    }
  }
}

=== FILE: shipment_context.dfy ===
/** The client's shipment draft store (BirtuLogistics/src/context/ShipmentContext.js): the
    shipment being composed across the booking screens, the list of past or available
    shipments, and the setters the context hands to those screens. No setter looks at the
    draft's status. */
module Draft {
  import opened Wrappers
  import opened JsonValue
  import Calendar

  /** A place as the location screen packs it: `coordinates` are `[longitude, latitude]`. */
  datatype Place = Place(coordinates: seq<real>, address: string)

  datatype Receiver = Receiver(name: string, phone: string)

  /** `{description, weight}` as `setItemDetails` stores it. */
  datatype ItemDetails = ItemDetails(description: string, weight: real)

  /** `currentShipment`; `null` fields are `None`, and `acceptedBid` is `JNull` when unset. */
  datatype Shipment = Shipment(
    pickupLocation: Option<Place>,
    dropoffLocation: Option<Place>,
    receiverInfo: Option<Receiver>,
    vehicleTypes: seq<string>,
    schedule: Option<Calendar.Instant>,
    urgency: string,
    itemDetails: Option<ItemDetails>,
    photos: seq<string>,
    bids: seq<Json>,
    status: string,
    acceptedBid: Json)

  /** The context's whole state: the draft and the `shipments` list beside it. */
  datatype Store = Store(current: Shipment, shipments: seq<Json>)

  const Draft := "draft"
  const Published := "published"
  const Accepted := "accepted"

  /** The state the provider starts with and `resetShipment` restores. */
  const Blank: Shipment :=
    Shipment(None, None, None, [], None, "medium", None, [], [], Draft, JNull)

  const Initial: Store := Store(Blank, [])

  /** One setter call through the context. */
  datatype Call =
    | SetLocations(pickup: Option<Place>, dropoff: Option<Place>)
    | SetReceiverInfo(receiver: Option<Receiver>)
    | SetVehicleTypes(vehicleTypes: seq<string>)
    | SetSchedule(datetime: Option<Calendar.Instant>, urgency: string)
    | SetItemDetails(description: string, weight: real)
    | SetPhotos(photos: seq<string>)
    | SetBids(bids: seq<Json>)
    | SetAcceptedBid(bid: Json)
    | ResetShipment
    | PublishShipment
    | SetShipments(shipments: seq<Json>)

  /** The members of the state, for stating which ones a call may change. */
  datatype Member =
    | PickupLocation | DropoffLocation | ReceiverInfo | VehicleTypes | Schedule | Urgency
    | Items | Photos | Bids | Status | AcceptedBid | Shipments

  /** `a` and `b` hold the same value for member `m`. */
  predicate Agree(a: Store, b: Store, m: Member) {
    match m
    case PickupLocation => a.current.pickupLocation == b.current.pickupLocation
    case DropoffLocation => a.current.dropoffLocation == b.current.dropoffLocation
    case ReceiverInfo => a.current.receiverInfo == b.current.receiverInfo
    case VehicleTypes => a.current.vehicleTypes == b.current.vehicleTypes
    case Schedule => a.current.schedule == b.current.schedule
    case Urgency => a.current.urgency == b.current.urgency
    case Items => a.current.itemDetails == b.current.itemDetails
    case Photos => a.current.photos == b.current.photos
    case Bids => a.current.bids == b.current.bids
    case Status => a.current.status == b.current.status
    case AcceptedBid => a.current.acceptedBid == b.current.acceptedBid
    case Shipments => a.shipments == b.shipments
  }

  /** Agreeing on every member is equality. */
  lemma AgreeAll(a: Store, b: Store)
    requires forall m: Member :: Agree(a, b, m)
    ensures a == b
  {
    assert Agree(a, b, PickupLocation) && Agree(a, b, DropoffLocation) && Agree(a, b, ReceiverInfo);
    assert Agree(a, b, VehicleTypes) && Agree(a, b, Schedule) && Agree(a, b, Urgency);
    assert Agree(a, b, Items) && Agree(a, b, Photos) && Agree(a, b, Bids);
    assert Agree(a, b, Status) && Agree(a, b, AcceptedBid) && Agree(a, b, Shipments);
  }

  /** The members each setter is allowed to write. */
  function Writes(c: Call): set<Member>
  {
    match c
    case SetLocations(_, _) => {PickupLocation, DropoffLocation}
    case SetReceiverInfo(_) => {ReceiverInfo}
    case SetVehicleTypes(_) => {VehicleTypes}
    case SetSchedule(_, _) => {Schedule, Urgency}
    case SetItemDetails(_, _) => {Items}
    case SetPhotos(_) => {Photos}
    case SetBids(_) => {Bids}
    case SetAcceptedBid(_) => {AcceptedBid, Status}
    case ResetShipment =>
      {PickupLocation, DropoffLocation, ReceiverInfo, VehicleTypes, Schedule, Urgency,
       Items, Photos, Bids, Status, AcceptedBid}
    case PublishShipment => {Status}
    case SetShipments(_) => {Shipments}
  }

  /** The state after one setter call: every member outside the call's write set keeps its
      value, and the written members take the call's arguments. */
  function Apply(s: Store, c: Call): (r: Store)
    ensures forall m :: m !in Writes(c) ==> Agree(r, s, m)
    ensures c.SetLocations? ==> r.current.pickupLocation == c.pickup && r.current.dropoffLocation == c.dropoff
    ensures c.SetReceiverInfo? ==> r.current.receiverInfo == c.receiver
    ensures c.SetVehicleTypes? ==> r.current.vehicleTypes == c.vehicleTypes
    ensures c.SetSchedule? ==> r.current.schedule == c.datetime && r.current.urgency == c.urgency
    ensures c.SetItemDetails? ==> r.current.itemDetails == Some(ItemDetails(c.description, c.weight))
    ensures c.SetPhotos? ==> r.current.photos == c.photos
    ensures c.SetBids? ==> r.current.bids == c.bids
    ensures c.SetAcceptedBid? ==> r.current.acceptedBid == c.bid && r.current.status == Accepted
    ensures c.ResetShipment? ==> r.current == Blank
    ensures c.PublishShipment? ==> r.current.status == Published
    ensures c.SetShipments? ==> r.shipments == c.shipments
  {
    var d := s.current;
    match c
    case SetLocations(p, q) => s.(current := d.(pickupLocation := p, dropoffLocation := q))
    case SetReceiverInfo(x) => s.(current := d.(receiverInfo := x))
    case SetVehicleTypes(v) => s.(current := d.(vehicleTypes := v))
    case SetSchedule(t, u) => s.(current := d.(schedule := t, urgency := u))
    case SetItemDetails(desc, w) => s.(current := d.(itemDetails := Some(ItemDetails(desc, w))))
    case SetPhotos(ps) => s.(current := d.(photos := ps))
    case SetBids(bs) => s.(current := d.(bids := bs))
    case SetAcceptedBid(b) => s.(current := d.(acceptedBid := b, status := Accepted))
    case ResetShipment => s.(current := Blank)
    case PublishShipment => s.(current := d.(status := Published))
    case SetShipments(xs) => s.(shipments := xs)
  }

  /** What `publishShipment` resolves to. */
  datatype PublishOutcome = PublishOutcome(store: Store, success: bool)

  /** `publishShipment`: no request is made and nothing can fail, so it always reports
      success after marking the draft published. */
  function Publish(s: Store): (r: PublishOutcome)
    ensures r.success
    ensures r.store.current.status == Published
    ensures forall m :: m != Status ==> Agree(r.store, s, m)
  {
    PublishOutcome(Apply(s, PublishShipment), true)
  }

  /** Resetting gives back exactly the state the provider started with, apart from the
      separate `shipments` list. */
  lemma ResetIsInitial(s: Store)
    ensures Apply(s, ResetShipment) == Initial.(shipments := s.shipments)
    ensures Apply(Initial, ResetShipment) == Initial
    ensures Blank.status == Draft && Blank.urgency == "medium" && Blank.acceptedBid == JNull
    ensures Blank.vehicleTypes == [] && Blank.photos == [] && Blank.bids == []
  {
  }

  /** The calls that write the status member. */
  predicate WritesStatus(c: Call) {
    c.SetAcceptedBid? || c.ResetShipment? || c.PublishShipment?
  }

  /** No setter is guarded by status: applying a call to the same draft in any other
      status gives the same result, apart from a status the call leaves alone. */
  lemma {:induction false} NoStatusGuard(s: Store, c: Call, status: string)
    ensures var t := s.(current := s.current.(status := status));
      WritesStatus(c) ==> Apply(t, c) == Apply(s, c)
    ensures var t := s.(current := s.current.(status := status));
      !WritesStatus(c) ==> Apply(t, c) == Apply(s, c).(current := Apply(s, c).current.(status := status))
  {
    var t := s.(current := s.current.(status := status));
    var a := Apply(t, c);
    var b := Apply(s, c);
    if WritesStatus(c) {
      forall m: Member ensures Agree(a, b, m) {
        if m !in Writes(c) {
          assert Agree(a, t, m) && Agree(b, s, m);
        }
      }
      AgreeAll(a, b);
    } else {
      var b' := b.(current := b.current.(status := status));
      forall m: Member ensures Agree(a, b', m) {
        if m !in Writes(c) {
          assert Agree(a, t, m) && Agree(b, s, m);
        }
      }
      AgreeAll(a, b');
    }
  }

  /** Accepting a second bid succeeds just like the first and keeps only the latest. */
  lemma SecondAcceptReplaces(s: Store, first: Json, second: Json)
    ensures Apply(Apply(s, SetAcceptedBid(first)), SetAcceptedBid(second)) == Apply(s, SetAcceptedBid(second))
  {
  }

  /** Editing a published or accepted draft goes through as on a fresh one. */
  lemma EditAfterPublish(s: Store, c: Call)
    requires !WritesStatus(c)
    ensures Apply(Apply(s, PublishShipment), c).current.status == Published
    ensures forall m :: m != Status ==> Agree(Apply(Apply(s, PublishShipment), c), Apply(s, c), m)
  {
    NoStatusGuard(s, c, Published);
  }

  /** The setter names the context value exposes. Location and vehicle selection ask for
      `setPickupLocation`, `setDropoffLocation` and `setVehicleRequirements`, which are
      not among them. */
  const Exported: set<string> := {
    "currentShipment", "shipments", "setShipments", "setLocations", "setReceiverInfo",
    "setVehicleTypes", "setSchedule", "setItemDetails", "setPhotos", "setBids",
    "setAcceptedBid", "resetShipment", "publishShipment"}

  predicate Provides(name: string) {
    name in Exported
  }

  /** A screen calling a setter it took from the context by `name`, and whether that call
      threw. */
  datatype Invoked = Invoked(store: Store, thrown: bool)

  /** A name the context does not provide is `undefined` in the screen, and calling it
      throws a `TypeError` before anything is stored; a provided setter makes its call,
      which writes its own members and leaves every other member as it was. */
  function Invoke(s: Store, name: string, c: Call): (r: Invoked)
    ensures r.thrown <==> name !in Exported
    ensures r.thrown ==> r.store == s
    ensures !r.thrown ==> r.store == Apply(s, c)
    ensures !r.thrown ==> forall m :: m !in Writes(c) ==> Agree(r.store, s, m)
  {
    if Provides(name) then Invoked(Apply(s, c), false) else Invoked(s, true)
  }
}

=== FILE: shipment_model.dfy ===
/** The server's shipment records (backend/app/models/shipment.py): the enumerations, the
    stored shipment, bid and embedded-bid documents, the defaults a new shipment gets, and
    the check `ShipmentInDB(**data)` performs when a stored document is read back. Stored
    statuses are kept as text because the payment code writes `paid`, which is not a
    member of the status enumeration. Object ids are their 24-digit hexadecimal text. */
module ShipmentModel {
  import opened Wrappers
  import opened Text
  import opened JsonValue

  type Id = string

  datatype ShipmentStatus = Draft | Bidding | Accepted | InTransit | Delivered | Cancelled

  function StatusText(s: ShipmentStatus): string
  {
    match s
    case Draft => "draft"
    case Bidding => "bidding"
    case Accepted => "accepted"
    case InTransit => "in_transit"
    case Delivered => "delivered"
    case Cancelled => "cancelled"
  }

  const StatusTexts: seq<string> := ["draft", "bidding", "accepted", "in_transit", "delivered", "cancelled"]

  /** The enumeration's value for a text, as pydantic coerces it. */
  function ParseStatus(t: string): (r: Option<ShipmentStatus>)
    ensures r.Some? ==> StatusText(r.value) == t
    ensures r.None? <==> t !in StatusTexts
  {
    if t == "draft" then Some(Draft)
    else if t == "bidding" then Some(Bidding)
    else if t == "accepted" then Some(Accepted)
    else if t == "in_transit" then Some(InTransit)
    else if t == "delivered" then Some(Delivered)
    else if t == "cancelled" then Some(Cancelled)
    else None
  }

  /** The enumeration has exactly six values, each with its own text; neither the
      client's `published` nor the payment code's `paid` is one of them. */
  lemma StatusEnumeration(s: ShipmentStatus)
    ensures ParseStatus(StatusText(s)) == Some(s)
    ensures StatusText(s) in StatusTexts && |StatusTexts| == 6
    ensures forall i, j :: 0 <= i < j < |StatusTexts| ==> StatusTexts[i] != StatusTexts[j]
    ensures ParseStatus("published") == None && ParseStatus("paid") == None
  {
  }

  datatype BidStatus = Pending | BidAccepted | Rejected

  function BidStatusText(s: BidStatus): string
  {
    match s
    case Pending => "pending"
    case BidAccepted => "accepted"
    case Rejected => "rejected"
  }

  function ParseBidStatus(t: string): (r: Option<BidStatus>)
    ensures r.Some? ==> BidStatusText(r.value) == t
    ensures r.None? <==> t != "pending" && t != "accepted" && t != "rejected"
  {
    if t == "pending" then Some(Pending)
    else if t == "accepted" then Some(BidAccepted)
    else if t == "rejected" then Some(Rejected)
    else None
  }

  lemma BidStatusRoundTrip(s: BidStatus)
    ensures ParseBidStatus(BidStatusText(s)) == Some(s)
  {
  }

  datatype Urgency = Low | Medium | High

  function UrgencyText(u: Urgency): string
  {
    match u
    case Low => "low"
    case Medium => "medium"
    case High => "high"
  }

  function ParseUrgency(t: string): (r: Option<Urgency>)
    ensures r.Some? ==> UrgencyText(r.value) == t
    ensures r.None? <==> t != "low" && t != "medium" && t != "high"
  {
    if t == "low" then Some(Low) else if t == "medium" then Some(Medium) else if t == "high" then Some(High) else None
  }

  datatype VehicleType = Motorbike | Pickup | Truck

  function VehicleText(v: VehicleType): string
  {
    match v
    case Motorbike => "motorbike"
    case Pickup => "pickup"
    case Truck => "truck"
  }

  const VehicleTexts: seq<string> := ["motorbike", "pickup", "truck"]

  function ParseVehicle(t: string): (r: Option<VehicleType>)
    ensures r.Some? ==> VehicleText(r.value) == t
    ensures r.None? <==> t !in VehicleTexts
  {
    if t == "motorbike" then Some(Motorbike) else if t == "pickup" then Some(Pickup) else if t == "truck" then Some(Truck) else None
  }

  lemma VehicleRoundTrip(v: VehicleType)
    ensures ParseVehicle(VehicleText(v)) == Some(v)
    ensures VehicleText(v) in VehicleTexts
  {
  }

  /** `Location`: `coordinates` are `[longitude, latitude]`. */
  datatype Place = Place(coordinates: seq<real>, address: string)

  datatype Receiver = Receiver(name: string, phone: string)

  /** An entry of a shipment's embedded `bids` list. */
  datatype EmbeddedBid = EmbeddedBid(driverId: Id, amount: real, status: string, bidTime: nat)

  /** A document of the `shipments` collection. `status` is absent on a document that was
      created and never published; reading it back then gives the default `draft`. */
  datatype ShipmentDoc = ShipmentDoc(
    customerId: Id,
    status: Option<string>,
    pickupLocation: Option<Place>,
    dropoffLocation: Option<Place>,
    receiverInfo: Option<Receiver>,
    vehicleRequirements: seq<string>,
    shipmentDate: Option<nat>,
    photos: seq<string>,
    itemDescription: string,
    weightKg: real,
    urgency: string,
    bids: seq<EmbeddedBid>,
    acceptedBidId: Option<Id>,
    deliveryConfirmation: Option<Json>,
    paymentTransactionId: Option<Id>,
    createdAt: nat,
    updatedAt: nat)

  /** `ShipmentCreate`: what a customer sends to create a shipment. */
  datatype ShipmentCreate = ShipmentCreate(
    pickupLocation: Option<Place>,
    dropoffLocation: Option<Place>,
    receiverInfo: Option<Receiver>,
    vehicleRequirements: seq<VehicleType>,
    shipmentDate: Option<nat>,
    photos: seq<string>,
    itemDescription: string,
    weightKg: real,
    urgency: Urgency)

  /** The body of a request that supplies no field at all. */
  const EmptyCreate: ShipmentCreate := ShipmentCreate(None, None, None, [], None, [], "", 0.0, Medium)

  /** The document `create_shipment` inserts: the request's fields, the owner and the
      creation time; no status, no bids and no accepted bid. */
  function NewShipment(c: ShipmentCreate, customer: Id, now: nat): (d: ShipmentDoc)
    ensures d.customerId == customer && d.status.None? && d.bids == [] && d.acceptedBidId.None?
    ensures d.urgency == UrgencyText(c.urgency) && d.photos == c.photos && d.itemDescription == c.itemDescription
    ensures |d.vehicleRequirements| == |c.vehicleRequirements|
    ensures forall i :: 0 <= i < |d.vehicleRequirements| ==> d.vehicleRequirements[i] == VehicleText(c.vehicleRequirements[i])
  {
    ShipmentDoc(customer, None, c.pickupLocation, c.dropoffLocation, c.receiverInfo,
                VehicleTextsOf(c.vehicleRequirements), c.shipmentDate, c.photos, c.itemDescription,
                c.weightKg, UrgencyText(c.urgency), [], None, None, None, now, now)
  }

  function VehicleTextsOf(vs: seq<VehicleType>): (r: seq<string>)
    ensures |r| == |vs| && forall i :: 0 <= i < |vs| ==> r[i] == VehicleText(vs[i])
  {
    if vs == [] then [] else [VehicleText(vs[0])] + VehicleTextsOf(vs[1..])
  }

  /** A shipment as the service hands it out once `ShipmentInDB` has accepted the document. */
  datatype Shipment = Shipment(id: Id, doc: ShipmentDoc, status: ShipmentStatus)

  /** The status a readable document reports: its stored status, or `draft` when absent. */
  function StatusOf(d: ShipmentDoc): Option<ShipmentStatus>
  {
    match d.status
    case None => Some(Draft)
    case Some(t) => ParseStatus(t)
  }

  /** What `ShipmentInDB(**data)` accepts: every enumerated member holds one of its
      enumeration's texts. */
  predicate Readable(d: ShipmentDoc) {
    && StatusOf(d).Some?
    && ParseUrgency(d.urgency).Some?
    && (forall i :: 0 <= i < |d.vehicleRequirements| ==> ParseVehicle(d.vehicleRequirements[i]).Some?)
    && (forall i :: 0 <= i < |d.bids| ==> ParseBidStatus(d.bids[i].status).Some?)
  }

  /** A document read back: the model instance, or the validation error `ShipmentInDB`
      raises. */
  datatype Read = Found(shipment: Shipment) | Unreadable

  function ReadDoc(id: Id, d: ShipmentDoc): (r: Read)
    ensures r.Found? <==> Readable(d)
    ensures r.Found? ==> r.shipment.doc == d && r.shipment.id == id && StatusOf(d) == Some(r.shipment.status)
  {
    if Readable(d) then Found(Shipment(id, d, StatusOf(d).value)) else Unreadable
  }

  /** Every freshly created shipment reads back as a draft. */
  lemma NewShipmentReadable(c: ShipmentCreate, customer: Id, now: nat, id: Id)
    ensures ReadDoc(id, NewShipment(c, customer, now)).Found?
    ensures ReadDoc(id, NewShipment(c, customer, now)).shipment.status == Draft
  {
    var d := NewShipment(c, customer, now);
    forall i | 0 <= i < |d.vehicleRequirements|
      ensures ParseVehicle(d.vehicleRequirements[i]).Some?
    {
      VehicleRoundTrip(c.vehicleRequirements[i]);
    }
  }

  /** A document whose status was set to `paid` can no longer be read. */
  lemma PaidIsUnreadable(id: Id, d: ShipmentDoc)
    requires d.status == Some("paid")
    ensures ReadDoc(id, d) == Unreadable
  {
  }

  /** The defaults of `ShipmentBase`: medium urgency, no requirements, no photos and an
      empty description. */
  lemma CreateDefaults()
    ensures EmptyCreate.urgency == Medium && EmptyCreate.vehicleRequirements == []
    ensures EmptyCreate.photos == [] && EmptyCreate.itemDescription == "" && EmptyCreate.weightKg == 0.0
    ensures EmptyCreate.pickupLocation.None? && EmptyCreate.dropoffLocation.None? && EmptyCreate.receiverInfo.None?
  {
  }

  /** How a stored bid records its shipment: as an ObjectId, or as the same id written as
      text. `bid_data.dict()` runs `PyObjectId`'s serializer, which turns the id into its
      text, so `create_bid` stores text. A query holding an ObjectId never matches text,
      and the reverse holds too. */
  datatype Ref = Oid(id: Id) | Str(text: string)

  /** A document of the `bids` collection. */
  datatype BidDoc = BidDoc(shipmentId: Ref, driverId: Id, amount: real, status: BidStatus, bidTime: nat)

  /** The id a reference names once `PyObjectId` has validated it: text becomes an
      ObjectId again. The text `create_bid` stores is `str()` of an ObjectId, which is
      already canonical, so validation gives back the same id. */
  function Target(r: Ref): Id
  {
    match r
    case Oid(id) => id
    case Str(t) => t
  }

  /** The shipment id of a stored bid, as `BidResponse` reports it. */
  function ShipmentOf(b: BidDoc): Id
  {
    Target(b.shipmentId)
  }

  /** `Bid`: a bid built without a status is pending. */
  function NewEmbeddedBid(driver: Id, amount: real, now: nat): (b: EmbeddedBid)
    ensures ParseBidStatus(b.status) == Some(Pending)
    ensures b.driverId == driver && b.amount == amount && b.bidTime == now
  {
    EmbeddedBid(driver, amount, BidStatusText(Pending), now)
  }

  /** `ObjectId.is_valid` on text: exactly 24 hexadecimal digits. */
  predicate ValidId(s: string) {
    |s| == 24 && forall i :: 0 <= i < |s| ==> IsHexDigit(s[i])
  }


  /** The hexadecimal digit in lower case, as `str(ObjectId(...))` prints it. */
  function LowerHex(c: char): char
  {
    if 'A' <= c <= 'F' then (c as int + 32) as char else c
  }

  /** `str(ObjectId(v))`: the same digits in lower case. Stored ids are canonical. */
  function Canonical(v: string): (r: string)
    ensures |r| == |v|
    ensures forall i :: 0 <= i < |v| ==> r[i] == LowerHex(v[i])
  {
    seq(|v|, i requires 0 <= i < |v| => LowerHex(v[i]))
  }

  /** A valid id stays valid in canonical form, canonical form is a fixed point, and it
      holds no upper-case digit. */
  lemma CanonicalId(v: string)
    requires ValidId(v)
    ensures ValidId(Canonical(v)) && Canonical(Canonical(v)) == Canonical(v)
    ensures forall i :: 0 <= i < |v| ==> !('A' <= Canonical(v)[i] <= 'F')
  {
    var c := Canonical(v);
    assert forall i :: 0 <= i < |v| ==> IsHexDigit(c[i]);
    assert Canonical(c) == c;
  }

  /** `PyObjectId.validate`: the id for valid text, the error otherwise. */
  function ValidateId(v: string): (r: Result<Id, string>)
    ensures r.Ok? <==> ValidId(v)
    ensures r.Ok? ==> r.value == Canonical(v)
    ensures r.Err? ==> r.error == "Invalid objectid"
  {
    if ValidId(v) then Ok(Canonical(v)) else Err("Invalid objectid")
  }
}

=== FILE: shipment_service.dfy ===
/** The server's shipment service (backend/app/services/shipment_service.py) over the
    database: the `shipments`, `bids`, `users` and `payment_transactions` collections as
    maps from id to document (users as a sequence). Each operation returns the database
    afterwards and what the coroutine returns or raises. The clock is a parameter; new
    ids are parameters too. */
module ShipmentService {
  import opened Wrappers
  import opened JsonValue
  import opened ShipmentModel
  import UserModel

  /** A document of the `payment_transactions` collection. The amount and the status
      are stored as the request sent them. */
  datatype Transaction = Transaction(
    shipmentId: Id, userId: Id, amount: Json, paymentMethod: string, status: Json,
    initiatedAt: nat, updatedAt: nat)

  datatype Db = Db(
    shipments: map<Id, ShipmentDoc>,
    bids: map<Id, BidDoc>,
    users: seq<UserModel.UserDoc>,
    transactions: map<Id, Transaction>)

  /** What a service coroutine hands back: a value, `None`, a raised `ValueError`
      (pydantic's validation error is one), or another exception escaping from the
      database driver. */
  datatype Out<+T> = Done(value: T) | Nothing | Raised(message: string) | Failed(error: string)

  /** The `WriteError` MongoDB raises when an update would change a document's `_id`. */
  const ImmutableId := "WriteError: Performing an update on the path '_id' would modify the immutable field '_id'"

  /** The message of the validation error `ShipmentInDB` raises on a document it rejects. */
  const ValidationMessage := "1 validation error for ShipmentInDB"

  /** `get_shipment_by_id`. */
  function GetShipment(db: Db, id: Id): (r: Out<Shipment>)
    ensures r.Nothing? <==> id !in db.shipments
    ensures r.Done? ==> id in db.shipments && r.value.doc == db.shipments[id] && r.value.id == id && Readable(db.shipments[id])
    ensures r.Raised? ==> id in db.shipments && !Readable(db.shipments[id]) && r.message == ValidationMessage
  {
    if id !in db.shipments then Nothing
    else match ReadDoc(id, db.shipments[id])
      case Found(s) => Done(s)
      case Unreadable => Raised(ValidationMessage)
  }

  /** The `$set` of a shipment update: each member named is written, the others kept.
      The update endpoints pass the request's dictionary through unchecked, so besides
      the members a client edits it can name the ones only the server should set: the
      owner, the embedded bids, the creation time, and `_id` itself. */
  datatype Patch = Patch(
    status: Option<string>,
    pickupLocation: Option<Option<Place>>,
    dropoffLocation: Option<Option<Place>>,
    receiverInfo: Option<Option<Receiver>>,
    vehicleRequirements: Option<seq<string>>,
    shipmentDate: Option<Option<nat>>,
    photos: Option<seq<string>>,
    itemDescription: Option<string>,
    weightKg: Option<real>,
    urgency: Option<string>,
    acceptedBidId: Option<Id>,
    deliveryConfirmation: Option<Json>,
    paymentTransactionId: Option<Id>,
    customerId: Option<Id>,
    bids: Option<seq<EmbeddedBid>>,
    createdAt: Option<nat>,
    objectId: Option<Json>)

  const NoChange: Patch := Patch(None, None, None, None, None, None, None, None, None, None, None, None, None, None, None, None, None)

  function Set<T>(current: T, update: Option<T>): T
  {
    match update
    case Some(v) => v
    case None => current
  }

  /** The document after `{"$set": patch}` with `updated_at` set to `now` (the `_id`
      member is never written: `UpdateShipment` fails first). */
  function ApplyPatch(d: ShipmentDoc, p: Patch, now: nat): (r: ShipmentDoc)
    ensures p.status.Some? ==> r.status == p.status
    ensures p.status.None? ==> r.status == d.status
    ensures p.customerId.Some? ==> r.customerId == p.customerId.value
    ensures p.customerId.None? ==> r.customerId == d.customerId
    ensures p.bids.Some? ==> r.bids == p.bids.value
    ensures p.bids.None? ==> r.bids == d.bids
    ensures p.createdAt.Some? ==> r.createdAt == p.createdAt.value
    ensures p.createdAt.None? ==> r.createdAt == d.createdAt
    ensures r.updatedAt == now
  {
    d.(status := if p.status.Some? then p.status else d.status,
       pickupLocation := Set(d.pickupLocation, p.pickupLocation),
       dropoffLocation := Set(d.dropoffLocation, p.dropoffLocation),
       receiverInfo := Set(d.receiverInfo, p.receiverInfo),
       vehicleRequirements := Set(d.vehicleRequirements, p.vehicleRequirements),
       shipmentDate := Set(d.shipmentDate, p.shipmentDate),
       photos := Set(d.photos, p.photos),
       itemDescription := Set(d.itemDescription, p.itemDescription),
       weightKg := Set(d.weightKg, p.weightKg),
       urgency := Set(d.urgency, p.urgency),
       acceptedBidId := if p.acceptedBidId.Some? then p.acceptedBidId else d.acceptedBidId,
       deliveryConfirmation := if p.deliveryConfirmation.Some? then p.deliveryConfirmation else d.deliveryConfirmation,
       paymentTransactionId := if p.paymentTransactionId.Some? then p.paymentTransactionId else d.paymentTransactionId,
       customerId := Set(d.customerId, p.customerId),
       bids := Set(d.bids, p.bids),
       createdAt := Set(d.createdAt, p.createdAt),
       updatedAt := now)
  }

  /** An empty `$set` only stamps the time, and applying the same `$set` twice at the
      same time is applying it once. */
  lemma ApplyPatchLaws(d: ShipmentDoc, p: Patch, now: nat)
    ensures ApplyPatch(d, NoChange, now) == d.(updatedAt := now)
    ensures ApplyPatch(ApplyPatch(d, p, now), p, now) == ApplyPatch(d, p, now)
  {
  }

  /** A service call's effect: the database afterwards and the result. */
  datatype Svc<+T> = Svc(db: Db, out: Out<T>)

  /** `update_shipment`: `$set` the patch and `updated_at`; when the write modified the
      document, read it back (which raises on a document `ShipmentInDB` rejects), and
      otherwise answer `None`. Only the one shipment can change. A `$set` of `_id` on
      the stored document is refused by the database and nothing is written. */
  function UpdateShipment(db: Db, id: Id, p: Patch, now: nat): (r: Svc<Shipment>)
    ensures r.db.bids == db.bids && r.db.users == db.users && r.db.transactions == db.transactions
    ensures r.db.shipments.Keys == db.shipments.Keys
    ensures forall k :: k in db.shipments && k != id ==> r.db.shipments[k] == db.shipments[k]
    ensures id !in db.shipments ==> r == Svc(db, Nothing)
    ensures id in db.shipments && p.objectId.Some? ==> r == Svc(db, Failed(ImmutableId))
    ensures id in db.shipments && p.objectId.None? ==> r.db.shipments[id] == ApplyPatch(db.shipments[id], p, now)
    ensures id in db.shipments && p.objectId.None? && ApplyPatch(db.shipments[id], p, now) == db.shipments[id] ==> r.out.Nothing?
    ensures id in db.shipments && p.objectId.None? && ApplyPatch(db.shipments[id], p, now) != db.shipments[id] ==>
      r.out == GetShipment(r.db, id)
  {
    if id !in db.shipments then Svc(db, Nothing)
    else if p.objectId.Some? then Svc(db, Failed(ImmutableId))
    else
      var updated := ApplyPatch(db.shipments[id], p, now);
      var db' := db.(shipments := db.shipments[id := updated]);
      if updated == db.shipments[id] then Svc(db', Nothing)
      else Svc(db', GetShipment(db', id))
  }

  function StatusPatch(status: string): (p: Patch)
    ensures p.status == Some(status)
  {
    NoChange.(status := Some(status))
  }

  /** `publish_shipment` in the service: status `bidding`, with no check of the current
      status. */
  function Publish(db: Db, id: Id, now: nat): (r: Svc<Shipment>)
    ensures id in db.shipments ==> id in r.db.shipments && r.db.shipments[id].status == Some("bidding")
  {
    UpdateShipment(db, id, StatusPatch("bidding"), now)
  }

  /** `accept_shipment`: status `accepted` and the accepted bid recorded. */
  function AcceptShipment(db: Db, id: Id, bidId: Id, now: nat): (r: Svc<Shipment>)
    ensures id in db.shipments ==>
      id in r.db.shipments && r.db.shipments[id].status == Some("accepted") && r.db.shipments[id].acceptedBidId == Some(bidId)
  {
    UpdateShipment(db, id, StatusPatch("accepted").(acceptedBidId := Some(bidId)), now)
  }

  /** `start_transit`, `complete_delivery` and `cancel_shipment`: the status is written
      whatever it was, and a delivery also stores its confirmation. */
  function StartTransit(db: Db, id: Id, now: nat): (r: Svc<Shipment>)
    ensures id in db.shipments ==> id in r.db.shipments && r.db.shipments[id].status == Some("in_transit")
  {
    UpdateShipment(db, id, StatusPatch("in_transit"), now)
  }

  function CompleteDelivery(db: Db, id: Id, confirmation: Json, now: nat): (r: Svc<Shipment>)
    ensures id in db.shipments ==>
      id in r.db.shipments && r.db.shipments[id].status == Some("delivered") && r.db.shipments[id].deliveryConfirmation == Some(confirmation)
  {
    UpdateShipment(db, id, StatusPatch("delivered").(deliveryConfirmation := Some(confirmation)), now)
  }

  function Cancel(db: Db, id: Id, now: nat): (r: Svc<Shipment>)
    ensures id in db.shipments ==> id in r.db.shipments && r.db.shipments[id].status == Some("cancelled")
  {
    UpdateShipment(db, id, StatusPatch("cancelled"), now)
  }

  /** The status setters do not look at the status they overwrite: two shipments that
      differ only in status end up identical. */
  lemma StatusSettersUnconditional(db: Db, id: Id, status: Option<string>, now: nat)
    requires id in db.shipments
    ensures var other := db.(shipments := db.shipments[id := db.shipments[id].(status := status)]);
      StartTransit(other, id, now).db.shipments[id] == StartTransit(db, id, now).db.shipments[id]
      && Cancel(other, id, now).db.shipments[id] == Cancel(db, id, now).db.shipments[id]
      && Publish(other, id, now).db.shipments[id] == Publish(db, id, now).db.shipments[id]
  {
  }

  /** Every stored bid records its shipment as text, as `create_bid` stores it when the
      endpoint hands it `bid_data.dict()`. */
  predicate StoredAsText(db: Db) {
    forall b :: b in db.bids ==> db.bids[b].shipmentId.Str?
  }

  /** Every stored bid records its shipment as an ObjectId. */
  predicate StoredAsOid(db: Db) {
    forall b :: b in db.bids ==> db.bids[b].shipmentId.Oid?
  }

  /** `create_bid`: insert a pending bid for the driver, then push a pending entry onto the
      shipment whose `_id` equals the dictionary's `shipment_id`. Only an ObjectId can
      equal a shipment's `_id`, so a bid given its shipment as text is stored and no
      shipment changes. */
  function CreateBid(db: Db, shipmentId: Ref, amount: real, driver: Id, bidId: Id, now: nat): (r: Svc<BidDoc>)
    requires bidId !in db.bids
    ensures r.out == Done(BidDoc(shipmentId, driver, amount, Pending, now))
    ensures r.db.bids == db.bids[bidId := BidDoc(shipmentId, driver, amount, Pending, now)]
    ensures r.db.users == db.users && r.db.transactions == db.transactions
    ensures r.db.shipments.Keys == db.shipments.Keys
    ensures shipmentId.Str? ==> r.db.shipments == db.shipments
    ensures forall k :: k in db.shipments && shipmentId != Oid(k) ==> r.db.shipments[k] == db.shipments[k]
    ensures shipmentId.Oid? && shipmentId.id in db.shipments ==>
      var k := shipmentId.id;
      r.db.shipments[k] == db.shipments[k].(bids := db.shipments[k].bids + [NewEmbeddedBid(driver, amount, now)])
  {
    var bid := BidDoc(shipmentId, driver, amount, Pending, now);
    var db1 := db.(bids := db.bids[bidId := bid]);
    var db2 :=
      if shipmentId.Oid? && shipmentId.id in db.shipments then
        var d := db.shipments[shipmentId.id];
        db1.(shipments := db.shipments[shipmentId.id := d.(bids := d.bids + [NewEmbeddedBid(driver, amount, now)])])
      else db1;
    Svc(db2, Done(bid))
  }

  /** Creating a bid given its shipment as an ObjectId appends exactly one pending entry
      for the driver to that shipment's embedded list, keeping the entries already there.
      Given as text, the list is left as it was. */
  lemma CreateBidAppendsOne(db: Db, shipmentId: Ref, amount: real, driver: Id, bidId: Id, now: nat)
    requires bidId !in db.bids
    requires Target(shipmentId) in db.shipments
    ensures var k := Target(shipmentId);
      var after := CreateBid(db, shipmentId, amount, driver, bidId, now).db.shipments[k].bids;
      var before := db.shipments[k].bids;
      && (shipmentId.Oid? ==>
            |after| == |before| + 1 && after[..|before|] == before
            && after[|before|].driverId == driver && after[|before|].status == "pending")
      && (shipmentId.Str? ==> after == before)
  {
  }

  /** `get_bids_by_shipment`, as the set of matching bid ids. The query holds
      `ObjectId(shipment_id)`, so it finds only bids that record their shipment as an
      ObjectId; when every bid records it as text it finds none. */
  function BidsOfShipment(db: Db, shipmentId: Id): (r: set<Id>)
    ensures forall b :: b in r <==> b in db.bids && db.bids[b].shipmentId == Oid(shipmentId)
    ensures StoredAsText(db) ==> r == {}
  {
    set b | b in db.bids && db.bids[b].shipmentId == Oid(shipmentId)
  }

  /** `get_bids_by_driver`. The driver is always stored as an ObjectId. */
  function BidsOfDriver(db: Db, driver: Id): (r: set<Id>)
    ensures forall b :: b in r <==> b in db.bids && db.bids[b].driverId == driver
  {
    set b | b in db.bids && db.bids[b].driverId == driver
  }

  /** `{"vehicle_requirements": {"$in": types}}`: some requirement is among the types. */
  predicate AnyIn(requirements: seq<string>, types: seq<string>) {
    exists i :: 0 <= i < |requirements| && requirements[i] in types
  }

  /** The query `get_available_shipments` runs: status `bidding`, and when vehicle types
      are given (a non-empty list), a requirement among them. */
  predicate AvailableMatch(d: ShipmentDoc, types: seq<string>) {
    d.status == Some("bidding") && (types == [] || AnyIn(d.vehicleRequirements, types))
  }

  /** The matching shipments, or the validation error raised when one of them cannot be
      read. */
  function Available(db: Db, types: seq<string>): (r: Out<set<Id>>)
    ensures r.Done? ==> forall k :: k in r.value <==> k in db.shipments && AvailableMatch(db.shipments[k], types)
    ensures r.Done? ==> forall k :: k in r.value ==> db.shipments[k].status == Some("bidding")
    ensures r.Done? && types != [] ==> forall k :: k in r.value ==> AnyIn(db.shipments[k].vehicleRequirements, types)
    ensures r.Raised? <==> exists k :: k in db.shipments && AvailableMatch(db.shipments[k], types) && !Readable(db.shipments[k])
  {
    var ids := set k | k in db.shipments && AvailableMatch(db.shipments[k], types);
    if exists k :: k in ids && !Readable(db.shipments[k]) then Raised(ValidationMessage) else Done(ids)
  }

  /** `get_shipments_by_customer`. */
  function OfCustomer(db: Db, customer: Id): (r: Out<set<Id>>)
    ensures r.Done? ==> forall k :: k in r.value <==> k in db.shipments && db.shipments[k].customerId == customer
  {
    var ids := set k | k in db.shipments && db.shipments[k].customerId == customer;
    if exists k :: k in ids && !Readable(db.shipments[k]) then Raised(ValidationMessage) else Done(ids)
  }

  /** The bids after `update_many({"shipment_id": ObjectId, "_id": {"$ne": keep}})`:
      every other bid that records the shipment as that ObjectId is rejected. A bid that
      records it as text is not matched. */
  function RejectSiblings(bids: map<Id, BidDoc>, shipmentId: Id, keep: Id): (r: map<Id, BidDoc>)
    ensures r.Keys == bids.Keys
    ensures forall b :: b in bids && bids[b].shipmentId == Oid(shipmentId) && b != keep ==> r[b] == bids[b].(status := Rejected)
    ensures forall b :: b in bids && (bids[b].shipmentId != Oid(shipmentId) || b == keep) ==> r[b] == bids[b]
    ensures forall b :: b in bids && bids[b].shipmentId.Str? ==> r[b] == bids[b]
  {
    map b | b in bids :: if bids[b].shipmentId == Oid(shipmentId) && b != keep then bids[b].(status := Rejected) else bids[b]
  }

  /** `accept_bid` in the service. When the bid's status write modifies nothing (no such
      bid, or it is already accepted) the answer is `None` and nothing changes. Otherwise
      the bid becomes accepted and the shipment it names is accepted with this bid (a
      validation error on reading it back stops here). Then `update_many` rejects the
      other bids that record that shipment as an ObjectId. */
  function AcceptBid(db: Db, bidId: Id, now: nat): (r: Svc<BidDoc>)
    ensures bidId !in db.bids || db.bids[bidId].status == BidAccepted ==> r == Svc(db, Nothing)
    ensures bidId in db.bids && db.bids[bidId].status != BidAccepted && !r.out.Raised? ==>
      var b := db.bids[bidId];
      r.out == Done(b.(status := BidAccepted))
      && r.db.bids == RejectSiblings(db.bids[bidId := b.(status := BidAccepted)], ShipmentOf(b), bidId)
      && r.db.shipments == AcceptShipment(db, ShipmentOf(b), bidId, now).db.shipments
  {
    if bidId !in db.bids || db.bids[bidId].status == BidAccepted then Svc(db, Nothing)
    else
      var b := db.bids[bidId].(status := BidAccepted);
      var db1 := db.(bids := db.bids[bidId := b]);
      var s := AcceptShipment(db1, ShipmentOf(b), bidId, now);
      if s.out.Raised? then Svc(s.db, Raised(s.out.message))
      else Svc(s.db.(bids := RejectSiblings(s.db.bids, ShipmentOf(b), bidId)), Done(b))
  }

  /** After a successful accept, the target bid is accepted and the shipment records the
      acceptance. Another bid that records the shipment as an ObjectId is rejected; every
      other bid, including each one that records it as text, is untouched. */
  lemma AcceptBidOutcome(db: Db, bidId: Id, now: nat)
    requires bidId in db.bids && db.bids[bidId].status != BidAccepted
    requires ShipmentOf(db.bids[bidId]) in db.shipments
    requires !AcceptBid(db, bidId, now).out.Raised?
    ensures var r := AcceptBid(db, bidId, now).db;
      var sid := ShipmentOf(db.bids[bidId]);
      && r.bids[bidId].status == BidAccepted
      && (forall b :: b in db.bids && b != bidId && db.bids[b].shipmentId == Oid(sid) ==> r.bids[b].status == Rejected)
      && (forall b :: b in db.bids && b != bidId && db.bids[b].shipmentId != Oid(sid) ==> r.bids[b] == db.bids[b])
      && r.shipments[sid].status == Some("accepted")
      && r.shipments[sid].acceptedBidId == Some(bidId)
  {
  }

  /** `reject_bid` in the service: only that bid's status changes. */
  function RejectBid(db: Db, bidId: Id): (r: Svc<BidDoc>)
    ensures bidId !in db.bids || db.bids[bidId].status == Rejected ==> r == Svc(db, Nothing)
    ensures bidId in db.bids && db.bids[bidId].status != Rejected ==>
      r.db == db.(bids := db.bids[bidId := db.bids[bidId].(status := Rejected)])
      && r.out == Done(db.bids[bidId].(status := Rejected))
  {
    if bidId !in db.bids || db.bids[bidId].status == Rejected then Svc(db, Nothing)
    else
      var b := db.bids[bidId].(status := Rejected);
      Svc(db.(bids := db.bids[bidId := b]), Done(b))
  }
}

=== FILE: shipments_api.dfy ===
/** The shipment endpoints of the server (backend/app/api/shipments.py): creating a
    shipment and telling the eligible drivers, listing, reading one, the five field-update
    endpoints, publishing and attaching an uploaded photo. The signed-in user is the one
    `get_current_user` resolved; fresh ids, the clock, the notification timestamps (one
    reading per send) and the photo's hosted URL are parameters.

    As written, `create_shipment` builds the drivers' notification from
    `shipment.estimated_distance`, which `ShipmentInDB` does not have (and from
    `pickup_location.address`, which fails first when no pickup was given). Whenever an
    eligible driver exists the request therefore answers 500 after the insert, and no
    driver is ever told. `CreateShipment` models that; `CreateShipmentNotifying` sends
    no distance instead. */
module ShipmentsApi {
  import opened Wrappers
  import opened JsonValue
  import opened ShipmentModel
  import opened ShipmentService
  import UserModel
  import Notifications
  import opened Http

  type User = UserModel.UserDoc

  /** The ids of the drivers `create_shipment` notifies, in the order the users are
      stored: role `driver` and status `verified`. */
  function EligibleDrivers(users: seq<User>): (r: seq<Id>)
    ensures |r| <= |users|
    ensures forall x :: x in r <==> exists i :: 0 <= i < |users| && users[i].id == x && Eligible(users[i])
  {
    if users == [] then []
    else
      var rest := EligibleDrivers(users[1..]);
      assert forall i :: 1 <= i < |users| ==> users[i] == users[1..][i - 1];
      if Eligible(users[0]) then [users[0].id] + rest else rest
  }

  predicate Eligible(u: User) {
    u.role == "driver" && u.verification == "verified"
  }

  /** The error escaping while the drivers' notification is built. */
  function NotificationError(d: ShipmentDoc): string
  {
    if d.pickupLocation.None? || d.dropoffLocation.None? then "AttributeError: address"
    else "AttributeError: estimated_distance"
  }

  /** `create_shipment` as written: customers only; the shipment is inserted as a draft,
      and when any driver is eligible the notification step fails. */
  function CreateShipment(db: Db, user: User, body: ShipmentCreate, id: Id, now: nat): (r: Handled<Shipment>)
    requires id !in db.shipments
    ensures user.role != "customer" ==> r == Handled(db, [], Refused(403, "Only customers can create shipments"))
    ensures user.role == "customer" ==>
      r.db == db.(shipments := db.shipments[id := NewShipment(body, user.id, now)]) && r.sent == []
    ensures user.role == "customer" && EligibleDrivers(db.users) != [] ==> r.reply.Crashed?
    ensures user.role == "customer" && EligibleDrivers(db.users) == [] ==>
      r.reply == Answer(Shipment(id, NewShipment(body, user.id, now), Draft))
  {
    if user.role != "customer" then Handled(db, [], Refused(403, "Only customers can create shipments"))
    else
      var doc := NewShipment(body, user.id, now);
      NewShipmentReadable(body, user.id, now, id);
      var db' := db.(shipments := db.shipments[id := doc]);
      if EligibleDrivers(db.users) != [] then Handled(db', [], Crashed(NotificationError(doc)))
      else Handled(db', [], Answer(Shipment(id, doc, Draft)))
  }

  /** An address as the f-string prints it: the text, or `None`. */
  function AddressText(p: Option<Place>): string
  {
    match p
    case Some(place) => place.address
    case None => "None"
  }

  /** `create_shipment` with the notification built from what the shipment has: every
      eligible driver gets one new-shipment notification, stamped with the clock reading
      of its own send (`timestamps[i]` for the i-th driver), and the shipment is the
      answer. */
  function CreateShipmentNotifying(db: Db, user: User, body: ShipmentCreate, id: Id, now: nat, timestamps: seq<string>): (r: Handled<Shipment>)
    requires id !in db.shipments
    requires |timestamps| == |EligibleDrivers(db.users)|
    ensures r.db == CreateShipment(db, user, body, id, now).db
    ensures user.role == "customer" ==> r.reply == Answer(Shipment(id, NewShipment(body, user.id, now), Draft))
    ensures user.role != "customer" ==> r.reply == Refused(403, "Only customers can create shipments") && r.sent == []
    ensures user.role == "customer" ==> |r.sent| == |EligibleDrivers(db.users)|
  {
    if user.role != "customer" then Handled(db, [], Refused(403, "Only customers can create shipments"))
    else
      var doc := NewShipment(body, user.id, now);
      var drivers := EligibleDrivers(db.users);
      var payload := DeliveryRequest(body, id);
      Notifications.NotifyDriversSendsOneEach([], drivers, payload, timestamps);
      Handled(db.(shipments := db.shipments[id := doc]), Notifications.NotifyDrivers([], drivers, payload, timestamps),
              Answer(Shipment(id, doc, Draft)))
  }

  /** The new-shipment payload, with no distance. */
  function DeliveryRequest(body: ShipmentCreate, id: Id): Json
  {
    Notifications.DeliveryRequestPayload(
      AddressText(body.pickupLocation), AddressText(body.dropoffLocation), id, JNull, JStr(UrgencyText(body.urgency)))
  }

  /** One notification per verified driver, in the order the users are stored: each is
      an envelope of type `notification` whose data is the same new-shipment payload
      naming the shipment, and whose timestamp is the reading of its own send. When no
      driver is eligible, nothing is sent. */
  lemma NotifiedAreEligible(db: Db, user: User, body: ShipmentCreate, id: Id, now: nat, timestamps: seq<string>)
    requires id !in db.shipments && user.role == "customer"
    requires |timestamps| == |EligibleDrivers(db.users)|
    ensures var sent := CreateShipmentNotifying(db, user, body, id, now, timestamps).sent;
      && |sent| == |EligibleDrivers(db.users)|
      && (EligibleDrivers(db.users) == [] ==> sent == [])
      && (forall i :: 0 <= i < |sent| ==>
            Get(sent[i], "type") == Value(JStr("notification"))
            && Get(sent[i], "timestamp") == Value(JStr(timestamps[i]))
            && Get(sent[i], "data") == Value(DeliveryRequest(body, id)))
      && (forall i, j :: 0 <= i < j < |sent| ==> Get(sent[i], "data") == Get(sent[j], "data"))
      && Get(DeliveryRequest(body, id), "type") == Value(JStr("new_shipment"))
      && Get(DeliveryRequest(body, id), "shipment_id") == Value(JStr(id))
  {
    var drivers := EligibleDrivers(db.users);
    var payload := DeliveryRequest(body, id);
    var sent := CreateShipmentNotifying(db, user, body, id, now, timestamps).sent;
    assert sent == Notifications.NotifyDrivers([], drivers, payload, timestamps);
    EnvelopesCarry(drivers, payload, timestamps);
    DeliveryRequestNames(body, id);
  }

  /** What each envelope of a fresh round of sends carries. */
  lemma EnvelopesCarry(drivers: seq<string>, payload: Json, timestamps: seq<string>)
    requires |timestamps| == |drivers|
    ensures var sent := Notifications.NotifyDrivers([], drivers, payload, timestamps);
      && |sent| == |drivers|
      && forall i :: 0 <= i < |sent| ==>
           Get(sent[i], "type") == Value(JStr("notification"))
           && Get(sent[i], "timestamp") == Value(JStr(timestamps[i]))
           && Get(sent[i], "data") == Value(payload)
  {
    var sent := Notifications.NotifyDrivers([], drivers, payload, timestamps);
    Notifications.NotifyDriversSendsOneEach([], drivers, payload, timestamps);
    forall i | 0 <= i < |sent|
      ensures Get(sent[i], "type") == Value(JStr("notification"))
      ensures Get(sent[i], "timestamp") == Value(JStr(timestamps[i]))
      ensures Get(sent[i], "data") == Value(payload)
    {
      assert sent[0 + i] == Notifications.Envelope(payload, timestamps[i]);
    }
  }

  /** The new-shipment payload says what it is and names its shipment. */
  lemma DeliveryRequestNames(body: ShipmentCreate, id: Id)
    ensures Get(DeliveryRequest(body, id), "type") == Value(JStr("new_shipment"))
    ensures Get(DeliveryRequest(body, id), "shipment_id") == Value(JStr(id))
  {
  }

  /** The vehicle types a driver's listing filters by: their own, when they have one. */
  function OwnTypes(user: User): (r: seq<string>)
    ensures user.vehicleType.Some? && user.vehicleType.value != "" ==> r == [user.vehicleType.value]
    ensures user.vehicleType.None? || user.vehicleType.value == "" ==> r == []
  {
    if user.vehicleType.Some? && user.vehicleType.value != "" then [user.vehicleType.value] else []
  }

  function FromOut<T>(o: Out<T>): (r: Reply<T>)
    ensures o.Done? <==> r.Answer?
    ensures o.Done? ==> r.body == o.value
  {
    match o
    case Done(v) => Answer(v)
    case Nothing => Crashed("ResponseValidationError")
    case Raised(m) => Crashed(m)
    case Failed(e) => Crashed(e)
  }

  /** `get_user_shipments`: a customer's own shipments; for anyone else, the shipments
      open for bidding that suit their vehicle. */
  function UserShipments(db: Db, user: User): (r: Reply<set<Id>>)
    ensures r.Answer? && user.role == "customer" ==>
      forall k :: k in r.body <==> k in db.shipments && db.shipments[k].customerId == user.id
    ensures r.Answer? && user.role != "customer" ==>
      forall k :: k in r.body <==> k in db.shipments && AvailableMatch(db.shipments[k], OwnTypes(user))
  {
    if user.role == "customer" then FromOut(OfCustomer(db, user.id)) else FromOut(Available(db, OwnTypes(user)))
  }

  /** `get_available_shipments`: drivers only. */
  function AvailableFor(db: Db, user: User): (r: Reply<set<Id>>)
    ensures user.role != "driver" ==> r == Refused(403, "Only drivers can view available shipments")
    ensures r.Answer? ==> forall k :: k in r.body ==> k in db.shipments && db.shipments[k].status == Some("bidding")
    ensures r.Answer? && OwnTypes(user) != [] ==>
      forall k :: k in r.body ==> k in db.shipments && user.vehicleType.value in db.shipments[k].vehicleRequirements
  {
    if user.role != "driver" then Refused(403, "Only drivers can view available shipments")
    else
      AnyInOne(OwnTypes(user));
      FromOut(Available(db, OwnTypes(user)))
  }

  /** Filtering by a single vehicle type keeps the requirement lists that contain it. */
  lemma AnyInOne(types: seq<string>)
    ensures |types| == 1 ==> forall reqs :: AnyIn(reqs, types) <==> types[0] in reqs
  {
    if |types| == 1 {
      forall reqs | types[0] in reqs
        ensures AnyIn(reqs, types)
      {
        var i :| 0 <= i < |reqs| && reqs[i] == types[0];
      }
    }
  }

  /** `get_shipment`: a customer reads only their own shipments; drivers read any. */
  function ShipmentFor(db: Db, user: User, text: string): (r: Reply<Shipment>)
    ensures r.Answer? ==>
      ValidId(text) && r.body.id == Canonical(text) && r.body.id in db.shipments && r.body.doc == db.shipments[r.body.id]
    ensures r.Answer? && user.role == "customer" ==> r.body.doc.customerId == user.id
    ensures ValidId(text) && Canonical(text) in db.shipments && Readable(db.shipments[Canonical(text)]) ==>
      (r.Answer? <==> user.role != "customer" || db.shipments[Canonical(text)].customerId == user.id)
  {
    match FetchShipment(db, text)
    case Crashed(e) => Crashed(e)
    case Refused(c, d) => Refused(c, d)
    case Answer(found) =>
      if found.None? then Refused(404, "Shipment not found")
      else if user.role == "customer" && found.value.doc.customerId != user.id then Refused(403, "Access denied")
      else Answer(found.value)
  }

  /** The owner's shipment, as the update, publish and upload endpoints look it up: a
      shipment that is missing or not the caller's gives the same refusal. */
  function Owned(db: Db, user: User, text: string, refusal: Reply<Shipment>): (r: Reply<Shipment>)
    requires refusal.Refused?
    ensures r.Answer? <==>
      ValidId(text) && Canonical(text) in db.shipments && Readable(db.shipments[Canonical(text)])
      && db.shipments[Canonical(text)].customerId == user.id
    ensures r.Answer? ==>
      r.body.id == Canonical(text) && r.body.id in db.shipments && r.body.doc == db.shipments[r.body.id]
      && StatusOf(r.body.doc) == Some(r.body.status)
    ensures (ValidId(text) && (Canonical(text) !in db.shipments
               || (Readable(db.shipments[Canonical(text)]) && db.shipments[Canonical(text)].customerId != user.id)))
            ==> r == refusal
  {
    match FetchShipment(db, text)
    case Crashed(e) => Crashed(e)
    case Refused(c, d) => Refused(c, d)
    case Answer(found) =>
      if found.None? || found.value.doc.customerId != user.id then refusal else Answer(found.value)
  }

  const NotFound: Reply<Shipment> := Refused(404, "Shipment not found")

  /** The five field-update endpoints (location, receiver, vehicle, schedule, photos):
      the owner's body is written as given, whatever the shipment's status, and no other
      shipment, bid, user or transaction changes; anyone else gets 404. Nothing checks
      which members the body names, so it can also rewrite the owner, the embedded bids
      and the creation time; naming `_id` makes the write fail (500) and nothing is
      written. A write that modifies nothing answers `None`, which the response model
      rejects. */
  function UpdateFields(db: Db, user: User, text: string, patch: Patch, now: nat): (r: Handled<Shipment>)
    ensures r.sent == []
    ensures !Owned(db, user, text, NotFound).Answer? ==> r.db == db && !r.reply.Answer?
    ensures Owned(db, user, text, NotFound).Answer? ==>
      r.db == UpdateShipment(db, Canonical(text), patch, now).db
    ensures Owned(db, user, text, NotFound).Answer? && patch.objectId.Some? ==>
      r == Handled(db, [], Crashed(ImmutableId))
    ensures Owned(db, user, text, NotFound).Answer? && patch.objectId.None? ==>
      r.db == db.(shipments := db.shipments[Canonical(text) := ApplyPatch(db.shipments[Canonical(text)], patch, now)])
  {
    match Owned(db, user, text, NotFound)
    case Crashed(e) => Handled(db, [], Crashed(e))
    case Refused(c, d) => Handled(db, [], Refused(c, d))
    case Answer(s) =>
      var u := UpdateShipment(db, s.id, patch, now);
      Handled(u.db, [], FromOut(u.out))
  }

  /** The owner can hand the shipment to someone else through a field-update body that
      names `customer_id`; the shipment then belongs to them, and the former owner's
      next update is refused with 404. */
  lemma UpdateCanReassignOwner(db: Db, user: User, text: string, other: Id, now: nat, later: Patch, after: nat)
    requires Owned(db, user, text, NotFound).Answer? && other != user.id
    ensures var db1 := UpdateFields(db, user, text, NoChange.(customerId := Some(other)), now).db;
      && Canonical(text) in db1.shipments && db1.shipments[Canonical(text)].customerId == other
      && UpdateFields(db1, user, text, later, after) == Handled(db1, [], Refused(404, "Shipment not found"))
  {
    var id := Canonical(text);
    var db1 := UpdateFields(db, user, text, NoChange.(customerId := Some(other)), now).db;
    assert db1.shipments[id] == db.shipments[id].(customerId := other, updatedAt := now);
    assert Readable(db1.shipments[id]);
    NonOwnerSeesNotFound(db1, user, text, later, after);
  }

  /** A body naming `bids` replaces the embedded bids: `{"bids": []}` erases them. */
  lemma UpdateCanEraseBids(db: Db, user: User, text: string, now: nat)
    requires Owned(db, user, text, NotFound).Answer?
    ensures UpdateFields(db, user, text, NoChange.(bids := Some([])), now).db.shipments[Canonical(text)].bids == []
  {
  }

  /** A body naming `_id` is refused by the database: the client sees 500 and nothing
      changes. */
  lemma UpdateOfIdFails(db: Db, user: User, text: string, value: Json, now: nat)
    requires Owned(db, user, text, NotFound).Answer?
    ensures UpdateFields(db, user, text, NoChange.(objectId := Some(value)), now) == Handled(db, [], Crashed(ImmutableId))
    ensures UpdateFields(db, user, text, NoChange.(objectId := Some(value)), now).reply.Status() == 500
  {
  }

  /** A non-owner's update is refused with 404 exactly as for a missing shipment. */
  lemma NonOwnerSeesNotFound(db: Db, user: User, text: string, patch: Patch, now: nat)
    requires ValidId(text) && Canonical(text) in db.shipments && Readable(db.shipments[Canonical(text)])
    requires db.shipments[Canonical(text)].customerId != user.id
    ensures UpdateFields(db, user, text, patch, now) == Handled(db, [], Refused(404, "Shipment not found"))
  {
  }

  /** Nothing guards the status: an owner can rewrite any shipment's status through a
      field-update body, even one already delivered. */
  lemma UpdateCanRewriteStatus(db: Db, user: User, text: string, status: string, now: nat)
    requires Owned(db, user, text, NotFound).Answer?
    ensures UpdateFields(db, user, text, NoChange.(status := Some(status)), now).db.shipments[Canonical(text)].status == Some(status)
  {
  }

  /** `publish_shipment`: the owner's draft goes to `bidding`; a shipment in any other
      status is refused with 400, and a missing or foreign one with 404. */
  function PublishRequest(db: Db, user: User, text: string, now: nat): (r: Handled<Shipment>)
    ensures r.sent == []
    ensures r.reply.Answer? ==>
      Owned(db, user, text, NotFound).Answer? && StatusOf(db.shipments[Canonical(text)]) == Some(Draft)
      && Canonical(text) in r.db.shipments && r.db.shipments[Canonical(text)].status == Some("bidding") && r.reply.body.status == Bidding
    ensures Owned(db, user, text, NotFound).Answer? && StatusOf(db.shipments[Canonical(text)]) != Some(Draft) ==>
      r == Handled(db, [], Refused(400, "Only draft shipments can be published"))
    ensures Owned(db, user, text, NotFound).Answer? && StatusOf(db.shipments[Canonical(text)]) == Some(Draft) ==>
      r.reply.Answer?
  {
    match Owned(db, user, text, NotFound)
    case Crashed(e) => Handled(db, [], Crashed(e))
    case Refused(c, d) => Handled(db, [], Refused(c, d))
    case Answer(s) =>
      if s.status != Draft then Handled(db, [], Refused(400, "Only draft shipments can be published"))
      else
        var u := Publish(db, s.id, now);
        PublishedReadable(db, s.id, now);
        Handled(u.db, [], FromOut(u.out))
  }

  /** Publishing a readable draft modifies it and reads it back as bidding. */
  lemma PublishedReadable(db: Db, id: Id, now: nat)
    requires id in db.shipments && Readable(db.shipments[id]) && StatusOf(db.shipments[id]) == Some(Draft)
    ensures Publish(db, id, now).out.Done? && Publish(db, id, now).out.value.status == Bidding
  {
    var d := db.shipments[id];
    var p := ApplyPatch(d, StatusPatch("bidding"), now);
    assert p.status != d.status;
    assert StatusOf(p) == Some(Bidding);
  }

  /** A published shipment cannot be published again. */
  lemma PublishOnce(db: Db, user: User, text: string, now: nat, later: nat)
    requires PublishRequest(db, user, text, now).reply.Answer?
    ensures PublishRequest(PublishRequest(db, user, text, now).db, user, text, later).reply
      == Refused(400, "Only draft shipments can be published")
  {
    var after := PublishRequest(db, user, text, now).db;
    var id := Canonical(text);
    assert after.shipments[id].status == Some("bidding");
    assert Readable(after.shipments[id]);
  }

  /** `upload_shipment_photo`: customers only; the hosted URL is appended to the owner's
      photos. */
  function UploadPhoto(db: Db, user: User, text: string, url: string, now: nat): (r: Handled<Shipment>)
    ensures r.sent == []
    ensures user.role != "customer" ==> r == Handled(db, [], Refused(403, "Only customers can upload photos for their shipments"))
    ensures user.role == "customer" && Owned(db, user, text, NotFound).Answer? ==>
      var id := Canonical(text);
      id in r.db.shipments && r.db.shipments[id].photos == db.shipments[id].photos + [url]
      && r.db.shipments.Keys == db.shipments.Keys
      && (forall k :: k in db.shipments && k != id ==> r.db.shipments[k] == db.shipments[k])
  {
    if user.role != "customer" then Handled(db, [], Refused(403, "Only customers can upload photos for their shipments"))
    else
      match Owned(db, user, text, Refused(403, "Shipment not found or access denied"))
      case Crashed(e) => Handled(db, [], Crashed(e))
      case Refused(c, d) => Handled(db, [], Refused(c, d))
      case Answer(s) =>
        var u := UpdateShipment(db, s.id, NoChange.(photos := Some(s.doc.photos + [url])), now);
        Handled(u.db, [], FromOut(u.out))
  }
}

=== FILE: text.dfy ===
/** Character-level string helpers shared by the validators and message builders:
    JavaScript whitespace and `trim`, ASCII digits, decimal rendering of integers,
    and first-occurrence search/replace as `String.prototype.replace` does it
    for a string pattern. */
module Text {
  import opened Wrappers

  /** The characters JavaScript's `trim` strips and `\s` matches
      (WhiteSpace and LineTerminator of ECMAScript, including the Unicode Zs spaces). */
  predicate IsSpace(c: char) {
    if c < '\U{0080}' then c == ' ' || '\t' <= c <= '\r'
    else WideSpace(c)
  }

  /** The whitespace characters outside ASCII. */
  predicate WideSpace(c: char) {
    || c == '\U{00A0}' || c == '\U{1680}' || ('\U{2000}' <= c <= '\U{200A}')
    || c == '\U{2028}' || c == '\U{2029}' || c == '\U{202F}' || c == '\U{205F}'
    || c == '\U{3000}' || c == '\U{FEFF}'
  }

  predicate AllSpace(s: string) {
    forall k :: 0 <= k < |s| ==> IsSpace(s[k])
  }

  /** Drops leading whitespace (`TrimStartSpec` states what is dropped and kept). */
  function TrimStart(s: string): string
  {
    if |s| > 0 && IsSpace(s[0]) then TrimStart(s[1..]) else s
  }

  /** Drops trailing whitespace (`TrimEndSpec` states what is dropped and kept). */
  function TrimEnd(s: string): string
  {
    if |s| > 0 && IsSpace(s[|s| - 1]) then TrimEnd(s[..|s| - 1]) else s
  }

  /** The result of `TrimStart` is a suffix of `s`, everything dropped is whitespace,
      and the result does not start with whitespace. */
  lemma {:induction false} TrimStartSpec(s: string)
    ensures var r := TrimStart(s);
      && |r| <= |s| && r == s[|s| - |r|..]
      && AllSpace(s[..|s| - |r|])
      && (r == [] || !IsSpace(r[0]))
  {
    if |s| > 0 && IsSpace(s[0]) {
      var t := s[1..];
      TrimStartSpec(t);
      var r := TrimStart(t);
      assert s[|s| - |r|..] == t[|t| - |r|..];
      assert s[..|s| - |r|] == [s[0]] + t[..|t| - |r|];
    }
  }

  /** The result of `TrimEnd` is a prefix of `s`, everything dropped is whitespace, and
      the result does not end with whitespace. */
  lemma {:induction false} TrimEndSpec(s: string)
    ensures var r := TrimEnd(s);
      && |r| <= |s| && r == s[..|r|]
      && AllSpace(s[|r|..])
      && (r == [] || !IsSpace(r[|r| - 1]))
  {
    if |s| > 0 && IsSpace(s[|s| - 1]) {
      var t := s[..|s| - 1];
      TrimEndSpec(t);
      var r := TrimEnd(t);
      assert s[..|r|] == t[..|r|];
      assert s[|r|..] == t[|r|..] + [s[|s| - 1]];
    }
  }

  /** `String.prototype.trim`. */
  function Trim(s: string): (r: string)
  {
    TrimEnd(TrimStart(s))
  }

  /** Where the trimmed text starts inside `s`. */
  function TrimOffset(s: string): nat
  {
    TrimStartSpec(s);
    |s| - |TrimStart(s)|
  }

  /** The trimmed string is the slice of `s` between its leading and trailing whitespace
      runs, and it neither starts nor ends with whitespace. */
  lemma TrimIsCore(s: string)
    ensures TrimOffset(s) + |Trim(s)| <= |s|
    ensures Trim(s) == s[TrimOffset(s)..TrimOffset(s) + |Trim(s)|]
    ensures forall k :: 0 <= k < TrimOffset(s) ==> IsSpace(s[k])
    ensures forall k :: TrimOffset(s) + |Trim(s)| <= k < |s| ==> IsSpace(s[k])
    ensures Trim(s) == [] || (!IsSpace(Trim(s)[0]) && !IsSpace(Trim(s)[|Trim(s)| - 1]))
  {
    TrimSlice(s);
    TrimLeading(s);
    TrimTrailing(s);
    TrimEnds(s);
  }

  lemma TrimSlice(s: string)
    ensures TrimOffset(s) + |Trim(s)| <= |s|
    ensures Trim(s) == s[TrimOffset(s)..TrimOffset(s) + |Trim(s)|]
  {
    var t := TrimStart(s);
    var r := TrimEnd(t);
    TrimStartSpec(s);
    TrimEndSpec(t);
    var i := |s| - |t|;
    assert Trim(s) == r && TrimOffset(s) == i;
    assert r == s[i..][..|r|];
  }

  lemma TrimLeading(s: string)
    ensures forall k :: 0 <= k < TrimOffset(s) ==> IsSpace(s[k])
  {
    var i := TrimOffset(s);
    TrimStartSpec(s);
    assert AllSpace(s[..i]);
    forall k | 0 <= k < i
      ensures IsSpace(s[k])
    {
      assert s[k] == s[..i][k];
    }
  }

  lemma TrimTrailing(s: string)
    ensures forall k :: TrimOffset(s) + |Trim(s)| <= k < |s| ==> IsSpace(s[k])
  {
    var t := TrimStart(s);
    var r := TrimEnd(t);
    TrimStartSpec(s);
    TrimEndSpec(t);
    var i := |s| - |t|;
    assert Trim(s) == r && TrimOffset(s) == i;
    assert AllSpace(t[|r|..]);
    forall k | i + |r| <= k < |s|
      ensures IsSpace(s[k])
    {
      assert s[k] == t[k - i] == t[|r|..][k - i - |r|];
    }
  }

  lemma TrimEnds(s: string)
    ensures Trim(s) == [] || (!IsSpace(Trim(s)[0]) && !IsSpace(Trim(s)[|Trim(s)| - 1]))
  {
    var t := TrimStart(s);
    var r := TrimEnd(t);
    TrimStartSpec(s);
    TrimEndSpec(t);
    assert Trim(s) == r;
    if r != [] {
      assert r[0] == t[0];
    }
  }

  /** A string trims to empty exactly when it is all whitespace; this is the
      "required" test of every form in the client. */
  lemma {:induction false} TrimEmptyIffAllSpace(s: string)
    ensures Trim(s) == [] <==> AllSpace(s)
  {
    var t := TrimStart(s);
    TrimStartSpec(s);
    TrimEndSpec(t);
    if t == [] {
      assert s[..|s|] == s;
    } else {
      assert !IsSpace(t[0]);
      assert TrimEnd(t) != [];
      assert !IsSpace(s[|s| - |t|]);
    }
  }

  /** Text that neither starts nor ends with whitespace is its own trim. */
  lemma TrimKeeps(s: string)
    requires s == [] || (!IsSpace(s[0]) && !IsSpace(s[|s| - 1]))
    ensures Trim(s) == s
  {
    assert TrimStart(s) == s;
    assert TrimEnd(s) == s;
  }

  /** Trimming twice is trimming once. */
  lemma TrimIdempotent(s: string)
    ensures Trim(Trim(s)) == Trim(s)
  {
    var r := Trim(s);
    TrimIsCore(s);
    if r != [] {
      assert TrimStart(r) == r;
      assert TrimEnd(r) == r;
    }
  }

  predicate IsDigit(c: char) {
    '0' <= c <= '9'
  }

  predicate AllDigits(s: string) {
    forall k :: 0 <= k < |s| ==> IsDigit(s[k])
  }

  function DigitChar(d: nat): (c: char)
    requires d < 10
    ensures IsDigit(c)
  {
    ['0', '1', '2', '3', '4', '5', '6', '7', '8', '9'][d]
  }

  function DigitValue(c: char): (d: nat)
    requires IsDigit(c)
    ensures d < 10
  {
    (c as int - '0' as int) as nat
  }

  lemma DigitRoundTrip(d: nat)
    requires d < 10
    ensures DigitValue(DigitChar(d)) == d
  {
  }

  /** Number of leading decimal digits. */
  function DigitRun(s: string): (n: nat)
    ensures n <= |s| && AllDigits(s[..n])
    ensures n == |s| || !IsDigit(s[n])
  {
    if s != [] && IsDigit(s[0]) then
      var m := DigitRun(s[1..]);
      assert s[..m + 1] == [s[0]] + s[1..][..m];
      m + 1
    else 0
  }

  /** A string made only of digits is one whole run. */
  lemma {:induction false} DigitRunAll(s: string)
    requires AllDigits(s)
    ensures DigitRun(s) == |s|
  {
    if |s| > 0 {
      DigitRunAll(s[1..]);
    }
  }

  predicate IsHexDigit(c: char) {
    IsDigit(c) || 'a' <= c <= 'f' || 'A' <= c <= 'F'
  }

  function HexDigitValue(c: char): (d: nat)
    requires IsHexDigit(c)
    ensures d < 16
  {
    if IsDigit(c) then DigitValue(c)
    else if 'a' <= c <= 'f' then (c as int - 'a' as int + 10) as nat
    else (c as int - 'A' as int + 10) as nat
  }

  /** Number of leading hexadecimal digits. */
  function HexRun(s: string): (n: nat)
    ensures n <= |s| && forall k :: 0 <= k < n ==> IsHexDigit(s[k])
    ensures n == |s| || !IsHexDigit(s[n])
  {
    if s != [] && IsHexDigit(s[0]) then HexRun(s[1..]) + 1 else 0
  }

  /** The value a run of hexadecimal digits denotes. */
  function HexValue(s: string): nat
    requires forall k :: 0 <= k < |s| ==> IsHexDigit(s[k])
  {
    if |s| == 0 then 0 else HexValue(s[..|s| - 1]) * 16 + HexDigitValue(s[|s| - 1])
  }

  /** Decimal rendering of a natural number, as `${n}` prints it. */
  function NatToString(n: nat): (r: string)
    ensures |r| > 0 && AllDigits(r)
    ensures |r| > 1 ==> r[0] != '0'
  {
    if n < 10 then [DigitChar(n)] else NatToString(n / 10) + [DigitChar(n % 10)]
  }

  /** The value a run of decimal digits denotes. */
  function DigitsValue(s: string): nat
    requires AllDigits(s)
  {
    if |s| == 0 then 0 else DigitsValue(s[..|s| - 1]) * 10 + DigitValue(s[|s| - 1])
  }

  /** Rendering then reading back the digits gives the number again. */
  lemma {:induction false} NatToStringValue(n: nat)
    ensures DigitsValue(NatToString(n)) == n
  {
    var r := NatToString(n);
    if n < 10 {
      DigitRoundTrip(n);
    } else {
      NatToStringValue(n / 10);
      DigitRoundTrip(n % 10);
      assert r[..|r| - 1] == NatToString(n / 10);
    }
  }

  /** Decimal rendering of an integer, with a leading '-' for negatives. */
  function IntToString(i: int): (r: string)
  {
    (if i < 0 then "-" else "") + NatToString(if i < 0 then -i else i)
  }

  predicate StartsWith(s: string, prefix: string) {
    |prefix| <= |s| && s[..|prefix|] == prefix
  }

  predicate OccursAt(s: string, pat: string, i: int) {
    0 <= i && i + |pat| <= |s| && s[i..i + |pat|] == pat
  }

  /** First position at or after `from` where `pat` occurs. */
  function IndexFrom(s: string, pat: string, from: nat): (r: Option<nat>)
    requires from <= |s|
    ensures r.Some? ==> from <= r.value && OccursAt(s, pat, r.value)
    ensures r.Some? ==> forall j :: from <= j < r.value ==> !OccursAt(s, pat, j)
    ensures r.None? ==> forall j :: from <= j <= |s| ==> !OccursAt(s, pat, j)
    decreases |s| - from
  {
    if OccursAt(s, pat, from) then Some(from)
    else if from == |s| then None
    else IndexFrom(s, pat, from + 1)
  }

  /** `s.indexOf(pat)`: the first occurrence, if any. */
  function IndexOf(s: string, pat: string): (r: Option<nat>)
    ensures r.Some? ==> OccursAt(s, pat, r.value) && forall j :: 0 <= j < r.value ==> !OccursAt(s, pat, j)
    ensures r.None? ==> forall j :: 0 <= j <= |s| ==> !OccursAt(s, pat, j)
  {
    IndexFrom(s, pat, 0)
  }

  predicate Contains(s: string, pat: string) {
    IndexOf(s, pat).Some?
  }

  /** `s.replace(pat, rep)` with a string pattern: only the first occurrence is replaced,
      and text in which the pattern does not occur comes back unchanged. */
  function ReplaceFirst(s: string, pat: string, rep: string): (r: string)
    ensures (forall j :: 0 <= j <= |s| ==> !OccursAt(s, pat, j)) ==> r == s
  {
    match IndexOf(s, pat)
    case None => s
    case Some(i) => s[..i] + rep + s[i + |pat|..]
  }

  /** Text that reads `pre`, then the pattern, then `post`, with no earlier occurrence of
      the pattern, becomes `pre`, then the replacement, then `post`. */
  lemma ReplaceFirstSplits(s: string, pat: string, rep: string, pre: string, post: string)
    requires s == pre + pat + post
    requires forall j :: 0 <= j < |pre| ==> !OccursAt(s, pat, j)
    ensures ReplaceFirst(s, pat, rep) == pre + rep + post
  {
    assert OccursAt(s, pat, |pre|) by { assert s[|pre|..|pre| + |pat|] == pat; }
    assert IndexOf(s, pat) == Some(|pre|);
    assert s[..|pre|] == pre && s[|pre| + |pat|..] == post;
  }

  /** Replacing a pattern that starts the string swaps just that prefix. */
  lemma ReplaceAtStart(pat: string, tail: string, rep: string)
    ensures ReplaceFirst(pat + tail, pat, rep) == rep + tail
  {
    ReplaceFirstSplits(pat + tail, pat, rep, [], tail);
  }

  /** A character outside the Basic Multilingual Plane, which UTF-16 writes as a
      surrogate pair. */
  predicate Astral(c: char) {
    c >= '\U{10000}'
  }

  /** JavaScript's `length` of a string: its UTF-16 code units, two for each astral
      character and one for any other. */
  function Utf16Length(s: string): (n: nat)
    ensures |s| <= n <= 2 * |s|
  {
    if s == [] then 0 else Utf16Length(s[..|s| - 1]) + (if Astral(s[|s| - 1]) then 2 else 1)
  }

  /** The code units of a concatenation are those of its parts. */
  lemma {:induction false} Utf16LengthAppend(a: string, b: string)
    ensures Utf16Length(a + b) == Utf16Length(a) + Utf16Length(b)
    decreases |b|
  {
    if b != [] {
      assert (a + b)[..|a + b| - 1] == a + b[..|b| - 1];
      Utf16LengthAppend(a, b[..|b| - 1]);
    } else {
      assert a + b == a;
    }
  }

  /** Text without astral characters has one code unit per character. */
  lemma {:induction false} Utf16LengthPlain(a: string)
    ensures (forall k :: 0 <= k < |a| ==> !Astral(a[k])) ==> Utf16Length(a) == |a|
  {
    if a != [] {
      Utf16LengthPlain(a[..|a| - 1]);
    }
  }

  /** Three emoji are six code units: `"😀😀😀".length` is 6. */
  lemma ThreeEmoji()
    ensures |"\U{1F600}\U{1F600}\U{1F600}"| == 3
    ensures Utf16Length("\U{1F600}\U{1F600}\U{1F600}") == 6
  {
    var e := "\U{1F600}\U{1F600}\U{1F600}";
    assert e[..2] == "\U{1F600}\U{1F600}" && e[..2][..1] == "\U{1F600}" && e[..2][..1][..0] == "";
  }
}

=== FILE: user_model.dfy ===
/** The server's user records (backend/app/models/user.py): roles, verification states and
    vehicle kinds, the registration body `UserCreate` with its defaults and its password
    length rule, the stored `UserInDB` document, and the dictionary `user.dict()` gives.
    The `users` collection is a sequence in insertion order, which is the order `find_one`
    meets documents in. */
module UserModel {
  import opened Wrappers
  import ShipmentModel

  type Id = string

  datatype Role = Customer | Driver | Admin

  function RoleText(r: Role): string
  {
    match r
    case Customer => "customer"
    case Driver => "driver"
    case Admin => "admin"
  }

  function ParseRole(t: string): (r: Option<Role>)
    ensures r.Some? ==> RoleText(r.value) == t
    ensures r.None? <==> t != "customer" && t != "driver" && t != "admin"
  {
    if t == "customer" then Some(Customer) else if t == "driver" then Some(Driver) else if t == "admin" then Some(Admin) else None
  }

  datatype Verification = VPending | Verified | VRejected

  function VerificationText(v: Verification): string
  {
    match v
    case VPending => "pending"
    case Verified => "verified"
    case VRejected => "rejected"
  }

  function ParseVerification(t: string): (r: Option<Verification>)
    ensures r.Some? ==> VerificationText(r.value) == t
    ensures r.None? <==> t != "pending" && t != "verified" && t != "rejected"
  {
    if t == "pending" then Some(VPending) else if t == "verified" then Some(Verified) else if t == "rejected" then Some(VRejected) else None
  }

  /** The user model's own `VehicleType`. */
  datatype VehicleType = Motorbike | Pickup | Truck

  function VehicleText(v: VehicleType): string
  {
    match v
    case Motorbike => "motorbike"
    case Pickup => "pickup"
    case Truck => "truck"
  }

  /** The two `VehicleType` enumerations agree value for value, so a driver's vehicle text
      always names a shipment vehicle kind and every shipment vehicle kind is a driver's. */
  lemma VehicleKindsAgree(v: VehicleType, w: ShipmentModel.VehicleType)
    ensures ShipmentModel.ParseVehicle(VehicleText(v)).Some?
    ensures exists u: VehicleType :: VehicleText(u) == ShipmentModel.VehicleText(w)
  {
    match w
    case Motorbike => assert VehicleText(Motorbike) == ShipmentModel.VehicleText(w);
    case Pickup => assert VehicleText(Pickup) == ShipmentModel.VehicleText(w);
    case Truck => assert VehicleText(Truck) == ShipmentModel.VehicleText(w);
  }

  function ParseVehicle(t: string): (r: Option<VehicleType>)
    ensures r.Some? ==> VehicleText(r.value) == t
    ensures r.None? <==> t != "motorbike" && t != "pickup" && t != "truck"
  {
    if t == "motorbike" then Some(Motorbike) else if t == "pickup" then Some(Pickup) else if t == "truck" then Some(Truck) else None
  }

  /** `UserCreate`: a validated registration body. */
  datatype UserCreate = UserCreate(
    phone: string, name: string, email: string, role: Role, vehicleType: Option<VehicleType>,
    rating: real, verification: Verification, paymentMethods: seq<string>, password: string)

  /** The registration body as it arrives; a member the client leaves out is `None`. */
  datatype Registration = Registration(
    phone: Option<string>, name: Option<string>, email: Option<string>, role: Option<string>,
    vehicleType: Option<string>, rating: Option<real>, verification: Option<string>,
    paymentMethods: Option<seq<string>>, password: Option<string>)

  const MinPasswordLength := 6

  /** Building `UserCreate` from the body: required members present, enumerated members
      one of their texts, the password at least six characters; role, verification,
      rating and payment methods take their defaults when left out. A failure is the
      request validation error. */
  function MakeUserCreate(b: Registration): (r: Result<UserCreate, string>)
    ensures r.Ok? ==> |r.value.password| >= MinPasswordLength && Some(r.value.password) == b.password
    ensures r.Ok? && b.role.None? ==> r.value.role == Customer
    ensures r.Ok? && b.verification.None? ==> r.value.verification == VPending
    ensures r.Ok? && b.vehicleType.None? ==> r.value.vehicleType.None?
    ensures r.Ok? && b.rating.None? ==> r.value.rating == 0.0
    ensures r.Ok? && b.paymentMethods.None? ==> r.value.paymentMethods == []
    ensures b.password.Some? && |b.password.value| < MinPasswordLength ==> r.Err?
    ensures r.Ok? ==> b.phone == Some(r.value.phone) && b.name == Some(r.value.name) && b.email == Some(r.value.email)
  {
    if b.phone.None? || b.name.None? || b.email.None? || b.password.None? then Err("field required")
    else if |b.password.value| < MinPasswordLength then Err("String should have at least 6 characters")
    else
      var role := if b.role.None? then Some(Customer) else ParseRole(b.role.value);
      var ver := if b.verification.None? then Some(VPending) else ParseVerification(b.verification.value);
      var veh := if b.vehicleType.None? then Some(None) else
        (match ParseVehicle(b.vehicleType.value) case Some(v) => Some(Some(v)) case None => None);
      if role.None? || ver.None? || veh.None? then Err("Input should be a valid enumeration member")
      else Ok(UserCreate(b.phone.value, b.name.value, b.email.value, role.value, veh.value,
                         b.rating.GetOr(0.0), ver.value, b.paymentMethods.GetOr([]), b.password.value))
  }

  /** A document of the `users` collection, as `UserInDB` reads it. */
  datatype UserDoc = UserDoc(
    id: Id, phone: string, name: string, email: string, role: string, vehicleType: Option<string>,
    rating: real, verification: string, paymentMethods: seq<string>, hashedPassword: string,
    createdAt: Option<string>, updatedAt: Option<string>)

  /** The value of one member of a Python dictionary built from a user model. */
  datatype Attr = AStr(s: string) | AReal(r: real) | ANull | AStrs(items: seq<string>)

  function OptStr(o: Option<string>): Attr
  {
    match o
    case Some(s) => AStr(s)
    case None => ANull
  }

  /** `user_data.dict()` for a registration body. */
  function CreateDict(u: UserCreate): map<string, Attr>
  {
    map[
      "phone" := AStr(u.phone), "name" := AStr(u.name), "email" := AStr(u.email),
      "role" := AStr(RoleText(u.role)),
      "vehicle_type" := (match u.vehicleType case Some(v) => AStr(VehicleText(v)) case None => ANull),
      "rating" := AReal(u.rating), "verification_status" := AStr(VerificationText(u.verification)),
      "payment_methods" := AStrs(u.paymentMethods), "password" := AStr(u.password)]
  }

  /** The dictionary `register` inserts: the body without `password`, with the hash and
      the two timestamps added. */
  function InsertedDict(u: UserCreate, hashed: string, now: string): (d: map<string, Attr>)
    ensures "password" !in d
    ensures "hashed_password" in d && d["hashed_password"] == AStr(hashed)
    ensures forall k :: k in CreateDict(u) && k != "password" ==> k in d && d[k] == CreateDict(u)[k]
  {
    (CreateDict(u) - {"password"})["hashed_password" := AStr(hashed)]["created_at" := AStr(now)]["updated_at" := AStr(now)]
  }

  /** The stored user `create_user` gives back for that insertion. */
  function FromCreate(u: UserCreate, id: Id, hashed: string, now: string): (r: UserDoc)
  {
    UserDoc(id, u.phone, u.name, u.email, RoleText(u.role),
            (match u.vehicleType case Some(v) => Some(VehicleText(v)) case None => None),
            u.rating, VerificationText(u.verification), u.paymentMethods, hashed, Some(now), Some(now))
  }

  /** `user.dict()` for a stored user: every member by its field name, the hash included. */
  function DictOf(u: UserDoc): map<string, Attr>
  {
    map[
      "id" := AStr(u.id), "phone" := AStr(u.phone), "name" := AStr(u.name), "email" := AStr(u.email),
      "role" := AStr(u.role), "vehicle_type" := OptStr(u.vehicleType), "rating" := AReal(u.rating),
      "verification_status" := AStr(u.verification), "payment_methods" := AStrs(u.paymentMethods),
      "hashed_password" := AStr(u.hashedPassword), "created_at" := OptStr(u.createdAt),
      "updated_at" := OptStr(u.updatedAt)]
  }

  /** The stored user and the inserted dictionary describe the same record: the model's
      dictionary is the inserted one with the new id. */
  lemma StoredMatchesInserted(u: UserCreate, id: Id, hashed: string, now: string)
    ensures DictOf(FromCreate(u, id, hashed, now)) == InsertedDict(u, hashed, now)["id" := AStr(id)]
  {
    StoredKeys(u, id, hashed, now);
  }

  lemma StoredKeys(u: UserCreate, id: Id, hashed: string, now: string)
    ensures DictOf(FromCreate(u, id, hashed, now)).Keys == InsertedDict(u, hashed, now)["id" := AStr(id)].Keys
  {
    assert "password" !in InsertedDict(u, hashed, now);
  }

  /** A user dictionary with the hash removed, as login and `/me` return it. */
  function Public(u: UserDoc): (d: map<string, Attr>)
    ensures "hashed_password" !in d
    ensures forall k :: k in DictOf(u) && k != "hashed_password" ==> k in d && d[k] == DictOf(u)[k]
    ensures d.Keys <= DictOf(u).Keys
  {
    DictOf(u) - {"hashed_password"}
  }

  /** `find_one({"phone": phone})`: the first stored user with that phone. */
  function FindByPhone(users: seq<UserDoc>, phone: string): (r: Option<UserDoc>)
    ensures r.Some? ==> r.value in users && r.value.phone == phone
    ensures r.None? <==> forall i :: 0 <= i < |users| ==> users[i].phone != phone
  {
    if users == [] then None
    else if users[0].phone == phone then Some(users[0])
    else FindByPhone(users[1..], phone)
  }

  /** `FindByPhone` finds the first match: no stored user before the one it finds has that
      phone. */
  lemma {:induction false} FindByPhoneFirst(users: seq<UserDoc>, phone: string)
    ensures FindByPhone(users, phone).Some? ==>
      exists k :: 0 <= k < |users| && users[k] == FindByPhone(users, phone).value && forall j :: 0 <= j < k ==> users[j].phone != phone
  {
    if users != [] && users[0].phone != phone && FindByPhone(users, phone).Some? {
      var rest := users[1..];
      FindByPhoneFirst(rest, phone);
      var k :| 0 <= k < |rest| && rest[k] == FindByPhone(rest, phone).value && forall j :: 0 <= j < k ==> rest[j].phone != phone;
      assert users[k + 1] == FindByPhone(users, phone).value;
      forall j | 0 <= j < k + 1
        ensures users[j].phone != phone
      {
        if j > 0 {
          assert users[j] == rest[j - 1];
        }
      }
    }
  }

  /** `find_one({"email": email})`: the first stored user with that email. */
  function FindByEmail(users: seq<UserDoc>, email: string): (r: Option<UserDoc>)
    ensures r.Some? ==> r.value in users && r.value.email == email
    ensures r.None? <==> forall i :: 0 <= i < |users| ==> users[i].email != email
  {
    if users == [] then None
    else if users[0].email == email then Some(users[0])
    else FindByEmail(users[1..], email)
  }

  /** `FindByEmail` finds the first match: no stored user before the one it finds has that
      email. */
  lemma {:induction false} FindByEmailFirst(users: seq<UserDoc>, email: string)
    ensures FindByEmail(users, email).Some? ==>
      exists k :: 0 <= k < |users| && users[k] == FindByEmail(users, email).value && forall j :: 0 <= j < k ==> users[j].email != email
  {
    if users != [] && users[0].email != email && FindByEmail(users, email).Some? {
      var rest := users[1..];
      FindByEmailFirst(rest, email);
      var k :| 0 <= k < |rest| && rest[k] == FindByEmail(rest, email).value && forall j :: 0 <= j < k ==> rest[j].email != email;
      assert users[k + 1] == FindByEmail(users, email).value;
      forall j | 0 <= j < k + 1
        ensures users[j].email != email
      {
        if j > 0 {
          assert users[j] == rest[j - 1];
        }
      }
    }
  }

  /** `find_one({"_id": id})`: the stored user with that id, the first one should two
      share it. */
  function FindById(users: seq<UserDoc>, id: Id): (r: Option<UserDoc>)
    ensures r.Some? ==> r.value in users && r.value.id == id
    ensures r.None? <==> forall i :: 0 <= i < |users| ==> users[i].id != id
  {
    if users == [] then None
    else if users[0].id == id then Some(users[0])
    else FindById(users[1..], id)
  }

  /** `FindById` finds the first match: no stored user before the one it finds has that
      id. */
  lemma {:induction false} FindByIdFirst(users: seq<UserDoc>, id: Id)
    ensures FindById(users, id).Some? ==>
      exists k :: 0 <= k < |users| && users[k] == FindById(users, id).value && forall j :: 0 <= j < k ==> users[j].id != id
  {
    if users != [] && users[0].id != id && FindById(users, id).Some? {
      var rest := users[1..];
      FindByIdFirst(rest, id);
      var k :| 0 <= k < |rest| && rest[k] == FindById(rest, id).value && forall j :: 0 <= j < k ==> rest[j].id != id;
      assert users[k + 1] == FindById(users, id).value;
      forall j | 0 <= j < k + 1
        ensures users[j].id != id
      {
        if j > 0 {
          assert users[j] == rest[j - 1];
        }
      }
    }
  }
}

=== FILE: vehicle_selection.dfy ===
/** The vehicle step of booking (BirtuLogistics/src/screens/customer/VehicleSelectionScreen.js):
    the customer ticks any of the three vehicle cards, and Continue hands the ticked ids to
    the draft, or would if the setter it asks the context for existed. */
module VehicleSelection {
  import Draft

  /** The ids of the three cards, in the order they are shown. */
  const CardIds: seq<string> := ["motorbike", "pickup", "truck"]

  predicate NoDuplicates(s: seq<string>) {
    forall i, j :: 0 <= i < j < |s| ==> s[i] != s[j]
  }

  /** `prev.filter(id => id !== vehicleId)`. */
  function Without(s: seq<string>, id: string): (r: seq<string>)
    ensures |r| <= |s|
    ensures forall x :: x in r <==> x in s && x != id
    ensures NoDuplicates(s) ==> NoDuplicates(r)
  {
    if s == [] then []
    else if s[|s| - 1] == id then Without(s[..|s| - 1], id)
    else
      assert NoDuplicates(s) ==> s[|s| - 1] !in s[..|s| - 1];
      Without(s[..|s| - 1], id) + [s[|s| - 1]]
  }

  /** Removing from a concatenation removes from each part in turn. */
  lemma {:induction false} WithoutAppend(a: seq<string>, b: seq<string>, id: string)
    ensures Without(a + b, id) == Without(a, id) + Without(b, id)
    decreases |b|
  {
    if b == [] {
      assert a + b == a;
    } else {
      var init, last := b[..|b| - 1], b[|b| - 1];
      assert (a + b)[..|a + b| - 1] == a + init && (a + b)[|a + b| - 1] == last;
      WithoutAppend(a, init, id);
      if last != id {
        assert Without(a, id) + Without(init, id) + [last] == Without(a, id) + (Without(init, id) + [last]);
      }
    }
  }

  /** The filter keeps the other ids in their order, each copy once: removing from a
      concatenation removes from each part in turn, and a single id goes exactly when it
      is the one removed. */
  lemma {:induction false} WithoutKeepsOrder(a: seq<string>, b: seq<string>, id: string)
    ensures Without(a + b, id) == Without(a, id) + Without(b, id)
    ensures forall x :: Without([x], id) == if x == id then [] else [x]
  {
    WithoutAppend(a, b, id);
    forall x: string
      ensures Without([x], id) == if x == id then [] else [x]
    {
      assert [x][..0] == [];
    }
  }

  /** `toggleVehicleSelection`: a ticked id is unticked, any other is appended. */
  function Toggle(selected: seq<string>, id: string): (r: seq<string>)
    ensures id in r <==> id !in selected
    ensures forall x :: x != id ==> (x in r <==> x in selected)
  {
    if id in selected then Without(selected, id) else selected + [id]
  }

  /** Toggling keeps the selection free of repeats, and toggling the same card twice
      ticks exactly what was ticked before. */
  lemma {:induction false} ToggleTwice(selected: seq<string>, id: string)
    requires NoDuplicates(selected)
    ensures NoDuplicates(Toggle(selected, id))
    ensures forall x :: x in Toggle(Toggle(selected, id), id) <==> x in selected
    ensures id !in selected ==> Toggle(Toggle(selected, id), id) == selected
  {
    if id !in selected {
      var t := selected + [id];
      assert t[..|t| - 1] == selected;
      WithoutAbsent(selected, id);
    }
  }

  lemma {:induction false} WithoutAbsent(s: seq<string>, id: string)
    requires id !in s
    ensures Without(s, id) == s
  {
    if s != [] {
      assert s[..|s| - 1] + [s[|s| - 1]] == s;
      WithoutAbsent(s[..|s| - 1], id);
    }
  }

  /** The selection after tapping cards in order, starting from none. */
  function Taps(cards: seq<string>): seq<string>
  {
    if cards == [] then [] else Toggle(Taps(cards[..|cards| - 1]), cards[|cards| - 1])
  }

  /** Taps on the three cards only ever select card ids, each at most once, so at most
      three. */
  lemma {:induction false} TapsSelectCards(cards: seq<string>)
    requires forall c :: c in cards ==> c in CardIds
    ensures NoDuplicates(Taps(cards))
    ensures forall x :: x in Taps(cards) ==> x in CardIds
    ensures |Taps(cards)| <= |CardIds|
  {
    if cards != [] {
      var init := cards[..|cards| - 1];
      assert forall c :: c in init ==> c in cards;
      TapsSelectCards(init);
      ToggleTwice(Taps(init), cards[|cards| - 1]);
    }
    DistinctCardsBounded(Taps(cards));
  }

  /** A repeat-free selection of card ids has at most three entries. */
  lemma DistinctCardsBounded(s: seq<string>)
    requires NoDuplicates(s)
    requires forall x :: x in s ==> x in CardIds
    ensures |s| <= |CardIds|
  {
    var ids := set i | 0 <= i < |s| :: s[i];
    forall x | x in ids ensures x in {"motorbike", "pickup", "truck"} {
      assert x in s && x in CardIds;
    }
    IndexSetSize(s);
    SubsetSize(ids, {"motorbike", "pickup", "truck"});
  }

  lemma {:induction false} IndexSetSize(s: seq<string>)
    requires NoDuplicates(s)
    ensures |set i | 0 <= i < |s| :: s[i]| == |s|
  {
    if s != [] {
      var init := s[..|s| - 1];
      IndexSetSize(init);
      var a := set i | 0 <= i < |init| :: init[i];
      var b := set i | 0 <= i < |s| :: s[i];
      assert b == a + {s[|s| - 1]};
      assert s[|s| - 1] !in a;
    }
  }

  lemma SubsetSize(a: set<string>, b: set<string>)
    requires a <= b
    ensures |a| <= |b|
  {
    assert b == a + (b - a);
  }

  /** What Continue leads to: the empty-selection alert, the error thrown by the
      missing setter, or the schedule step with the draft updated. */
  datatype Outcome = NothingSelected | Thrown(store: Draft.Store) | Scheduled(store: Draft.Store)

  /** `handleContinue` as written: it calls `setVehicleRequirements`, which the context
      does not provide. */
  function Continue(s: Draft.Store, selected: seq<string>): (r: Outcome)
    ensures r.NothingSelected? <==> selected == []
  {
    if |selected| == 0 then NothingSelected
    else
      var call := Draft.Invoke(s, "setVehicleRequirements", Draft.SetVehicleTypes(selected));
      if call.thrown then Thrown(call.store) else Scheduled(call.store)
  }

  /** Whatever is selected, Continue never reaches the schedule step, and the draft's
      vehicle types stay as they were. */
  lemma ContinueNeverSchedules(s: Draft.Store, selected: seq<string>)
    ensures !Continue(s, selected).Scheduled?
    ensures Continue(s, selected).Thrown? ==> Continue(s, selected).store == s
  {
    assert !Draft.Provides("setVehicleRequirements");
  }

  /** The evidently intended Continue, through the context's `setVehicleTypes`. */
  function ContinueCorrected(s: Draft.Store, selected: seq<string>): (r: Outcome)
    ensures r.NothingSelected? <==> selected == []
  {
    if |selected| == 0 then NothingSelected
    else
      var call := Draft.Invoke(s, "setVehicleTypes", Draft.SetVehicleTypes(selected));
      if call.thrown then Thrown(call.store) else Scheduled(call.store)
  }

  /** With the intended setter, any non-empty run of taps reaches the schedule step with
      the draft requiring exactly the ticked cards, and nothing else in the draft moves. */
  lemma CorrectedSchedules(s: Draft.Store, cards: seq<string>)
    requires forall c :: c in cards ==> c in CardIds
    requires Taps(cards) != []
    ensures var r := ContinueCorrected(s, Taps(cards));
      && r.Scheduled?
      && r.store.current.vehicleTypes == Taps(cards)
      && (forall x :: x in r.store.current.vehicleTypes ==> x in CardIds)
      && (forall m :: m != Draft.VehicleTypes ==> Draft.Agree(r.store, s, m))
  {
    assert Draft.Provides("setVehicleTypes");
    TapsSelectCards(cards);
  }
}

=== FILE: websocket.dfy ===
/** The client's single reconnecting WebSocket service (BirtuLogistics/src/services/websocket.js).
    Each socket handler runs atomically on the service state and answers with the effects
    it asks for: calling a registered callback, sending a frame, closing a socket, or
    scheduling the reconnect timer (represented only by its delay). */
module Channel {
  import opened Wrappers
  import opened Text
  import opened JsonValue
  import JsonText

  /** `API_BASE_URL` of the client configuration, "http://localhost:8000/api", written
      as its scheme and the rest. */
  const ApiBaseUrl: string := "http" + ApiAddress
  const ApiAddress: string := "://localhost:8000/api"

  const ReconnectInterval: nat := 1000
  const MaxReconnectInterval: nat := 30000
  const MaxReconnectAttempts: nat := 10

  datatype ReadyState = Connecting | Open | Closing | Closed

  /** A socket the service created; `serial` tells sockets apart, since handlers of a
      replaced socket still run against the service. */
  datatype Socket = Socket(serial: nat, url: string, state: ReadyState)

  /** The four callback slots of `this.callbacks`. */
  datatype Slot = OnOpen | OnMessage | OnClose | OnError

  /** Registered callbacks are named by an opaque handler number. */
  type HandlerId = nat

  datatype Service = Service(
    ws: Option<Socket>,
    callbacks: map<Slot, HandlerId>,
    attempts: nat,
    userId: Option<string>,
    created: nat)

  datatype Effect =
    | Invoke(handler: HandlerId, slot: Slot)
    | Deliver(handler: HandlerId, message: Json)
    | Transmit(serial: nat, text: string)
    | CloseSocket(serial: nat)
    | ScheduleReconnect(delay: nat)
    | Throw

  datatype Step = Step(state: Service, effects: seq<Effect>)

  /** The service as the module exports it. */
  function New(): (s: Service)
    ensures s.ws.None? && s.callbacks == map[] && s.attempts == 0 && s.userId.None?
  {
    Service(None, map[], 0, None, 0)
  }

  function Pow2(n: nat): (r: nat)
    ensures r >= 1
  {
    if n == 0 then 1 else 2 * Pow2(n - 1)
  }

  /** `Math.min(reconnectInterval * 2 ** attempts, maxReconnectInterval)`. */
  function ReconnectDelay(attempts: nat): nat
  {
    var d := ReconnectInterval * Pow2(attempts);
    if d < MaxReconnectInterval then d else MaxReconnectInterval
  }

  lemma {:induction false} Pow2Monotone(m: nat, n: nat)
    requires m <= n
    ensures Pow2(m) <= Pow2(n)
    decreases n
  {
    if m < n {
      Pow2Monotone(m, n - 1);
    }
  }

  /** Every delay lies between one and thirty seconds, doubles from one second until
      it reaches the cap, and never decreases as attempts grow. */
  lemma ReconnectDelayBounds(m: nat, n: nat)
    requires m <= n
    ensures ReconnectInterval <= ReconnectDelay(n) <= MaxReconnectInterval
    ensures ReconnectDelay(m) <= ReconnectDelay(n)
    ensures ReconnectDelay(0) == 1000 && ReconnectDelay(4) == 16000 && ReconnectDelay(5) == 30000
  {
    Pow2Monotone(m, n);
    assert Pow2(4) == 16;
    assert Pow2(5) == 32;
  }

  /** `${API_BASE_URL.replace("http", "ws")}/ws/${userId}`. */
  function WsUrl(userId: string): string
  {
    ReplaceFirst(ApiBaseUrl, "http", "ws") + "/ws/" + userId
  }

  lemma WsUrlShape(userId: string)
    ensures WsUrl(userId) == "ws" + ApiAddress + "/ws/" + userId
  {
    ReplaceAtStart("http", ApiAddress, "ws");
  }

  /** `connect(userId)`: nothing happens while the current socket is OPEN; otherwise a
      new CONNECTING socket replaces the current one. The id is not remembered. */
  function Connect(s: Service, userId: string): (r: Step)
    ensures r.effects == []
    ensures s.ws.Some? && s.ws.value.state == Open ==> r.state == s
    ensures !(s.ws.Some? && s.ws.value.state == Open) ==>
      r.state == s.(ws := Some(Socket(s.created, WsUrl(userId), Connecting)), created := s.created + 1)
  {
    if s.ws.Some? && s.ws.value.state == Open then Step(s, [])
    else Step(s.(ws := Some(Socket(s.created, WsUrl(userId), Connecting)), created := s.created + 1), [])
  }

  /** The readyState change a socket event makes, applied only to the socket it came from. */
  function SetState(s: Service, serial: nat, st: ReadyState): (r: Service)
    ensures r.callbacks == s.callbacks && r.attempts == s.attempts && r.userId == s.userId && r.created == s.created
    ensures s.ws.None? ==> r.ws.None?
    ensures s.ws.Some? ==> r.ws.Some? && r.ws.value.serial == s.ws.value.serial && r.ws.value.url == s.ws.value.url
    ensures s.ws.Some? && s.ws.value.serial == serial ==> r.ws.value.state == st
    ensures s.ws.Some? && s.ws.value.serial != serial ==> r.ws == s.ws
  {
    if s.ws.Some? && s.ws.value.serial == serial then s.(ws := Some(s.ws.value.(state := st))) else s
  }

  function Callback(s: Service, slot: Slot): seq<Effect>
  {
    if slot in s.callbacks then [Invoke(s.callbacks[slot], slot)] else []
  }

  /** `onopen`: the attempt counter starts over. */
  function HandleOpen(s: Service, serial: nat): (r: Step)
    ensures r.state.attempts == 0
    ensures r.effects == Callback(s, OnOpen)
  {
    Step(SetState(s, serial, Open).(attempts := 0), Callback(s, OnOpen))
  }

  /** `onmessage`: the frame is parsed as JSON and handed to the current message
      callback only; a frame that is not JSON throws before any callback runs. */
  function HandleMessage(s: Service, data: string): (r: Step)
    ensures r.state == s
    ensures JsonText.Parse(data).None? ==> r.effects == [Throw]
    ensures JsonText.Parse(data).Some? && OnMessage in s.callbacks ==>
      r.effects == [Deliver(s.callbacks[OnMessage], JsonText.Parse(data).value)]
    ensures JsonText.Parse(data).Some? && OnMessage !in s.callbacks ==> r.effects == []
  {
    match JsonText.Parse(data)
    case None => Step(s, [Throw])
    case Some(m) =>
      if OnMessage in s.callbacks then Step(s, [Deliver(s.callbacks[OnMessage], m)]) else Step(s, [])
  }

  /** `handleReconnect`: below the cap the counter grows by one and a timer is scheduled
      with the delay for the old count; at the cap nothing happens. */
  function HandleReconnect(s: Service): (r: Step)
    ensures s.attempts < MaxReconnectAttempts ==>
      r.state == s.(attempts := s.attempts + 1) && r.effects == [ScheduleReconnect(ReconnectDelay(s.attempts))]
    ensures s.attempts >= MaxReconnectAttempts ==> r.state == s && r.effects == []
  {
    if s.attempts < MaxReconnectAttempts then
      Step(s.(attempts := s.attempts + 1), [ScheduleReconnect(ReconnectDelay(s.attempts))])
    else Step(s, [])
  }

  /** `onclose`: the close callback, then `handleReconnect`, whichever socket closed
      and whether or not it is still the current one. */
  function HandleClose(s: Service, serial: nat): (r: Step)
  {
    var t := HandleReconnect(SetState(s, serial, Closed));
    Step(t.state, Callback(s, OnClose) + t.effects)
  }

  /** The timer callback: reconnects only if `this.userId` is set. */
  function FireTimer(s: Service): (r: Step)
    ensures s.userId.None? ==> r == Step(s, [])
    ensures s.userId.Some? ==> r == Connect(s, s.userId.value)
  {
    if s.userId.Some? then Connect(s, s.userId.value) else Step(s, [])
  }

  /** `onerror`: the error callback, then `this.ws.close()` on whatever socket is current;
      with no current socket that call throws. */
  function HandleError(s: Service): (r: Step)
    ensures r.state.attempts == s.attempts && r.state.userId == s.userId
    ensures s.ws.None? ==> r == Step(s, Callback(s, OnError) + [Throw])
    ensures s.ws.Some? ==> r.effects == Callback(s, OnError) + [CloseSocket(s.ws.value.serial)]
  {
    match s.ws
    case None => Step(s, Callback(s, OnError) + [Throw])
    case Some(w) =>
      var st := if w.state == Closed then Closed else Closing;
      Step(s.(ws := Some(w.(state := st))), Callback(s, OnError) + [CloseSocket(w.serial)])
  }

  /** `send(message)`: a frame with the JSON text goes out only on an OPEN socket; the
      service itself never changes. */
  function Send(s: Service, message: Json): (r: Step)
    ensures r.state == s
    ensures s.ws.Some? && s.ws.value.state == Open ==>
      r.effects == [Transmit(s.ws.value.serial, JsonText.Stringify(message))]
    ensures !(s.ws.Some? && s.ws.value.state == Open) ==> r.effects == []
  {
    if s.ws.Some? && s.ws.value.state == Open then
      Step(s, [Transmit(s.ws.value.serial, JsonText.Stringify(message))])
    else Step(s, [])
  }

  /** `close()`: closes and forgets the current socket and clears the counter; the
      socket's own `onclose` handler stays attached. */
  function Close(s: Service): (r: Step)
    ensures s.ws.None? ==> r == Step(s, [])
    ensures s.ws.Some? ==> r.state == s.(ws := None, attempts := 0) && r.effects == [CloseSocket(s.ws.value.serial)]
  {
    match s.ws
    case None => Step(s, [])
    case Some(w) => Step(s.(ws := None, attempts := 0), [CloseSocket(w.serial)])
  }

  /** `onOpen(cb)`, `onMessage(cb)`, `onClose(cb)`, `onError(cb)`: the slot is overwritten. */
  function Register(s: Service, slot: Slot, h: HandlerId): (r: Service)
    ensures slot in r.callbacks && r.callbacks[slot] == h
    ensures forall other :: other != slot ==> (other in r.callbacks <==> other in s.callbacks)
    ensures forall other :: other != slot && other in s.callbacks ==> r.callbacks[other] == s.callbacks[other]
    ensures r.ws == s.ws && r.attempts == s.attempts && r.userId == s.userId
  {
    s.(callbacks := s.callbacks[slot := h])
  }

  /** Everything that can happen to the service. */
  datatype Event =
    | ConnectCall(userId: string)
    | Opened(serial: nat)
    | Message(data: string)
    | CloseEvent(serial: nat)
    | Errored
    | TimerFired
    | SendCall(message: Json)
    | CloseCall
    | RegisterCall(slot: Slot, handler: HandlerId)

  function Apply(s: Service, e: Event): Step
  {
    match e
    case ConnectCall(u) => Connect(s, u)
    case Opened(k) => HandleOpen(s, k)
    case Message(d) => HandleMessage(s, d)
    case CloseEvent(k) => HandleClose(s, k)
    case Errored => HandleError(s)
    case TimerFired => FireTimer(s)
    case SendCall(m) => Send(s, m)
    case CloseCall => Close(s)
    case RegisterCall(slot, h) => Step(Register(s, slot, h), [])
  }

  function Run(s: Service, es: seq<Event>): Service
    decreases |es|
  {
    if es == [] then s else Run(Apply(s, es[0]).state, es[1..])
  }

  /** What every reachable service satisfies: the user id is never recorded and the
      counter never passes the cap. */
  predicate Inv(s: Service) {
    s.userId.None? && s.attempts <= MaxReconnectAttempts
  }

  lemma ApplyKeepsInv(s: Service, e: Event)
    requires Inv(s)
    ensures Inv(Apply(s, e).state)
  {
  }

  lemma {:induction false} RunKeepsInv(s: Service, es: seq<Event>)
    requires Inv(s)
    ensures Inv(Run(s, es))
    decreases |es|
  {
    if es != [] {
      ApplyKeepsInv(s, es[0]);
      RunKeepsInv(Apply(s, es[0]).state, es[1..]);
    }
  }

  /** From the exported instance, whatever happens, the counter stays within 10 and
      every reconnect timer is a no-op. */
  lemma ReachableServices(es: seq<Event>)
    ensures Run(New(), es).attempts <= MaxReconnectAttempts
    ensures FireTimer(Run(New(), es)) == Step(Run(New(), es), [])
  {
    RunKeepsInv(New(), es);
  }

  /** After a manual `close()`, the socket's late close event still runs
      `handleReconnect`: the counter that `close()` cleared becomes 1 and a one-second
      timer is scheduled. */
  lemma CloseThenLateCloseEvent(s: Service)
    requires s.ws.Some?
    ensures var closed := Close(s).state;
      var late := HandleClose(closed, s.ws.value.serial);
      late.state.attempts == 1
      && late.state.ws.None?
      && late.effects == Callback(s, OnClose) + [ScheduleReconnect(1000)]
  {
  }

  /** Each close event within the cap schedules exactly one timer, whose delay is the
      one for the count before the event. */
  lemma CloseSchedules(s: Service, serial: nat)
    requires s.attempts < MaxReconnectAttempts
    ensures HandleClose(s, serial).state.attempts == s.attempts + 1
    ensures HandleClose(s, serial).effects == Callback(s, OnClose) + [ScheduleReconnect(ReconnectDelay(s.attempts))]
  {
  }

  /** At the cap a close event schedules nothing and leaves the counter alone. */
  lemma CloseAtCap(s: Service, serial: nat)
    requires s.attempts >= MaxReconnectAttempts
    ensures HandleClose(s, serial).state.attempts == s.attempts
    ensures HandleClose(s, serial).effects == Callback(s, OnClose)
  {
  }
}

=== FILE: wire.dfy ===
/** What happens to a server notification on its way to a signed-in client: the server
    broadcasts the envelope as `json.dumps` text, the client's socket parses the frame and hands
    it to the message router the authentication context registered, and the router
    schedules a local notification. The server always tags the envelope
    `"notification"`, so the router's `new_bid` and `bid_accepted` branches are never
    taken by anything the server sends. */
module Wire {
  import opened Wrappers
  import opened JsonValue
  import JsonText
  import Channel
  import Session
  import Notifications

  /** A broadcast envelope, written by `json.dumps` and read by `JSON.parse`, reaches the
      registered router unchanged, whatever characters its texts hold; the router shows
      the payload's own title and message, falling back to the generic texts. */
  lemma EnvelopeReachesRouter(s: Channel.Service, payload: Json, timestamp: string)
    requires Channel.OnMessage in s.callbacks
    requires payload.JObj?
    ensures var env := Notifications.Envelope(payload, timestamp);
      Channel.HandleMessage(s, JsonText.Dumps(env)).effects
        == [Channel.Deliver(s.callbacks[Channel.OnMessage], env)]
      && Session.Route(env) == Session.Scheduled(
           OrElse(Get(payload, "title"), Session.NotificationTitle),
           OrElse(Get(payload, "message"), Session.NotificationBody),
           payload)
  {
    var env := Notifications.Envelope(payload, timestamp);
    JsonText.DumpsRoundTrip(env);
    assert Session.Fallbacks("notification") == Some((Session.NotificationTitle, Session.NotificationBody));
  }

  /** A new-bid notification is shown with the server's title and amount message, never
      with the client's own new-bid texts. */
  lemma NewBidShownAsGeneric(amountText: string, shipmentId: string, bidId: string, driverName: Json, timestamp: string)
    ensures var p := Notifications.NewBidPayload(amountText, shipmentId, bidId, driverName);
      Session.Route(Notifications.Envelope(p, timestamp)) == Session.Scheduled(
        JStr("New Bid Received"), JStr("You received a new bid of " + amountText + " ETB"), p)
  {
    var p := Notifications.NewBidPayload(amountText, shipmentId, bidId, driverName);
    assert Session.Fallbacks("notification") == Some((Session.NotificationTitle, Session.NotificationBody));
  }

  /** Likewise an accepted-bid notification carries the server's texts, not the client's
      "Your Bid Accepted!". */
  lemma BidAcceptedShownAsGeneric(amountText: string, shipmentId: string, bidId: string, customerName: Json, timestamp: string)
    ensures var p := Notifications.BidAcceptedPayload(amountText, shipmentId, bidId, customerName);
      Session.Route(Notifications.Envelope(p, timestamp)) == Session.Scheduled(
        JStr("Bid Accepted!"), JStr("Your bid of " + amountText + " ETB was accepted"), p)
  {
    var p := Notifications.BidAcceptedPayload(amountText, shipmentId, bidId, customerName);
    assert Session.Fallbacks("notification") == Some((Session.NotificationTitle, Session.NotificationBody));
  }

  /** A status update, which the client has no case for, is still shown: it arrives as a
      generic notification whose body is the status's message. */
  lemma StatusUpdateShown(status: string, shipmentId: string, driverName: Json, timestamp: string)
    ensures var p := Notifications.StatusUpdatePayload(status, shipmentId, driverName);
      Session.Route(Notifications.Envelope(p, timestamp)) == Session.Scheduled(
        JStr("Shipment Update"), JStr(Notifications.StatusMessage(status)), p)
  {
    var p := Notifications.StatusUpdatePayload(status, shipmentId, driverName);
    assert Session.Fallbacks("notification") == Some((Session.NotificationTitle, Session.NotificationBody));
    assert Notifications.StatusMessage(status) != "";
  }
}

=== FILE: wrappers.dfy ===
/** Option and Result, the failure-carrying datatypes the rest of the model returns. */
module Wrappers {

  datatype Option<+T> = None | Some(value: T) {
    function GetOr(default: T): T {
      match this
      case Some(v) => v
      case None => default
    }
  }

  datatype Result<+R, +E> = Ok(value: R) | Err(error: E) {
    predicate IsFailure() {
      Err?
    }
  }
}
